=== FILE: README.md ===
# npym core, modelled in Dafny

npym republishes npm packages as Python wheels. This project models the
logic at the centre of that translation and proves properties of the model:

- **Version specs** (`version_man.py`). An npm range such as `>1 <=3 || 5.x`
  is parsed with the range grammar into partial versions, tildes, carets and
  hyphen ranges. These become ranges between two bounds, which are
  intersected and merged. A merged range is then rendered as a Python
  version specifier such as `>=2.0.0,<3.5.0`.
- **Version constraints and the dependency tree** (`resolver.py`). Each
  dependency is placed as high in the tree as its constraint allows, and is
  nested under the package that requires it only on a conflict. This is the
  way npm lays out `node_modules`.
- **Naming** (`npm.py`, `models.py`). npm package names become Python
  distribution names (`@org/pkg` becomes `npym.org.pkg`). Wheel file names
  and archive storage paths are derived from them.
- **Wheel metadata** (`translator.py`):
  - the sanitised `METADATA` file, which a `repository` given as a plain string stops;
  - the requirements converted from the npm dependencies;
  - de-duplicated entry-point names;
  - `entry_points.txt` and `__main__.py`;
  - the `RECORD` file with its unpadded URL-safe base64 digests.
- **The chunk iterator** (`iter.py`), used for bulk inserts.

Every value is immutable. Python dictionaries are sequences of pairs in
insertion order (`Dicts`). The dependency tree is an arena of nodes addressed
by index, with the root at index 0 (`Resolver`). Versions are npm semantic
versions with numeric and alphanumeric prerelease identifiers. The sentinels
`MIN_VER` and `MAX_VER` are the `Bottom` and `Top` ends of a bound.

Each range is also read through its *cuts*: the point just below or just
above a version. A lower bound admits the versions above its cut and an upper
bound those below its cut. Stated this way, the properties of intersection,
union and rendering become statements about which versions a range admits.

Where the source's range arithmetic loses or adds versions (see
"## Findings"), the model keeps the code as written, proves the discrepancy
on a concrete input, and defines a corrected operation. The parser, the
constraints, the conversion of specifiers and the translator use the
corrected operation.

## Model

Source paths are relative to the repository root.

| member | source | states |
|---|---|---|
| SemVer.LessTotal | api/npym/api/apps/pkg_trans/version_man.py:340-352 | Any two distinct versions are ordered one way or the other, so comparing bound versions is total |
| SemVer.LessTransitive | api/npym/api/apps/pkg_trans/version_man.py:340-352 | Version precedence is transitive |
| SemVer.LessIrreflexive | api/npym/api/apps/pkg_trans/version_man.py:340-352 | No version sorts below itself |
| SemVer.BelowZeroPre | api/npym/api/apps/pkg_trans/version_man.py:229-260 | `M.m.0-0`, the exclusive top the range builders use, sorts above exactly the versions of earlier `major.minor` lines |
| SemVer.ReleaseAbovePrereleases | api/npym/api/apps/pkg_trans/version_man.py:468-473 | A release sorts above each of its own prereleases, so `<1.2.3` admits `1.2.3-beta` |
| Bounds.BoundLessIsLowerCutOrder | api/npym/api/apps/pkg_trans/version_man.py:340-352 | `_lt_bound` orders bounds exactly as their lower cuts are ordered |
| Bounds.BoundOrderShape | api/npym/api/apps/pkg_trans/version_man.py:9-39 | At equal versions an inclusive bound sorts strictly first. Otherwise bounds sort by version, with `MIN_VER` below and `MAX_VER` above every version whatever the flags |
| Bounds.BoundLessStrictTotal | api/npym/api/apps/pkg_trans/version_man.py:340-387 | The bound order is irreflexive, total and transitive, so Python's `min` and `max` over bounds are well defined |
| Bounds.ContainsBetweenCuts | api/npym/api/apps/pkg_trans/version_man.py:468-473 | `Range.contains` holds exactly for the versions between the range's lower cut and its upper cut |
| Bounds.LowerOrderLoosens | api/npym/api/apps/pkg_trans/version_man.py:354-358 | Read as lower bounds, a bound that sorts lower admits every version a higher one admits |
| Bounds.UpperOrderReversedAtEqualVersions | api/npym/api/apps/pkg_trans/version_man.py:340-352 | Read as upper bounds, the order is wrong at equal versions: the inclusive bound sorts first yet admits more |
| Bounds.MaxBoundAdmits | api/npym/api/apps/pkg_trans/version_man.py:590 | The larger of two lower bounds admits exactly what both admit |
| Bounds.MinBoundAdmits | api/npym/api/apps/pkg_trans/version_man.py:626 | The smaller of two lower bounds admits exactly what either admits |
| Bounds.NothingBetween | api/npym/api/apps/pkg_trans/version_man.py:572-577 | An upper bound sorting strictly below a lower bound leaves no version between them, which is the case `_is_overlapping` rejects |
| Partials.AsRangeMeaning | api/npym/api/apps/pkg_trans/version_man.py:65-115 | A wildcard admits everything. `1` and `1.2` admit their whole line from `.0` up, and a full partial admits exactly its version |
| Partials.PrimitiveGeMeaning | api/npym/api/apps/pkg_trans/version_man.py:135-162 | `>=p` admits the versions from the floor of `p` up |
| Partials.PrimitiveGtMeaning | api/npym/api/apps/pkg_trans/version_man.py:164-192 | `>x` admits nothing. `>1` starts at 2.0.0, `>1.2` at 1.3.0, and `>1.2.3` admits what sorts above 1.2.3 |
| Partials.PrimitiveLeMeaning | api/npym/api/apps/pkg_trans/version_man.py:194-227 | `<=1` covers all of major 1 and `<=1.2` all of 1.2, while `<=1.2.3` stops at 1.2.3 |
| Partials.PrimitiveLtMeaning | api/npym/api/apps/pkg_trans/version_man.py:229-260 | `<x` admits nothing. `<1` and `<1.2` admit what lies below that line, and `<1.2.3` what sorts below it |
| Partials.EqIsAsRange | api/npym/api/apps/pkg_trans/version_man.py:262-267 | `=p` is the plain range of `p` |
| Partials.TildeMeaning | api/npym/api/apps/pkg_trans/version_man.py:269-287 | `~1.2.3` admits 1.2.3 and what follows it on the 1.2 line. A tilde on a shorter partial is its plain range |
| Partials.CaretMeaning | api/npym/api/apps/pkg_trans/version_man.py:289-322 | `^` with major 0 is `~`. With a positive major it admits everything from the partial's floor up to the next major |
| SpecParser.PartialRoundTrip | api/npym/api/apps/pkg_trans/version_man.py:546-567 | Printing a partial version, qualifier included, and parsing it back yields the same partial and leaves the rest of the input |
| SpecParser.SimpleRoundTrip | api/npym/api/apps/pkg_trans/version_man.py:546-567 | A printed comparator, tilde, caret or plain partial reads back as itself |
| SpecParser.RangeNodeRoundTrip | api/npym/api/apps/pkg_trans/version_man.py:546-567 | A printed hyphen range or simple set reads back as itself, and a simple set never mistakes its tail for a hyphen |
| SpecParser.RangeSetRoundTrip | api/npym/api/apps/pkg_trans/version_man.py:546-569 | Printing a well-formed `range_set` and parsing the whole text gives the same tree |
| Specs.TransformMeaning | api/npym/api/apps/pkg_trans/version_man.py:656-751 | The transformed tree yields at most one range per alternative and admits a version exactly when some alternative admits it |
| Specs.SimpleSetMeaning | api/npym/api/apps/pkg_trans/version_man.py:726-750 | A set of simples admits a version exactly when every simple's range contains it |
| Specs.HyphenMeaning | api/npym/api/apps/pkg_trans/version_man.py:722-724 | `1.2.3 - 2.3.4` admits exactly the versions from 1.2.3 to 2.3.4, both included |
| SpecParser.ParseRangeSetWf | api/npym/api/apps/pkg_trans/version_man.py:546-569 | Whatever the grammar accepts parses to a well-formed tree |
| SpecParser.ParsePrintParse | api/npym/api/apps/pkg_trans/version_man.py:546-569 | Printing the tree of any accepted text and parsing it again gives the same tree |
| Specs.ParseSpecMeaning | api/npym/api/apps/pkg_trans/version_man.py:753-763 | For any spec that parses, the ranges admit a version exactly when one of the parsed alternatives does, and the printed tree is a spec with the same ranges |
| Specs.ParseSpecOfText | api/npym/api/apps/pkg_trans/version_man.py:753-763 | The spec a well-formed tree prints to is accepted, and admits a version exactly when one of the tree's alternatives does |
| Specs.ParseSpecRejects | api/npym/api/apps/pkg_trans/version_man.py:758-761 | A text opening with a character no simple can start with, such as a tag, a URL or a path, is rejected |
| Specs.ParseSpecAsWritten | api/npym/api/apps/pkg_trans/version_man.py:663-675 | As written, `parse_spec` reports a text outside the grammar as invalid, fails in the transformer exactly when an accepted spec has a prerelease or build piece read as `nr`, and otherwise gives the corrected ranges |
| Specs.AsWrittenOfText | api/npym/api/apps/pkg_trans/version_man.py:559-566 | The spec a well-formed tree prints to fails in the transformer exactly when the tree has a `nr` piece, and otherwise gives the tree's ranges |
| SpecExamples.NumericPrereleaseFails | api/npym/api/apps/pkg_trans/version_man.py:663-675 | `1.2.3-4` is in the grammar and, read with its pieces as text, is exactly the version 1.2.3-4, but as written the transformer fails on it |
| SpecExamples.LeadingZeroPrereleaseReads | api/npym/api/apps/pkg_trans/version_man.py:559-566 | `01` is not `nr`, so `1.2.3-01` goes through as written, as the version 1.2.3-1 |
| RangeAlgebra.IntersectRangesShape | api/npym/api/apps/pkg_trans/version_man.py:580-614 | `intersect_ranges` as written yields at most one range. It yields nothing for an empty list or when a checked pair does not overlap. Otherwise it yields the greatest lower bound and the least upper bound, both taken in the source's bound order |
| RangeAlgebra.UnionRangesBounds | api/npym/api/apps/pkg_trans/version_man.py:617-653 | `union_ranges` as written invents no bound, and a non-empty input gives a non-empty result |
| RangeAlgebra.IntersectKeepsExcludedVersion | api/npym/api/apps/pkg_trans/version_man.py:588-593 | As written, `<=2.0.0` met with `<2.0.0` still admits 2.0.0 |
| RangeAlgebra.UnionAddsExcludedVersion | api/npym/api/apps/pkg_trans/version_man.py:572-577 | As written, the union of `<2.0.0` and `>2.0.0` admits 2.0.0, which neither range admits |
| RangeAlgebra.UnionDropsIncludedVersion | api/npym/api/apps/pkg_trans/version_man.py:623-629 | As written, the union of `>=1.0.0 <=2.0.0` and `>=1.0.0 <2.0.0` loses 2.0.0 |
| RangeAlgebra.IntersectPairFixedSound | api/npym/api/apps/pkg_trans/version_man.py:580-593 | The corrected pairwise intersection yields at most one range, admitting exactly what both ranges admit |
| RangeAlgebra.IntersectRangesFixedSound | api/npym/api/apps/pkg_trans/version_man.py:596-614 | The corrected `intersect_ranges` yields at most one range, admitting exactly the versions every input admits |
| RangeAlgebra.UnionPairFixedSound | api/npym/api/apps/pkg_trans/version_man.py:617-631 | The corrected pairwise union admits exactly what either range admits |
| RangeAlgebra.UnionRangesFixedSound | api/npym/api/apps/pkg_trans/version_man.py:634-653 | The corrected `union_ranges` is empty only for empty input, and admits exactly the versions some input admits |
| PyRender.ReleaseRendering | api/npym/api/apps/pkg_trans/version_man.py:389-400 | A release becomes the Python release `M.m.p`. npm's exclusive top `M.m.0-0` renders the same as `M.m.0` |
| PyRender.NumericPrereleaseGlued | api/npym/api/apps/pkg_trans/version_man.py:397-399 | A version's numeric prerelease is glued onto the patch: the version 1.2.3-4 sorts below 1.2.4 in npm but renders as 1.2.34 |
| PyRender.ReleaseTextRoundTrip | api/npym/api/apps/pkg_trans/version_man.py:397-400 | A rendered release reads back as the same release numbers |
| PyRender.StrOfEverything | api/npym/api/apps/pkg_trans/version_man.py:417-421 | As written, the range from `MIN_VER` to `MAX_VER` renders as `<0.0.0`, which admits nothing. The corrected rendering is `>=0.0.0` |
| PyRender.StrOfBelowTwo | api/npym/api/apps/pkg_trans/version_man.py:422-426 | As written, `<2` renders as `<=2.0.0`, because the flag is read from the sentinel side, which is always inclusive |
| PyRender.StrOfAboveVersion | api/npym/api/apps/pkg_trans/version_man.py:427-431 | As written, `>1.2.3` renders as `>=1.2.3` |
| PyRender.StrAgreesAwayFromSentinels | api/npym/api/apps/pkg_trans/version_man.py:432-447 | With both ends on versions and not both inclusive, the as-written `__str__` and the corrected rendering print the same text |
| PyRender.RangeClausesSound | api/npym/api/apps/pkg_trans/version_man.py:405-447 | The corrected rendering's clauses admit exactly the versions the range contains, when each clause is read as a comparison of npm versions (see Left out for the PEP 440 reading) |
| PyConvert.FlattenPyRange | api/npym/api/apps/pkg_trans/version_man.py:766-781 | No range gives `<0.0.0` and one range gives its text. More than one range is an error, and only then |
| PyConvert.FlattenPyRangeAgrees | api/npym/api/apps/pkg_trans/version_man.py:766-793 | `flatten_py_range` as written and the corrected flattening that the conversion uses refuse the same merged ranges. Where the as-written rendering is right, they write the same text, the empty case `<0.0.0` included |
| PyConvert.RangesClausesSound | api/npym/api/apps/pkg_trans/version_man.py:784-793 | Merged ranges that convert give clauses admitting exactly the versions some range admits. Conversion fails only when merging leaves several ranges |
| PyConvert.SemRangeToPyRangeSound | api/npym/api/apps/pkg_trans/version_man.py:784-793 | A converted spec is the text of clauses admitting exactly the versions the npm spec admits, when each clause is read as a comparison of npm versions (see Left out for the PEP 440 reading) |
| ConvertExamples.ConvertExact | api/npym/api/apps/pkg_trans/tests/test_version_man.py:462 | `1.0.0` converts to `==1.0.0` |
| ConvertExamples.ConvertHyphen | api/npym/api/apps/pkg_trans/tests/test_version_man.py:465 | `1.x - 2.x` converts to `>=1.0.0,<3.0.0` |
| ConvertExamples.ConvertTilde | api/npym/api/apps/pkg_trans/tests/test_version_man.py:466 | `~1.2.3` converts to `>=1.2.3,<1.3.0` |
| ConvertExamples.ConvertAbove | api/npym/api/apps/pkg_trans/tests/test_version_man.py:467 | `>4` converts to `>=5.0.0` |
| SpecExamples.MixedSpec | api/npym/api/apps/pkg_trans/tests/test_version_man.py:278-287 | `>1 <=3 <=3.4 >1.2 \|\| 5.x` parses to `[2.0.0, 3.5.0-0)` and `[5.0.0, 6.0.0-0)` |
| SpecExamples.HyphenSpec | api/npym/api/apps/pkg_trans/tests/test_version_man.py:346-351 | `1.x - 2.x` parses to `[1.0.0, 3.0.0-0)` |
| SpecExamples.TildeSpec | api/npym/api/apps/pkg_trans/tests/test_version_man.py:405-410 | `~1.2.3` parses to `[1.2.3, 1.3.0-0)` |
| SpecExamples.AboveSpec | api/npym/api/apps/pkg_trans/tests/test_version_man.py:467 | `>4` parses to the single range from 5.0.0 upwards |
| SpecExamples.XSpec | api/npym/api/apps/pkg_trans/tests/test_version_man.py:475-478 | `1.x` parses to the single range `[1.0.0, 2.0.0-0)` |
| SpecExamples.ExactSpec | api/npym/api/apps/pkg_trans/tests/test_version_man.py:472-473 | `1.0.0` parses to the single range holding 1.0.0 alone |
| SpecExamples.ExactContains | api/npym/api/apps/pkg_trans/tests/test_version_man.py:472-473 | `1.0.0` contains 1.0.0 and not 1.0.1 |
| SpecExamples.XContains | api/npym/api/apps/pkg_trans/tests/test_version_man.py:475-478 | `1.x` contains 1.0.0 and 1.2.0 but not 1.0.0-beta.1 or 2.0.0 |
| SpecExamples.TildeContains | api/npym/api/apps/pkg_trans/tests/test_version_man.py:480-483 | `~1.2.3` contains 1.2.3 and 1.2.42 but not 1.2.0 or 1.3.0 |
| SpecExamples.NotSpecs | api/npym/api/apps/pkg_trans/tests/test_version_man.py:454-458 | `latest`, a URL and a `file:` path are rejected |
| Constraints.FromSpecAccepts | api/npym/api/apps/pkg_trans/resolver.py:58-69 | For any spec that parses, the constraint accepts a version exactly when one of the parsed alternatives admits it |
| Constraints.FromSpecMeaning | api/npym/api/apps/pkg_trans/resolver.py:58-69 | A constraint built from a well-formed spec accepts exactly what one of the spec's alternatives admits |
| Constraints.NoMatchesAcceptsNothing | api/npym/api/apps/pkg_trans/resolver.py:71-77 | A constraint without ranges accepts no version |
| Constraints.AcceptFrom | api/npym/api/apps/pkg_trans/resolver.py:82-98 | Trying the ranges in order answers true exactly when some range contains the version |
| Constraints.Accept | api/npym/api/apps/pkg_trans/resolver.py:82-98 | `accept` holds exactly when some range of the constraint contains the version |
| Constraints.IntersectMeaning | api/npym/api/apps/pkg_trans/resolver.py:100-116 | The intersection accepts a version exactly when both constraints accept it |
| Constraints.ProductIntersectionsMeaning | api/npym/api/apps/pkg_trans/resolver.py:113-114 | The pairwise intersections of two range lists contain a version exactly when both lists do |
| Constraints.IntersectEmpty | api/npym/api/apps/pkg_trans/resolver.py:100-116 | Intersecting with a constraint without ranges, on either side, leaves nothing to match |
| Resolver.KeepFirstSound | api/npym/api/apps/pkg_trans/resolver.py:145-166 | Each kept pair is a real conversion of a listed npm version, and no Python version is kept twice |
| Resolver.KeepFirstComplete | api/npym/api/apps/pkg_trans/resolver.py:150-166 | Every convertible npm version whose Python form was not already taken is represented |
| Resolver.KeepFirstIsFirst | api/npym/api/apps/pkg_trans/resolver.py:150-166 | The npm version kept for a Python version is the first listed one that converts to it |
| Resolver.FindBestVersion | api/npym/api/apps/pkg_trans/resolver.py:583-607 | The result is none exactly when no release is accepted. Otherwise it is a listed release that the constraint accepts |
| Resolver.FirstAccepted | api/npym/api/apps/pkg_trans/resolver.py:605-607 | The position found is the first accepted release: no earlier release is accepted |
| Resolver.FindBestIsHighest | api/npym/api/apps/pkg_trans/resolver.py:172-177 | On releases sorted from the highest version down, the chosen release is the highest accepted one |
| Resolver.ResolveDep | api/npym/api/apps/pkg_trans/resolver.py:627-637 | A dependency fails exactly when the package is unknown, its spec does not parse, or no release satisfies the spec. Otherwise it names an accepted release of that package |
| Resolver.GetDependencies | api/npym/api/apps/pkg_trans/resolver.py:609-639 | All dependencies resolve, in order, or the result is the error of a dependency that fails while every earlier one resolves |
| Resolver.NewTree | api/npym/api/apps/pkg_trans/resolver.py:468-475 | A fresh tree is the root alone, constrained by its own version, and fails exactly when that version does not parse as a spec |
| Resolver.Root | api/npym/api/apps/pkg_trans/resolver.py:324-335 | Following parents ends at the one node without a parent |
| Resolver.RootIsZero | api/npym/api/apps/pkg_trans/resolver.py:324-335 | The root found from every node is the tree's root |
| Resolver.Ancestors | api/npym/api/apps/pkg_trans/resolver.py:337-351 | The path starts at the root, ends at the node, and each step goes from a parent to its child |
| Resolver.AncestorNames | api/npym/api/apps/pkg_trans/resolver.py:337-351 | The names of the packages on the path from the root down to the node, in that order |
| Resolver.ResolvedPathStep | api/npym/api/apps/pkg_trans/resolver.py:724 | The root's path is its own name, and every other node sits under its parent's `node_modules` |
| Resolver.ResolveNode | api/npym/api/apps/pkg_trans/resolver.py:724-735 | The path is the ancestor names joined by `/node_modules/`, and the Python name is the package's own name followed by `.x` and a signature |
| Resolver.NodeForNone | api/npym/api/apps/pkg_trans/resolver.py:369-386 | `node_for` finds nothing exactly when no node on the path to the root caches the package |
| Resolver.NodeForNearest | api/npym/api/apps/pkg_trans/resolver.py:369-386 | What `node_for` finds is the entry of the nearest node on the path to the root that caches the package |
| Resolver.AddChildShape | api/npym/api/apps/pkg_trans/resolver.py:353-367 | The new node hangs under its parent. The parent gains exactly that child and caches the package at it, and nothing else about the parent changes |
| Resolver.AddChild | api/npym/api/apps/pkg_trans/resolver.py:353-367 | Adding a child keeps the tree well formed and leaves every other node as it was |
| Resolver.AddChildFound | api/npym/api/apps/pkg_trans/resolver.py:353-386 | After `add_child`, the package is found at the new node from the parent and from any node below it, unless a node in between caches it |
| Resolver.AncestorsAddChild | api/npym/api/apps/pkg_trans/resolver.py:353-367 | Adding a child leaves the path to the root of every existing node unchanged |
| Resolver.IngestHoists | api/npym/api/apps/pkg_trans/resolver.py:435-439 | A package placed nowhere above goes under the root as a new node, and is then found from the requiring node |
| Resolver.IngestNarrows | api/npym/api/apps/pkg_trans/resolver.py:414-429 | A package placed above whose narrowed constraint still has an accepted release is updated in place. Its constraint accepts what both constraints accept, its version is an accepted release of the same package, and no other node changes |
| Resolver.IngestNests | api/npym/api/apps/pkg_trans/resolver.py:430-434 | Otherwise the package becomes a new child of the requiring node, and is then found from it |
| Resolver.IngestAllFinds | api/npym/api/apps/pkg_trans/resolver.py:414-439 | After a node's dependencies are ingested, `node_for` from that node finds every one of them |
| Resolver.NodeForKept | api/npym/api/apps/pkg_trans/resolver.py:353-386 | A package found from a node is still found after nodes are added or narrowed |
| Resolver.IngestPlaced | api/npym/api/apps/pkg_trans/resolver.py:414-439 | Ingesting an accepted release keeps every node below the root an accepted release of its own constraint |
| Resolver.DepsOfSound | api/npym/api/apps/pkg_trans/resolver.py:609-639 | `get_dependencies` hands out only listed releases that their constraints accept |
| Resolver.BuildFromPlaced | api/npym/api/apps/pkg_trans/resolver.py:641-661 | A successful build leaves every node below the root a listed release its constraint accepts, so no constraint without matches is kept |
| Resolver.IngestAllReports | api/npym/api/apps/pkg_trans/resolver.py:414-439 | The loop over a node's dependencies queues every node it adds or whose version it moves |
| Resolver.VisitSettles | api/npym/api/apps/pkg_trans/resolver.py:654-661 | A visit leaves the head settled and keeps settled every node not waiting in the queue. A settled node's dependencies resolve and are all found from it |
| Resolver.Visit | api/npym/api/apps/pkg_trans/resolver.py:654-661 | One turn of the queue loop ends with the build's error, or keeps the build ahead unchanged. Every dependency of the visited node is then found from it. Sound placement and the settled-unless-queued invariant are kept |
| Resolver.RunWorklist | api/npym/api/apps/pkg_trans/resolver.py:654-661 | The queue loop returns the breadth-first build. A successful run keeps sound placement and ends with every node settled |
| Resolver.BuildDepTree | api/npym/api/apps/pkg_trans/resolver.py:641-661 | The tree built from the root version is well formed and keeps that version at its root. Every node below the root is a listed release its constraint accepts. Every node's dependencies resolve, and each is found by `node_for` from that node |
| Translator.Sanitize | api/npym/api/apps/pkg_trans/translator.py:32-37 | The sanitised text holds only printable ASCII, so no newline survives |
| Translator.SanitizeFixpoint | api/npym/api/apps/pkg_trans/translator.py:32-37 | Printable text is left unchanged |
| Translator.SanitizeIdempotent | api/npym/api/apps/pkg_trans/translator.py:32-37 | Sanitising twice is sanitising once |
| Translator.SanitizeRun | api/npym/api/apps/pkg_trans/translator.py:37 | A run of unprintable characters becomes a single space, and the text on either side is kept |
| Translator.DedupPythonKeyShape | api/npym/api/apps/pkg_trans/translator.py:62-80 | Keys hold only lower-case letters, digits and `_`. The plain key is a `_` slug and a numbered key is that slug, `_`, then digits |
| Translator.KeyInjective | api/npym/api/apps/pkg_trans/translator.py:77-80 | Different positive indices give different keys |
| Translator.FreeIndex | api/npym/api/apps/pkg_trans/translator.py:104-109 | The index found is the first, from the start index on, whose numbered key is free |
| Translator.PickKey | api/npym/api/apps/pkg_trans/translator.py:102-109 | The key picked is never one already taken |
| Translator.PickKeyRule | api/npym/api/apps/pkg_trans/translator.py:102-109 | The key chosen is the plain transform when it is free. Otherwise it is the numbered transform with the smallest index whose key is free |
| Translator.PickFree | api/npym/api/apps/pkg_trans/translator.py:102-109 | The source's search loop finds that key |
| Translator.DedupMap | api/npym/api/apps/pkg_trans/translator.py:83-114 | Every entry keeps its original key and value, in input order, and no two entries share a transformed key |
| Translator.DedupFromFacts | api/npym/api/apps/pkg_trans/translator.py:101-112 | Starting with no key taken, each entry keeps its key and value and all transformed keys differ |
| Translator.DedupWithPicks | api/npym/api/apps/pkg_trans/translator.py:101-112 | Each entry picks its key against the keys of the entries before it |
| Base64Url.EncodeIsBare | api/npym/api/apps/pkg_trans/translator.py:40-45 | Stripping the padding leaves exactly the unpadded encoding: no `=` remains and no data character is lost |
| Base64Url.DecodeEncode | api/npym/api/apps/pkg_trans/translator.py:40-45 | The unpadded text decodes back to the digest bytes |
| PackageTranslator.MergedLookup | api/npym/api/apps/pkg_trans/translator.py:306-309 | In the merged dependency map, a peer dependency overrides a dependency of the same name |
| PackageTranslator.RequirementsKeys | api/npym/api/apps/pkg_trans/translator.py:317-322 | A requirement is named after some mapped dependency, and every mapped dependency names one |
| PackageTranslator.RequirementsLast | api/npym/api/apps/pkg_trans/translator.py:317-322 | With an injective name map, the last requirement on a dependency's Python name carries that dependency's converted spec |
| PackageTranslator.DependenciesReq | api/npym/api/apps/pkg_trans/translator.py:293-324 | The requirements have distinct names and begin with the `npym` runtime |
| PackageTranslator.DependenciesReqKeys | api/npym/api/apps/pkg_trans/translator.py:311-322 | The requirement names are the runtime and the Python names of the mapped dependencies and peers. Unmapped names are dropped |
| PackageTranslator.DependenciesReqValue | api/npym/api/apps/pkg_trans/translator.py:317-322 | With an injective name map, the requirement on a dependency is its converted specifier (the peer one when both exist), or `>=0.0.0` when conversion fails. Every failure is treated as the caught `ValueError` (see Left out) |
| PackageTranslator.DependenciesReqRuntime | api/npym/api/apps/pkg_trans/translator.py:311 | The runtime requirement admits every version unless a dependency maps onto its name |
| PackageTranslator.BasenameOfPath | api/npym/api/apps/pkg_trans/translator.py:437-439 | The basename of a file in a directory is the file's own name |
| PackageTranslator.GuessEntryPointsShape | api/npym/api/apps/pkg_trans/translator.py:428-447 | There is one entry point per script, keyed by its distinct Python name in script order. Each script keeps its name and path |
| PackageTranslator.EntryPointsShape | api/npym/api/apps/pkg_trans/translator.py:439-445 | Deduplicated scripts give one entry point each, under distinct names, keeping each script's name and path |
| PackageTranslator.GuessEntryPointsSingle | api/npym/api/apps/pkg_trans/translator.py:436-437 | A single script path gives one script named after the package's basename. Its entry point is that name as a `_` slug |
| PackageTranslator.EntryPointNames | api/npym/api/apps/pkg_trans/translator.py:441 | Entry-point names hold only lower-case letters, digits and `_` |
| PackageTranslator.ModuleMain | api/npym/api/apps/pkg_trans/translator.py:475-495 | `__main__.py` is written exactly when there is one entry point |
| PackageTranslator.SingleBinRunsAsModule | api/npym/api/apps/pkg_trans/translator.py:487-493 | A package with a single script path can run with `python -m`, calling its one entry point |
| PackageTranslator.ManyBinsNoModule | api/npym/api/apps/pkg_trans/translator.py:436-495 | Two or more scripts with distinct basenames get no `__main__.py` |
| PackageTranslator.EntryPointsTxt | api/npym/api/apps/pkg_trans/translator.py:497-518 | `entry_points.txt` is written exactly when there are scripts: a `[console_scripts]` header, then one line per script in order |
| PackageTranslator.ScriptLineSplit | api/npym/api/apps/pkg_trans/translator.py:516 | A script line reads back, at its `=`, as the script name and the entry point that runs it |
| PackageTranslator.RecordLines | api/npym/api/apps/pkg_trans/translator.py:407-426 | There is one line per file in order, then the line for `RECORD` itself |
| PackageTranslator.RecordRoundTrip | api/npym/api/apps/pkg_trans/translator.py:419-422 | A `RECORD` line reads back as the path, digest and size it was written from |
| PackageTranslator.RecordSelfSplit | api/npym/api/apps/pkg_trans/translator.py:424 | The line for `RECORD` itself reads as its path with an empty digest and an empty size |
| PackageTranslator.MetadataLines | api/npym/api/apps/pkg_trans/translator.py:350-403 | A `repository` given as a plain string stops the translation, and only that does. Otherwise `METADATA` holds its four fixed header lines, then exactly the optional headers whose value is set, in the source's order, then one `Requires-Dist` line per requirement |
| PackageTranslator.RenderHeadersInOrder | api/npym/api/apps/pkg_trans/translator.py:370-399 | One line per present header and no other line: the k-th present header's line sits at position k |
| PackageTranslator.OptionalHeadersEnds | api/npym/api/apps/pkg_trans/translator.py:370-399 | There are at most nine optional headers. `Home-page` comes first when the homepage is set, and the repository URL comes last when it is set |
| PackageTranslator.RequiresDist | api/npym/api/apps/pkg_trans/translator.py:401-403 | Each requirement becomes `Requires-Dist: name (spec)`, in map order |
| PackageTranslator.MetadataFileLines | api/npym/api/apps/pkg_trans/translator.py:363-405 | Whatever the npm metadata holds, `METADATA` reads back line by line as written: sanitising leaves no newline that could forge a header |
| PackageTranslator.MaintainerNames | api/npym/api/apps/pkg_trans/translator.py:360-385 | There are as many names as maintainers that have a name, and all are printable |
| PackageTranslator.MaintainerNamesInOrder | api/npym/api/apps/pkg_trans/translator.py:360-385 | The k-th maintainer that has a name gives the k-th entry, its name sanitised |
| PackageTranslator.MaintainerEmails | api/npym/api/apps/pkg_trans/translator.py:361-390 | There are as many emails as maintainers that have an email, and all are printable |
| PackageTranslator.MaintainerEmailsInOrder | api/npym/api/apps/pkg_trans/translator.py:361-390 | The k-th maintainer that has an email gives the k-th entry, its email sanitised |
| Slugs.SlugAlnums | api/npym/api/apps/pkg_trans/npm.py:118-120 | A slug keeps every letter and digit of the lower-cased name, in order, and nothing else |
| Slugs.SlugIdempotent | api/npym/api/apps/pkg_trans/npm.py:118-120 | Making a slug of a slug changes nothing |
| Slugs.SlugFixpoint | api/npym/api/apps/pkg_trans/npm.py:118-120 | A name that is already a slug is left unchanged |
| NpmNames.NormPyNameShape | api/npym/api/apps/pkg_trans/npm.py:111-122 | A normalised name holds only lower-case letters, digits and single inner dashes, and keeps the name's letters and digits |
| NpmNames.NormPyNameIdempotent | api/npym/api/apps/pkg_trans/npm.py:111-122 | Normalising a normalised name changes nothing |
| NpmNames.SearchableIsNorm | api/npym/api/apps/pkg_trans/npm.py:125-137 | The searchable name equals the normalised name, because the `_` and `.` replacements never fire |
| NpmNames.ImportablePyName | api/npym/api/apps/pkg_trans/npm.py:140-153 | Every `-` becomes `_` and every other character stays |
| NpmNames.ImportableOfNorm | api/npym/api/apps/pkg_trans/npm.py:140-153 | A normalised name made importable is a `_` slug |
| NpmNames.MakeSafePyName | api/npym/api/apps/pkg_trans/npm.py:63-80 | A name starting with a digit gets an `n` in front. Any other name is left unchanged |
| NpmNames.MkNormName | api/npym/api/apps/pkg_trans/npm.py:49-61 | A package that normalised to nothing becomes `undefined`, and so does an org that normalised to nothing although one was written |
| NpmNames.SplitPackageName | api/npym/api/apps/pkg_trans/npm.py:18 | A split name is `@org/pkg` with a non-empty org free of `/` and a non-empty package. An unsplit name is all package. Only the empty name fails |
| NpmNames.SplitOrgPackage | api/npym/api/apps/pkg_trans/npm.py:217-234 | Every name `@org/pkg` with a non-empty org free of `/` and a non-empty package splits into that org and that package |
| NpmNames.PyNameParts | api/npym/api/apps/pkg_trans/npm.py:98-108 | The Python name has the parts `npym`, then the org when there is one, then the package. No part is empty or starts with a digit |
| NpmNames.PyNameOfNpmName | api/npym/api/apps/pkg_trans/npm.py:217-234 | Every non-empty npm name gets such a Python name |
| NameExamples.CollapseTwoWords | api/npym/api/apps/pkg_trans/npm.py:111-122 | Two runs of lower-case letters and digits joined by any run of other characters collapse to the two runs joined by one `-` |
| NameExamples.NormTwoWords | api/npym/api/apps/pkg_trans/npm.py:111-122 | Two lower-case words joined by a run of characters that are neither letters, digits nor capitals normalise to the words joined by one `-` |
| NameExamples.NormFooBar | api/npym/api/apps/pkg_trans/tests/test_npm.py:19 | `foo__bar` normalises to `foo-bar` |
| NameExamples.PyNameDigits | api/npym/api/apps/pkg_trans/tests/test_npm.py:36 | `@42/42` gets the Python name `npym.n42.n42` |
| NameExamples.PyNameUnderscores | api/npym/api/apps/pkg_trans/tests/test_npm.py:37 | `@_/_` gets the Python name `npym.undefined.undefined` |
| Models.RealIdempotent | api/npym/api/apps/pkg_trans/models.py:113-121 | `real` of a generated node is its real distribution, and asking again gives the same one |
| Models.WheelDistName | api/npym/api/apps/pkg_trans/models.py:130 | The wheel's name part turns `-` and `.` into `_` and keeps every other character |
| Models.WheelNameFields | api/npym/api/apps/pkg_trans/models.py:123-131 | A wheel name reads back, at its dashes, as the name, the version and the tags `py3`, `none` and `any` |
| Models.UploadToArchiveFields | api/npym/api/apps/pkg_trans/models.py:173-196 | An archive path is `distributions`, the translator, four directories spelling the first eight hash characters, then the wheel name |
| Chunks.Chunks | api/npym/apps/pkg_trans/iter.py:13-67 | The chunks concatenate back to the input. Each holds 1 to `size` items, all but the last are full, the counter ends at the input's length, and no chunk is produced for an empty input |
| Chunks.ChunkSpecSound | api/npym/apps/pkg_trans/iter.py:38-67 | Cutting into `size`-long chunks gives back the input when concatenated, with every chunk but the last full |
| Chunks.TakeChunk | api/npym/apps/pkg_trans/iter.py:28-51 | One chunk hands out up to `size` items, in order. It stops early only when the underlying iterator runs dry |
| Chunks.ChunkSpecUnique | api/npym/apps/pkg_trans/iter.py:38-51 | A list of chunks that concatenates to the input is determined by it when every chunk but the last is full |
| Dicts.LookupPutAll | api/npym/api/apps/pkg_trans/translator.py:306-309 | After assigning pairs in order, the last assignment to a key wins, and a key never assigned keeps its value |
| Dicts.LookupPut | api/npym/api/apps/pkg_trans/translator.py:306-309 | Assigning a key changes what that key reads and no other key |
| Dicts.PutAllFresh | api/npym/api/apps/pkg_trans/translator.py:444-445 | Assigning keys that are all new, in order, appends them |

## Left out

- Parse errors: the grammar is parsed by recursive descent, and every
  rejected text is an error. The source catches only Lark's
  "unexpected characters" error. The other Lark error kinds, such as an
  unexpected end of input, are not told apart.
- Number spelling: a version number with leading zeros is read as its value,
  and so is a prerelease piece such as `01`. `python-semver` compares such a
  piece by its value too, but `as_py_bound` glues the text onto the patch:
  `<1.2.3-01` becomes `<1.2.301` in the source and `<1.2.31` in the model.
- Library semantics: `python-semver` and `packaging` are not part of this
  model. Precedence follows the semantic versioning rules, and a Python
  version is rendered as its release numbers.
- PyRender.ReleaseRendering: an alphanumeric prerelease gives no Python
  version, because `packaging`'s spelling rules for `a`, `b`, `rc`, `dev`
  and `post` are not modelled.
- PyRender.RangeClausesSound, PyConvert.SemRangeToPyRangeSound: clauses
  are read as comparisons of npm versions. Under PEP 440 the emitted text
  can mean something else once a numeric prerelease is glued onto the patch
  (PyRender.NumericPrereleaseGlued). For example, the corrected parser reads
  `<1.2.3-4`, which is written `<1.2.34` and so also admits 1.2.4. As
  written, only a piece with a leading zero gets this far: `<1.2.3-05` is
  written `<1.2.305`, which also admits 1.2.4.
- Specs.TransformMeaning: prerelease and build pieces are joined as text,
  as the corrected transformer does. As written, a piece read as `nr` makes
  the transformer fail before any range exists (see Findings).
- Specs.ParseSpecMeaning: it describes the corrected `parse_spec`.
  Specs.ParseSpecAsWritten states which accepted specs fail as written.
- Specs.ParseSpecOfText: it describes the corrected `parse_spec`.
  Specs.AsWrittenOfText states when a printed tree fails as written.
- PyConvert.SemRangeToPyRangeSound: it converts through the corrected
  `parse_spec`. As written, a spec with a `nr` piece raises instead.
- Constraints.FromSpecAccepts: it builds on the corrected `parse_spec`. As
  written, `from_spec` raises on a spec with a `nr` piece.
- Constraints.FromSpecMeaning: as for FromSpecAccepts, the well-formed trees
  it covers include those with `nr` pieces, on which `from_spec` raises.
- Build metadata: it is parsed and printed, but does not enter `Version`,
  because `version_man.py` never passes it to the version it builds.
- The outside world: HTTP calls to npm, the database, the file system, zip
  files, the progress bar and the SHA-256 hash function are outside the model.
  The registry is a parameter. A node's signature (`hash_data` of the
  resolution data) is a function parameter. A file's digest is a byte
  sequence parameter.
- `deep_fetch`: the asyncio prefetch of every reachable package is
  left out. The model reads the registry directly.
- `save_dependencies` and `_create_distributions` are left out. They
  store the resolved tree. `flat_py_range` is covered through `PyConvert`.
- Resolver.KeepFirstSound: the `_package_versions` rows are kept in the order
  the registry lists them. The database sort by Python version is not
  modelled.
- Resolver.FindBestIsHighest: it assumes the releases are sorted by npm
  precedence, highest first. The source sorts by the PEP 440 version in the
  database, and the two orders differ. 1.2.3-4 is stored as 1.2.34, which
  sorts above 1.2.4, though npm puts it below.
- Resolver.ResolveDep: a release's npm version text is given already parsed.
  The conversion to a Python version (`version_sem_to_py`) is a parameter.
  A dependency spec is read by the corrected parser, so one with a `nr`
  prerelease or build piece (`^1.0.0-rc.1`) resolves in the model. As
  written, `from_spec` raises the transformer's error there and
  `get_dependencies` stops the whole build.
- Resolver.NewTree: the root version is read by the corrected parser. As
  written, a root version such as `1.0.0-beta.1` makes `Resolver.__init__`
  raise the transformer's error, and no tree is built.
- Resolver.BuildFrom: the source's queue loop has no bound. The model
  carries fuel and reports `Fuel exhausted` when it runs out. A tree whose
  build does not end is therefore not described.
- Resolver.ResolveNode: the node's Python name is a parameter, standing for
  the `python_name` column of its distribution.
- Chunks.Chunks: it requires `size >= 1`. With size 0 the source yields
  empty chunks forever.
- `_write_module_init`: the contents of `__init__.py` (a JSON dump) are
  left out, and so is `_write_dist_info_license`.
- PackageTranslator.DependenciesReqValue: every failed conversion gives
  `>=0.0.0`. In the source only a `ValueError` is caught. `parse_spec`
  turns just Lark's `UnexpectedCharacters` into one. A spec the grammar
  rejects for another reason escapes `except ValueError` and stops the
  translation: the empty spec or `1.2.3 ` (trailing space) ends early with
  `UnexpectedEOF`. Lark's error classes are not modelled, so these specs
  are not told apart. A spec with a `nr` prerelease or build piece
  (`1.0.0+build.5`) converts in the model. As written, the transformer's
  error is not a `ValueError`, so it escapes and stops the translation.
- PackageTranslator.DependenciesReq: the name map is a parameter,
  standing for the database query of the distributions named.
- NpmNames.SplitPackageName: `PACKAGE_RE`'s `.` does not match a newline,
  and its `$` also matches before a final newline. In the source, a name
  with a newline before its end fails to match and stops `_make_norm_name`.
  A final newline is dropped from the package. The model splits such names
  like any other, because npm package names never hold a newline.
- Characters: strings are sequences of code points. Case folding covers
  ASCII only, and `str.isdigit` is read as `0`-`9`.
- Constraints.Intersect: the source's promise that intersecting does not
  modify either constraint holds trivially, because every value in the
  model is immutable.
- Models.Real is used by `get_package_versions` only to pick a cache key,
  and that cache is not modelled.

## Findings

| source | as written | input that shows it | evidently intended | confidence | as-written member | corrected member |
|---|---|---|---|---|---|---|
| api/npym/api/apps/pkg_trans/version_man.py:417-421 | with both ends on sentinels, `min_s != max_s` is always false, so `"<0.0.0"` is returned | `*` (both ends sentinels) renders as `<0.0.0`, which admits nothing | `>=0.0.0`, which admits every version | not executed | PyRender.StrOfEverything | PyRender.RangeClausesSound |
| api/npym/api/apps/pkg_trans/version_man.py:422-431 | the lower-open branch tests `min.inclusive` and the upper-open branch tests `max.inclusive`, the sentinel's side, which `as_py_bound` always makes inclusive | `<2` renders as `<=2.0.0`; `>1.2.3` renders as `>=1.2.3` | test the flag of the bound that holds a version | not executed | PyRender.StrOfBelowTwo, PyRender.StrOfAboveVersion | PyRender.RangeClausesSound |
| api/npym/api/apps/pkg_trans/version_man.py:588-593 | `min(a.max, b.max)` uses the bound order meant for lower bounds, which puts the inclusive bound first at equal versions | `<=2.0.0` met with `<2.0.0` still contains 2.0.0 | the upper bound that admits less | not executed | RangeAlgebra.IntersectKeepsExcludedVersion | RangeAlgebra.IntersectRangesFixedSound |
| api/npym/api/apps/pkg_trans/version_man.py:572-631 | `_is_overlapping` merges ranges that only touch at an excluded version, and `max(a.max, b.max)` keeps the exclusive bound at equal versions | `<2.0.0` with `>2.0.0` merges to a range containing 2.0.0; `>=1.0.0 <=2.0.0` with `>=1.0.0 <2.0.0` merges to one losing 2.0.0 | the union admits exactly what either range admits | not executed | RangeAlgebra.UnionAddsExcludedVersion, RangeAlgebra.UnionDropsIncludedVersion | RangeAlgebra.UnionRangesFixedSound |
| api/npym/api/apps/pkg_trans/version_man.py:663-675 | `part: nr \| /[-0-9A-Za-z]+/` reads a prerelease or build piece such as `4` as `nr`, which the transformer turns into an int; `parts` then calls `".".join` on it, which raises, and the resulting Lark `VisitError` is not the `ValueError` callers catch | `1.2.3-4`, `^1.0.0-rc.1`, `1.0.0+build.5` | the pieces joined as text, so `1.2.3-4` is exactly the version 1.2.3-4 | medium (which `part` alternative Lark picks is read from the grammar); not executed | SpecExamples.NumericPrereleaseFails | Specs.ParseSpecMeaning |
| api/npym/api/apps/pkg_trans/version_man.py:572-577 | `_is_overlapping` compares an upper bound with a lower bound in the order meant for lower bounds, so `<=X` sits below `>X` and the two are not merged | `<=2.0.0 \|\| >2.0.0` stays two ranges, so `flatten_py_range` refuses a spec that admits every version | ranges that leave no version between them merge | not executed | RangeAlgebra.UnionKeepsTouchingApart | RangeAlgebra.UnionRangesFixedSound |

=== FILE: base64url.dfy ===
/**
 * The URL-safe base64 alphabet of section 5 of RFC 4648, as used for the
 * digests in a wheel's RECORD file: standard base64 with `-` and `_` in
 * place of `+` and `/`, and with the trailing `=` padding removed.
 */
module Base64Url {
  import opened Wrappers
  import Slugs

  newtype byte = x: int | 0 <= x < 256

  /** The character for a six-bit value. */
  function SextetChar(i: nat): (c: char)
    requires i < 64
  {
    if i < 26 then ('A' as int + i) as char
    else if i < 52 then ('a' as int + (i - 26)) as char
    else if i < 62 then ('0' as int + (i - 52)) as char
    else if i == 62 then '-'
    else '_'
  }

  /** The six-bit value of an alphabet character, if it is one. */
  function CharSextet(c: char): (r: Option<nat>)
    ensures r.Some? ==> r.value < 64 && SextetChar(r.value) == c
  {
    if 'A' <= c <= 'Z' then Some(c as int - 'A' as int)
    else if 'a' <= c <= 'z' then Some(c as int - 'a' as int + 26)
    else if '0' <= c <= '9' then Some(c as int - '0' as int + 52)
    else if c == '-' then Some(62)
    else if c == '_' then Some(63)
    else None
  }

  lemma CharSextetOfChar(i: nat)
    requires i < 64
    ensures CharSextet(SextetChar(i)) == Some(i)
  {
  }

  predicate InAlphabet(c: char) { CharSextet(c).Some? }

  /** Three bytes as four six-bit values, most significant bits first. */
  function Sextets(a: byte, b: byte, c: byte): (s: (nat, nat, nat, nat))
    ensures s.0 < 64 && s.1 < 64 && s.2 < 64 && s.3 < 64
  {
    var x, y, z := a as int, b as int, c as int;
    (x / 4, (x % 4) * 16 + y / 16, (y % 16) * 4 + z / 64, z % 64)
  }

  /** Three bytes as four characters. */
  function Quad(a: byte, b: byte, c: byte): (r: string)
    ensures |r| == 4
  {
    var s := Sextets(a, b, c);
    [SextetChar(s.0), SextetChar(s.1), SextetChar(s.2), SextetChar(s.3)]
  }

  /**
   * `base64.urlsafe_b64encode`: whole groups of three bytes as four
   * characters; a last group of two or one bytes as three or two
   * characters followed by `=` or `==`.
   */
  function EncodePadded(data: seq<byte>): (r: string)
    ensures |r| == 4 * ((|data| + 2) / 3)
    decreases |data|
  {
    if |data| == 0 then []
    else if |data| == 1 then Quad(data[0], 0, 0)[..2] + "=="
    else if |data| == 2 then Quad(data[0], data[1], 0)[..3] + "="
    else Quad(data[0], data[1], data[2]) + EncodePadded(data[3..])
  }

  /** `urlsafe_b64encode_nopad`: the padded text with every trailing `=` removed. */
  function Encode(data: seq<byte>): (r: string)
  {
    Slugs.TrimEnd(EncodePadded(data), '=')
  }

  /** The same text built without padding in the first place. */
  function EncodeBare(data: seq<byte>): (r: string)
    ensures |r| == (4 * |data| + 2) / 3
    ensures forall k :: 0 <= k < |r| ==> InAlphabet(r[k])
    decreases |data|
  {
    if |data| == 0 then []
    else if |data| == 1 then Quad(data[0], 0, 0)[..2]
    else if |data| == 2 then Quad(data[0], data[1], 0)[..3]
    else
      var q := Quad(data[0], data[1], data[2]);
      assert forall k :: 0 <= k < 4 ==> InAlphabet(q[k]) by {
        QuadInAlphabet(data[0], data[1], data[2]);
      }
      q + EncodeBare(data[3..])
  }

  lemma QuadInAlphabet(a: byte, b: byte, c: byte)
    ensures forall k :: 0 <= k < 4 ==> InAlphabet(Quad(a, b, c)[k])
  {
    QuadSextets(a, b, c);
  }

  /** Each character of a group reads back as its six-bit value. */
  lemma QuadSextets(a: byte, b: byte, c: byte)
    ensures var s, q := Sextets(a, b, c), Quad(a, b, c);
      && CharSextet(q[0]) == Some(s.0) && CharSextet(q[1]) == Some(s.1)
      && CharSextet(q[2]) == Some(s.2) && CharSextet(q[3]) == Some(s.3)
  {
    var s := Sextets(a, b, c);
    CharSextetOfChar(s.0);
    CharSextetOfChar(s.1);
    CharSextetOfChar(s.2);
    CharSextetOfChar(s.3);
  }

  /** Stripping the padding gives exactly the unpadded encoding: no `=` remains and no data character is lost. */
  lemma {:induction false} EncodeIsBare(data: seq<byte>)
    ensures Encode(data) == EncodeBare(data)
    ensures '=' !in Encode(data)
    decreases |data|
  {
    BareNoPad(data);
    if |data| == 0 {
    } else if |data| == 1 {
      var q := Quad(data[0], 0, 0);
      QuadInAlphabet(data[0], 0, 0);
      TrimEndPad(q[..2], "==", '=');
    } else if |data| == 2 {
      var q := Quad(data[0], data[1], 0);
      QuadInAlphabet(data[0], data[1], 0);
      TrimEndPad(q[..3], "=", '=');
    } else {
      EncodeIsBare(data[3..]);
      PaddedSplit(data);
    }
  }

  lemma {:induction false} TrimEndPad(a: string, pad: string, c: char)
    requires a != [] && a[|a| - 1] != c
    requires forall k :: 0 <= k < |pad| ==> pad[k] == c
    ensures Slugs.TrimEnd(a + pad, c) == a
    decreases |pad|
  {
    if pad == [] {
      assert a + pad == a;
    } else {
      assert (a + pad)[..|a + pad| - 1] == a + pad[..|pad| - 1];
      TrimEndPad(a, pad[..|pad| - 1], c);
    }
  }

  lemma BareNoPad(data: seq<byte>)
    ensures '=' !in EncodeBare(data)
  {
    var r := EncodeBare(data);
    forall k | 0 <= k < |r| ensures r[k] != '=' {
      assert InAlphabet(r[k]);
    }
  }

  /** Padding only ever sits after the last group, so stripping it commutes with the first group. */
  lemma PaddedSplit(data: seq<byte>)
    requires |data| >= 3
    requires Encode(data[3..]) == EncodeBare(data[3..])
    ensures Encode(data) == Quad(data[0], data[1], data[2]) + Encode(data[3..])
  {
    var q := Quad(data[0], data[1], data[2]);
    var rest := EncodePadded(data[3..]);
    QuadInAlphabet(data[0], data[1], data[2]);
    assert q[3] != '=';
    TrimEndAppend(q, rest, '=');
  }

  lemma {:induction false} TrimEndAppend(a: string, b: string, c: char)
    requires a != [] && a[|a| - 1] != c
    ensures Slugs.TrimEnd(a + b, c) == a + Slugs.TrimEnd(b, c)
    decreases |b|
  {
    if b != [] && b[|b| - 1] == c {
      assert (a + b)[..|a + b| - 1] == a + b[..|b| - 1];
      TrimEndAppend(a, b[..|b| - 1], c);
    } else {
      assert a + b != [] && (a + b)[|a + b| - 1] != c;
    }
  }

  /** Four characters back to three bytes. */
  function Unquad(s0: nat, s1: nat, s2: nat, s3: nat): (r: (int, int, int))
  {
    (s0 * 4 + s1 / 16, (s1 % 16) * 16 + s2 / 4, (s2 % 4) * 64 + s3)
  }

  lemma QuadRoundTrip(a: byte, b: byte, c: byte)
    ensures var s := Sextets(a, b, c);
      Unquad(s.0, s.1, s.2, s.3) == (a as int, b as int, c as int)
  {
    var x, y, z := a as int, b as int, c as int;
    var s := Sextets(a, b, c);
    Split(x % 4, y / 16, 16);
    Split(y % 16, z / 64, 4);
    assert s.0 * 4 + s.1 / 16 == x;
    assert (s.1 % 16) * 16 + s.2 / 4 == y;
    assert (s.2 % 4) * 64 + s.3 == z;
  }

  /** `hi * m + lo` splits back into `hi` and `lo` when `lo < m`. */
  lemma Split(hi: nat, lo: nat, m: nat)
    requires lo < m && (m == 4 || m == 16)
    ensures (hi * m + lo) / m == hi && (hi * m + lo) % m == lo
  {
  }

  /** One group of two to four characters back to one to three bytes. */
  function DecodeGroup(g: string): (r: Option<seq<byte>>)
    requires 2 <= |g| <= 4
    ensures r.Some? ==> |r.value| == |g| - 1
  {
    var s0, s1 := CharSextet(g[0]), CharSextet(g[1]);
    var s2 := if |g| >= 3 then CharSextet(g[2]) else Some(0);
    var s3 := if |g| == 4 then CharSextet(g[3]) else Some(0);
    if s0.None? || s1.None? || s2.None? || s3.None? then None
    else
      var (x, y, z) := Unquad(s0.value, s1.value, s2.value, s3.value);
      if !(0 <= x < 256 && 0 <= y < 256 && 0 <= z < 256) then None
      else Some([x as byte, y as byte, z as byte][..|g| - 1])
  }

  /** Unpadded text back to bytes; a lone trailing character or a foreign one is an error. */
  function Decode(s: string): (r: Option<seq<byte>>)
    decreases |s|
  {
    if s == [] then Some([])
    else if |s| == 1 then None
    else
      var n := if |s| >= 4 then 4 else |s|;
      match (DecodeGroup(s[..n]), Decode(s[n..]))
      case (Some(group), Some(tail)) => Some(group + tail)
      case _ => None
  }

  lemma GroupOfQuad(a: byte, b: byte, c: byte, n: nat)
    requires 2 <= n <= 4
    requires n < 4 ==> c == 0
    requires n < 3 ==> b == 0
    ensures DecodeGroup(Quad(a, b, c)[..n]) == Some([a, b, c][..n - 1])
  {
    var s, q := Sextets(a, b, c), Quad(a, b, c);
    QuadRoundTrip(a, b, c);
    QuadSextets(a, b, c);
    var g := q[..n];
    assert g[0] == q[0] && g[1] == q[1];
    assert n >= 3 ==> g[2] == q[2];
    assert n == 4 ==> g[3] == q[3];
    assert n < 4 ==> s.3 == 0;
    assert n < 3 ==> s.2 == 0;
  }

  /** Decoding the unpadded text gives back the bytes. */
  lemma {:induction false} DecodeEncode(data: seq<byte>)
    ensures Decode(Encode(data)) == Some(data)
    decreases |data|
  {
    EncodeIsBare(data);
    DecodeBare(data);
  }

  lemma {:induction false} DecodeBare(data: seq<byte>)
    ensures Decode(EncodeBare(data)) == Some(data)
    decreases |data|
  {
    if |data| >= 3 {
      DecodeBare(data[3..]);
      EncodeBareCons(data);
      DecodeBareStep(data, EncodeBare(data[3..]));
    } else if |data| == 2 {
      DecodeBareTwo(data[0], data[1]);
      assert data == [data[0], data[1]];
    } else if |data| == 1 {
      DecodeBareOne(data[0]);
      assert data == [data[0]];
    }
  }

  lemma DecodeBareStep(data: seq<byte>, rest: string)
    requires |data| >= 3 && Decode(rest) == Some(data[3..])
    ensures Decode(Quad(data[0], data[1], data[2]) + rest) == Some(data)
  {
    var q := Quad(data[0], data[1], data[2]);
    var group := [data[0], data[1], data[2]];
    assert DecodeGroup(q) == Some(group) by {
      GroupOfQuad(data[0], data[1], data[2], 4);
      assert q[..4] == q && group[..3] == group;
    }
    DecodeFullGroup(q, rest, group, data[3..]);
    Regroup(data);
  }

  lemma EncodeBareCons(data: seq<byte>)
    requires |data| >= 3
    ensures EncodeBare(data) == Quad(data[0], data[1], data[2]) + EncodeBare(data[3..])
  {
  }

  /** A full group of four characters is decoded on its own, then the rest. */
  lemma DecodeFullGroup(g: string, rest: string, group: seq<byte>, tail: seq<byte>)
    requires |g| == 4 && DecodeGroup(g) == Some(group) && Decode(rest) == Some(tail)
    ensures Decode(g + rest) == Some(group + tail)
  {
    assert (g + rest)[..4] == g && (g + rest)[4..] == rest;
  }

  lemma Regroup<X>(d: seq<X>)
    requires |d| >= 3
    ensures d == [d[0], d[1], d[2]] + d[3..]
  {
  }

  lemma DecodeBareTwo(a: byte, b: byte)
    ensures Decode(EncodeBare([a, b])) == Some([a, b])
  {
    var s := EncodeBare([a, b]);
    GroupOfQuad(a, b, 0, 3);
    assert s == Quad(a, b, 0)[..3];
    assert s[..3] == s && s[3..] == [];
    assert [a, b, 0][..2] + [] == [a, b];
  }

  lemma DecodeBareOne(a: byte)
    ensures Decode(EncodeBare([a])) == Some([a])
  {
    var s := EncodeBare([a]);
    GroupOfQuad(a, 0, 0, 2);
    assert s == Quad(a, 0, 0)[..2];
    assert s[..2] == s && s[2..] == [];
    assert [a, 0, 0][..1] + [] == [a];
  }

}

=== FILE: bounds.dfy ===
/**
 * Bounds and ranges over semantic versions (`Sentinel`, `Bound` and `Range`
 * in version_man.py). A bound is a version or one of the two sentinels
 * MIN_VER / MAX_VER, plus an inclusive flag; a range is a pair of bounds.
 *
 * The source orders all bounds with one relation (`Bound._lt_bound`). To say
 * what a range MEANS, the model also reads every bound as a cut in the
 * version line: a lower bound `v` inclusive cuts just below `v`, exclusive
 * just above it; an upper bound `v` inclusive cuts just above `v`, exclusive
 * just below it. A range contains the versions between its two cuts.
 */
module Bounds {
  import opened SemVer

  /** The source's `Ver`: a sentinel or a real version. */
  datatype Ver = MinVer | MaxVer | Sem(v: Version)

  datatype Bound = Bound(ver: Ver, inclusive: bool)

  datatype Range = Range(min: Bound, max: Bound)

  function Incl(v: Version): Bound { Bound(Sem(v), true) }

  function Excl(v: Version): Bound { Bound(Sem(v), false) }

  /** `Bound(MIN_VER)` and `Bound(MAX_VER)`: sentinel bounds default to inclusive. */
  const Bottom := Bound(MinVer, true)

  const Top := Bound(MaxVer, true)

  /** `Range()` with its defaults: every version. */
  const AnyRange := Range(Bottom, Top)

  /** MIN_VER below every version, MAX_VER above every version. */
  predicate VerLess(a: Ver, b: Ver) {
    match a
    case MinVer => b != MinVer
    case MaxVer => false
    case Sem(x) => b.MaxVer? || (b.Sem? && Less(x, b.v))
  }

  /**
   * `Bound._lt_bound`: equal versions order inclusive before exclusive,
   * a MIN_VER bound is below and a MAX_VER bound above any other version.
   */
  predicate BoundLess(a: Bound, b: Bound) {
    if a.ver == b.ver then a.inclusive && !b.inclusive
    else match a.ver
      case MinVer => true
      case MaxVer => false
      case Sem(x) =>
        match b.ver
        case MinVer => false
        case MaxVer => true
        case Sem(y) => Less(x, y)
  }

  /** `Bound.__le__` against another bound. */
  predicate BoundLe(a: Bound, b: Bound) { BoundLess(a, b) || a == b }

  /** `Bound.__gt__` against another bound. */
  predicate BoundGt(a: Bound, b: Bound) { !BoundLe(a, b) }

  /** Python's `max(a, b)`: `b` is taken only when `b > a`. */
  function MaxBound(a: Bound, b: Bound): Bound { if BoundGt(b, a) then b else a }

  /** Python's `min(a, b)`: `b` is taken only when `b < a`. */
  function MinBound(a: Bound, b: Bound): Bound { if BoundLess(b, a) then b else a }

  /** `ver < v` with the sentinels' comparison operators. */
  predicate VerBelow(a: Ver, v: Version) {
    match a
    case MinVer => true
    case MaxVer => false
    case Sem(x) => Less(x, v)
  }

  /** `ver > v` with the sentinels' comparison operators. */
  predicate VerAbove(a: Ver, v: Version) {
    match a
    case MinVer => false
    case MaxVer => true
    case Sem(x) => Less(v, x)
  }

  /** `Bound._lt_version`: the lower bound lets `v` through. */
  predicate LowerAdmits(b: Bound, v: Version) {
    if b.inclusive then VerBelow(b.ver, v) || b.ver == Sem(v) else VerBelow(b.ver, v)
  }

  /** `Bound.__gt__(SemVersion)`: the upper bound lets `v` through. */
  predicate UpperAdmits(b: Bound, v: Version) {
    if b.inclusive then VerAbove(b.ver, v) || b.ver == Sem(v) else VerAbove(b.ver, v)
  }

  /** `Range.contains` */
  predicate Contains(r: Range, v: Version) {
    LowerAdmits(r.min, v) && UpperAdmits(r.max, v)
  }

  /** Some range of the list contains `v` (a list of ranges is their union). */
  predicate ContainsAny(rs: seq<Range>, v: Version) {
    exists k :: 0 <= k < |rs| && Contains(rs[k], v)
  }

  // ---------------------------------------------------------------------------
  // Cuts: the meaning of a bound.

  /** A cut just below (`above == false`) or just above `ver`. */
  datatype Cut = Cut(ver: Ver, above: bool)

  predicate CutLess(c: Cut, d: Cut) {
    VerLess(c.ver, d.ver) || (c.ver == d.ver && !c.above && d.above)
  }

  predicate CutLe(c: Cut, d: Cut) { CutLess(c, d) || c == d }

  function LowerCut(b: Bound): Cut { Cut(b.ver, !b.inclusive) }

  function UpperCut(b: Bound): Cut { Cut(b.ver, b.inclusive) }

  /** The cut lies below version `v`. */
  predicate CutBelow(c: Cut, v: Version) {
    VerLess(c.ver, Sem(v)) || (c.ver == Sem(v) && !c.above)
  }

  /** The cut lies above version `v`. */
  predicate CutAbove(c: Cut, v: Version) {
    VerLess(Sem(v), c.ver) || (c.ver == Sem(v) && c.above)
  }

  lemma VerLessIrreflexive(a: Ver)
    ensures !VerLess(a, a)
  {
    if a.Sem? { LessIrreflexive(a.v); }
  }

  lemma VerLessTransitive(a: Ver, b: Ver, c: Ver)
    requires VerLess(a, b) && VerLess(b, c)
    ensures VerLess(a, c)
  {
    if a.Sem? && b.Sem? && c.Sem? { LessTransitive(a.v, b.v, c.v); }
  }

  lemma VerLessTotal(a: Ver, b: Ver)
    ensures VerLess(a, b) || a == b || VerLess(b, a)
  {
    if a.Sem? && b.Sem? { LessTotal(a.v, b.v); }
  }

  lemma CutLessIrreflexive(c: Cut)
    ensures !CutLess(c, c)
  {
    VerLessIrreflexive(c.ver);
  }

  lemma CutLessTransitive(c: Cut, d: Cut, e: Cut)
    requires CutLess(c, d) && CutLess(d, e)
    ensures CutLess(c, e)
  {
    if VerLess(c.ver, d.ver) && VerLess(d.ver, e.ver) {
      VerLessTransitive(c.ver, d.ver, e.ver);
    }
  }

  lemma CutLessTotal(c: Cut, d: Cut)
    ensures CutLess(c, d) || c == d || CutLess(d, c)
  {
    VerLessTotal(c.ver, d.ver);
  }

  lemma CutLeTransitive(c: Cut, d: Cut, e: Cut)
    requires CutLe(c, d) && CutLe(d, e)
    ensures CutLe(c, e)
  {
    if CutLess(c, d) && CutLess(d, e) { CutLessTransitive(c, d, e); }
  }

  /** Every version lies on exactly one side of every cut. */
  lemma CutSide(c: Cut, v: Version)
    ensures CutBelow(c, v) <==> !CutAbove(c, v)
  {
    VerLessTotal(c.ver, Sem(v));
    if VerLess(c.ver, Sem(v)) && VerLess(Sem(v), c.ver) {
      VerLessTransitive(c.ver, Sem(v), c.ver);
      VerLessIrreflexive(c.ver);
    }
    if c.ver == Sem(v) { VerLessIrreflexive(c.ver); }
  }

  /** A version above a cut is above every lower cut. */
  lemma CutBelowMonotone(c: Cut, d: Cut, v: Version)
    requires CutBelow(c, v) && CutLe(d, c)
    ensures CutBelow(d, v)
  {
    if VerLess(d.ver, c.ver) && VerLess(c.ver, Sem(v)) {
      VerLessTransitive(d.ver, c.ver, Sem(v));
    }
  }

  /** A version below a cut is below every higher cut. */
  lemma CutAboveMonotone(c: Cut, d: Cut, v: Version)
    requires CutAbove(c, v) && CutLe(c, d)
    ensures CutAbove(d, v)
  {
    if VerLess(Sem(v), c.ver) && VerLess(c.ver, d.ver) {
      VerLessTransitive(Sem(v), c.ver, d.ver);
    }
  }

  /** A lower bound admits exactly the versions above its cut. */
  lemma LowerAdmitsCut(b: Bound, v: Version)
    ensures LowerAdmits(b, v) <==> CutBelow(LowerCut(b), v)
  {
  }

  /** An upper bound admits exactly the versions below its cut. */
  lemma UpperAdmitsCut(b: Bound, v: Version)
    ensures UpperAdmits(b, v) <==> CutAbove(UpperCut(b), v)
  {
  }

  /** Range.contains holds exactly between the two cuts of the range. */
  lemma ContainsBetweenCuts(r: Range, v: Version)
    ensures Contains(r, v) <==> CutBelow(LowerCut(r.min), v) && CutAbove(UpperCut(r.max), v)
  {
    LowerAdmitsCut(r.min, v);
    UpperAdmitsCut(r.max, v);
  }

  // ---------------------------------------------------------------------------
  // The source's bound order.

  /** The source's bound order is the order of lower cuts. */
  lemma BoundLessIsLowerCutOrder(a: Bound, b: Bound)
    ensures BoundLess(a, b) <==> CutLess(LowerCut(a), LowerCut(b))
  {
    VerLessIrreflexive(a.ver);
  }

  /**
   * At equal versions an inclusive bound sorts strictly below an exclusive
   * one; otherwise bounds sort by version, MIN_VER below and MAX_VER above
   * every version, whatever the flags.
   */
  lemma BoundOrderShape(a: Bound, b: Bound)
    ensures a.ver == b.ver ==> (BoundLess(a, b) <==> a.inclusive && !b.inclusive)
    ensures a.ver != b.ver ==> (BoundLess(a, b) <==> VerLess(a.ver, b.ver))
    ensures a.ver == MinVer && b.ver != MinVer ==> BoundLess(a, b) && !BoundLess(b, a)
    ensures a.ver == MaxVer && b.ver != MaxVer ==> BoundLess(b, a) && !BoundLess(a, b)
  {
    BoundLessIsLowerCutOrder(a, b);
    BoundLessIsLowerCutOrder(b, a);
  }

  /** `Bound._lt_bound` is a strict total order. */
  lemma BoundLessStrictTotal(a: Bound, b: Bound, c: Bound)
    ensures !BoundLess(a, a)
    ensures BoundLess(a, b) || a == b || BoundLess(b, a)
    ensures BoundLess(a, b) && BoundLess(b, c) ==> BoundLess(a, c)
  {
    BoundLessIsLowerCutOrder(a, a);
    BoundLessIsLowerCutOrder(a, b);
    BoundLessIsLowerCutOrder(b, a);
    BoundLessIsLowerCutOrder(b, c);
    BoundLessIsLowerCutOrder(a, c);
    CutLessIrreflexive(LowerCut(a));
    CutLessTotal(LowerCut(a), LowerCut(b));
    if BoundLess(a, b) && BoundLess(b, c) {
      CutLessTransitive(LowerCut(a), LowerCut(b), LowerCut(c));
    }
  }

  /** Read as lower bounds, a smaller bound admits more versions. */
  lemma LowerOrderLoosens(a: Bound, b: Bound, v: Version)
    requires BoundLe(a, b) && LowerAdmits(b, v)
    ensures LowerAdmits(a, v)
  {
    BoundLessIsLowerCutOrder(a, b);
    LowerAdmitsCut(a, v);
    LowerAdmitsCut(b, v);
    CutBelowMonotone(LowerCut(b), LowerCut(a), v);
  }

  /**
   * Read as upper bounds the same order is wrong at equal versions: the
   * inclusive bound sorts below the exclusive one, yet admits more.
   */
  lemma UpperOrderReversedAtEqualVersions(v: Version)
    ensures BoundLess(Bound(Sem(v), true), Bound(Sem(v), false))
    ensures UpperAdmits(Bound(Sem(v), true), v) && !UpperAdmits(Bound(Sem(v), false), v)
  {
    LessIrreflexive(v);
  }

  /** Python's max of two bounds is one of them and no smaller than either. */
  lemma MaxBoundIsMax(a: Bound, b: Bound)
    ensures MaxBound(a, b) == a || MaxBound(a, b) == b
    ensures BoundLe(a, MaxBound(a, b)) && BoundLe(b, MaxBound(a, b))
  {
    BoundLessStrictTotal(a, b, a);
  }

  lemma BoundLeTransitive(a: Bound, b: Bound, c: Bound)
    requires BoundLe(a, b) && BoundLe(b, c)
    ensures BoundLe(a, c)
  {
    BoundLessStrictTotal(a, b, c);
  }

  /** Every two bounds are comparable. */
  lemma BoundLeTotal(a: Bound, b: Bound)
    ensures BoundLe(a, b) || BoundLess(b, a)
  {
    BoundLessStrictTotal(a, b, a);
  }

  /** Python's min of two bounds is one of them and no larger than either. */
  lemma MinBoundIsMin(a: Bound, b: Bound)
    ensures MinBound(a, b) == a || MinBound(a, b) == b
    ensures BoundLe(MinBound(a, b), a) && BoundLe(MinBound(a, b), b)
  {
    BoundLessStrictTotal(a, b, a);
  }

  /** Python's max of two lower bounds admits what both admit. */
  lemma MaxBoundAdmits(a: Bound, b: Bound, v: Version)
    ensures LowerAdmits(MaxBound(a, b), v) <==> LowerAdmits(a, v) && LowerAdmits(b, v)
  {
    MaxBoundIsMax(a, b);
    if LowerAdmits(MaxBound(a, b), v) {
      LowerOrderLoosens(a, MaxBound(a, b), v);
      LowerOrderLoosens(b, MaxBound(a, b), v);
    }
  }

  /** Python's min of two lower bounds admits what either admits. */
  lemma MinBoundAdmits(a: Bound, b: Bound, v: Version)
    ensures LowerAdmits(MinBound(a, b), v) <==> LowerAdmits(a, v) || LowerAdmits(b, v)
  {
    MinBoundIsMin(a, b);
    if LowerAdmits(a, v) { LowerOrderLoosens(MinBound(a, b), a, v); }
    if LowerAdmits(b, v) { LowerOrderLoosens(MinBound(a, b), b, v); }
  }

  // ---------------------------------------------------------------------------
  // Minimum and maximum of upper bounds by their cuts.

  /** The tighter of two upper bounds: the one whose cut is lower. */
  function UpperMin(a: Bound, b: Bound): Bound {
    if CutLess(UpperCut(b), UpperCut(a)) then b else a
  }

  /** The looser of two upper bounds: the one whose cut is higher. */
  function UpperMax(a: Bound, b: Bound): Bound {
    if CutLess(UpperCut(a), UpperCut(b)) then b else a
  }

  lemma UpperMinAdmits(a: Bound, b: Bound, v: Version)
    ensures UpperAdmits(UpperMin(a, b), v) <==> UpperAdmits(a, v) && UpperAdmits(b, v)
  {
    UpperAdmitsCut(a, v);
    UpperAdmitsCut(b, v);
    UpperAdmitsCut(UpperMin(a, b), v);
    CutLessTotal(UpperCut(a), UpperCut(b));
    if CutLess(UpperCut(b), UpperCut(a)) {
      if CutAbove(UpperCut(b), v) { CutAboveMonotone(UpperCut(b), UpperCut(a), v); }
    } else {
      if CutAbove(UpperCut(a), v) { CutAboveMonotone(UpperCut(a), UpperCut(b), v); }
    }
  }

  lemma UpperMaxAdmits(a: Bound, b: Bound, v: Version)
    ensures UpperAdmits(UpperMax(a, b), v) <==> UpperAdmits(a, v) || UpperAdmits(b, v)
  {
    UpperAdmitsCut(a, v);
    UpperAdmitsCut(b, v);
    UpperAdmitsCut(UpperMax(a, b), v);
    CutLessTotal(UpperCut(a), UpperCut(b));
    if CutLess(UpperCut(a), UpperCut(b)) {
      if CutAbove(UpperCut(a), v) { CutAboveMonotone(UpperCut(a), UpperCut(b), v); }
    } else {
      if CutAbove(UpperCut(b), v) { CutAboveMonotone(UpperCut(b), UpperCut(a), v); }
    }
  }

  /**
   * An upper bound that sorts strictly below a lower bound in the source's
   * order leaves no version between them.
   */
  lemma NothingBetween(hi: Bound, lo: Bound, v: Version)
    requires BoundLess(hi, lo)
    ensures !(LowerAdmits(lo, v) && UpperAdmits(hi, v))
  {
    assert CutLe(UpperCut(hi), LowerCut(lo));
    LowerAdmitsCut(lo, v);
    UpperAdmitsCut(hi, v);
    if CutAbove(UpperCut(hi), v) {
      CutAboveMonotone(UpperCut(hi), LowerCut(lo), v);
      CutSide(LowerCut(lo), v);
    }
  }
}

=== FILE: chunks.dfy ===
/**
 * `ChunkIterator`: an iterable cut into consecutive chunks of a given
 * size. The iterator keeps one element of look-ahead, so it knows that an
 * element is the last one when it hands it out and stops right after it.
 */
module Chunks {
  import opened Wrappers

  /** The elements of a list of chunks, in order. */
  function Flatten<T>(cs: seq<seq<T>>): seq<T> {
    if cs == [] then [] else cs[0] + Flatten(cs[1..])
  }

  lemma {:induction false} FlattenSnoc<T>(cs: seq<seq<T>>, c: seq<T>)
    ensures Flatten(cs + [c]) == Flatten(cs) + c
  {
    if cs == [] {
      assert [c][1..] == [];
    } else {
      assert (cs + [c])[1..] == cs[1..] + [c];
      FlattenSnoc(cs[1..], c);
    }
  }

  /** Reference definition: full chunks of `size`, then the rest when there is any. */
  function ChunkSpec<T>(xs: seq<T>, size: nat): (r: seq<seq<T>>)
    requires size >= 1
    decreases |xs|
  {
    if xs == [] then []
    else if |xs| <= size then [xs]
    else [xs[..size]] + ChunkSpec(xs[size..], size)
  }

  /** Chunks of at most `size` elements, none empty, all full but the last. */
  predicate WellCut<T>(cs: seq<seq<T>>, size: nat) {
    && (forall i :: 0 <= i < |cs| ==> 1 <= |cs[i]| <= size)
    && (forall i :: 0 <= i < |cs| - 1 ==> |cs[i]| == size)
  }

  /** The reference chunks are well cut and give back the input. */
  lemma {:induction false} ChunkSpecSound<T>(xs: seq<T>, size: nat)
    requires size >= 1
    ensures Flatten(ChunkSpec(xs, size)) == xs
    ensures WellCut(ChunkSpec(xs, size), size)
    decreases |xs|
  {
    var r := ChunkSpec(xs, size);
    if |xs| > size {
      var rest := ChunkSpec(xs[size..], size);
      ChunkSpecSound(xs[size..], size);
      assert r == [xs[..size]] + rest;
      assert r[1..] == rest;
      assert Flatten(r) == xs[..size] + Flatten(rest);
      assert xs[..size] + xs[size..] == xs;
      assert forall i :: 1 <= i < |r| ==> r[i] == rest[i - 1];
    } else if xs != [] {
      assert r == [xs] && r[1..] == [];
    }
  }

  /** A well-cut list of chunks is determined by its elements: it is the reference one. */
  lemma {:induction false} ChunkSpecUnique<T>(cs: seq<seq<T>>, xs: seq<T>, size: nat)
    requires size >= 1
    requires Flatten(cs) == xs && WellCut(cs, size)
    ensures cs == ChunkSpec(xs, size)
    decreases |cs|
  {
    if cs == [] {
    } else if |cs| == 1 {
      assert cs[1..] == [];
      assert xs == cs[0];
    } else {
      var rest := cs[1..];
      assert Flatten(cs) == cs[0] + Flatten(rest);
      assert |cs[0]| == size;
      assert rest[0] == cs[1] && |Flatten(rest)| >= |rest[0]| by {
        assert Flatten(rest) == rest[0] + Flatten(rest[1..]);
      }
      assert xs[..size] == cs[0] && xs[size..] == Flatten(rest);
      assert WellCut(rest, size) by {
        assert forall i :: 0 <= i < |rest| ==> rest[i] == cs[i + 1];
      }
      ChunkSpecUnique(rest, xs[size..], size);
    }
  }

  /**
   * `ChunkIterator(xs).chunks(size)`, every chunk consumed before the next
   * is asked for. `look` is the look-ahead element `_next`, `pulled` the
   * number of elements taken from the underlying iterator, and `iterated`
   * the count of elements handed out.
   */
  method Chunks<T>(xs: seq<T>, size: nat) returns (chunks: seq<seq<T>>, iterated: nat)
    requires size >= 1
    ensures Flatten(chunks) == xs
    ensures forall i :: 0 <= i < |chunks| ==> 1 <= |chunks[i]| <= size
    ensures forall i :: 0 <= i < |chunks| - 1 ==> |chunks[i]| == size
    ensures iterated == |xs|
    ensures xs == [] <==> chunks == []
    ensures chunks == ChunkSpec(xs, size)
  {
    // __init__ calls next() once to fill the look-ahead.
    var look: Option<T> := None;
    var pulled := 0;
    var iterating := true;
    iterated := 0;
    if pulled < |xs| {
      look := Some(xs[pulled]);
      pulled := pulled + 1;
    } else {
      iterating := false;
    }
    chunks := [];
    while iterating
      invariant pulled <= |xs|
      invariant iterating ==> 1 <= pulled && look == Some(xs[pulled - 1]) && Flatten(chunks) == xs[..pulled - 1]
      invariant !iterating ==> Flatten(chunks) == xs
      invariant iterated == |Flatten(chunks)|
      invariant forall i :: 0 <= i < |chunks| ==> 1 <= |chunks[i]| <= size
      invariant iterating ==> forall i :: 0 <= i < |chunks| ==> |chunks[i]| == size
      invariant !iterating ==> forall i :: 0 <= i < |chunks| - 1 ==> |chunks[i]| == size
      decreases |xs| - |Flatten(chunks)|
    {
      var chunk;
      chunk, look, pulled, iterating, iterated := TakeChunk(xs, size, look, pulled, iterated);
      FlattenSnoc(chunks, chunk);
      chunks := chunks + [chunk];
    }
    ChunkSpecUnique(chunks, xs, size);
  }

  /**
   * One chunk of `chunks`: up to `size` calls of `next()`, each handing
   * out the look-ahead and refilling it, stopping early when the
   * underlying iterator runs dry.
   */
  method TakeChunk<T>(xs: seq<T>, size: nat, look0: Option<T>, pulled0: nat, iterated0: nat)
    returns (chunk: seq<T>, look: Option<T>, pulled: nat, iterating: bool, iterated: nat)
    requires size >= 1 && 1 <= pulled0 <= |xs| && look0 == Some(xs[pulled0 - 1])
    ensures 1 <= |chunk| <= size && pulled <= |xs|
    ensures iterated == iterated0 + |chunk|
    ensures iterating ==> && |chunk| == size && 1 <= pulled && look == Some(xs[pulled - 1])
                          && xs[..pulled0 - 1] + chunk == xs[..pulled - 1]
    ensures !iterating ==> xs[..pulled0 - 1] + chunk == xs
  {
    look, pulled, iterating, iterated := look0, pulled0, true, iterated0;
    chunk := [];
    var i := 0;
    while i < size
      invariant 0 <= i <= size && |chunk| == i
      invariant 1 <= pulled <= |xs| && look == Some(xs[pulled - 1])
      invariant xs[..pulled0 - 1] + chunk == xs[..pulled - 1]
      invariant iterated == iterated0 + |chunk|
    {
      // next(): hand out the look-ahead, then refill it or stop.
      var handed := look;
      var before := pulled;
      if pulled < |xs| {
        look := Some(xs[pulled]);
        pulled := pulled + 1;
      } else {
        iterating := false;
      }
      assert xs[..before - 1] + [xs[before - 1]] == xs[..before];
      chunk := chunk + [handed.value];
      iterated := iterated + 1;
      if !iterating {
        assert xs[..before] == xs;
        return;
      }
      i := i + 1;
    }
  }
}

=== FILE: constraint.dfy ===
/**
 * The version constraint the dependency-tree builder attaches to each
 * node: a union of ranges that shrinks as successive requirements on the
 * same package are intersected. Values are immutable, so intersecting two
 * constraints can never alter either of them.
 */
module Constraints {
  import opened Wrappers
  import opened SemVer
  import opened Bounds
  import opened RangeAlgebra
  import opened SpecParser
  import opened Specs

  datatype Constraint = Constraint(ranges: seq<Range>)

  /** `VersionConstraint.from_spec`: the ranges of a spec, or the parser's error. */
  function FromSpec(spec: string): (r: Result<Constraint, string>)
    ensures r.Err? <==> ParseSpec(spec).Err?
    ensures r.Ok? ==> r.value.ranges == ParseSpec(spec).value
  {
    match ParseSpec(spec)
    case Ok(ranges) => Ok(Constraint(ranges))
    case Err(e) => Err(e)
  }

  /** A constraint built from a well-formed spec accepts exactly what one of its alternatives admits. */
  lemma FromSpecMeaning(alts: seq<RangeNode>, v: Version)
    requires WfRangeSet(alts)
    ensures FromSpec(RangeSetText(alts)).Ok?
    ensures Accept(FromSpec(RangeSetText(alts)).value, v) <==>
              exists i :: 0 <= i < |alts| && Admits(alts[i], v)
  {
    ParseSpecOfText(alts, v);
  }

  /** Any spec that parses gives a constraint accepting exactly what one of its alternatives admits. */
  lemma FromSpecAccepts(spec: string, v: Version)
    requires FromSpec(spec).Ok?
    ensures var alts := ParseRangeSet(spec).value;
      WfRangeSet(alts) && (Accept(FromSpec(spec).value, v) <==> exists i :: 0 <= i < |alts| && Admits(alts[i], v))
  {
    ParseSpecMeaning(spec, v);
  }

  /** `has_matches`: the range list is not empty. */
  predicate HasMatches(c: Constraint) {
    |c.ranges| > 0
  }

  /** A constraint without ranges accepts nothing. */
  lemma NoMatchesAcceptsNothing(c: Constraint, v: Version)
    requires !HasMatches(c)
    ensures !Accept(c, v)
  {
  }

  /** `accept`: the ranges are tried in order and the first that contains `v` answers. */
  function AcceptFrom(rs: seq<Range>, v: Version): (r: bool)
    ensures r <==> ContainsAny(rs, v)
    decreases |rs|
  {
    if rs == [] then false
    else
      ContainsAnyCons(rs, v);
      if Contains(rs[0], v) then true else AcceptFrom(rs[1..], v)
  }

  function Accept(c: Constraint, v: Version): (r: bool)
    ensures r <==> exists k :: 0 <= k < |c.ranges| && Contains(c.ranges[k], v)
  {
    AcceptFrom(c.ranges, v)
  }

  /** The intersections of one range with each range of a list, concatenated. */
  function RowIntersections(a: Range, bs: seq<Range>): seq<Range>
    decreases |bs|
  {
    if bs == [] then [] else IntersectRangesFixed([a, bs[0]]) + RowIntersections(a, bs[1..])
  }

  /** `for a, b in product(...)`: the pairwise intersections in product order. */
  function ProductIntersections(as_: seq<Range>, bs: seq<Range>): seq<Range>
    decreases |as_|
  {
    if as_ == [] then [] else RowIntersections(as_[0], bs) + ProductIntersections(as_[1..], bs)
  }

  lemma {:induction false} RowIntersectionsMeaning(a: Range, bs: seq<Range>, v: Version)
    ensures ContainsAny(RowIntersections(a, bs), v) <==> Contains(a, v) && ContainsAny(bs, v)
    decreases |bs|
  {
    if bs != [] {
      var pair := IntersectRangesFixed([a, bs[0]]);
      IntersectRangesFixedSound([a, bs[0]], v);
      RowIntersectionsMeaning(a, bs[1..], v);
      ContainsAnyConcat(pair, RowIntersections(a, bs[1..]), v);
      ContainsAnyCons(bs, v);
      assert (forall i :: 0 <= i < |[a, bs[0]]| ==> Contains([a, bs[0]][i], v)) <==> Contains(a, v) && Contains(bs[0], v) by {
        assert [a, bs[0]][0] == a && [a, bs[0]][1] == bs[0];
      }
    }
  }

  lemma {:induction false} ProductIntersectionsMeaning(as_: seq<Range>, bs: seq<Range>, v: Version)
    ensures ContainsAny(ProductIntersections(as_, bs), v) <==> ContainsAny(as_, v) && ContainsAny(bs, v)
    decreases |as_|
  {
    if as_ != [] {
      RowIntersectionsMeaning(as_[0], bs, v);
      ProductIntersectionsMeaning(as_[1..], bs, v);
      ContainsAnyConcat(RowIntersections(as_[0], bs), ProductIntersections(as_[1..], bs), v);
      ContainsAnyCons(as_, v);
    }
  }

  /** `intersect`: the union of all pairwise intersections, as a new constraint. */
  function Intersect(a: Constraint, b: Constraint): (r: Constraint)
  {
    Constraint(UnionRangesFixed(ProductIntersections(a.ranges, b.ranges)))
  }

  /** The intersection accepts a version exactly when both constraints accept it. */
  lemma IntersectMeaning(a: Constraint, b: Constraint, v: Version)
    ensures Accept(Intersect(a, b), v) <==> Accept(a, v) && Accept(b, v)
  {
    var pairs := ProductIntersections(a.ranges, b.ranges);
    UnionRangesFixedSound(pairs, v);
    ProductIntersectionsMeaning(a.ranges, b.ranges, v);
  }

  /** Intersecting with a constraint without ranges leaves nothing to match. */
  lemma IntersectEmpty(a: Constraint)
    ensures !HasMatches(Intersect(a, Constraint([])))
    ensures !HasMatches(Intersect(Constraint([]), a))
  {
    assert ProductIntersections(a.ranges, []) == [] by {
      RowsOfEmpty(a.ranges);
    }
    UnionRangesFixedSound([], MinVersion());
  }

  lemma {:induction false} RowsOfEmpty(as_: seq<Range>)
    ensures ProductIntersections(as_, []) == []
    decreases |as_|
  {
    if as_ != [] {
      RowsOfEmpty(as_[1..]);
    }
  }

  function MinVersion(): Version { Release(0, 0, 0) }
}

=== FILE: dicts.dfy ===
/**
 * Python dictionaries as sequences of key/value pairs in insertion order.
 * Assigning to a present key replaces its value in place; assigning to an
 * absent key appends it. This is the order `dict` keeps, which decides
 * the order of the lines the translator writes.
 */
module Dicts {
  import opened Wrappers

  type Dict<K(==), V> = seq<(K, V)>

  function Keys<K(==), V>(d: Dict<K, V>): (r: seq<K>)
    ensures |r| == |d|
    ensures forall i :: 0 <= i < |d| ==> r[i] == d[i].0
  {
    if d == [] then [] else [d[0].0] + Keys(d[1..])
  }

  predicate DistinctKeys<K(==), V>(d: Dict<K, V>) {
    forall i, j :: 0 <= i < j < |d| ==> d[i].0 != d[j].0
  }

  /** `d[k]`, or nothing when `k` is absent. */
  function Lookup<K(==), V>(d: Dict<K, V>, k: K): (r: Option<V>)
    ensures r.None? <==> k !in Keys(d)
    ensures r.Some? ==> exists i :: 0 <= i < |d| && d[i] == (k, r.value)
  {
    if d == [] then None
    else if d[0].0 == k then Some(d[0].1)
    else Lookup(d[1..], k)
  }

  /** The value stored at a key of a dictionary whose keys are distinct. */
  lemma LookupAt<K, V>(d: Dict<K, V>, i: nat)
    requires DistinctKeys(d) && i < |d|
    ensures Lookup(d, d[i].0) == Some(d[i].1)
  {
    if i > 0 {
      assert d[1..][i - 1] == d[i];
      LookupAt(d[1..], i - 1);
    }
  }

  /** `d[k] = v`. */
  function Put<K(==), V>(d: Dict<K, V>, k: K, v: V): (r: Dict<K, V>)
    ensures k in Keys(d) ==> |r| == |d| && Keys(r) == Keys(d)
    ensures k !in Keys(d) ==> r == d + [(k, v)]
    ensures DistinctKeys(d) ==> DistinctKeys(r)
  {
    if d == [] then [(k, v)]
    else if d[0].0 == k then [(k, v)] + d[1..]
    else [d[0]] + Put(d[1..], k, v)
  }

  /** After `d[k] = v`, `k` maps to `v` and every other key keeps its value. */
  lemma {:induction false} LookupPut<K, V>(d: Dict<K, V>, k: K, v: V, k': K)
    ensures Lookup(Put(d, k, v), k') == if k == k' then Some(v) else Lookup(d, k')
  {
    if d != [] && d[0].0 != k {
      LookupPut(d[1..], k, v, k');
      assert Put(d, k, v)[1..] == Put(d[1..], k, v);
    }
  }

  /** Every pair assigned in order, as `{**d, **e}` or a comprehension does. */
  function PutAll<K(==), V>(d: Dict<K, V>, kvs: seq<(K, V)>): (r: Dict<K, V>)
    ensures DistinctKeys(d) ==> DistinctKeys(r)
    decreases |kvs|
  {
    if kvs == [] then d else PutAll(Put(d, kvs[0].0, kvs[0].1), kvs[1..])
  }

  /** The value of the last pair with key `k`. */
  function LastFor<K(==), V>(kvs: seq<(K, V)>, k: K): (r: Option<V>)
    ensures r.None? <==> k !in Keys(kvs)
  {
    if kvs == [] then None
    else match LastFor(kvs[1..], k)
      case Some(v) => Some(v)
      case None => if kvs[0].0 == k then Some(kvs[0].1) else None
  }

  /** The last assignment to a key wins; a key never assigned keeps its value. */
  lemma {:induction false} LookupPutAll<K, V>(d: Dict<K, V>, kvs: seq<(K, V)>, k: K)
    ensures Lookup(PutAll(d, kvs), k) == if k in Keys(kvs) then LastFor(kvs, k) else Lookup(d, k)
    decreases |kvs|
  {
    if kvs != [] {
      LookupPut(d, kvs[0].0, kvs[0].1, k);
      LookupPutAll(Put(d, kvs[0].0, kvs[0].1), kvs[1..], k);
      assert Keys(kvs) == [kvs[0].0] + Keys(kvs[1..]);
    }
  }

  /** Every key assigned by `PutAll` is a key of the result, and no other new key appears. */
  lemma {:induction false} KeysPutAll<K, V>(d: Dict<K, V>, kvs: seq<(K, V)>, k: K)
    ensures k in Keys(PutAll(d, kvs)) <==> k in Keys(d) || k in Keys(kvs)
    decreases |kvs|
  {
    if kvs != [] {
      var d' := Put(d, kvs[0].0, kvs[0].1);
      KeysPutAll(d', kvs[1..], k);
      KeysPut(d, kvs[0].0, kvs[0].1, k);
      assert Keys(kvs) == [kvs[0].0] + Keys(kvs[1..]);
    }
  }

  lemma KeysPut<K, V>(d: Dict<K, V>, k: K, v: V, k': K)
    ensures k' in Keys(Put(d, k, v)) <==> k' in Keys(d) || k' == k
  {
    if k in Keys(d) {
      assert Keys(Put(d, k, v)) == Keys(d);
    } else {
      assert Keys(Put(d, k, v)) == Keys(d) + [k];
    }
  }

  /** Assigning keys that are all new, in order, appends them. */
  lemma {:induction false} PutAllFresh<K, V>(d: Dict<K, V>, kvs: seq<(K, V)>)
    requires DistinctKeys(d + kvs)
    ensures PutAll(d, kvs) == d + kvs
    decreases |kvs|
  {
    if kvs != [] {
      var d' := d + [kvs[0]];
      assert kvs[0].0 !in Keys(d) by {
        forall i | 0 <= i < |d| ensures Keys(d)[i] != kvs[0].0 {
          assert (d + kvs)[i] == d[i] && (d + kvs)[|d|] == kvs[0];
        }
      }
      assert Put(d, kvs[0].0, kvs[0].1) == d';
      assert d' + kvs[1..] == d + kvs;
      PutAllFresh(d', kvs[1..]);
    }
  }
}

=== FILE: models.dfy ===
/**
 * The naming rules of the `Distribution` and `Archive` models: the wheel
 * file name of a version (the file name convention of PEP 427) and the
 * storage path of an archive, which fans archives out over directories
 * named after the leading digits of their hash.
 */
module Models {
  import opened Wrappers
  import opened Strings

  /**
   * A distribution: its npm and Python names, and the real distribution
   * behind it when it is a generated sub-tree node.
   */
  datatype Distribution = Distribution(jsName: string, pythonName: string, original: Option<Distribution>)

  /** `real`: the original when one is set, the distribution itself otherwise. */
  function Real(d: Distribution): (r: Distribution)
    ensures d.original.None? ==> r == d
    ensures d.original.Some? ==> r == d.original.value
  {
    match d.original
    case Some(o) => o
    case None => d
  }

  /** Generated nodes point at real distributions, so asking twice gives the same one. */
  lemma RealIdempotent(d: Distribution)
    requires d.original.Some? ==> d.original.value.original.None?
    ensures Real(Real(d)) == Real(d)
    ensures Real(d).original.None?
  {
  }

  /** The name part of a wheel file name: `-` and `.` turned into `_`. */
  function WheelDistName(pythonName: string): (r: string)
    ensures |r| == |pythonName|
    ensures '-' !in r && '.' !in r
    ensures forall k :: 0 <= k < |r| ==>
      r[k] == (if pythonName[k] == '-' || pythonName[k] == '.' then '_' else pythonName[k])
  {
    ReplaceChar(ReplaceChar(pythonName, '-', '_'), '.', '_')
  }

  /** `wheel_name` with its default tags `py3`, `none` and `any`. */
  function WheelName(pythonName: string, version: string): string {
    WheelDistName(pythonName) + "-" + version + "-" + "py3" + "-" + "none" + "-" + "any.whl"
  }

  /**
   * A wheel name reads back, at its dashes, as the name, the version and
   * the three tags, as long as the version holds no dash.
   */
  lemma WheelNameFields(pythonName: string, version: string)
    requires '-' !in version
    ensures Split(WheelName(pythonName, version), '-') == [WheelDistName(pythonName), version, "py3", "none", "any.whl"]
  {
    var w := WheelDistName(pythonName);
    SplitPiece(w, '-');
    SplitLast(w, '-', version);
    SplitLast(w + "-" + version, '-', "py3");
    SplitLast(w + "-" + version + "-" + "py3", '-', "none");
    SplitLast(w + "-" + version + "-" + "py3" + "-" + "none", '-', "any.whl");
  }

  /** Splitting before a last piece free of the separator adds that piece at the end. */
  lemma SplitLast(x: string, c: char, t: string)
    requires c !in t
    ensures Split(x + [c] + t, c) == Split(x, c) + [t]
  {
    SplitConcat(x, c, t);
    SplitPiece(t, c);
  }

  /** `s[a:b]` in Python: out-of-range ends are clamped to the string. */
  function PySlice(s: string, a: nat, b: nat): (r: string)
    ensures |r| <= |s|
    ensures b <= |s| && a <= b ==> r == s[a..b]
  {
    var i := if a < |s| then a else |s|;
    var j := if b < |s| then b else |s|;
    if i <= j then s[i..j] else []
  }

  /** `upload_to_archive`: the storage path of an archive. */
  function UploadToArchive(translator: string, hash: string, wheelName: string): string {
    "distributions" + "/" + translator + "/" + PySlice(hash, 0, 2) + "/" + PySlice(hash, 2, 4)
      + "/" + PySlice(hash, 4, 6) + "/" + PySlice(hash, 6, 8) + "/" + wheelName
  }

  /**
   * For a hash of at least eight characters, the path is the
   * `distributions` directory, the translator, four directories of two
   * hash characters each spelling the first eight, then the wheel.
   */
  lemma UploadToArchiveFields(translator: string, hash: string, wheelName: string)
    requires |hash| >= 8
    requires '/' !in translator && '/' !in hash && '/' !in wheelName
    ensures var parts := Split(UploadToArchive(translator, hash, wheelName), '/');
      && parts == ["distributions", translator, hash[0..2], hash[2..4], hash[4..6], hash[6..8], wheelName]
      && parts[2] + parts[3] + parts[4] + parts[5] == hash[..8]
  {
    var h0, h1, h2, h3 := hash[0..2], hash[2..4], hash[4..6], hash[6..8];
    NotInSlice(hash, '/', 0, 2);
    NotInSlice(hash, '/', 2, 4);
    NotInSlice(hash, '/', 4, 6);
    NotInSlice(hash, '/', 6, 8);
    assert PySlice(hash, 0, 2) == h0 && PySlice(hash, 2, 4) == h1;
    assert PySlice(hash, 4, 6) == h2 && PySlice(hash, 6, 8) == h3;
    PathFields("distributions", translator, h0, h1, h2, h3, wheelName);
    assert h0 + h1 + h2 + h3 == hash[..8];
  }

  /** Seven pieces free of `/`, joined by `/`, split back into the same pieces. */
  lemma PathFields(a: string, b: string, c: string, d: string, e: string, f: string, g: string)
    requires '/' !in a && '/' !in b && '/' !in c && '/' !in d && '/' !in e && '/' !in f && '/' !in g
    ensures Split(a + "/" + b + "/" + c + "/" + d + "/" + e + "/" + f + "/" + g, '/') == [a, b, c, d, e, f, g]
  {
    var p2 := a + "/" + b;
    var p3 := p2 + "/" + c;
    var p4 := p3 + "/" + d;
    var p5 := p4 + "/" + e;
    var p6 := p5 + "/" + f;
    SplitPiece(a, '/');
    SplitLast(a, '/', b);
    SplitLast(p2, '/', c);
    assert Split(p3, '/') == [a, b, c];
    SplitLast(p3, '/', d);
    assert Split(p4, '/') == [a, b, c, d];
    SplitLast(p4, '/', e);
    assert Split(p5, '/') == [a, b, c, d, e];
    SplitLast(p5, '/', f);
    assert Split(p6, '/') == [a, b, c, d, e, f];
    SplitLast(p6, '/', g);
  }

  lemma NotInSlice(s: string, c: char, a: nat, b: nat)
    requires a <= b <= |s| && c !in s
    ensures c !in s[a..b]
  {
  }
}

=== FILE: name_examples.dfy ===
/** Names from the repository's own test suite. */
module NameExamples {
  import opened Wrappers
  import opened Strings
  import opened Slugs
  import opened NpmNames

  /** Text without capitals is its own lower-case form. */
  lemma LowerOfLower(s: string)
    requires forall k :: 0 <= k < |s| ==> !('A' <= s[k] <= 'Z')
    ensures Lower(s) == s
  {
  }

  lemma {:induction false} NoAlnums(s: string)
    requires forall k :: 0 <= k < |s| ==> !IsLowerAlnum(s[k])
    ensures Alnums(s) == []
  {
    if s != [] {
      NoAlnums(s[1..]);
    }
  }

  /** A name with no letter or digit normalises to nothing. */
  lemma NormOfNoAlnums(name: string)
    requires forall k :: 0 <= k < |name| ==> !IsLowerAlnum(LowerChar(name[k]))
    ensures NormPyName(name) == []
  {
    SlugAlnums(name, '-');
    NoAlnums(Lower(name));
  }

  /** A letter or digit in front is kept as it is. */
  lemma CollapseAlnumHead(s: string)
    requires s != [] && IsLowerAlnum(s[0])
    ensures Collapse(s, '-') == [s[0]] + Collapse(s[1..], '-')
  {
  }

  predicate AllAlnum(s: string) {
    forall k :: 0 <= k < |s| ==> IsLowerAlnum(s[k])
  }

  /** Letters and digits alone collapse to themselves. */
  lemma {:induction false} CollapseWord(s: string)
    requires AllAlnum(s)
    ensures Collapse(s, '-') == s
  {
    if s != [] {
      CollapseAlnumHead(s);
      CollapseWord(s[1..]);
    }
  }

  /** A run of other characters before letters or digits is skipped whole. */
  lemma {:induction false} SkipRunOf(run: string, b: string)
    requires forall k :: 0 <= k < |run| ==> !IsLowerAlnum(run[k])
    requires b != [] && IsLowerAlnum(b[0])
    ensures SkipRun(run + b) == b
  {
    if run != [] {
      assert (run + b)[1..] == run[1..] + b;
      SkipRunOf(run[1..], b);
    }
  }

  /** One run of other characters between two words becomes a single dash. */
  lemma {:induction false} CollapseTwoWords(a: string, run: string, b: string)
    requires AllAlnum(a) && AllAlnum(b) && b != []
    requires run != [] && forall k :: 0 <= k < |run| ==> !IsLowerAlnum(run[k])
    ensures Collapse(a + run + b, '-') == a + "-" + b
  {
    if a == [] {
      assert a + run + b == run + b;
      assert (run + b)[1..] == run[1..] + b;
      SkipRunOf(run[1..], b);
      CollapseWord(b);
    } else {
      assert (a + run + b)[1..] == a[1..] + run + b;
      CollapseAlnumHead(a + run + b);
      CollapseTwoWords(a[1..], run, b);
      assert [a[0]] + (a[1..] + "-" + b) == a + "-" + b;
    }
  }

  /** Two lower-case words around a run of other characters normalise to the words joined by a dash. */
  lemma NormTwoWords(a: string, run: string, b: string)
    requires AllAlnum(a) && AllAlnum(b) && a != [] && b != []
    requires run != [] && forall k :: 0 <= k < |run| ==> !IsLowerAlnum(run[k]) && !('A' <= run[k] <= 'Z')
    ensures NormPyName(a + run + b) == a + "-" + b
  {
    LowerOfLower(a + run + b);
    CollapseTwoWords(a, run, b);
    StripFixpoint(a + "-" + b, '-');
  }

  lemma FooBarWords()
    ensures AllAlnum("foo") && AllAlnum("bar")
    ensures forall k :: 0 <= k < |"__"| ==> !IsLowerAlnum("__"[k]) && !('A' <= "__"[k] <= 'Z')
  {
  }

  lemma FooBarTexts()
    ensures "foo" + "__" + "bar" == "foo__bar" && "foo" + "-" + "bar" == "foo-bar"
  {
  }

  /** `foo__bar` normalises to `foo-bar`: the run of underscores becomes one dash. */
  lemma NormFooBar()
    ensures NormPyName("foo__bar") == "foo-bar"
  {
    FooBarWords();
    FooBarTexts();
    NormTwoWords("foo", "__", "bar");
  }

  lemma MakeNormUnderscores()
    ensures MakeNormName("@_/_") == Some(NormName("undefined", "undefined", "_", "_"))
  {
    LowerOfLower("@_/_");
    SplitOrgPackage("_", "_");
    assert "@" + "_" + "/" + "_" == "@_/_";
    NormOfNoAlnums("_");
  }

  lemma PyNameOfUndefined()
    ensures PyName(NormName("undefined", "undefined", "_", "_")) == "npym.undefined.undefined"
  {
    assert MakeSafePyName("undefined") == "undefined";
  }

  /** `@_/_` has an org and a package that normalise to nothing, so both read `undefined`. */
  lemma PyNameUnderscores()
    ensures MakeNormName("@_/_").Some? && PyName(MakeNormName("@_/_").value) == "npym.undefined.undefined"
  {
    MakeNormUnderscores();
    PyNameOfUndefined();
  }

  lemma NormDigits()
    ensures NormPyName("42") == "42"
  {
    assert IsSlug("42", '-');
    SlugFixpoint("42", '-');
  }

  /** `_make_norm_name` once the split of the lower-cased name is known. */
  lemma MakeNormOfSplit(name: string, org: string, pkg: string)
    requires SplitPackageName(Lower(name)) == Some((org, pkg))
    ensures MakeNormName(name) == Some(MkNormName(NormPyName(pkg), NormPyName(org), pkg, org))
  {
  }

  lemma LowerDigits()
    ensures Lower("@42/42") == "@42/42"
  {
    LowerOfLower("@42/42");
  }

  lemma MakeNormDigits()
    ensures MakeNormName("@42/42") == Some(NormName("42", "42", "42", "42"))
  {
    LowerDigits();
    SplitOrgPackage("42", "42");
    assert "@" + "42" + "/" + "42" == "@42/42";
    NormDigits();
    MakeNormOfSplit("@42/42", "42", "42");
  }

  lemma PyNameOfDigits()
    ensures PyName(NormName("42", "42", "42", "42")) == "npym.n42.n42"
  {
    assert MakeSafePyName("42") == "n42";
  }

  /** `@42/42`: both parts start with a digit and get an `n` in front. */
  lemma PyNameDigits()
    ensures MakeNormName("@42/42").Some? && PyName(MakeNormName("@42/42").value) == "npym.n42.n42"
  {
    MakeNormDigits();
    PyNameOfDigits();
  }
}

=== FILE: npm_names.dfy ===
/**
 * Turning npm package names into Python distribution and module names.
 * An npm name is `pkg` or `@org/pkg`. Each part becomes a slug with `-`
 * between its letters and digits, and the Python name is
 * `npym.<org>.<pkg>` or `npym.<pkg>`.
 */
module NpmNames {
  import opened Wrappers
  import opened Strings
  import opened Slugs

  /** The namespace every generated distribution lives under. */
  const Prefix: string := "npym"

  /** `_norm_py_name`: a slug with `-` as separator. */
  function NormPyName(name: string): (r: string)
    ensures IsSlug(r, '-')
  {
    Slug(name, '-')
  }

  /** Only lower-case letters, digits and single inner dashes remain. */
  lemma NormPyNameShape(name: string)
    ensures var r := NormPyName(name);
      && (forall k :: 0 <= k < |r| ==> IsLowerAlnum(r[k]) || r[k] == '-')
      && (r != [] ==> r[0] != '-' && r[|r| - 1] != '-')
      && (forall i, j :: 0 <= i < |r| && 0 <= j < |r| && j == i + 1 ==> !(r[i] == '-' && r[j] == '-'))
      && Alnums(r) == Alnums(Lower(name))
  {
    SlugAlnums(name, '-');
  }

  /** Normalising a normalised name changes nothing. */
  lemma NormPyNameIdempotent(name: string)
    ensures NormPyName(NormPyName(name)) == NormPyName(name)
  {
    SlugIdempotent(name, '-');
  }

  /** `searchable_py_name`: the normalised name with `_` and `.` turned into `-`. */
  function SearchablePyName(name: string): (r: string)
    ensures '_' !in r && '.' !in r
  {
    ReplaceChar(ReplaceChar(NormPyName(name), '_', '-'), '.', '-')
  }

  /** The replacements never fire: a normalised name holds neither `_` nor `.`. */
  lemma SearchableIsNorm(name: string)
    ensures SearchablePyName(name) == NormPyName(name)
  {
    var n := NormPyName(name);
    ReplaceAbsent(n, '_', '-');
    ReplaceAbsent(n, '.', '-');
  }

  lemma ReplaceAbsent(s: string, a: char, b: char)
    requires IsSlug(s, '-') && a != '-' && !IsLowerAlnum(a)
    ensures ReplaceChar(s, a, b) == s
  {
    assert forall k :: 0 <= k < |s| ==> s[k] != a;
  }

  /** `importable_py_name`: every `-` becomes `_`. */
  function ImportablePyName(name: string): (r: string)
    ensures |r| == |name|
    ensures '-' !in r
    ensures forall k :: 0 <= k < |name| ==> r[k] == (if name[k] == '-' then '_' else name[k])
  {
    ReplaceChar(name, '-', '_')
  }

  /** A normalised name made importable is a slug with `_` as separator. */
  lemma ImportableOfNorm(name: string)
    ensures IsSlug(ImportablePyName(NormPyName(name)), '_')
  {
    DashToUnderscore(NormPyName(name));
  }

  lemma DashToUnderscore(s: string)
    requires IsSlug(s, '-')
    ensures IsSlug(ReplaceChar(s, '-', '_'), '_')
  {
    var r := ReplaceChar(s, '-', '_');
    forall k | 0 <= k < |r|
      ensures (IsLowerAlnum(r[k]) || r[k] == '_') && (r[k] == '_' <==> s[k] == '-')
    {
    }
  }

  /** `make_safe_py_name`: an `n` in front of a name that starts with a digit. */
  function MakeSafePyName(name: string): (r: string)
    ensures name == [] ==> r == []
    ensures name != [] ==> r != [] && !IsDigit(r[0])
    ensures name != [] && IsDigit(name[0]) ==> r == "n" + name
    ensures name == [] || !IsDigit(name[0]) ==> r == name
  {
    if name == [] then name
    else if IsDigit(name[0]) then "n" + name
    else name
  }

  /**
   * A normalised name. Equality of names in the source compares only
   * `package` and `org`; `SameName` is that comparison.
   */
  datatype NormName = NormName(package: string, org: string, originalPackage: string, originalOrg: string)

  predicate SameName(a: NormName, b: NormName) {
    a.package == b.package && a.org == b.org
  }

  /**
   * Construction with the `__post_init__` repair: a package that
   * normalised to nothing becomes `undefined`, and so does an org that
   * normalised to nothing although one was written.
   */
  function MkNormName(package: string, org: string, originalPackage: string, originalOrg: string): (r: NormName)
    ensures r.package != []
    ensures r.package == (if package == [] then "undefined" else package)
    ensures r.org == (if originalOrg != [] && org == [] then "undefined" else org)
    ensures r.originalPackage == originalPackage && r.originalOrg == originalOrg
  {
    var org' := if originalOrg != [] && org == [] then "undefined" else org;
    var package' := if package == [] then "undefined" else package;
    NormName(package', org', originalPackage, originalOrg)
  }

  function SafeOrg(n: NormName): string { MakeSafePyName(n.org) }

  function SafePackage(n: NormName): string { MakeSafePyName(n.package) }

  /** `py_name`: the prefix, then the org when there is one, then the package. */
  function PyName(n: NormName): (r: string)
    ensures n.org != [] ==> r == Join([Prefix, SafeOrg(n), SafePackage(n)], ".")
    ensures n.org == [] ==> r == Join([Prefix, SafePackage(n)], ".")
  {
    if n.org != [] then Prefix + "." + SafeOrg(n) + "." + SafePackage(n)
    else Prefix + "." + SafePackage(n)
  }

  /**
   * `PACKAGE_RE` on a lower-cased name: `@org/pkg` when the name starts
   * with `@`, a `/` follows at least one other character, and something
   * follows the `/`; otherwise the whole name is the package. The
   * pattern matches nothing on the empty name.
   */
  function SplitPackageName(name: string): (r: Option<(string, string)>)
    ensures r.None? <==> name == []
    ensures r.Some? && r.value.0 != [] ==> name == "@" + r.value.0 + "/" + r.value.1 && '/' !in r.value.0 && r.value.1 != []
    ensures r.Some? && r.value.0 == [] ==> r.value.1 == name
  {
    if name == [] then None
    else if name[0] == '@' then
      match FirstSlash(name[1..])
      case Some(j) =>
        if j >= 1 && j + 2 < |name| then Some((name[1..][..j], name[1..][j + 1..]))
        else Some(([], name))
      case None => Some(([], name))
    else Some(([], name))
  }

  /** The position of the first `/`. */
  function FirstSlash(s: string): (r: Option<nat>)
    ensures r.Some? ==> r.value < |s| && s[r.value] == '/' && '/' !in s[..r.value]
    ensures r.None? ==> '/' !in s
  {
    if s == [] then None
    else if s[0] == '/' then Some(0)
    else match FirstSlash(s[1..])
      case Some(j) => (assert s[..j + 1] == [s[0]] + s[1..][..j]; Some(j + 1))
      case None => None
  }

  /** The first `/` of `org/pkg` is the one after `org` when `org` holds none. */
  lemma {:induction false} FirstSlashAfter(org: string, pkg: string)
    requires '/' !in org
    ensures FirstSlash(org + "/" + pkg) == Some(|org|)
    decreases |org|
  {
    var s := org + "/" + pkg;
    if org == [] {
      assert s[0] == '/';
    } else {
      assert s[0] == org[0] && org[0] != '/';
      assert s[1..] == org[1..] + "/" + pkg;
      FirstSlashAfter(org[1..], pkg);
    }
  }

  /**
   * Every name of the form `@org/pkg`, with a non-empty `org` free of `/`
   * and a non-empty `pkg`, splits into that org and that package.
   */
  lemma SplitOrgPackage(org: string, pkg: string)
    requires org != [] && '/' !in org && pkg != []
    ensures SplitPackageName("@" + org + "/" + pkg) == Some((org, pkg))
  {
    var name := "@" + org + "/" + pkg;
    assert name[0] == '@';
    assert name[1..] == org + "/" + pkg;
    FirstSlashAfter(org, pkg);
    assert name[1..][..|org|] == org;
    assert name[1..][|org| + 1..] == pkg;
  }

  /** `Npm._make_norm_name`: lower-case, split off the org, normalise both parts. */
  function MakeNormName(name: string): (r: Option<NormName>)
    ensures r.None? <==> name == []
  {
    match SplitPackageName(Lower(name))
    case None => None
    case Some((org, package)) =>
      Some(MkNormName(NormPyName(package), NormPyName(org), package, org))
  }

  /** A part of a normalised name: a slug, or the `undefined` stand-in. */
  predicate IsNamePart(part: string) {
    part == "undefined" || IsSlug(part, '-')
  }

  /**
   * The Python name is a dotted name of two or three non-empty parts, the
   * first being the prefix, with no part starting with a digit.
   */
  lemma PyNameParts(n: NormName)
    requires n.package != [] && IsNamePart(n.package) && IsNamePart(n.org)
    ensures var parts := Split(PyName(n), '.');
      && (|parts| == 2 || |parts| == 3)
      && parts[0] == Prefix
      && (forall k :: 0 <= k < |parts| ==> parts[k] != [] && !IsDigit(parts[k][0]))
      && (|parts| == 3 <==> n.org != [])
  {
    NoDot(n.package);
    NoDot(n.org);
    assert Prefix == "npym";
    if n.org != [] {
      var parts := [Prefix, SafeOrg(n), SafePackage(n)];
      SplitJoin(parts, '.');
      assert Split(PyName(n), '.') == parts;
    } else {
      var parts := [Prefix, SafePackage(n)];
      SplitJoin(parts, '.');
      assert Split(PyName(n), '.') == parts;
    }
  }

  /** Every npm name gets such a Python name. */
  lemma PyNameOfNpmName(name: string)
    requires name != []
    ensures var n := MakeNormName(name).value;
      var parts := Split(PyName(n), '.');
      && (|parts| == 2 || |parts| == 3)
      && parts[0] == Prefix
      && (forall k :: 0 <= k < |parts| ==> parts[k] != [] && !IsDigit(parts[k][0]))
  {
    PyNameParts(MakeNormName(name).value);
  }

  /** Slugs and `undefined` hold no dot, and neither does their safe form. */
  lemma NoDot(part: string)
    requires IsNamePart(part)
    ensures '.' !in MakeSafePyName(part)
  {
    if part != "undefined" {
      assert forall k :: 0 <= k < |part| ==> part[k] != '.';
    }
  }
}

=== FILE: package_translator.dfy ===
/**
 * The files a `PackageTranslator` writes into a wheel, as lines of text:
 * the requirement map of METADATA, the entry points guessed from the
 * `bin` field of `package.json`, `__main__.py`, `entry_points.txt`,
 * RECORD and METADATA. Where the files go on disk and how the wheel is
 * zipped stay outside the model.
 */
module PackageTranslator {
  import opened Wrappers
  import opened Strings
  import opened Slugs
  import opened Dicts
  import opened Translator
  import PyConvert
  import Base64Url

  // ---------------------------------------------------------------------------
  // _generate_dependencies_req

  /** The runtime every translated package requires. */
  const Runtime: string := "npym"

  /** The specifier that admits every version. */
  const AnyVersion: string := ">=0.0.0"

  /** `sem_range_to_py_range`, with a range that fails to convert admitting every version. */
  function ConvertSpec(spec: string): string {
    match PyConvert.SemRangeToPyRange(spec)
    case Ok(text) => text
    case Err(_) => AnyVersion
  }

  predicate Injective(nameMap: map<string, string>) {
    forall a, b :: a in nameMap && b in nameMap && nameMap[a] == nameMap[b] ==> a == b
  }

  /** The mapped names with their converted specifiers, in dependency order; unmapped names dropped. */
  function Requirements(deps: Dict<string, string>, nameMap: map<string, string>, convert: string -> string): (r: Dict<string, string>)
    ensures |r| <= |deps|
  {
    if deps == [] then []
    else if deps[0].0 in nameMap then [(nameMap[deps[0].0], convert(deps[0].1))] + Requirements(deps[1..], nameMap, convert)
    else Requirements(deps[1..], nameMap, convert)
  }

  /** A requirement is named after some mapped dependency, and every mapped dependency names one. */
  lemma {:induction false} RequirementsKeys(deps: Dict<string, string>, nameMap: map<string, string>, convert: string -> string, k: string)
    ensures k in Keys(Requirements(deps, nameMap, convert)) <==>
      exists i :: 0 <= i < |deps| && deps[i].0 in nameMap && nameMap[deps[i].0] == k
    decreases |deps|
  {
    if deps != [] {
      RequirementsKeys(deps[1..], nameMap, convert, k);
      var tail := Requirements(deps[1..], nameMap, convert);
      if deps[0].0 in nameMap {
        assert Keys([(nameMap[deps[0].0], convert(deps[0].1))] + tail) == [nameMap[deps[0].0]] + Keys(tail);
      }
      if exists i :: 0 <= i < |deps| && deps[i].0 in nameMap && nameMap[deps[i].0] == k {
        var i :| 0 <= i < |deps| && deps[i].0 in nameMap && nameMap[deps[i].0] == k;
        if i > 0 {
          assert deps[1..][i - 1] == deps[i];
        }
      }
      if exists i :: 0 <= i < |deps[1..]| && deps[1..][i].0 in nameMap && nameMap[deps[1..][i].0] == k {
        var i :| 0 <= i < |deps[1..]| && deps[1..][i].0 in nameMap && nameMap[deps[1..][i].0] == k;
        assert deps[i + 1] == deps[1..][i];
      }
    }
  }

  /** With an injective name map, the requirement of a dependency carries that dependency's specifier. */
  lemma {:induction false} RequirementsLast(deps: Dict<string, string>, nameMap: map<string, string>, convert: string -> string, n: string)
    requires DistinctKeys(deps) && Injective(nameMap)
    requires n in nameMap && n in Keys(deps)
    ensures LastFor(Requirements(deps, nameMap, convert), nameMap[n]) == Some(convert(Lookup(deps, n).value))
    decreases |deps|
  {
    var p := nameMap[n];
    var tail := Requirements(deps[1..], nameMap, convert);
    if deps[0].0 == n {
      assert p !in Keys(tail) by {
        RequirementsKeys(deps[1..], nameMap, convert, p);
      }
      var reqs := [(p, convert(deps[0].1))] + tail;
      assert reqs[1..] == tail;
    } else {
      assert n in Keys(deps[1..]) by {
        assert Keys(deps) == [deps[0].0] + Keys(deps[1..]);
      }
      RequirementsLast(deps[1..], nameMap, convert, n);
      if deps[0].0 in nameMap {
        var reqs := [(nameMap[deps[0].0], convert(deps[0].1))] + tail;
        assert reqs[1..] == tail;
      }
    }
  }

  /**
   * `_generate_dependencies_req`: dependencies and peer dependencies
   * merged, peers winning; each one the name map knows becomes a
   * requirement on its Python name, after the runtime requirement.
   */
  function DependenciesReq(deps: Dict<string, string>, peers: Dict<string, string>, nameMap: map<string, string>): (r: Dict<string, string>)
    ensures DistinctKeys(r)
    ensures r != [] && r[0].0 == Runtime
  {
    var merged := PutAll(PutAll([], deps), peers);
    PutAllKeepsHead([(Runtime, AnyVersion)], Requirements(merged, nameMap, ConvertSpec));
    PutAll([(Runtime, AnyVersion)], Requirements(merged, nameMap, ConvertSpec))
  }

  lemma {:induction false} PutAllKeepsHead(d: Dict<string, string>, kvs: Dict<string, string>)
    requires d != []
    ensures var r := PutAll(d, kvs); r != [] && r[0].0 == d[0].0
    decreases |kvs|
  {
    if kvs != [] {
      var d' := Put(d, kvs[0].0, kvs[0].1);
      assert d' != [] && d'[0].0 == d[0].0 by {
        if kvs[0].0 in Keys(d) {
          assert Keys(d')[0] == Keys(d)[0];
        }
      }
      PutAllKeepsHead(d', kvs[1..]);
    }
  }

  /** The merged dependency map: a peer dependency overrides a dependency of the same name. */
  lemma MergedLookup(deps: Dict<string, string>, peers: Dict<string, string>, n: string)
    ensures Lookup(PutAll(PutAll([], deps), peers), n) ==
      if n in Keys(peers) then LastFor(peers, n) else LastFor(deps, n)
  {
    LookupPutAll(PutAll([], deps), peers, n);
    LookupPutAll([], deps, n);
  }

  /**
   * The requirement keys are the runtime and the Python names of the
   * mapped dependencies and peer dependencies; unmapped names are dropped.
   */
  lemma DependenciesReqKeys(deps: Dict<string, string>, peers: Dict<string, string>, nameMap: map<string, string>, k: string)
    ensures k in Keys(DependenciesReq(deps, peers, nameMap)) <==>
      k == Runtime || exists n :: n in nameMap && nameMap[n] == k && (n in Keys(deps) || n in Keys(peers))
  {
    var merged := PutAll(PutAll([], deps), peers);
    var reqs := Requirements(merged, nameMap, ConvertSpec);
    KeysPutAll([(Runtime, AnyVersion)], reqs, k);
    assert Keys([(Runtime, AnyVersion)]) == [Runtime];
    RequirementsKeys(merged, nameMap, ConvertSpec, k);
    MappedKey(merged, nameMap, k);
    forall n ensures n in Keys(merged) <==> n in Keys(deps) || n in Keys(peers) {
      MergedKeys(deps, peers, n);
    }
  }

  lemma MappedKey(m: Dict<string, string>, nameMap: map<string, string>, k: string)
    ensures (exists i :: 0 <= i < |m| && m[i].0 in nameMap && nameMap[m[i].0] == k) <==>
      exists n :: n in nameMap && nameMap[n] == k && n in Keys(m)
  {
    if exists i :: 0 <= i < |m| && m[i].0 in nameMap && nameMap[m[i].0] == k {
      var i :| 0 <= i < |m| && m[i].0 in nameMap && nameMap[m[i].0] == k;
      assert Keys(m)[i] == m[i].0;
    }
    if exists n :: n in nameMap && nameMap[n] == k && n in Keys(m) {
      var n :| n in nameMap && nameMap[n] == k && n in Keys(m);
      var i :| 0 <= i < |m| && Keys(m)[i] == n;
      assert m[i].0 == n;
    }
  }

  lemma MergedKeys(deps: Dict<string, string>, peers: Dict<string, string>, n: string)
    ensures n in Keys(PutAll(PutAll([], deps), peers)) <==> n in Keys(deps) || n in Keys(peers)
  {
    KeysPutAll(PutAll([], deps), peers, n);
    KeysPutAll([], deps, n);
  }

  /**
   * With an injective name map, the requirement on a mapped dependency's
   * Python name is its converted specifier, the peer one when it is both.
   */
  lemma DependenciesReqValue(deps: Dict<string, string>, peers: Dict<string, string>, nameMap: map<string, string>, n: string)
    requires Injective(nameMap)
    requires n in nameMap && (n in Keys(deps) || n in Keys(peers))
    ensures Lookup(DependenciesReq(deps, peers, nameMap), nameMap[n]) ==
      Some(ConvertSpec(if n in Keys(peers) then LastFor(peers, n).value else LastFor(deps, n).value))
  {
    var merged := PutAll(PutAll([], deps), peers);
    var reqs := Requirements(merged, nameMap, ConvertSpec);
    MergedKeys(deps, peers, n);
    MergedLookup(deps, peers, n);
    var i :| 0 <= i < |merged| && Keys(merged)[i] == n;
    RequirementsKeys(merged, nameMap, ConvertSpec, nameMap[n]);
    assert merged[i].0 == n;
    RequirementsLast(merged, nameMap, ConvertSpec, n);
    LookupPutAll([(Runtime, AnyVersion)], reqs, nameMap[n]);
  }

  /** The runtime requirement admits every version unless some dependency maps onto its name. */
  lemma DependenciesReqRuntime(deps: Dict<string, string>, peers: Dict<string, string>, nameMap: map<string, string>)
    requires forall n :: n in nameMap ==> nameMap[n] != Runtime
    ensures Lookup(DependenciesReq(deps, peers, nameMap), Runtime) == Some(AnyVersion)
  {
    var merged := PutAll(PutAll([], deps), peers);
    var reqs := Requirements(merged, nameMap, ConvertSpec);
    RequirementsKeys(merged, nameMap, ConvertSpec, Runtime);
    LookupPutAll([(Runtime, AnyVersion)], reqs, Runtime);
  }

  // ---------------------------------------------------------------------------
  // _guess_entry_points

  /** The last component of a path that is neither empty nor `.`, or nothing. */
  function LastComponent(parts: seq<string>): string {
    if parts == [] then []
    else
      var last := parts[|parts| - 1];
      if last == [] || last == "." then LastComponent(parts[..|parts| - 1]) else last
  }

  /** `Path(p).name`. */
  function Basename(p: string): (r: string)
    ensures '/' !in r
  {
    var parts := Split(p, '/');
    SplitNoSep(p, '/');
    LastComponentIn(parts);
    LastComponent(parts)
  }

  lemma {:induction false} LastComponentIn(parts: seq<string>)
    ensures LastComponent(parts) == [] || LastComponent(parts) in parts
    decreases |parts|
  {
    if parts != [] {
      var init := parts[..|parts| - 1];
      LastComponentIn(init);
      if LastComponent(init) in init {
        var i :| 0 <= i < |init| && init[i] == LastComponent(init);
        assert parts[i] == init[i];
      }
    }
  }

  /** The name of a file in a directory is the file's own name. */
  lemma BasenameOfPath(dir: string, name: string)
    requires '/' !in name && name != [] && name != "."
    ensures Basename(dir + "/" + name) == name
  {
    SplitConcat(dir, '/', name);
    SplitPiece(name, '/');
    var parts := Split(dir, '/') + [name];
    assert parts[|parts| - 1] == name;
  }

  /** A plain name is its own basename. */
  lemma BasenameOfName(name: string)
    requires '/' !in name && name != [] && name != "."
    ensures Basename(name) == name
  {
    SplitPiece(name, '/');
  }

  /** The `bin` field of `package.json`: one script path, or a map from script names to paths. */
  datatype Bin = BinPath(path: string) | BinMap(scripts: Dict<string, string>)

  /** A missing `bin` field reads as the empty map. */
  const NoBin: Bin := BinMap([])

  function BaseKeys(scripts: Dict<string, string>): (r: Dict<string, string>)
    ensures |r| == |scripts|
    ensures forall i :: 0 <= i < |r| ==> r[i] == (Basename(scripts[i].0), scripts[i].1)
  {
    seq(|scripts|, i requires 0 <= i < |scripts| => (Basename(scripts[i].0), scripts[i].1))
  }

  /** The scripts keyed by basename: the package's own basename for a single path. */
  function Scripts(jsName: string, bin: Bin): (r: Dict<string, string>)
    ensures DistinctKeys(r)
  {
    match bin
    case BinPath(path) => [(Basename(jsName), path)]
    case BinMap(scripts) => PutAll([], BaseKeys(scripts))
  }

  function EntryPairs(es: seq<DedupEntry<string>>): (r: Dict<string, string>)
    ensures |r| == |es|
    ensures forall i :: 0 <= i < |r| ==> r[i] == (es[i].transformed, es[i].value)
  {
    seq(|es|, i requires 0 <= i < |es| => (es[i].transformed, es[i].value))
  }

  datatype EntryPoints = EntryPoints(scripts: seq<DedupEntry<string>>, entrypoints: Dict<string, string>)

  /** The deduplicated scripts of a script map, and the entry points keyed by their Python names. */
  function EntryPointsOf(scripts: Dict<string, string>): (r: EntryPoints)
    ensures |r.scripts| == |scripts|
  {
    var es := DedupFrom({}, scripts);
    EntryPoints(es, PutAll([], EntryPairs(es)))
  }

  /** `_guess_entry_points`. */
  function GuessEntryPoints(jsName: string, bin: Bin): (r: EntryPoints)
    ensures |r.scripts| == |Scripts(jsName, bin)|
  {
    EntryPointsOf(Scripts(jsName, bin))
  }

  /**
   * There is one entry point per script, keyed by the script's distinct
   * Python name, in script order, and each script keeps its name and path.
   */
  lemma EntryPointsShape(scripts: Dict<string, string>)
    ensures var r := EntryPointsOf(scripts);
      && |r.entrypoints| == |r.scripts| == |scripts|
      && DistinctKeys(r.entrypoints)
      && (forall i :: 0 <= i < |r.scripts| ==>
            && r.entrypoints[i] == (r.scripts[i].transformed, r.scripts[i].value)
            && r.scripts[i].original == scripts[i].0 && r.scripts[i].value == scripts[i].1)
  {
    var es := DedupFrom({}, scripts);
    DedupWithKeeps(PickKey, {}, scripts);
    PickKeyFresh();
    DedupWithFresh(PickKey, {}, scripts);
    EntryPairsFresh(es);
  }

  /** Pairs whose keys are distinct Python names are assigned without overwriting one another. */
  lemma EntryPairsFresh(es: seq<DedupEntry<string>>)
    requires DistinctTransformed(es)
    ensures PutAll([], EntryPairs(es)) == EntryPairs(es)
    ensures DistinctKeys(EntryPairs(es))
  {
    var pairs := EntryPairs(es);
    assert [] + pairs == pairs;
    PutAllFresh([], pairs);
  }

  /** The same for the scripts of a `bin` field. */
  lemma GuessEntryPointsShape(jsName: string, bin: Bin)
    ensures var r := GuessEntryPoints(jsName, bin);
      var scripts := Scripts(jsName, bin);
      && |r.entrypoints| == |r.scripts| == |scripts|
      && DistinctKeys(r.entrypoints)
      && (forall i :: 0 <= i < |r.scripts| ==>
            && r.entrypoints[i] == (r.scripts[i].transformed, r.scripts[i].value)
            && r.scripts[i].original == scripts[i].0 && r.scripts[i].value == scripts[i].1)
  {
    EntryPointsShape(Scripts(jsName, bin));
  }

  /**
   * A single script path yields one script named after the package's
   * basename, whose entry point is that name as a `_` slug.
   */
  lemma GuessEntryPointsSingle(jsName: string, path: string)
    ensures var r := GuessEntryPoints(jsName, BinPath(path));
      var key := DedupPythonKey(Basename(jsName), 0);
      && r.scripts == [DedupEntry(Basename(jsName), key, path)]
      && r.entrypoints == [(key, path)]
  {
    var name := Basename(jsName);
    var key := DedupPythonKey(name, 0);
    var es := DedupFrom({}, [(name, path)]);
    assert es == [DedupEntry(name, key, path)] by {
      DedupWithSingle(PickKey, {}, name, path);
      PickKeyEmpty(name);
    }
    assert EntryPairs(es) == [(key, path)];
    assert PutAll([], [(key, path)]) == [(key, path)] by {
      assert [] + [(key, path)] == [(key, path)];
      PutAllFresh([], [(key, path)]);
    }
  }

  /** Entry-point names are made of lower-case letters, digits and `_`. */
  lemma EntryPointNames(jsName: string, bin: Bin)
    ensures var r := GuessEntryPoints(jsName, bin);
      forall i :: 0 <= i < |r.scripts| ==> IsKeyText(r.scripts[i].transformed)
  {
    var scripts := Scripts(jsName, bin);
    var r := GuessEntryPoints(jsName, bin);
    forall i | 0 <= i < |r.scripts| ensures IsKeyText(r.scripts[i].transformed) {
      DedupWithPicks(PickKey, {}, scripts, i);
      PickKeyText({} + Transformed(r.scripts[..i]), scripts[i].0);
    }
  }

  predicate IsKeyText(s: string) {
    forall k :: 0 <= k < |s| ==> IsLowerAlnum(s[k]) || s[k] == '_'
  }

  lemma PickKeyText(seen: set<string>, k: string)
    ensures IsKeyText(PickKey(seen, k))
  {
    if DedupPythonKey(k, 0) in seen {
      DedupPythonKeyShape(k, FreeIndex(seen, k, 1));
    } else {
      DedupPythonKeyShape(k, 0);
    }
  }

  // ---------------------------------------------------------------------------
  // __main__.py and entry_points.txt

  /** `_write_module_main`: the lines of `__main__.py`, written only for exactly one entry point. */
  function ModuleMain(pyName: string, entrypoints: Dict<string, string>): (r: Option<seq<string>>)
    ensures r.Some? <==> |entrypoints| == 1
  {
    if |entrypoints| != 1 then None
    else Some(["from " + pyName + " import entrypoints", "entrypoints." + entrypoints[0].0 + "()"])
  }

  /** A package with a single script path can be run with `python -m`, calling its one entry point. */
  lemma SingleBinRunsAsModule(pyName: string, jsName: string, path: string)
    ensures ModuleMain(pyName, GuessEntryPoints(jsName, BinPath(path)).entrypoints) ==
      Some(["from " + pyName + " import entrypoints", "entrypoints." + DedupPythonKey(Basename(jsName), 0) + "()"])
  {
    GuessEntryPointsSingle(jsName, path);
  }

  /** A map of two or more scripts with distinct basenames gets no `__main__.py`. */
  lemma ManyBinsNoModule(pyName: string, jsName: string, scripts: Dict<string, string>)
    requires |scripts| >= 2
    requires forall i, j :: 0 <= i < j < |scripts| ==> Basename(scripts[i].0) != Basename(scripts[j].0)
    ensures ModuleMain(pyName, GuessEntryPoints(jsName, BinMap(scripts)).entrypoints) == None
  {
    var named := Scripts(jsName, BinMap(scripts));
    BaseKeysFresh(scripts);
    EntryPointsCount(named);
  }

  /** Scripts whose basenames differ are all kept when keyed by basename. */
  lemma BaseKeysFresh(scripts: Dict<string, string>)
    requires forall i, j :: 0 <= i < j < |scripts| ==> Basename(scripts[i].0) != Basename(scripts[j].0)
    ensures PutAll([], BaseKeys(scripts)) == BaseKeys(scripts)
  {
    var base := BaseKeys(scripts);
    assert [] + base == base;
    assert DistinctKeys(base) by {
      forall i, j | 0 <= i < j < |base| ensures base[i].0 != base[j].0 {
        assert base[i] == (Basename(scripts[i].0), scripts[i].1);
        assert base[j] == (Basename(scripts[j].0), scripts[j].1);
      }
    }
    PutAllFresh([], base);
  }

  lemma EntryPointsCount(scripts: Dict<string, string>)
    ensures |EntryPointsOf(scripts).entrypoints| == |scripts|
  {
    EntryPointsShape(scripts);
  }

  /** One line of `entry_points.txt`: the script name, then the function that runs it. */
  function ScriptLine(pyName: string, e: DedupEntry<string>): string {
    e.original + "=" + pyName + ":entrypoints." + e.transformed
  }

  /** `_write_entrypoints_txt`: a `console_scripts` section, written only when there are scripts. */
  function EntryPointsTxt(pyName: string, scripts: seq<DedupEntry<string>>): (r: Option<seq<string>>)
    ensures r.Some? <==> scripts != []
    ensures r.Some? ==> |r.value| == |scripts| + 1 && r.value[0] == "[console_scripts]"
    ensures r.Some? ==> forall i :: 0 <= i < |scripts| ==> r.value[i + 1] == ScriptLine(pyName, scripts[i])
  {
    if scripts == [] then None
    else Some(["[console_scripts]"] + seq(|scripts|, i requires 0 <= i < |scripts| => ScriptLine(pyName, scripts[i])))
  }

  /**
   * Each script line reads back, at its `=`, as the script name and the
   * entry point that runs it, when neither the script name nor the
   * Python name holds an `=`.
   */
  lemma ScriptLineSplit(pyName: string, e: DedupEntry<string>)
    requires '=' !in e.original && '=' !in pyName && IsKeyText(e.transformed)
    ensures Split(ScriptLine(pyName, e), '=') == [e.original, pyName + ":entrypoints." + e.transformed]
  {
    var target := pyName + ":entrypoints." + e.transformed;
    assert '=' !in target by {
      assert forall k :: 0 <= k < |e.transformed| ==> e.transformed[k] != '=';
      assert target == pyName + (":entrypoints." + e.transformed);
    }
    assert ScriptLine(pyName, e) == e.original + "=" + target;
    SplitAfterPiece(e.original, '=', target);
    SplitPiece(target, '=');
  }

  // ---------------------------------------------------------------------------
  // RECORD

  /** A RECORD line: the path, its `sha256=` digest in unpadded base64url, its size. */
  function RecordLine(path: string, digest: seq<Base64Url.byte>, size: nat): string {
    path + "," + "sha256=" + Base64Url.Encode(digest) + "," + NatToString(size)
  }

  /** The line RECORD holds for itself: no digest and no size. */
  function RecordSelfLine(distInfo: string): string {
    distInfo + "/RECORD,,"
  }

  /** `_write_dist_info_records`: one line per file, then the line for RECORD itself. */
  function RecordLines(distInfo: string, files: seq<(string, seq<Base64Url.byte>, nat)>): (r: seq<string>)
    ensures |r| == |files| + 1
    ensures r[|files|] == RecordSelfLine(distInfo)
    ensures forall i :: 0 <= i < |files| ==> r[i] == RecordLine(files[i].0, files[i].1, files[i].2)
  {
    seq(|files|, i requires 0 <= i < |files| => RecordLine(files[i].0, files[i].1, files[i].2)) + [RecordSelfLine(distInfo)]
  }

  /** How an installer reads a RECORD line back. */
  function ParseRecordLine(line: string): Option<(string, seq<Base64Url.byte>, nat)> {
    var fields := Split(line, ',');
    if |fields| != 3 then None
    else if |fields[1]| < 7 || fields[1][..7] != "sha256=" then None
    else if !AllDigits(fields[2]) then None
    else match Base64Url.Decode(fields[1][7..])
      case None => None
      case Some(digest) => Some((fields[0], digest, ParseNat(fields[2])))
  }

  /** A RECORD line reads back as the path, digest and size it was written from. */
  lemma RecordRoundTrip(path: string, digest: seq<Base64Url.byte>, size: nat)
    requires ',' !in path
    ensures ParseRecordLine(RecordLine(path, digest, size)) == Some((path, digest, size))
  {
    var hash := "sha256=" + Base64Url.Encode(digest);
    var count := NatToString(size);
    HashNoComma(digest);
    assert ',' !in count;
    var parts := [path, hash, count];
    assert RecordLine(path, digest, size) == Join(parts, ",") by {
      assert Join(parts[1..], ",") == hash + "," + count;
      assert "sha256=" + Base64Url.Encode(digest) == hash;
    }
    SplitJoin(parts, ',');
    assert hash[..7] == "sha256=" && hash[7..] == Base64Url.Encode(digest);
    Base64Url.DecodeEncode(digest);
    ParseNatToString(size);
  }

  lemma HashNoComma(digest: seq<Base64Url.byte>)
    ensures ',' !in "sha256=" + Base64Url.Encode(digest)
  {
    var e := Base64Url.Encode(digest);
    Base64Url.EncodeIsBare(digest);
    forall k | 0 <= k < |e| ensures e[k] != ',' {
      assert Base64Url.InAlphabet(e[k]);
    }
    var hash := "sha256=" + e;
    assert forall k :: 0 <= k < |hash| ==> hash[k] != ',' by {
      forall k | 0 <= k < |hash| ensures hash[k] != ',' {
        if k >= 7 {
          assert hash[k] == e[k - 7];
        }
      }
    }
  }

  /** The line for RECORD itself reads as a path with empty digest and size. */
  lemma RecordSelfSplit(distInfo: string)
    requires ',' !in distInfo
    ensures Split(RecordSelfLine(distInfo), ',') == [distInfo + "/RECORD", "", ""]
  {
    var path := distInfo + "/RECORD";
    assert ',' !in path by {
      assert forall k :: 0 <= k < |path| ==> path[k] != ',';
    }
    var parts := [path, "", ""];
    assert RecordSelfLine(distInfo) == Join(parts, ",");
    SplitJoin(parts, ',');
  }

  // ---------------------------------------------------------------------------
  // METADATA

  /** `author` is a plain string or a record with a name and an email. */
  datatype Author = AuthorText(text: string) | AuthorRecord(name: string, email: string)

  /** `bugs` is a plain URL or a record with a URL. */
  datatype Bugs = BugsText(text: string) | BugsRecord(url: string)

  /**
   * `repository` is read as a record with a URL; a plain string has no
   * `.get` and stops the translation.
   */
  datatype Repository = RepositoryText(text: string) | RepositoryRecord(url: string)

  /**
   * `keywords` is a list of words; a plain string is iterated character by
   * character, so each character becomes a keyword.
   */
  datatype Keywords = KeywordList(words: seq<string>) | KeywordText(text: string)

  /** A maintainer record; a missing field reads as empty. */
  datatype Maintainer = Maintainer(name: string, email: string)

  /** The fields of an npm version's metadata that METADATA uses; a missing one reads as empty. */
  datatype VersionInfo = VersionInfo(
    description: string, homepage: string, repository: Repository, author: Author,
    keywords: Keywords, maintainers: seq<Maintainer>, bugs: Bugs, license: string)

  /** The URL of a repository record; None where the source's `.get` fails. */
  function RepositoryUrl(r: Repository): (u: Option<string>)
    ensures u.None? <==> r.RepositoryText?
    ensures r.RepositoryRecord? ==> u == Some(r.url)
  {
    match r
    case RepositoryText(_) => None
    case RepositoryRecord(url) => Some(url)
  }

  /** The keywords as the source iterates them: a string gives one keyword per character. */
  function KeywordItems(k: Keywords): (r: seq<string>)
    ensures k.KeywordList? ==> r == k.words
    ensures k.KeywordText? ==> |r| == |k.text| && forall i :: 0 <= i < |r| ==> r[i] == [k.text[i]]
  {
    match k
    case KeywordList(words) => words
    case KeywordText(text) => seq(|text|, i requires 0 <= i < |text| => [text[i]])
  }

  function AuthorName(a: Author): string {
    match a
    case AuthorText(t) => t
    case AuthorRecord(n, _) => n
  }

  function AuthorEmail(a: Author): string {
    match a
    case AuthorText(_) => []
    case AuthorRecord(_, e) => e
  }

  function BugTracker(b: Bugs): string {
    match b
    case BugsText(t) => t
    case BugsRecord(u) => u
  }

  /** How many elements of `s` satisfy `keep`. */
  function CountKept<T>(s: seq<T>, keep: T -> bool): nat {
    if s == [] then 0 else (if keep(s[0]) then 1 else 0) + CountKept(s[1..], keep)
  }

  /** Counting over a prefix that holds the head: the head, then a prefix of the tail. */
  lemma RankStep<T>(s: seq<T>, keep: T -> bool, k: nat)
    requires 1 <= k < |s|
    ensures CountKept(s[..k], keep) == (if keep(s[0]) then 1 else 0) + CountKept(s[1..][..k - 1], keep)
    ensures s[1..][k - 1] == s[k]
  {
    assert s[..k][1..] == s[1..][..k - 1];
  }

  /** `[f(x) for x in s if keep(x)]`. */
  function KeepMap<T, U>(s: seq<T>, keep: T -> bool, f: T -> U): (r: seq<U>)
    ensures |r| == CountKept(s, keep)
  {
    if s == [] then [] else (if keep(s[0]) then [f(s[0])] else []) + KeepMap(s[1..], keep, f)
  }

  /** The k-th kept element's image is the k-th entry. */
  lemma {:induction false} KeepMapInOrder<T, U>(s: seq<T>, keep: T -> bool, f: T -> U)
    ensures var r := KeepMap(s, keep, f);
      forall k :: 0 <= k < |s| && keep(s[k]) ==>
        CountKept(s[..k], keep) < |r| && r[CountKept(s[..k], keep)] == f(s[k])
    decreases |s|
  {
    if s != [] {
      KeepMapInOrder(s[1..], keep, f);
      var head: seq<U> := if keep(s[0]) then [f(s[0])] else [];
      var tail := KeepMap(s[1..], keep, f);
      var r := KeepMap(s, keep, f);
      assert r == head + tail;
      forall k | 0 <= k < |s| && keep(s[k])
        ensures CountKept(s[..k], keep) < |r| && r[CountKept(s[..k], keep)] == f(s[k])
      {
        if k == 0 {
          assert s[..0] == [];
        } else {
          RankStep(s, keep, k);
          var c := CountKept(s[1..][..k - 1], keep);
          assert c < |tail| && tail[c] == f(s[k]);
          assert r[|head| + c] == tail[c];
        }
      }
    }
  }

  predicate HasName(m: Maintainer) {
    m.name != []
  }

  predicate HasEmail(m: Maintainer) {
    m.email != []
  }

  /** The names of the maintainers that have one, sanitised. */
  function MaintainerNames(ms: seq<Maintainer>): (r: seq<string>)
    ensures |r| == CountKept(ms, HasName)
    ensures forall i :: 0 <= i < |r| ==> AllPrintable(r[i])
  {
    if ms == [] then []
    else if ms[0].name == [] then MaintainerNames(ms[1..])
    else [Sanitize(ms[0].name)] + MaintainerNames(ms[1..])
  }

  function SanitizedName(m: Maintainer): string {
    Sanitize(m.name)
  }

  function SanitizedEmail(m: Maintainer): string {
    Sanitize(m.email)
  }

  lemma {:induction false} NamesAreKeepMap(ms: seq<Maintainer>)
    ensures MaintainerNames(ms) == KeepMap(ms, HasName, SanitizedName)
    decreases |ms|
  {
    if ms != [] {
      NamesAreKeepMap(ms[1..]);
    }
  }

  lemma {:induction false} EmailsAreKeepMap(ms: seq<Maintainer>)
    ensures MaintainerEmails(ms) == KeepMap(ms, HasEmail, SanitizedEmail)
    decreases |ms|
  {
    if ms != [] {
      EmailsAreKeepMap(ms[1..]);
    }
  }

  /**
   * One entry per named maintainer, in order: the k-th named maintainer's
   * sanitised name is the k-th entry.
   */
  lemma MaintainerNamesInOrder(ms: seq<Maintainer>)
    ensures var r := MaintainerNames(ms);
      forall k :: 0 <= k < |ms| && HasName(ms[k]) ==>
        CountKept(ms[..k], HasName) < |r| && r[CountKept(ms[..k], HasName)] == Sanitize(ms[k].name)
  {
    NamesAreKeepMap(ms);
    KeepMapInOrder(ms, HasName, SanitizedName);
  }

  /** The emails of the maintainers that have one, sanitised. */
  function MaintainerEmails(ms: seq<Maintainer>): (r: seq<string>)
    ensures |r| == CountKept(ms, HasEmail)
    ensures forall i :: 0 <= i < |r| ==> AllPrintable(r[i])
  {
    if ms == [] then []
    else if ms[0].email == [] then MaintainerEmails(ms[1..])
    else [Sanitize(ms[0].email)] + MaintainerEmails(ms[1..])
  }

  /**
   * One entry per maintainer with an email, in order: the k-th such
   * maintainer's sanitised email is the k-th entry.
   */
  lemma MaintainerEmailsInOrder(ms: seq<Maintainer>)
    ensures var r := MaintainerEmails(ms);
      forall k :: 0 <= k < |ms| && HasEmail(ms[k]) ==>
        CountKept(ms[..k], HasEmail) < |r| && r[CountKept(ms[..k], HasEmail)] == Sanitize(ms[k].email)
  {
    EmailsAreKeepMap(ms);
    KeepMapInOrder(ms, HasEmail, SanitizedEmail);
  }

  function SanitizeAll(ss: seq<string>): (r: seq<string>)
    ensures |r| == |ss|
    ensures forall i :: 0 <= i < |r| ==> r[i] == Sanitize(ss[i])
  {
    seq(|ss|, i requires 0 <= i < |ss| => Sanitize(ss[i]))
  }

  /** An optional header: its name, its value, and whether it is written. */
  datatype HeaderField = HeaderField(present: bool, name: string, value: string)

  predicate IsPresent(f: HeaderField) {
    f.present
  }

  /** The header lines that are present, in order. */
  function RenderHeaders(fields: seq<HeaderField>): (r: seq<string>)
    ensures |r| == CountKept(fields, IsPresent)
  {
    if fields == [] then []
    else if fields[0].present then [fields[0].name + fields[0].value] + RenderHeaders(fields[1..])
    else RenderHeaders(fields[1..])
  }

  function HeaderLine(f: HeaderField): string {
    f.name + f.value
  }

  lemma {:induction false} HeadersAreKeepMap(fields: seq<HeaderField>)
    ensures RenderHeaders(fields) == KeepMap(fields, IsPresent, HeaderLine)
    decreases |fields|
  {
    if fields != [] {
      HeadersAreKeepMap(fields[1..]);
    }
  }

  /**
   * One line per present field and no other line: the k-th present field's
   * line is the k-th line.
   */
  lemma RenderHeadersInOrder(fields: seq<HeaderField>)
    ensures var r := RenderHeaders(fields);
      forall k :: 0 <= k < |fields| && IsPresent(fields[k]) ==>
        CountKept(fields[..k], IsPresent) < |r| &&
        r[CountKept(fields[..k], IsPresent)] == fields[k].name + fields[k].value
  {
    HeadersAreKeepMap(fields);
    KeepMapInOrder(fields, IsPresent, HeaderLine);
  }

  predicate LinesPrintable(lines: seq<string>) {
    forall i :: 0 <= i < |lines| ==> AllPrintable(lines[i])
  }

  /** The `Requires-Dist` lines, one per requirement in map order. */
  function RequiresDist(req: Dict<string, string>): (r: seq<string>)
    ensures |r| == |req|
    ensures forall i :: 0 <= i < |r| ==> r[i] == "Requires-Dist: " + req[i].0 + " (" + req[i].1 + ")"
  {
    seq(|req|, i requires 0 <= i < |req| => "Requires-Dist: " + req[i].0 + " (" + req[i].1 + ")")
  }

  /** The fixed head of METADATA. */
  function MetadataHead(pyName: string, version: string, info: VersionInfo): seq<string> {
    ["Metadata-Version: 2.1", "Name: " + pyName, "Version: " + version, "Summary: " + Sanitize(info.description)]
  }

  /**
   * The optional headers, in the order they are written, each present only
   * when its value is non-empty; `repoUrl` is the repository record's URL.
   */
  function OptionalFields(info: VersionInfo, repoUrl: string): seq<HeaderField> {
    ProjectFields(info) + PeopleFields(info) + LinkFields(info, repoUrl)
  }

  function ProjectFields(info: VersionInfo): seq<HeaderField> {
    [ HeaderField(info.homepage != [], "Home-page: ", Sanitize(info.homepage)),
      HeaderField(KeywordItems(info.keywords) != [], "Keywords: ", Join(SanitizeAll(KeywordItems(info.keywords)), ",")) ]
  }

  function PeopleFields(info: VersionInfo): seq<HeaderField> {
    var names := MaintainerNames(info.maintainers);
    var emails := MaintainerEmails(info.maintainers);
    [ HeaderField(AuthorName(info.author) != [], "Author: ", Sanitize(AuthorName(info.author))),
      HeaderField(AuthorEmail(info.author) != [], "Author-email: ", Sanitize(AuthorEmail(info.author))),
      HeaderField(names != [], "Maintainer: ", Join(names, ", ")),
      HeaderField(emails != [], "Maintainer-email: ", Join(emails, ", ")) ]
  }

  function LinkFields(info: VersionInfo, repoUrl: string): seq<HeaderField> {
    [ HeaderField(info.license != [], "License: ", Sanitize(info.license)),
      HeaderField(BugTracker(info.bugs) != [], "Project-URL: Bug Tracker, ", Sanitize(BugTracker(info.bugs))),
      HeaderField(repoUrl != [], "Project-URL: Repository, ", Sanitize(repoUrl)) ]
  }

  function MetadataOptional(info: VersionInfo, repoUrl: string): seq<string> {
    RenderHeaders(OptionalFields(info, repoUrl))
  }

  /**
   * At most nine optional headers; `Home-page` comes first when the
   * homepage is set, and the repository URL comes last when it is set.
   */
  lemma OptionalHeadersEnds(info: VersionInfo, repoUrl: string)
    ensures var opt := MetadataOptional(info, repoUrl);
      && |opt| <= 9
      && (info.homepage != [] ==> opt != [] && opt[0] == "Home-page: " + Sanitize(info.homepage))
      && (repoUrl != [] ==> opt != [] && opt[|opt| - 1] == "Project-URL: Repository, " + Sanitize(repoUrl))
  {
    var fields := OptionalFields(info, repoUrl);
    var opt := MetadataOptional(info, repoUrl);
    assert |fields| == 9;
    CountKeptAtMost(fields, IsPresent);
    RenderHeadersInOrder(fields);
    if info.homepage != [] {
      assert IsPresent(fields[0]) && fields[..0] == [];
    }
    if repoUrl != [] {
      assert IsPresent(fields[8]);
      CountKeptLast(fields, IsPresent);
    }
  }

  lemma {:induction false} CountKeptAtMost<T>(s: seq<T>, keep: T -> bool)
    ensures CountKept(s, keep) <= |s|
    decreases |s|
  {
    if s != [] {
      CountKeptAtMost(s[1..], keep);
    }
  }

  /** A kept last element is counted last. */
  lemma {:induction false} CountKeptLast<T>(s: seq<T>, keep: T -> bool)
    requires s != [] && keep(s[|s| - 1])
    ensures CountKept(s[..|s| - 1], keep) + 1 == CountKept(s, keep)
    decreases |s|
  {
    if |s| > 1 {
      CountKeptLast(s[1..], keep);
      assert s[..|s| - 1][1..] == s[1..][..|s| - 2];
    }
  }

  /**
   * `_write_dist_info_metadata`: the head, the optional headers, the
   * requirements. A `repository` given as a plain string stops it before
   * anything is written.
   */
  function MetadataLines(pyName: string, version: string, info: VersionInfo, req: Dict<string, string>): (r: Result<seq<string>, string>)
    ensures r.Err? <==> info.repository.RepositoryText?
    ensures r.Ok? ==>
      && |r.value| >= 4 + |req|
      && r.value[..4] == MetadataHead(pyName, version, info)
      && r.value[4..|r.value| - |req|] == MetadataOptional(info, info.repository.url)
      && r.value[|r.value| - |req|..] == RequiresDist(req)
  {
    match RepositoryUrl(info.repository)
    case None => Err("repository is not a record")
    case Some(url) =>
      var head := MetadataHead(pyName, version, info);
      var optional := MetadataOptional(info, url);
      var r := head + optional + RequiresDist(req);
      assert r[..4] == head;
      assert r[4..|r| - |req|] == optional;
      assert r[|r| - |req|..] == RequiresDist(req);
      Ok(r)
  }

  /** The text of a file written line by line, each line ended by a newline. */
  function FileText(lines: seq<string>): string {
    if lines == [] then [] else lines[0] + "\n" + FileText(lines[1..])
  }

  /** A file of lines that hold no newline reads back as those lines, then an empty rest. */
  lemma {:induction false} FileTextLines(lines: seq<string>)
    requires forall i :: 0 <= i < |lines| ==> '\n' !in lines[i]
    ensures Split(FileText(lines), '\n') == lines + [[]]
    decreases |lines|
  {
    if lines != [] {
      FileTextLines(lines[1..]);
      SplitAfterPiece(lines[0], '\n', FileText(lines[1..]));
      assert lines == [lines[0]] + lines[1..];
    }
  }

  lemma {:induction false} JoinPrintable(parts: seq<string>, sep: string)
    requires AllPrintable(sep)
    requires forall i :: 0 <= i < |parts| ==> AllPrintable(parts[i])
    ensures AllPrintable(Join(parts, sep))
    decreases |parts|
  {
    if |parts| > 1 {
      JoinPrintable(parts[1..], sep);
      var rest := Join(parts[1..], sep);
      var r := parts[0] + sep + rest;
      assert forall k :: 0 <= k < |r| ==> Printable(r[k]) by {
        forall k | 0 <= k < |r| ensures Printable(r[k]) {
          if k < |parts[0]| {
            assert r[k] == parts[0][k];
          } else if k < |parts[0]| + |sep| {
            assert r[k] == sep[k - |parts[0]|];
          } else {
            assert r[k] == rest[k - |parts[0]| - |sep|];
          }
        }
      }
    }
  }

  lemma ConcatPrintable(a: string, b: string)
    requires AllPrintable(a) && AllPrintable(b)
    ensures AllPrintable(a + b)
  {
    assert forall k :: 0 <= k < |a + b| ==> (a + b)[k] == if k < |a| then a[k] else b[k - |a|];
  }

  lemma ConcatLinesPrintable(a: seq<string>, b: seq<string>)
    requires LinesPrintable(a) && LinesPrintable(b)
    ensures LinesPrintable(a + b)
  {
    assert forall i :: 0 <= i < |a + b| ==> (a + b)[i] == if i < |a| then a[i] else b[i - |a|];
  }

  lemma {:induction false} RenderPrintable(fields: seq<HeaderField>)
    requires FieldsPrintable(fields)
    ensures LinesPrintable(RenderHeaders(fields))
    decreases |fields|
  {
    if fields != [] {
      RenderPrintable(fields[1..]);
      if fields[0].present {
        ConcatPrintable(fields[0].name, fields[0].value);
        ConcatLinesPrintable([fields[0].name + fields[0].value], RenderHeaders(fields[1..]));
      }
    }
  }

  lemma NamesPrintable()
    ensures AllPrintable("Home-page: ") && AllPrintable("Keywords: ") && AllPrintable("Author: ")
    ensures AllPrintable("Author-email: ") && AllPrintable("Maintainer: ")
  {
  }

  lemma MoreNamesPrintable()
    ensures AllPrintable("Maintainer-email: ") && AllPrintable("License: ")
  {
  }

  lemma UrlNamesPrintable()
    ensures AllPrintable("Project-URL: Bug Tracker, ") && AllPrintable("Project-URL: Repository, ")
  {
  }

  lemma ProjectPrintable(info: VersionInfo)
    ensures FieldsPrintable(ProjectFields(info))
  {
    NamesPrintable();
    assert AllPrintable(",");
    JoinPrintable(SanitizeAll(KeywordItems(info.keywords)), ",");
  }

  lemma PeoplePrintable(info: VersionInfo)
    ensures FieldsPrintable(PeopleFields(info))
  {
    NamesPrintable();
    MoreNamesPrintable();
    assert AllPrintable(", ");
    JoinPrintable(MaintainerNames(info.maintainers), ", ");
    JoinPrintable(MaintainerEmails(info.maintainers), ", ");
  }

  lemma LinksPrintable(info: VersionInfo, repoUrl: string)
    ensures FieldsPrintable(LinkFields(info, repoUrl))
  {
    MoreNamesPrintable();
    UrlNamesPrintable();
  }

  lemma OptionalPrintable(info: VersionInfo, repoUrl: string)
    ensures LinesPrintable(MetadataOptional(info, repoUrl))
  {
    var project, people, links := ProjectFields(info), PeopleFields(info), LinkFields(info, repoUrl);
    ProjectPrintable(info);
    PeoplePrintable(info);
    LinksPrintable(info, repoUrl);
    ConcatFieldsPrintable(project, people);
    ConcatFieldsPrintable(project + people, links);
    RenderPrintable(OptionalFields(info, repoUrl));
  }

  predicate FieldsPrintable(fields: seq<HeaderField>) {
    forall i :: 0 <= i < |fields| ==> AllPrintable(fields[i].name) && AllPrintable(fields[i].value)
  }

  lemma ConcatFieldsPrintable(a: seq<HeaderField>, b: seq<HeaderField>)
    requires FieldsPrintable(a) && FieldsPrintable(b)
    ensures FieldsPrintable(a + b)
  {
    assert forall i :: 0 <= i < |a + b| ==> (a + b)[i] == if i < |a| then a[i] else b[i - |a|];
  }

  lemma RequiresDistPrintable(req: Dict<string, string>)
    requires forall i :: 0 <= i < |req| ==> AllPrintable(req[i].0) && AllPrintable(req[i].1)
    ensures LinesPrintable(RequiresDist(req))
  {
    var tail := RequiresDist(req);
    forall i | 0 <= i < |req| ensures AllPrintable(tail[i]) {
      ConcatPrintable("Requires-Dist: ", req[i].0);
      ConcatPrintable("Requires-Dist: " + req[i].0, " (");
      ConcatPrintable("Requires-Dist: " + req[i].0 + " (", req[i].1);
      ConcatPrintable("Requires-Dist: " + req[i].0 + " (" + req[i].1, ")");
    }
  }

  lemma HeadPrintable(pyName: string, version: string, info: VersionInfo)
    requires AllPrintable(pyName) && AllPrintable(version)
    ensures LinesPrintable(MetadataHead(pyName, version, info))
  {
    ConcatPrintable("Name: ", pyName);
    ConcatPrintable("Version: ", version);
    ConcatPrintable("Summary: ", Sanitize(info.description));
  }

  /**
   * Whatever the npm metadata holds, METADATA reads back line by line as
   * written: sanitising leaves no newline that could forge a header, as
   * long as the Python name, version and requirements hold none.
   */
  lemma MetadataFileLines(pyName: string, version: string, info: VersionInfo, req: Dict<string, string>)
    requires AllPrintable(pyName) && AllPrintable(version)
    requires forall i :: 0 <= i < |req| ==> AllPrintable(req[i].0) && AllPrintable(req[i].1)
    ensures var r := MetadataLines(pyName, version, info, req);
      r.Ok? ==> Split(FileText(r.value), '\n') == r.value + [[]]
  {
    var r := MetadataLines(pyName, version, info, req);
    if r.Ok? {
      var lines := r.value;
      var url := info.repository.url;
      var head := MetadataHead(pyName, version, info);
      var optional := MetadataOptional(info, url);
      HeadPrintable(pyName, version, info);
      OptionalPrintable(info, url);
      RequiresDistPrintable(req);
      ConcatLinesPrintable(head, optional);
      ConcatLinesPrintable(head + optional, RequiresDist(req));
      assert lines == head + optional + RequiresDist(req);
      forall i | 0 <= i < |lines| ensures '\n' !in lines[i] {
        assert AllPrintable(lines[i]);
        assert !Printable('\n');
      }
      FileTextLines(lines);
    }
  }
}

=== FILE: partial_version.dfy ===
/**
 * Partial versions such as `1`, `1.x`, `1.2.*` or `1.2.3-beta` and the npm
 * modifiers applied to them (`PartialVersion` in version_man.py): the plain
 * partial, the five comparators, `~` and `^`. Each yields one Range.
 */
module Partials {
  import opened Wrappers
  import opened Strings
  import opened SemVer
  import opened Bounds

  /** A version part: a number or a wildcard (`x`, `X` and `*` all read as `x`). */
  datatype Part = Wild | N(n: nat)

  /**
   * The prerelease and the build metadata are kept as their dot-separated
   * pieces of text. The prerelease is read as identifiers only when a version
   * is formed from the partial; no operation below looks at the build.
   */
  datatype Partial = Partial(major: Part, minor: Option<Part>, patch: Option<Part>,
                             pre: seq<string>, build: seq<string>)

  /** The identifier a prerelease piece stands for: digit-only pieces are numeric. */
  function ToIdent(piece: string): Ident {
    if AllDigits(piece) then Num(ParseNat(piece)) else Alpha(piece)
  }

  function ToIdents(pieces: seq<string>): (r: seq<Ident>)
    ensures |r| == |pieces| && forall k :: 0 <= k < |pieces| ==> r[k] == ToIdent(pieces[k])
  {
    if pieces == [] then [] else [ToIdent(pieces[0])] + ToIdents(pieces[1..])
  }

  datatype Comparator = Ge | Gt | Le | Lt | Eq

  /** The part is present and numeric. */
  predicate Given(p: Option<Part>) { p.Some? && p.value.N? }

  predicate IsFull(p: Partial) { p.major.N? && Given(p.minor) && Given(p.patch) }

  /** The version a full partial spells out. */
  function Full(p: Partial): Version
    requires IsFull(p)
  {
    Version(p.major.n, p.minor.value.n, p.patch.value.n, ToIdents(p.pre))
  }

  /** `_range_x`: the range of a partial with a wildcard or missing part, None for a full one. */
  function RangeX(p: Partial): Option<Range> {
    match p.major
    case Wild => Some(AnyRange)
    case N(major) =>
      if !Given(p.minor) then
        Some(Range(if major == 0 then Bottom else Incl(Release(major, 0, 0)),
                   Excl(ZeroPre(major + 1, 0))))
      else if !Given(p.patch) then
        Some(Range(Incl(Release(major, p.minor.value.n, 0)),
                   Excl(ZeroPre(major, p.minor.value.n + 1))))
      else None
  }

  /** `as_range`: the partial on its own, or after `=`. */
  function AsRange(p: Partial): Range {
    match RangeX(p)
    case Some(r) => r
    case None => Range(Incl(Full(p)), Incl(Full(p)))
  }

  function PrimitiveGe(p: Partial): Range {
    match p.major
    case Wild => AnyRange
    case N(major) =>
      if !Given(p.minor) then Range(Incl(Release(major, 0, 0)), Top)
      else if !Given(p.patch) then Range(Incl(Release(major, p.minor.value.n, 0)), Top)
      else Range(Incl(Full(p)), Top)
  }

  function PrimitiveGt(p: Partial): Range {
    match p.major
    case Wild => Range(Top, Top)
    case N(major) =>
      if !Given(p.minor) then Range(Incl(Release(major + 1, 0, 0)), Top)
      else if !Given(p.patch) then Range(Incl(Release(major, p.minor.value.n + 1, 0)), Top)
      else Range(Excl(Full(p)), Top)
  }

  function PrimitiveLe(p: Partial): Range {
    match p.major
    case Wild => AnyRange
    case N(major) =>
      if !Given(p.minor) then Range(Bottom, Excl(ZeroPre(major + 1, 0)))
      else if !Given(p.patch) then Range(Bottom, Excl(ZeroPre(major, p.minor.value.n + 1)))
      else Range(Bottom, Incl(Full(p)))
  }

  function PrimitiveLt(p: Partial): Range {
    match p.major
    case Wild => Range(Bottom, Bottom)
    case N(major) =>
      if !Given(p.minor) then Range(Bottom, Excl(ZeroPre(major, 0)))
      else if !Given(p.patch) then Range(Bottom, Excl(ZeroPre(major, p.minor.value.n)))
      else Range(Bottom, Excl(Full(p)))
  }

  /** `primitive`: dispatch on the comparator. */
  function Primitive(p: Partial, op: Comparator): Range {
    match op
    case Ge => PrimitiveGe(p)
    case Gt => PrimitiveGt(p)
    case Le => PrimitiveLe(p)
    case Lt => PrimitiveLt(p)
    case Eq => AsRange(p)
  }

  /** `tilde` */
  function Tilde(p: Partial): Range {
    match RangeX(p)
    case Some(r) => r
    case None => Range(Incl(Full(p)), Excl(ZeroPre(p.major.n, p.minor.value.n + 1)))
  }

  /** `caret` */
  function Caret(p: Partial): Range {
    match p.major
    case Wild => AnyRange
    case N(major) =>
      if major == 0 then Tilde(p)
      else if !Given(p.minor) || !Given(p.patch) then
        Range(Incl(Release(major, if Given(p.minor) then p.minor.value.n else 0, 0)),
              Excl(ZeroPre(major + 1, 0)))
      else Range(Incl(Full(p)), Excl(ZeroPre(major + 1, 0)))
  }

  // ---------------------------------------------------------------------------
  // What each range contains.

  /** A version is at least `x`. */
  predicate AtLeast(v: Version, x: Version) { !Less(v, x) }

  lemma AtLeastShape(v: Version, x: Version)
    requires AtLeast(v, x)
    ensures v.major > x.major || (v.major == x.major && v.minor >= x.minor)
  {
  }

  /** The plain range of every partial, wildcards and missing parts included. */
  lemma AsRangeMeaning(p: Partial, v: Version)
    ensures p.major.Wild? ==> Contains(AsRange(p), v)
    ensures p.major.N? && !Given(p.minor) ==>
              (Contains(AsRange(p), v) <==>
                 v.major == p.major.n && (p.major.n == 0 || AtLeast(v, Release(p.major.n, 0, 0))))
    ensures p.major.N? && Given(p.minor) && !Given(p.patch) ==>
              (Contains(AsRange(p), v) <==>
                 v.major == p.major.n && v.minor == p.minor.value.n
                 && AtLeast(v, Release(p.major.n, p.minor.value.n, 0)))
    ensures IsFull(p) ==> (Contains(AsRange(p), v) <==> v == Full(p))
  {
    match p.major
    case Wild =>
    case N(major) =>
      if !Given(p.minor) {
        BelowZeroPre(v, major + 1, 0);
      } else if !Given(p.patch) {
        BelowZeroPre(v, major, p.minor.value.n + 1);
      } else {
        NotLessIsLessEq(v, Full(p));
        NotLessIsLessEq(Full(p), v);
      }
  }

  lemma PrimitiveGeMeaning(p: Partial, v: Version)
    ensures p.major.Wild? ==> Contains(Primitive(p, Ge), v)
    ensures p.major.N? && !Given(p.minor) ==>
              (Contains(Primitive(p, Ge), v) <==> AtLeast(v, Release(p.major.n, 0, 0)))
    ensures p.major.N? && Given(p.minor) && !Given(p.patch) ==>
              (Contains(Primitive(p, Ge), v) <==> AtLeast(v, Release(p.major.n, p.minor.value.n, 0)))
    ensures IsFull(p) ==> (Contains(Primitive(p, Ge), v) <==> AtLeast(v, Full(p)))
  {
    if IsFull(p) { NotLessIsLessEq(v, Full(p)); }
    else if p.major.N? && !Given(p.minor) { NotLessIsLessEq(v, Release(p.major.n, 0, 0)); }
    else if p.major.N? { NotLessIsLessEq(v, Release(p.major.n, p.minor.value.n, 0)); }
  }

  /** `>x` admits nothing; `>1` starts at 2.0.0 and `>1.2` at 1.3.0, prereleases of those excluded. */
  lemma PrimitiveGtMeaning(p: Partial, v: Version)
    ensures p.major.Wild? ==> !Contains(Primitive(p, Gt), v)
    ensures p.major.N? && !Given(p.minor) ==>
              (Contains(Primitive(p, Gt), v) <==> AtLeast(v, Release(p.major.n + 1, 0, 0)))
    ensures p.major.N? && Given(p.minor) && !Given(p.patch) ==>
              (Contains(Primitive(p, Gt), v) <==> AtLeast(v, Release(p.major.n, p.minor.value.n + 1, 0)))
    ensures IsFull(p) ==> (Contains(Primitive(p, Gt), v) <==> Less(Full(p), v))
  {
    if p.major.N? && !Given(p.minor) { NotLessIsLessEq(v, Release(p.major.n + 1, 0, 0)); }
    else if p.major.N? && !Given(p.patch) { NotLessIsLessEq(v, Release(p.major.n, p.minor.value.n + 1, 0)); }
  }

  /** `<=1` covers the whole of major 1; `<=1.2` the whole of 1.2. */
  lemma PrimitiveLeMeaning(p: Partial, v: Version)
    ensures p.major.Wild? ==> Contains(Primitive(p, Le), v)
    ensures p.major.N? && !Given(p.minor) ==>
              (Contains(Primitive(p, Le), v) <==> v.major <= p.major.n)
    ensures p.major.N? && Given(p.minor) && !Given(p.patch) ==>
              (Contains(Primitive(p, Le), v) <==>
                 v.major < p.major.n || (v.major == p.major.n && v.minor <= p.minor.value.n))
    ensures IsFull(p) ==> (Contains(Primitive(p, Le), v) <==> !Less(Full(p), v))
  {
    match p.major
    case Wild =>
    case N(major) =>
      if !Given(p.minor) {
        BelowZeroPre(v, major + 1, 0);
      } else if !Given(p.patch) {
        BelowZeroPre(v, major, p.minor.value.n + 1);
      } else {
        NotLessIsLessEq(Full(p), v);
      }
  }

  /** `<x` admits nothing; `<1` is everything below major 1, `<1.2` everything below 1.2. */
  lemma PrimitiveLtMeaning(p: Partial, v: Version)
    ensures p.major.Wild? ==> !Contains(Primitive(p, Lt), v)
    ensures p.major.N? && !Given(p.minor) ==>
              (Contains(Primitive(p, Lt), v) <==> v.major < p.major.n)
    ensures p.major.N? && Given(p.minor) && !Given(p.patch) ==>
              (Contains(Primitive(p, Lt), v) <==>
                 v.major < p.major.n || (v.major == p.major.n && v.minor < p.minor.value.n))
    ensures IsFull(p) ==> (Contains(Primitive(p, Lt), v) <==> Less(v, Full(p)))
  {
    match p.major
    case Wild =>
    case N(major) =>
      if !Given(p.minor) {
        BelowZeroPre(v, major, 0);
      } else if !Given(p.patch) {
        BelowZeroPre(v, major, p.minor.value.n);
      }
  }

  /** `~1.2.3` admits 1.2.3 and everything above it on the 1.2 line. */
  lemma TildeMeaning(p: Partial, v: Version)
    ensures !IsFull(p) ==> Tilde(p) == AsRange(p)
    ensures IsFull(p) ==>
              (Contains(Tilde(p), v) <==>
                 AtLeast(v, Full(p)) && v.major == p.major.n && v.minor == p.minor.value.n)
  {
    if IsFull(p) {
      BelowZeroPre(v, p.major.n, p.minor.value.n + 1);
      NotLessIsLessEq(v, Full(p));
    }
  }

  /**
   * `^` with a major of 0 is `~`; with a positive major it admits everything
   * from the partial's floor up to the next major.
   */
  lemma CaretMeaning(p: Partial, v: Version)
    ensures p.major.Wild? ==> Contains(Caret(p), v)
    ensures p.major == N(0) ==> Caret(p) == Tilde(p)
    ensures p.major.N? && p.major.n > 0 && !IsFull(p) ==>
              (Contains(Caret(p), v) <==>
                 v.major == p.major.n
                 && AtLeast(v, Release(p.major.n, if Given(p.minor) then p.minor.value.n else 0, 0)))
    ensures p.major.N? && p.major.n > 0 && IsFull(p) ==>
              (Contains(Caret(p), v) <==> v.major == p.major.n && AtLeast(v, Full(p)))
  {
    match p.major
    case Wild =>
    case N(major) =>
      if major > 0 {
        BelowZeroPre(v, major + 1, 0);
        if IsFull(p) {
          NotLessIsLessEq(v, Full(p));
        } else {
          NotLessIsLessEq(v, Release(major, if Given(p.minor) then p.minor.value.n else 0, 0));
        }
      }
  }

  /** `=` is the plain partial. */
  lemma EqIsAsRange(p: Partial)
    ensures Primitive(p, Eq) == AsRange(p)
  {
  }
}

=== FILE: py_convert.dfy ===
/**
 * `flatten_py_range` and `sem_range_to_py_range` of version_man.py: a spec
 * is parsed, its ranges are merged, and the single merged range (or the lack
 * of any) is written as a Python version specifier. Specs whose ranges leave
 * a hole cannot be written that way and are refused.
 */
module PyConvert {
  import opened Wrappers
  import opened SemVer
  import opened Bounds
  import opened RangeAlgebra
  import opened PyRender
  import opened Specs

  /** `flatten_py_range` as written: no range gives `<0.0.0`, one gives its `__str__`, more are refused. */
  function FlattenPyRange(spec: string, ranges: seq<PyRange>): (r: Result<string, string>)
    ensures r.Err? <==> |ranges| > 1
    ensures |ranges| == 0 ==> r == Ok("<0.0.0")
    ensures |ranges| == 1 ==> r == Ok(PyRangeStr(ranges[0]))
  {
    if |ranges| == 0 then Ok("<0.0.0")
    else if |ranges| == 1 then Ok(PyRangeStr(ranges[0]))
    else Err("Cannot convert spec: " + spec)
  }

  /**
   * The same three cases over merged ranges, with the corrected rendering:
   * nothing left admits no version, one range gives its clauses, and more
   * than one is refused.
   */
  function FlattenClauses(merged: seq<Range>): Option<seq<Clause>> {
    if |merged| == 0 then Some([NoVersion])
    else if |merged| == 1 then Some(RangeClauses(merged[0]))
    else None
  }

  /** Both ends on versions and not both inclusive: where the as-written `__str__` is right. */
  predicate AwayFromSentinels(r: Range) {
    r.min.ver.Sem? && r.max.ver.Sem? && !(r.min.inclusive && r.max.inclusive)
  }

  /**
   * `flatten_py_range` as written and the corrected flattening refuse the
   * same inputs and write the same text, the empty case included, wherever
   * the as-written `__str__` is right.
   */
  lemma FlattenPyRangeAgrees(spec: string, merged: seq<Range>, pys: seq<PyRange>)
    requires |pys| == |merged| && forall k :: 0 <= k < |merged| ==> AsPyRange(merged[k]) == Some(pys[k])
    requires |merged| == 1 ==> AwayFromSentinels(merged[0])
    ensures FlattenPyRange(spec, pys).Err? <==> FlattenClauses(merged).None?
    ensures FlattenPyRange(spec, pys).Ok? ==>
              ClausesText(FlattenClauses(merged).value) == Some(FlattenPyRange(spec, pys).value)
  {
    if |merged| == 0 {
      ClausesTextSingle(NoVersion);
    } else if |merged| == 1 {
      assert AsPyRange(merged[0]) == Some(pys[0]);
      StrAgreesAwayFromSentinels(merged[0]);
    }
  }

  /** The clauses a list of ranges converts to, after merging: None when a hole remains. */
  function RangesClauses(ranges: seq<Range>): Option<seq<Clause>> {
    FlattenClauses(UnionRangesFixed(ranges))
  }

  /**
   * When the ranges convert, the clauses admit exactly the versions some
   * range admits; they fail to convert only when merging leaves more than
   * one range.
   */
  lemma RangesClausesSound(ranges: seq<Range>, w: Version)
    ensures RangesClauses(ranges).None? <==> |UnionRangesFixed(ranges)| > 1
    ensures RangesClauses(ranges).Some? ==>
              (AllHold(RangesClauses(ranges).value, w) <==> ContainsAny(ranges, w))
  {
    var merged := UnionRangesFixed(ranges);
    UnionRangesFixedSound(ranges, w);
    if |merged| == 0 {
      assert !ClauseHolds(NoVersion, w);
      assert !AllHold([NoVersion], w) by { assert [NoVersion][0] == NoVersion; }
    } else if |merged| == 1 {
      RangeClausesSound(merged[0], w);
      ContainsAnyCons(merged, w);
      assert merged[1..] == [];
    }
  }

  /** `sem_range_to_py_range`, with the corrected merge and rendering. */
  function SemRangeToPyRange(spec: string): Result<string, string> {
    match ParseSpec(spec)
    case Err(e) => Err(e)
    case Ok(ranges) =>
      match RangesClauses(ranges)
      case None => Err("Cannot convert spec: " + spec)
      case Some(cs) =>
        match ClausesText(cs)
        case None => Err("Cannot convert spec: " + spec)
        case Some(text) => Ok(text)
  }

  /**
   * A converted spec is the text of clauses that admit exactly the versions
   * the spec admits.
   */
  lemma SemRangeToPyRangeSound(spec: string, w: Version)
    ensures SemRangeToPyRange(spec).Ok? ==>
              ParseSpec(spec).Ok? && RangesClauses(ParseSpec(spec).value).Some?
              && ClausesText(RangesClauses(ParseSpec(spec).value).value) == Some(SemRangeToPyRange(spec).value)
              && (AllHold(RangesClauses(ParseSpec(spec).value).value, w) <==> ContainsAny(ParseSpec(spec).value, w))
  {
    if ParseSpec(spec).Ok? {
      RangesClausesSound(ParseSpec(spec).value, w);
    }
  }
}

/** Conversions from the repository's own test suite. */
module ConvertExamples {
  import opened Wrappers
  import opened Strings
  import opened SemVer
  import opened Bounds
  import opened RangeAlgebra
  import opened PyRender
  import opened Specs
  import opened SpecExamples
  import opened PyConvert

  /** A range whose bounds do not cross merges with nothing and stays as it is. */
  lemma UnionOne(r: Range)
    requires CutLe(LowerCut(r.min), UpperCut(r.max))
    ensures UnionRangesFixed([r]) == [r]
  {
    assert Mergeable(r, r);
    assert MinBound(r.min, r.min) == r.min;
    assert UpperMax(r.max, r.max) == r.max;
    assert UnionPairFixed(r, r) == [r];
    assert [r][1..] == [];
    assert UnionStepFixed([r], r) == [r];
    assert UnionFromFixed([r], [r], 1) == [r];
  }

  lemma ConvertOne(spec: string, r: Range, text: string)
    requires ParseSpec(spec) == Ok([r])
    requires CutLe(LowerCut(r.min), UpperCut(r.max))
    requires ClausesText(RangeClauses(r)) == Some(text)
    ensures SemRangeToPyRange(spec) == Ok(text)
  {
    UnionOne(r);
  }

  /** A clause on a version with three one-digit release numbers, as text. */
  lemma OpVerShort(op: string, v: Version, a: nat, b: nat, c: nat, t: string)
    requires a < 10 && b < 10 && c < 10
    requires PyRelease(v) == Some([a, b, c])
    requires t == op + [DigitChar(a), '.', DigitChar(b), '.', DigitChar(c)]
    ensures OpVer(op, v) == Some(t)
  {
    ShortReleaseText(a, b, c);
  }

  lemma DigitChars()
    ensures DigitChar(0) == '0' && DigitChar(1) == '1' && DigitChar(2) == '2' && DigitChar(3) == '3'
    ensures DigitChar(5) == '5'
  {
  }

  lemma ExactText()
    ensures ClausesText(RangeClauses(Range(Incl(Release(1, 0, 0)), Incl(Release(1, 0, 0))))) == Some("==1.0.0")
  {
    ReleaseRendering(1, 0, 0);
    DigitChars();
    assert PyRelease(Release(1, 0, 0)) == Some([1, 0, 0]);
    assert "==1.0.0" == "==" + [DigitChar(1), '.', DigitChar(0), '.', DigitChar(0)];
    OpVerShort("==", Release(1, 0, 0), 1, 0, 0, "==1.0.0");
    ClausesTextSingle(Exactly(Release(1, 0, 0)));
  }

  /** `1.0.0` converts to `==1.0.0`. */
  lemma ConvertExact()
    ensures SemRangeToPyRange("1.0.0") == Ok("==1.0.0")
  {
    ExactSpec();
    ExactText();
    ConvertOne("1.0.0", Range(Incl(Release(1, 0, 0)), Incl(Release(1, 0, 0))), "==1.0.0");
  }

  lemma TwoClauses(a: Clause, b: Clause, ta: string, tb: string)
    requires ClauseText(a) == Some(ta) && ClauseText(b) == Some(tb)
    ensures ClausesText([a, b]) == Some(ta + "," + tb)
  {
    assert [a, b][1..] == [b];
    ClausesTextSingle(b);
  }

  lemma TildeText()
    ensures ClausesText(RangeClauses(Range(Incl(Release(1, 2, 3)), Excl(ZeroPre(1, 3))))) == Some(">=1.2.3,<1.3.0")
  {
    ReleaseRendering(1, 2, 3);
    ReleaseRendering(1, 3, 0);
    DigitChars();
    assert PyRelease(Release(1, 2, 3)) == Some([1, 2, 3]);
    assert ">=1.2.3" == ">=" + [DigitChar(1), '.', DigitChar(2), '.', DigitChar(3)];
    OpVerShort(">=", Release(1, 2, 3), 1, 2, 3, ">=1.2.3");
    assert PyRelease(ZeroPre(1, 3)) == Some([1, 3, 0]);
    assert "<1.3.0" == "<" + [DigitChar(1), '.', DigitChar(3), '.', DigitChar(0)];
    OpVerShort("<", ZeroPre(1, 3), 1, 3, 0, "<1.3.0");
    TwoClauses(AtLeast(Release(1, 2, 3)), Below(ZeroPre(1, 3)), ">=1.2.3", "<1.3.0");
    assert RangeClauses(Range(Incl(Release(1, 2, 3)), Excl(ZeroPre(1, 3)))) == [AtLeast(Release(1, 2, 3)), Below(ZeroPre(1, 3))];
    assert ">=1.2.3" + "," + "<1.3.0" == ">=1.2.3,<1.3.0";
  }

  /** `~1.2.3` converts to `>=1.2.3,<1.3.0`: npm's exclusive `1.3.0-0` prints as `1.3.0`. */
  lemma ConvertTilde()
    ensures SemRangeToPyRange("~1.2.3") == Ok(">=1.2.3,<1.3.0")
  {
    TildeSpec();
    TildeText();
    ConvertOne("~1.2.3", Range(Incl(Release(1, 2, 3)), Excl(ZeroPre(1, 3))), ">=1.2.3,<1.3.0");
  }

  lemma HyphenText()
    ensures ClausesText(RangeClauses(Range(Incl(Release(1, 0, 0)), Excl(ZeroPre(3, 0))))) == Some(">=1.0.0,<3.0.0")
  {
    ReleaseRendering(1, 0, 0);
    ReleaseRendering(3, 0, 0);
    DigitChars();
    assert PyRelease(Release(1, 0, 0)) == Some([1, 0, 0]);
    assert ">=1.0.0" == ">=" + [DigitChar(1), '.', DigitChar(0), '.', DigitChar(0)];
    OpVerShort(">=", Release(1, 0, 0), 1, 0, 0, ">=1.0.0");
    assert PyRelease(ZeroPre(3, 0)) == Some([3, 0, 0]);
    assert "<3.0.0" == "<" + [DigitChar(3), '.', DigitChar(0), '.', DigitChar(0)];
    OpVerShort("<", ZeroPre(3, 0), 3, 0, 0, "<3.0.0");
    TwoClauses(AtLeast(Release(1, 0, 0)), Below(ZeroPre(3, 0)), ">=1.0.0", "<3.0.0");
    assert RangeClauses(Range(Incl(Release(1, 0, 0)), Excl(ZeroPre(3, 0)))) == [AtLeast(Release(1, 0, 0)), Below(ZeroPre(3, 0))];
    assert ">=1.0.0" + "," + "<3.0.0" == ">=1.0.0,<3.0.0";
  }

  /** `1.x - 2.x` converts to `>=1.0.0,<3.0.0`. */
  lemma ConvertHyphen()
    ensures SemRangeToPyRange("1.x - 2.x") == Ok(">=1.0.0,<3.0.0")
  {
    HyphenSpec();
    HyphenText();
    ConvertOne("1.x - 2.x", Range(Incl(Release(1, 0, 0)), Excl(ZeroPre(3, 0))), ">=1.0.0,<3.0.0");
  }

  lemma AboveText()
    ensures ClausesText(RangeClauses(Range(Incl(Release(5, 0, 0)), Top))) == Some(">=5.0.0")
  {
    ReleaseRendering(5, 0, 0);
    DigitChars();
    assert PyRelease(Release(5, 0, 0)) == Some([5, 0, 0]);
    assert ">=5.0.0" == ">=" + [DigitChar(5), '.', DigitChar(0), '.', DigitChar(0)];
    OpVerShort(">=", Release(5, 0, 0), 5, 0, 0, ">=5.0.0");
    assert RangeClauses(Range(Incl(Release(5, 0, 0)), Top)) == [AtLeast(Release(5, 0, 0))];
    ClausesTextSingle(AtLeast(Release(5, 0, 0)));
  }

  /** `>4` converts to `>=5.0.0`. */
  lemma ConvertAbove()
    ensures SemRangeToPyRange(">4") == Ok(">=5.0.0")
  {
    AboveSpec();
    AboveText();
    ConvertOne(">4", Range(Incl(Release(5, 0, 0)), Top), ">=5.0.0");
  }
}

=== FILE: py_render.dfy ===
/**
 * Rendering ranges as Python version specifiers: `Bound.as_py_bound`,
 * `Range.as_py_range` and `RangeStrMixin.__str__` in version_man.py.
 *
 * A semver version becomes the text `M.m.p` followed directly by its
 * prerelease, which `packaging` then reads as a PEP 440 version. The model
 * keeps a PEP 440 version as its release numbers and covers releases and
 * all-numeric prereleases, whose digits end up glued to the patch number.
 */
module PyRender {
  import opened Wrappers
  import opened Strings
  import opened SemVer
  import opened Bounds

  /** A PEP 440 version, kept as its release numbers, or one of the sentinels. */
  datatype PyVer = PyMin | PyMax | PyRel(release: seq<nat>)

  datatype PyBound = PyBound(ver: PyVer, inclusive: bool)

  datatype PyRange = PyRange(min: PyBound, max: PyBound)

  predicate AllNumeric(pre: seq<Ident>) { forall k :: 0 <= k < |pre| ==> pre[k].Num? }

  function Nums(pre: seq<Ident>): (r: seq<nat>)
    requires AllNumeric(pre)
    ensures |r| == |pre| && forall k :: 0 <= k < |pre| ==> r[k] == pre[k].n
  {
    if pre == [] then [] else [pre[0].n] + Nums(pre[1..])
  }

  /** The number `packaging` reads from the digits of `a` followed by the digits of `b`. */
  function Glue(a: nat, b: nat): nat {
    ParseNat(NatToString(a) + NatToString(b))
  }

  /** The release numbers of `PyVersion(finalize_version() + prerelease)`; None where the model stops. */
  function PyRelease(v: Version): Option<seq<nat>> {
    if v.pre == [] then Some([v.major, v.minor, v.patch])
    else if AllNumeric(v.pre) then
      Some([v.major, v.minor, Glue(v.patch, v.pre[0].n)] + Nums(v.pre[1..]))
    else None
  }

  function NatStrings(ns: seq<nat>): (r: seq<string>)
    ensures |r| == |ns| && forall k :: 0 <= k < |ns| ==> r[k] == NatToString(ns[k])
  {
    if ns == [] then [] else [NatToString(ns[0])] + NatStrings(ns[1..])
  }

  /** `str()` of a PEP 440 release: its numbers in decimal, dot-separated. */
  function ReleaseText(release: seq<nat>): string {
    Join(NatStrings(release), ".")
  }

  /** The f-string of a PyVer; sentinels print their repr. */
  function VerText(v: PyVer): string {
    match v
    case PyMin => "MIN_VER"
    case PyMax => "MAX_VER"
    case PyRel(release) => ReleaseText(release)
  }

  /** PEP 440 compares releases as if padded with zeros: trailing zeros do not count. */
  function TrimZeros(release: seq<nat>): seq<nat>
    decreases |release|
  {
    if release != [] && release[|release| - 1] == 0 then TrimZeros(release[..|release| - 1])
    else release
  }

  predicate PyVerEq(a: PyVer, b: PyVer) {
    if a.PyRel? && b.PyRel? then TrimZeros(a.release) == TrimZeros(b.release) else a == b
  }

  /** `Bound.as_py_bound`: a sentinel bound becomes an inclusive sentinel bound. */
  function AsPyBound(b: Bound): Option<PyBound> {
    match b.ver
    case MinVer => Some(PyBound(PyMin, true))
    case MaxVer => Some(PyBound(PyMax, true))
    case Sem(v) =>
      match PyRelease(v)
      case None => None
      case Some(release) => Some(PyBound(PyRel(release), b.inclusive))
  }

  /** `Range.as_py_range` */
  function AsPyRange(r: Range): Option<PyRange> {
    match (AsPyBound(r.min), AsPyBound(r.max))
    case (Some(lo), Some(hi)) => Some(PyRange(lo, hi))
    case _ => None
  }

  predicate IsSentinel(v: PyVer) { v.PyMin? || v.PyMax? }

  /** `RangeStrMixin.__str__` on a PyRange, as written. */
  function PyRangeStr(r: PyRange): string {
    var minS := IsSentinel(r.min.ver);
    var maxS := IsSentinel(r.max.ver);
    if minS && maxS then
      (if minS != maxS then ">=0.0.0" else "<0.0.0")
    else if minS then
      (if r.min.inclusive then "<=" else "<") + VerText(r.max.ver)
    else if maxS then
      (if r.max.inclusive then ">=" else ">") + VerText(r.min.ver)
    else if r.min.inclusive && r.max.inclusive && PyVerEq(r.min.ver, r.max.ver) then
      "==" + VerText(r.min.ver)
    else
      (if r.min.inclusive then ">=" else ">") + VerText(r.min.ver) + ","
      + (if r.max.inclusive then "<=" else "<") + VerText(r.max.ver)
  }

  // ---------------------------------------------------------------------------
  // Corrected rendering: the range as a list of clauses, each clause a
  // specifier on one version.

  datatype Clause =
    | AnyVersion            // `>=0.0.0`
    | NoVersion             // `<0.0.0`
    | AtLeast(v: Version)   // `>=v`
    | Above(v: Version)     // `>v`
    | AtMost(v: Version)    // `<=v`
    | Below(v: Version)     // `<v`
    | Exactly(v: Version)   // `==v`

  /** What a clause admits, in semver precedence. */
  predicate ClauseHolds(c: Clause, w: Version) {
    match c
    case AnyVersion => true
    case NoVersion => false
    case AtLeast(v) => !Less(w, v)
    case Above(v) => Less(v, w)
    case AtMost(v) => !Less(v, w)
    case Below(v) => Less(w, v)
    case Exactly(v) => w == v
  }

  predicate AllHold(cs: seq<Clause>, w: Version) {
    forall k :: 0 <= k < |cs| ==> ClauseHolds(cs[k], w)
  }

  function LowerClause(b: Bound): Clause
    requires b.ver.Sem?
  {
    if b.inclusive then AtLeast(b.ver.v) else Above(b.ver.v)
  }

  function UpperClause(b: Bound): Clause
    requires b.ver.Sem?
  {
    if b.inclusive then AtMost(b.ver.v) else Below(b.ver.v)
  }

  /**
   * The branches of `__str__` with the flags read from the bound they
   * describe, and the sentinels told apart.
   */
  function RangeClauses(r: Range): seq<Clause> {
    var minS := !r.min.ver.Sem?;
    var maxS := !r.max.ver.Sem?;
    if minS && maxS then
      (if r.min.ver == MinVer && r.max.ver == MaxVer then [AnyVersion] else [NoVersion])
    else if minS then
      (if r.min.ver == MinVer then [UpperClause(r.max)] else [NoVersion])
    else if maxS then
      (if r.max.ver == MaxVer then [LowerClause(r.min)] else [NoVersion])
    else if r.min.inclusive && r.max.inclusive && r.min.ver == r.max.ver then
      [Exactly(r.min.ver.v)]
    else
      [LowerClause(r.min), UpperClause(r.max)]
  }

  /** The corrected rendering states the range exactly: its clauses admit the versions it contains. */
  lemma RangeClausesSound(r: Range, w: Version)
    ensures AllHold(RangeClauses(r), w) <==> Contains(r, w)
  {
    var cs := RangeClauses(r);
    if r.min.ver.Sem? { NotLessIsLessEq(w, r.min.ver.v); }
    if r.max.ver.Sem? { NotLessIsLessEq(r.max.ver.v, w); }
    if r.min.ver.Sem? && r.max.ver.Sem? && r.min.inclusive && r.max.inclusive && r.min.ver == r.max.ver {
      var v := r.min.ver.v;
      if Less(v, w) && Less(w, v) { LessAsymmetric(v, w); }
    }
    if cs == [NoVersion] { assert !ClauseHolds(cs[0], w); }
    if |cs| == 2 { assert AllHold(cs, w) <==> ClauseHolds(cs[0], w) && ClauseHolds(cs[1], w); }
  }

  function OpVer(op: string, v: Version): Option<string> {
    match PyRelease(v)
    case None => None
    case Some(release) => Some(op + ReleaseText(release))
  }

  function ClauseText(c: Clause): Option<string> {
    match c
    case AnyVersion => Some(">=0.0.0")
    case NoVersion => Some("<0.0.0")
    case AtLeast(v) => OpVer(">=", v)
    case Above(v) => OpVer(">", v)
    case AtMost(v) => OpVer("<=", v)
    case Below(v) => OpVer("<", v)
    case Exactly(v) => OpVer("==", v)
  }

  function ClausesText(cs: seq<Clause>): Option<string> {
    if cs == [] then Some("")
    else
      match (ClauseText(cs[0]), ClausesText(cs[1..]))
      case (Some(head), Some(tail)) => Some(if cs[1..] == [] then head else head + "," + tail)
      case _ => None
  }

  lemma ClausesTextSingle(c: Clause)
    ensures ClausesText([c]) == ClauseText(c)
  {
    assert [c][1..] == [];
  }

  /** The corrected `__str__` of a range. */
  function RangeText(r: Range): Option<string> {
    ClausesText(RangeClauses(r))
  }

  // ---------------------------------------------------------------------------
  // Properties of the version text.

  lemma GlueDigits(a: nat, b: nat)
    requires a < 10 && b < 10
    ensures Glue(a, b) == 10 * a + b
  {
    assert NatToString(a) == [DigitChar(a)];
    assert NatToString(b) == [DigitChar(b)];
    var t := NatToString(a) + NatToString(b);
    assert t == [DigitChar(a), DigitChar(b)];
    assert t[..|t| - 1] == [DigitChar(a)];
    assert ParseNat([DigitChar(a)]) == a by {
      assert [DigitChar(a)][..0] == [];
    }
    assert ParseNat(t) == ParseNat(t[..|t| - 1]) * 10 + (t[|t| - 1] as int - '0' as int);
  }

  /** A release prints as `M.m.p`, and `M.m.0-0`, npm's exclusive top, prints the same. */
  lemma ReleaseRendering(major: nat, minor: nat, patch: nat)
    ensures PyRelease(Release(major, minor, patch)) == Some([major, minor, patch])
    ensures PyRelease(ZeroPre(major, minor)) == PyRelease(Release(major, minor, 0))
  {
    GlueDigits(0, 0);
    var z := ZeroPre(major, minor);
    assert z.pre[1..] == [];
    assert Nums(z.pre[1..]) == [];
    assert PyRelease(z) == Some([major, minor, Glue(0, 0)] + []);
    assert [major, minor, Glue(0, 0)] + [] == [major, minor, 0];
  }

  /** Three one-digit release numbers print as three digits with dots between. */
  lemma ShortReleaseText(a: nat, b: nat, c: nat)
    requires a < 10 && b < 10 && c < 10
    ensures ReleaseText([a, b, c]) == [DigitChar(a), '.', DigitChar(b), '.', DigitChar(c)]
  {
    var x, y, z := [DigitChar(a)], [DigitChar(b)], [DigitChar(c)];
    assert NatToString(a) == x && NatToString(b) == y && NatToString(c) == z;
    assert NatStrings([a, b, c]) == [x, y, z];
    assert [x, y, z][1..] == [y, z];
    assert [y, z][1..] == [z];
    assert Join([y, z], ".") == y + "." + z;
    assert Join([x, y, z], ".") == x + "." + (y + "." + z);
  }

  /**
   * Gluing the prerelease digits onto the patch does not keep precedence:
   * 1.2.3-4 sorts below 1.2.4 but reads back as release 1.2.34.
   */
  lemma NumericPrereleaseGlued()
    ensures Less(Version(1, 2, 3, [Num(4)]), Release(1, 2, 4))
    ensures PyRelease(Version(1, 2, 3, [Num(4)])) == Some([1, 2, 34])
  {
    GlueDigits(3, 4);
    var v := Version(1, 2, 3, [Num(4)]);
    assert v.pre[1..] == [];
    assert Nums(v.pre[1..]) == [];
    assert PyRelease(v) == Some([1, 2, Glue(3, 4)] + []);
    assert [1, 2, Glue(3, 4)] + [] == [1, 2, 34];
  }

  function ParseRelease(text: string): Option<seq<nat>> {
    var pieces := Split(text, '.');
    if forall k :: 0 <= k < |pieces| ==> AllDigits(pieces[k]) then
      Some(seq(|pieces|, k requires 0 <= k < |pieces| => ParseNat(pieces[k])))
    else None
  }

  /** The release text reads back as the same release numbers. */
  lemma ReleaseTextRoundTrip(release: seq<nat>)
    requires release != []
    ensures ParseRelease(ReleaseText(release)) == Some(release)
  {
    var parts := NatStrings(release);
    forall k | 0 <= k < |parts| ensures '.' !in parts[k] {
      assert AllDigits(parts[k]);
    }
    SplitJoin(parts, '.');
    var pieces := Split(ReleaseText(release), '.');
    assert pieces == parts;
    assert forall k :: 0 <= k < |pieces| ==> AllDigits(pieces[k]);
    var back := seq(|pieces|, k requires 0 <= k < |pieces| => ParseNat(pieces[k]));
    forall k | 0 <= k < |release| ensures back[k] == release[k] {
      ParseNatToString(release[k]);
    }
    assert back == release;
  }

  // ---------------------------------------------------------------------------
  // Where the as-written `__str__` goes wrong.

  /** `*` renders as `<0.0.0`, which admits nothing, though the range admits everything. */
  lemma StrOfEverything(w: Version)
    ensures AsPyRange(AnyRange) == Some(PyRange(PyBound(PyMin, true), PyBound(PyMax, true)))
    ensures PyRangeStr(AsPyRange(AnyRange).value) == "<0.0.0"
    ensures Contains(AnyRange, w)
    ensures RangeText(AnyRange) == Some(">=0.0.0")
  {
  }

  /** `<2` renders as `<=2.0.0`: the flag is read from the sentinel side, which is always inclusive. */
  lemma StrOfBelowTwo()
    ensures var r := Range(Bottom, Excl(ZeroPre(2, 0)));
            && PyRangeStr(AsPyRange(r).value) == "<=2.0.0"
            && RangeText(r) == Some("<2.0.0")
  {
    ReleaseRendering(2, 0, 0);
    ShortReleaseText(2, 0, 0);
    var r := Range(Bottom, Excl(ZeroPre(2, 0)));
    assert AsPyRange(r) == Some(PyRange(PyBound(PyMin, true), PyBound(PyRel([2, 0, 0]), false)));
    assert RangeClauses(r) == [Below(ZeroPre(2, 0))];
    assert DigitChar(2) == '2' && DigitChar(0) == '0';
    assert ClauseText(Below(ZeroPre(2, 0))) == Some("<" + ReleaseText([2, 0, 0]));
    ClausesTextSingle(Below(ZeroPre(2, 0)));
    assert ReleaseText([2, 0, 0]) == "2.0.0";
    assert "<" + "2.0.0" == "<2.0.0";
  }

  /** `>1.2.3` renders as `>=1.2.3`. */
  lemma StrOfAboveVersion()
    ensures var r := Range(Excl(Release(1, 2, 3)), Top);
            && PyRangeStr(AsPyRange(r).value) == ">=1.2.3"
            && RangeText(r) == Some(">1.2.3")
  {
    ReleaseRendering(1, 2, 3);
    ShortReleaseText(1, 2, 3);
    var r := Range(Excl(Release(1, 2, 3)), Top);
    assert AsPyRange(r) == Some(PyRange(PyBound(PyRel([1, 2, 3]), false), PyBound(PyMax, true)));
    assert RangeClauses(r) == [Above(Release(1, 2, 3))];
    assert DigitChar(1) == '1' && DigitChar(2) == '2' && DigitChar(3) == '3';
    assert ClauseText(Above(Release(1, 2, 3))) == Some(">" + ReleaseText([1, 2, 3]));
    ClausesTextSingle(Above(Release(1, 2, 3)));
    assert ReleaseText([1, 2, 3]) == "1.2.3";
    assert ">" + "1.2.3" == ">1.2.3";
  }

  /**
   * Away from the sentinels, and unless both bounds are inclusive, the
   * as-written `__str__` and the corrected rendering agree.
   */
  lemma StrAgreesAwayFromSentinels(r: Range)
    requires r.min.ver.Sem? && r.max.ver.Sem? && !(r.min.inclusive && r.max.inclusive)
    requires AsPyRange(r).Some?
    ensures RangeText(r) == Some(PyRangeStr(AsPyRange(r).value))
  {
    var cs := RangeClauses(r);
    var lo, hi := PyRelease(r.min.ver.v).value, PyRelease(r.max.ver.v).value;
    var loOp := if r.min.inclusive then ">=" else ">";
    var hiOp := if r.max.inclusive then "<=" else "<";
    assert AsPyRange(r).value == PyRange(PyBound(PyRel(lo), r.min.inclusive), PyBound(PyRel(hi), r.max.inclusive));
    assert cs == [LowerClause(r.min), UpperClause(r.max)];
    assert ClauseText(cs[0]) == Some(loOp + ReleaseText(lo));
    assert ClauseText(cs[1]) == Some(hiOp + ReleaseText(hi));
    assert cs[1..] == [UpperClause(r.max)];
    assert cs[1..][1..] == [];
    assert ClausesText(cs[1..]) == Some(hiOp + ReleaseText(hi));
    assert RangeText(r) == Some(loOp + ReleaseText(lo) + "," + (hiOp + ReleaseText(hi)));
    var p := AsPyRange(r).value;
    assert !IsSentinel(p.min.ver) && !IsSentinel(p.max.ver);
    assert VerText(p.min.ver) == ReleaseText(lo) && VerText(p.max.ver) == ReleaseText(hi);
    assert PyRangeStr(p) == loOp + ReleaseText(lo) + "," + hiOp + ReleaseText(hi);
    assert loOp + ReleaseText(lo) + "," + hiOp + ReleaseText(hi)
        == loOp + ReleaseText(lo) + "," + (hiOp + ReleaseText(hi));
  }
}

=== FILE: range_algebra.dfy ===
/**
 * Intersection and union of version ranges (`_is_overlapping`,
 * `_intersect_ranges`, `intersect_ranges`, `_union_ranges`, `union_ranges`
 * in version_man.py), as written, and corrected versions that read upper
 * bounds by their cuts. A list of ranges stands for the union of its members.
 */
module RangeAlgebra {
  import opened SemVer
  import opened Bounds

  /** `_is_overlapping`, in the source's single bound order. */
  predicate IsOverlapping(a: Range, b: Range) {
    BoundLe(a.min, b.max) && BoundLe(b.min, a.max)
  }

  lemma ContainsAnyConcat(xs: seq<Range>, ys: seq<Range>, v: Version)
    ensures ContainsAny(xs + ys, v) <==> ContainsAny(xs, v) || ContainsAny(ys, v)
  {
    if ContainsAny(xs + ys, v) {
      var k :| 0 <= k < |xs + ys| && Contains((xs + ys)[k], v);
      if k >= |xs| { assert ys[k - |xs|] == (xs + ys)[k]; }
    }
    if ContainsAny(xs, v) {
      var k :| 0 <= k < |xs| && Contains(xs[k], v);
      assert (xs + ys)[k] == xs[k];
    }
    if ContainsAny(ys, v) {
      var k :| 0 <= k < |ys| && Contains(ys[k], v);
      assert (xs + ys)[|xs| + k] == ys[k];
    }
  }

  lemma ContainsAnyCons(xs: seq<Range>, v: Version)
    requires xs != []
    ensures ContainsAny(xs, v) <==> Contains(xs[0], v) || ContainsAny(xs[1..], v)
  {
    assert xs == [xs[0]] + xs[1..];
    ContainsAnyConcat([xs[0]], xs[1..], v);
  }

  // ---------------------------------------------------------------------------
  // Intersection as written.

  /** `_intersect_ranges` */
  function IntersectPair(a: Range, b: Range): seq<Range> {
    if !IsOverlapping(a, b) then []
    else [Range(MaxBound(a.min, b.min), MinBound(a.max, b.max))]
  }

  /** One pass of the loop body of `intersect_ranges`: each range of `out` met with `r`. */
  function IntersectStep(out: seq<Range>, r: Range): seq<Range> {
    if out == [] then [] else IntersectPair(out[0], r) + IntersectStep(out[1..], r)
  }

  /** The loop of `intersect_ranges` from index `k` on. */
  function IntersectFrom(rs: seq<Range>, out: seq<Range>, k: nat): seq<Range>
    requires k <= |rs|
    decreases |rs| - k
  {
    if k == |rs| then out else IntersectFrom(rs, IntersectStep(out, rs[k]), k + 1)
  }

  /** `intersect_ranges`: starts from the first range and meets it with every range, itself included. */
  function IntersectRanges(rs: seq<Range>): seq<Range> {
    if rs == [] then [] else IntersectFrom(rs, [rs[0]], 0)
  }

  /**
   * The pairs the loop ends up checking among the first `k` ranges: the
   * first range against itself, then every range against each earlier one.
   */
  predicate AllOverlap(rs: seq<Range>, k: nat)
    requires 0 < k <= |rs|
  {
    IsOverlapping(rs[0], rs[0]) && forall i, j :: 0 <= i < j < k ==> IsOverlapping(rs[i], rs[j])
  }

  /** `o` runs from the greatest lower bound to the least upper bound of the first `k` ranges. */
  predicate IsHull(rs: seq<Range>, k: nat, o: Range)
    requires k <= |rs|
  {
    && (forall i :: 0 <= i < k ==> BoundLe(rs[i].min, o.min) && BoundLe(o.max, rs[i].max))
    && (exists i :: 0 <= i < k && o.min == rs[i].min)
    && (exists j :: 0 <= j < k && o.max == rs[j].max)
  }

  predicate IntersectInv(rs: seq<Range>, out: seq<Range>, k: nat)
    requires 0 < k <= |rs|
  {
    && |out| <= 1
    && (out == [] <==> !AllOverlap(rs, k))
    && (out != [] ==> IsHull(rs, k, out[0]))
  }

  lemma IntersectStepKeepsInv(rs: seq<Range>, out: seq<Range>, k: nat)
    requires 0 < k < |rs| && IntersectInv(rs, out, k)
    ensures IntersectInv(rs, IntersectStep(out, rs[k]), k + 1)
  {
    var r := rs[k];
    if out == [] {
      if IsOverlapping(rs[0], rs[0]) {
        var i, j :| 0 <= i < j < k && !IsOverlapping(rs[i], rs[j]);
      }
      assert !AllOverlap(rs, k + 1);
    } else {
      var o := out[0];
      assert out[1..] == [];
      assert IntersectStep(out, r) == IntersectPair(o, r);
      var i0 :| 0 <= i0 < k && o.min == rs[i0].min;
      var j0 :| 0 <= j0 < k && o.max == rs[j0].max;
      if IsOverlapping(o, r) {
        var n := Range(MaxBound(o.min, r.min), MinBound(o.max, r.max));
        MaxBoundIsMax(o.min, r.min);
        MinBoundIsMin(o.max, r.max);
        forall i | 0 <= i < k
          ensures IsOverlapping(rs[i], r)
          ensures BoundLe(rs[i].min, n.min) && BoundLe(n.max, rs[i].max)
        {
          BoundLeTransitive(rs[i].min, o.min, r.max);
          BoundLeTransitive(r.min, o.max, rs[i].max);
          BoundLeTransitive(rs[i].min, o.min, n.min);
          BoundLeTransitive(n.max, o.max, rs[i].max);
        }
        assert AllOverlap(rs, k + 1);
        if n.min == o.min { assert n.min == rs[i0].min; } else { assert n.min == rs[k].min; }
        if n.max == o.max { assert n.max == rs[j0].max; } else { assert n.max == rs[k].max; }
        assert IsHull(rs, k + 1, n);
      } else {
        if !BoundLe(o.min, r.max) {
          assert !IsOverlapping(rs[i0], rs[k]);
        } else {
          assert !IsOverlapping(rs[j0], rs[k]);
        }
        assert !AllOverlap(rs, k + 1);
      }
    }
  }

  lemma {:induction false} IntersectFromKeepsInv(rs: seq<Range>, out: seq<Range>, k: nat)
    requires 0 < k <= |rs| && IntersectInv(rs, out, k)
    ensures IntersectInv(rs, IntersectFrom(rs, out, k), |rs|)
    decreases |rs| - k
  {
    if k < |rs| {
      IntersectStepKeepsInv(rs, out, k);
      IntersectFromKeepsInv(rs, IntersectStep(out, rs[k]), k + 1);
    }
  }

  /**
   * `intersect_ranges` yields at most one range; nothing for an empty list
   * or when some checked pair fails `_is_overlapping`; otherwise the range
   * from the greatest lower bound to the least upper bound, both taken in
   * the source's bound order.
   */
  lemma IntersectRangesShape(rs: seq<Range>)
    ensures |IntersectRanges(rs)| <= 1
    ensures rs == [] ==> IntersectRanges(rs) == []
    ensures rs != [] ==> (IntersectRanges(rs) == [] <==> !AllOverlap(rs, |rs|))
    ensures IntersectRanges(rs) != [] ==> IsHull(rs, |rs|, IntersectRanges(rs)[0])
  {
    if rs != [] {
      var r := rs[0];
      var first := IntersectStep([r], r);
      assert [r][1..] == [];
      assert IntersectStep([r][1..], r) == [];
      assert first == IntersectPair(r, r) + [];
      if IsOverlapping(r, r) {
        assert MaxBound(r.min, r.min) == r.min && MinBound(r.max, r.max) == r.max;
        assert first == [r];
        assert IsHull(rs, 1, r);
      }
      assert IntersectInv(rs, first, 1);
      assert IntersectRanges(rs) == IntersectFrom(rs, first, 1);
      IntersectFromKeepsInv(rs, first, 1);
    }
  }

  // ---------------------------------------------------------------------------
  // Union as written.

  /** `_union_ranges` */
  function UnionPair(a: Range, b: Range): seq<Range> {
    if IsOverlapping(a, b) then [Range(MinBound(a.min, b.min), MaxBound(a.max, b.max))]
    else [a, b]
  }

  function UnionStep(out: seq<Range>, r: Range): seq<Range> {
    if out == [] then [] else UnionPair(out[0], r) + UnionStep(out[1..], r)
  }

  function UnionFrom(rs: seq<Range>, out: seq<Range>, k: nat): seq<Range>
    requires k <= |rs|
    decreases |rs| - k
  {
    if k == |rs| then out else UnionFrom(rs, UnionStep(out, rs[k]), k + 1)
  }

  /** `union_ranges`: the same loop shape as `intersect_ranges`. */
  function UnionRanges(rs: seq<Range>): seq<Range> {
    if rs == [] then [] else UnionFrom(rs, [rs[0]], 0)
  }

  function Mins(rs: seq<Range>): set<Bound> { set i | 0 <= i < |rs| :: rs[i].min }

  function Maxs(rs: seq<Range>): set<Bound> { set i | 0 <= i < |rs| :: rs[i].max }

  /** Every bound of `out` is a bound of some input range. */
  predicate BoundsFrom(out: seq<Range>, rs: seq<Range>) {
    forall k :: 0 <= k < |out| ==> out[k].min in Mins(rs) && out[k].max in Maxs(rs)
  }

  lemma {:induction false} UnionStepBounds(out: seq<Range>, rs: seq<Range>, k: nat)
    requires k < |rs| && BoundsFrom(out, rs)
    ensures BoundsFrom(UnionStep(out, rs[k]), rs)
    ensures out != [] ==> UnionStep(out, rs[k]) != []
    decreases |out|
  {
    if out != [] {
      var o, r := out[0], rs[k];
      assert r.min in Mins(rs) && r.max in Maxs(rs);
      MinBoundIsMin(o.min, r.min);
      MaxBoundIsMax(o.max, r.max);
      assert BoundsFrom(UnionPair(o, r), rs);
      assert BoundsFrom(out[1..], rs) by {
        forall j | 0 <= j < |out[1..]| ensures out[1..][j] == out[j + 1] { }
      }
      UnionStepBounds(out[1..], rs, k);
      var a: seq<Range>, b: seq<Range> := UnionPair(o, r), UnionStep(out[1..], r);
      forall j | 0 <= j < |a + b|
        ensures (a + b)[j].min in Mins(rs) && (a + b)[j].max in Maxs(rs)
      {
        if j >= |a| { assert (a + b)[j] == b[j - |a|]; }
      }
    }
  }

  lemma {:induction false} UnionFromBounds(rs: seq<Range>, out: seq<Range>, k: nat)
    requires k <= |rs| && BoundsFrom(out, rs)
    ensures BoundsFrom(UnionFrom(rs, out, k), rs)
    ensures out != [] ==> UnionFrom(rs, out, k) != []
    decreases |rs| - k
  {
    if k < |rs| {
      UnionStepBounds(out, rs, k);
      UnionFromBounds(rs, UnionStep(out, rs[k]), k + 1);
    }
  }

  /**
   * `union_ranges` invents no bound: every bound of its result is a bound of
   * an input range, and a non-empty input gives a non-empty result.
   */
  lemma UnionRangesBounds(rs: seq<Range>)
    ensures BoundsFrom(UnionRanges(rs), rs)
    ensures rs != [] <==> UnionRanges(rs) != []
  {
    if rs != [] {
      assert rs[0].min in Mins(rs) && rs[0].max in Maxs(rs);
      UnionFromBounds(rs, [rs[0]], 0);
    }
  }

  // ---------------------------------------------------------------------------
  // Where the source's bound order goes wrong for upper bounds.

  function V200(): Version { Release(2, 0, 0) }

  /**
   * `<=2.0.0` met with `<2.0.0` still admits 2.0.0: `min` of the two upper
   * bounds keeps the inclusive one.
   */
  lemma IntersectKeepsExcludedVersion()
    ensures var rs := [Range(Bottom, Incl(V200())), Range(Bottom, Excl(V200()))];
            ContainsAny(IntersectRanges(rs), V200()) && !Contains(rs[1], V200())
  {
    var rs := [Range(Bottom, Incl(V200())), Range(Bottom, Excl(V200()))];
    assert [rs[0]][1..] == [];
    assert IntersectStep([rs[0]], rs[0]) == [rs[0]];
    assert IntersectStep([rs[0]], rs[1]) == [rs[0]];
    assert IntersectFrom(rs, [rs[0]], 2) == [rs[0]];
    assert IntersectFrom(rs, [rs[0]], 1) == [rs[0]];
    assert IntersectRanges(rs) == [rs[0]];
    assert Contains(IntersectRanges(rs)[0], V200());
  }

  /** The union of `<2.0.0` and `>2.0.0` admits 2.0.0, which neither admits. */
  lemma UnionAddsExcludedVersion()
    ensures var rs := [Range(Bottom, Excl(V200())), Range(Excl(V200()), Top)];
            ContainsAny(UnionRanges(rs), V200()) && !ContainsAny(rs, V200())
  {
    var rs := [Range(Bottom, Excl(V200())), Range(Excl(V200()), Top)];
    LessIrreflexive(V200());
    assert [rs[0]][1..] == [];
    assert UnionStep([rs[0]], rs[0]) == [rs[0]];
    assert UnionStep([rs[0]], rs[1]) == [AnyRange];
    assert UnionFrom(rs, [AnyRange], 2) == [AnyRange];
    assert UnionFrom(rs, [rs[0]], 1) == [AnyRange];
    assert UnionRanges(rs) == [AnyRange];
    assert Contains(UnionRanges(rs)[0], V200());
  }

  /** The union of `>=1.0.0 <=2.0.0` and `>=1.0.0 <2.0.0` loses 2.0.0. */
  lemma UnionDropsIncludedVersion()
    ensures var rs := [Range(Incl(Release(1, 0, 0)), Incl(V200())),
                       Range(Incl(Release(1, 0, 0)), Excl(V200()))];
            Contains(rs[0], V200()) && !ContainsAny(UnionRanges(rs), V200())
  {
    var rs := [Range(Incl(Release(1, 0, 0)), Incl(V200())),
               Range(Incl(Release(1, 0, 0)), Excl(V200()))];
    LessIrreflexive(V200());
    assert [rs[0]][1..] == [];
    assert UnionStep([rs[0]], rs[0]) == [rs[0]];
    assert UnionStep([rs[0]], rs[1]) == [rs[1]];
    assert UnionFrom(rs, [rs[1]], 2) == [rs[1]];
    assert UnionFrom(rs, [rs[0]], 1) == [rs[1]];
    assert UnionRanges(rs) == [rs[1]];
  }

  /**
   * `<=2.0.0` and `>2.0.0` together admit every version, yet the union keeps
   * them apart: the source's order puts `<=2.0.0` below `>2.0.0`, so
   * `_is_overlapping` says no. The corrected union merges them into one range.
   */
  lemma UnionKeepsTouchingApart()
    ensures var rs := [Range(Bottom, Incl(V200())), Range(Excl(V200()), Top)];
            && UnionRanges(rs) == rs
            && UnionRangesFixed(rs) == [AnyRange]
  {
    var rs := [Range(Bottom, Incl(V200())), Range(Excl(V200()), Top)];
    assert [rs[0]][1..] == [];
    assert UnionStep([rs[0]], rs[0]) == [rs[0]];
    assert !IsOverlapping(rs[0], rs[1]);
    assert UnionStep([rs[0]], rs[1]) == rs;
    assert UnionFrom(rs, rs, 2) == rs;
    assert UnionFrom(rs, [rs[0]], 1) == rs;
    assert UnionStepFixed([rs[0]], rs[0]) == [rs[0]];
    assert Mergeable(rs[0], rs[1]);
    assert UnionStepFixed([rs[0]], rs[1]) == [AnyRange];
    assert UnionFromFixed(rs, [AnyRange], 2) == [AnyRange];
    assert UnionFromFixed(rs, [rs[0]], 1) == [AnyRange];
  }

  // ---------------------------------------------------------------------------
  // Corrected intersection: upper bounds met by their cuts.

  function IntersectPairFixed(a: Range, b: Range): seq<Range> {
    if !IsOverlapping(a, b) then []
    else [Range(MaxBound(a.min, b.min), UpperMin(a.max, b.max))]
  }

  function IntersectStepFixed(out: seq<Range>, r: Range): seq<Range> {
    if out == [] then [] else IntersectPairFixed(out[0], r) + IntersectStepFixed(out[1..], r)
  }

  function IntersectFromFixed(rs: seq<Range>, out: seq<Range>, k: nat): seq<Range>
    requires k <= |rs|
    decreases |rs| - k
  {
    if k == |rs| then out else IntersectFromFixed(rs, IntersectStepFixed(out, rs[k]), k + 1)
  }

  function IntersectRangesFixed(rs: seq<Range>): seq<Range> {
    if rs == [] then [] else IntersectFromFixed(rs, [rs[0]], 0)
  }

  /** The corrected pairwise intersection admits exactly what both ranges admit. */
  lemma IntersectPairFixedSound(a: Range, b: Range, v: Version)
    ensures |IntersectPairFixed(a, b)| <= 1
    ensures ContainsAny(IntersectPairFixed(a, b), v) <==> Contains(a, v) && Contains(b, v)
  {
    if !IsOverlapping(a, b) {
      if !BoundLe(a.min, b.max) {
        BoundLeTotal(a.min, b.max);
        NothingBetween(b.max, a.min, v);
      } else {
        BoundLeTotal(b.min, a.max);
        NothingBetween(a.max, b.min, v);
      }
    } else {
      var n := Range(MaxBound(a.min, b.min), UpperMin(a.max, b.max));
      MaxBoundAdmits(a.min, b.min, v);
      UpperMinAdmits(a.max, b.max, v);
      ContainsAnyCons([n], v);
    }
  }

  lemma {:induction false} IntersectStepFixedSound(out: seq<Range>, r: Range, v: Version)
    ensures |IntersectStepFixed(out, r)| <= |out|
    ensures ContainsAny(IntersectStepFixed(out, r), v) <==> ContainsAny(out, v) && Contains(r, v)
    decreases |out|
  {
    if out != [] {
      IntersectPairFixedSound(out[0], r, v);
      IntersectStepFixedSound(out[1..], r, v);
      ContainsAnyConcat(IntersectPairFixed(out[0], r), IntersectStepFixed(out[1..], r), v);
      ContainsAnyCons(out, v);
    }
  }

  lemma {:induction false} IntersectFromFixedSound(rs: seq<Range>, out: seq<Range>, k: nat, v: Version)
    requires k <= |rs|
    ensures |IntersectFromFixed(rs, out, k)| <= |out|
    ensures ContainsAny(IntersectFromFixed(rs, out, k), v) <==>
              ContainsAny(out, v) && forall i :: k <= i < |rs| ==> Contains(rs[i], v)
    decreases |rs| - k
  {
    if k < |rs| {
      IntersectStepFixedSound(out, rs[k], v);
      IntersectFromFixedSound(rs, IntersectStepFixed(out, rs[k]), k + 1, v);
    }
  }

  /**
   * The corrected `intersect_ranges` yields at most one range, and that
   * range admits exactly the versions every input range admits.
   */
  lemma IntersectRangesFixedSound(rs: seq<Range>, v: Version)
    ensures |IntersectRangesFixed(rs)| <= 1
    ensures ContainsAny(IntersectRangesFixed(rs), v) <==>
              rs != [] && forall i :: 0 <= i < |rs| ==> Contains(rs[i], v)
  {
    if rs != [] {
      IntersectFromFixedSound(rs, [rs[0]], 0, v);
      ContainsAnyCons([rs[0]], v);
    }
  }

  // ---------------------------------------------------------------------------
  // Corrected union: ranges merge only when no version lies between them.

  /** Each range's lower cut lies at or below the other's upper cut. */
  predicate Mergeable(a: Range, b: Range) {
    CutLe(LowerCut(a.min), UpperCut(b.max)) && CutLe(LowerCut(b.min), UpperCut(a.max))
  }

  function UnionPairFixed(a: Range, b: Range): seq<Range> {
    if Mergeable(a, b) then [Range(MinBound(a.min, b.min), UpperMax(a.max, b.max))]
    else [a, b]
  }

  function UnionStepFixed(out: seq<Range>, r: Range): seq<Range> {
    if out == [] then [] else UnionPairFixed(out[0], r) + UnionStepFixed(out[1..], r)
  }

  function UnionFromFixed(rs: seq<Range>, out: seq<Range>, k: nat): seq<Range>
    requires k <= |rs|
    decreases |rs| - k
  {
    if k == |rs| then out else UnionFromFixed(rs, UnionStepFixed(out, rs[k]), k + 1)
  }

  function UnionRangesFixed(rs: seq<Range>): seq<Range> {
    if rs == [] then [] else UnionFromFixed(rs, [rs[0]], 0)
  }

  /** A version in the hull of `a` and `b` where `b` starts no later than `a` ends lies in one of them. */
  lemma HullSplits(a: Range, b: Range, v: Version)
    requires CutLe(LowerCut(b.min), UpperCut(a.max))
    requires LowerAdmits(a.min, v) && UpperAdmits(b.max, v)
    ensures Contains(a, v) || Contains(b, v)
  {
    if !UpperAdmits(a.max, v) {
      UpperAdmitsCut(a.max, v);
      CutSide(UpperCut(a.max), v);
      CutBelowMonotone(UpperCut(a.max), LowerCut(b.min), v);
      LowerAdmitsCut(b.min, v);
    }
  }

  lemma UnionPairFixedSound(a: Range, b: Range, v: Version)
    ensures UnionPairFixed(a, b) != []
    ensures ContainsAny(UnionPairFixed(a, b), v) <==> Contains(a, v) || Contains(b, v)
  {
    if Mergeable(a, b) {
      var n := Range(MinBound(a.min, b.min), UpperMax(a.max, b.max));
      MinBoundAdmits(a.min, b.min, v);
      UpperMaxAdmits(a.max, b.max, v);
      ContainsAnyCons([n], v);
      if Contains(n, v) {
        if LowerAdmits(a.min, v) && UpperAdmits(b.max, v) { HullSplits(a, b, v); }
        if LowerAdmits(b.min, v) && UpperAdmits(a.max, v) { HullSplits(b, a, v); }
      }
    } else {
      ContainsAnyCons([a, b], v);
      ContainsAnyCons([b], v);
      assert [a, b][1..] == [b];
    }
  }

  lemma {:induction false} UnionStepFixedSound(out: seq<Range>, r: Range, v: Version)
    ensures out != [] <==> UnionStepFixed(out, r) != []
    ensures ContainsAny(UnionStepFixed(out, r), v) <==>
              out != [] && (ContainsAny(out, v) || Contains(r, v))
    decreases |out|
  {
    if out != [] {
      UnionPairFixedSound(out[0], r, v);
      UnionStepFixedSound(out[1..], r, v);
      ContainsAnyConcat(UnionPairFixed(out[0], r), UnionStepFixed(out[1..], r), v);
      ContainsAnyCons(out, v);
    }
  }

  lemma {:induction false} UnionFromFixedSound(rs: seq<Range>, out: seq<Range>, k: nat, v: Version)
    requires k <= |rs| && out != []
    ensures UnionFromFixed(rs, out, k) != []
    ensures ContainsAny(UnionFromFixed(rs, out, k), v) <==>
              ContainsAny(out, v) || exists i :: k <= i < |rs| && Contains(rs[i], v)
    decreases |rs| - k
  {
    if k < |rs| {
      UnionStepFixedSound(out, rs[k], v);
      UnionFromFixedSound(rs, UnionStepFixed(out, rs[k]), k + 1, v);
    }
  }

  /** The corrected `union_ranges` admits exactly the versions some input range admits. */
  lemma UnionRangesFixedSound(rs: seq<Range>, v: Version)
    ensures rs != [] <==> UnionRangesFixed(rs) != []
    ensures ContainsAny(UnionRangesFixed(rs), v) <==> ContainsAny(rs, v)
  {
    if rs != [] {
      UnionFromFixedSound(rs, [rs[0]], 0, v);
      ContainsAnyCons([rs[0]], v);
    }
  }
}

=== FILE: resolver.dfy ===
/**
 * The dependency-tree builder. The package being resolved is the root;
 * every dependency is placed as high in the tree as its version
 * constraint allows, and nested under the requiring node only on a
 * conflict, the way npm lays out `node_modules`. The tree is an arena of
 * nodes addressed by index with the root at index 0, and the registry is
 * an immutable map from package name to its releases.
 */
module Resolver {
  import opened Wrappers
  import opened Strings
  import opened SemVer
  import opened Dicts
  import opened Constraints

  // ---------------------------------------------------------------------------
  // Registry

  /** One published version: its npm version text, that text parsed, and its dependency specs. */
  datatype Release = Release(js: string, sem: Version, deps: Dict<string, string>)

  /** A `Version` row: a release of a named distribution. */
  datatype PkgVersion = PkgVersion(dist: string, release: Release)

  /** For each package name, its releases in the order `get_package_versions` yields them. */
  type Registry = map<string, seq<Release>>

  function Releases(reg: Registry, name: string): seq<Release> {
    if name in reg then reg[name] else []
  }

  /**
   * `_package_versions`: each npm version converted to a Python version,
   * `toPy` answering None where the conversion raises; a version whose
   * Python form is already taken is skipped. The result pairs the Python
   * version with the npm version kept for it.
   */
  function KeepFirstVersions(jsVersions: seq<string>, toPy: string -> Option<string>, seen: set<string>): (r: seq<(string, string)>)
    decreases |jsVersions|
  {
    if jsVersions == [] then []
    else
      var j := jsVersions[0];
      match toPy(j)
      case None => KeepFirstVersions(jsVersions[1..], toPy, seen)
      case Some(p) =>
        if p in seen then KeepFirstVersions(jsVersions[1..], toPy, seen)
        else [(p, j)] + KeepFirstVersions(jsVersions[1..], toPy, seen + {p})
  }

  function PackageVersions(jsVersions: seq<string>, toPy: string -> Option<string>): seq<(string, string)> {
    KeepFirstVersions(jsVersions, toPy, {})
  }

  /** Every kept pair is a real conversion of a listed version, and no Python version is kept twice. */
  lemma {:induction false} KeepFirstSound(jsVersions: seq<string>, toPy: string -> Option<string>, seen: set<string>)
    ensures var r := KeepFirstVersions(jsVersions, toPy, seen);
      && DistinctKeys(r)
      && forall k :: 0 <= k < |r| ==>
           r[k].0 !in seen && r[k].1 in jsVersions && toPy(r[k].1) == Some(r[k].0)
    decreases |jsVersions|
  {
    if jsVersions != [] {
      var j := jsVersions[0];
      match toPy(j)
      case None => KeepFirstSound(jsVersions[1..], toPy, seen);
      case Some(p) =>
        if p in seen {
          KeepFirstSound(jsVersions[1..], toPy, seen);
        } else {
          KeepFirstSound(jsVersions[1..], toPy, seen + {p});
        }
    }
  }

  /** Every convertible version whose Python form was not already taken is represented. */
  lemma {:induction false} KeepFirstComplete(jsVersions: seq<string>, toPy: string -> Option<string>, seen: set<string>, i: nat)
    requires i < |jsVersions| && toPy(jsVersions[i]).Some? && toPy(jsVersions[i]).value !in seen
    ensures toPy(jsVersions[i]).value in Keys(KeepFirstVersions(jsVersions, toPy, seen))
    decreases |jsVersions|
  {
    var j := jsVersions[0];
    var r := KeepFirstVersions(jsVersions, toPy, seen);
    match toPy(j)
    case None =>
      KeepFirstComplete(jsVersions[1..], toPy, seen, i - 1);
    case Some(p) =>
      if p in seen {
        KeepFirstComplete(jsVersions[1..], toPy, seen, i - 1);
      } else if i > 0 && toPy(jsVersions[i]).value != p {
        KeepFirstComplete(jsVersions[1..], toPy, seen + {p}, i - 1);
        assert Keys(r) == [p] + Keys(KeepFirstVersions(jsVersions[1..], toPy, seen + {p}));
      } else {
        assert r[0].0 == p;
      }
  }

  /** The npm version kept for a Python version is the first one listed that converts to it. */
  lemma {:induction false} KeepFirstIsFirst(jsVersions: seq<string>, toPy: string -> Option<string>, seen: set<string>, k: nat)
    requires k < |KeepFirstVersions(jsVersions, toPy, seen)|
    ensures var r := KeepFirstVersions(jsVersions, toPy, seen);
      exists i :: 0 <= i < |jsVersions| && jsVersions[i] == r[k].1 &&
        forall i' :: 0 <= i' < i ==> toPy(jsVersions[i']) != Some(r[k].0)
    decreases |jsVersions|
  {
    var r := KeepFirstVersions(jsVersions, toPy, seen);
    var j := jsVersions[0];
    var rest := jsVersions[1..];
    var seen' := match toPy(j) case Some(p) => seen + {p} case None => seen;
    var tail := KeepFirstVersions(rest, toPy, seen');
    if toPy(j).Some? && toPy(j).value !in seen {
      if k == 0 {
        assert jsVersions[0] == r[0].1;
      } else {
        assert r[k] == tail[k - 1];
        KeepFirstIsFirst(rest, toPy, seen', k - 1);
        KeepFirstSound(rest, toPy, seen');
        var i :| 0 <= i < |rest| && rest[i] == tail[k - 1].1 &&
          forall i' :: 0 <= i' < i ==> toPy(rest[i']) != Some(tail[k - 1].0);
        assert jsVersions[i + 1] == r[k].1;
        forall i' | 0 <= i' < i + 1 ensures toPy(jsVersions[i']) != Some(r[k].0) {
          if i' > 0 { assert jsVersions[i'] == rest[i' - 1]; }
        }
      }
    } else {
      var seen2 := seen;
      assert r == KeepFirstVersions(rest, toPy, seen2);
      KeepFirstIsFirst(rest, toPy, seen2, k);
      KeepFirstSound(rest, toPy, seen2);
      var i :| 0 <= i < |rest| && rest[i] == r[k].1 &&
        forall i' :: 0 <= i' < i ==> toPy(rest[i']) != Some(r[k].0);
      assert jsVersions[i + 1] == r[k].1;
      forall i' | 0 <= i' < i + 1 ensures toPy(jsVersions[i']) != Some(r[k].0) {
        if i' > 0 { assert jsVersions[i'] == rest[i' - 1]; }
      }
    }
  }

  // ---------------------------------------------------------------------------
  // Choosing versions

  /** The position of the first release the constraint accepts. */
  function FirstAccepted(c: Constraint, releases: seq<Release>): (r: Option<nat>)
    ensures r.None? <==> forall i :: 0 <= i < |releases| ==> !Accept(c, releases[i].sem)
    ensures r.Some? ==> (r.value < |releases| && Accept(c, releases[r.value].sem) &&
                         forall j :: 0 <= j < r.value ==> !Accept(c, releases[j].sem))
    decreases |releases|
  {
    if releases == [] then None
    else if Accept(c, releases[0].sem) then Some(0)
    else
      assert forall j :: 1 <= j < |releases| ==> releases[j] == releases[1..][j - 1];
      match FirstAccepted(c, releases[1..])
      case None => None
      case Some(i) => Some(i + 1)
  }

  /** `find_best_version`: the first release, in registry order, that the constraint accepts. */
  function FindBestVersion(c: Constraint, releases: seq<Release>): (r: Option<Release>)
    ensures r.None? <==> forall i :: 0 <= i < |releases| ==> !Accept(c, releases[i].sem)
    ensures r.Some? ==> r.value in releases && Accept(c, r.value.sem)
  {
    match FirstAccepted(c, releases)
    case None => None
    case Some(i) => Some(releases[i])
  }

  /** Releases listed from the highest version down. */
  predicate SortedDescending(releases: seq<Release>) {
    forall i, j :: 0 <= i < j < |releases| ==> LessEq(releases[j].sem, releases[i].sem)
  }

  /** On a list sorted from the highest version down, the chosen release is the highest accepted one. */
  lemma FindBestIsHighest(c: Constraint, releases: seq<Release>, k: nat)
    requires SortedDescending(releases)
    requires k < |releases| && Accept(c, releases[k].sem)
    ensures FindBestVersion(c, releases).Some?
    ensures LessEq(releases[k].sem, FindBestVersion(c, releases).value.sem)
  {
    var i := FirstAccepted(c, releases).value;
    assert i <= k;
    if i < k {
      assert LessEq(releases[k].sem, releases[i].sem);
    }
  }

  /** A requirement resolved to a version and the constraint it came with. */
  datatype Dep = Dep(version: PkgVersion, constraint: Constraint)

  /**
   * One entry of `get_dependencies`: the package must be known, the spec
   * must parse, and some release must satisfy it.
   */
  function ResolveDep(reg: Registry, package: string, spec: string): (r: Result<Dep, string>)
    ensures r.Err? <==>
      package !in reg || FromSpec(spec).Err? ||
      forall i :: 0 <= i < |reg[package]| ==> !Accept(FromSpec(spec).value, reg[package][i].sem)
    ensures r.Ok? ==> && r.value.version.dist == package
                      && r.value.version.release in reg[package]
                      && r.value.constraint == FromSpec(spec).value
                      && Accept(r.value.constraint, r.value.version.release.sem)
  {
    if package !in reg then Err("Distribution matching query does not exist.")
    else match FromSpec(spec)
      case Err(e) => Err(e)
      case Ok(c) =>
        match FindBestVersion(c, reg[package])
        case None => Err("Could not find a version for " + package + " that satisfies " + spec)
        case Some(rel) => Ok(Dep(PkgVersion(package, rel), c))
  }

  /** The resolution of each dependency on its own, in order. */
  function Resolutions(reg: Registry, deps: Dict<string, string>): (rs: seq<Result<Dep, string>>)
    ensures |rs| == |deps|
    ensures forall i :: 0 <= i < |deps| ==> rs[i] == ResolveDep(reg, deps[i].0, deps[i].1)
  {
    seq(|deps|, i requires 0 <= i < |deps| => ResolveDep(reg, deps[i].0, deps[i].1))
  }

  /**
   * Success exactly when every step succeeds, with the step results in
   * order; otherwise the error of the first step that failed.
   */
  predicate AllOrFirstError<T(==)>(rs: seq<Result<T, string>>, r: Result<seq<T>, string>) {
    && (r.Ok? <==> forall i :: 0 <= i < |rs| ==> rs[i].Ok?)
    && (r.Ok? ==> |r.value| == |rs| && forall i :: 0 <= i < |rs| ==> rs[i] == Ok(r.value[i]))
    && (r.Err? ==> exists i :: 0 <= i < |rs| && rs[i] == Err(r.error) && forall j :: 0 <= j < i ==> rs[j].Ok?)
  }

  /** The first step's result in front of the rest's, or the first error met. */
  function ConsResult<T>(head: Result<T, string>, tail: Result<seq<T>, string>): Result<seq<T>, string> {
    match head
    case Err(e) => Err(e)
    case Ok(d) =>
      match tail
      case Err(e) => Err(e)
      case Ok(ds) => Ok([d] + ds)
  }

  lemma AllOrFirstErrorCons<T>(rs: seq<Result<T, string>>, tail: Result<seq<T>, string>)
    requires rs != [] && AllOrFirstError(rs[1..], tail)
    ensures AllOrFirstError(rs, ConsResult(rs[0], tail))
  {
    var rest := rs[1..];
    assert forall i :: 1 <= i < |rs| ==> rs[i] == rest[i - 1];
    if rs[0].Ok? && tail.Err? {
      var i :| 0 <= i < |rest| && rest[i] == Err(tail.error) && forall j :: 0 <= j < i ==> rest[j].Ok?;
      assert rs[i + 1] == rest[i];
      assert forall j :: 0 <= j < i + 1 ==> rs[j].Ok?;
    }
  }

  /** `get_dependencies`: every dependency resolved in order; the first failure is raised. */
  function GetDependencies(reg: Registry, deps: Dict<string, string>): (r: Result<seq<Dep>, string>)
    ensures AllOrFirstError(Resolutions(reg, deps), r)
    decreases |deps|
  {
    if deps == [] then Ok([])
    else
      var tail := GetDependencies(reg, deps[1..]);
      var rs := Resolutions(reg, deps);
      assert rs[1..] == Resolutions(reg, deps[1..]);
      AllOrFirstErrorCons(rs, tail);
      ConsResult(ResolveDep(reg, deps[0].0, deps[0].1), tail)
  }

  // ---------------------------------------------------------------------------
  // The tree

  /** A node: its chosen version, its parent, its children, its constraint and its cache of placed children by package. */
  datatype Node = Node(version: PkgVersion, parent: Option<nat>, children: seq<nat>, constraint: Constraint, cache: map<string, nat>)

  type Tree = seq<Node>

  /**
   * The root is at index 0 and alone without a parent; every other node's
   * parent comes before it; children and cache entries name nodes whose
   * parent is the holder, and a cache entry for a package names a node of
   * that package.
   */
  predicate Wf(t: Tree) {
    && |t| > 0
    && t[0].parent.None?
    && (forall i :: 0 < i < |t| ==> t[i].parent.Some? && t[i].parent.value < i)
    && (forall i, k :: 0 <= i < |t| && 0 <= k < |t[i].children| ==>
          t[i].children[k] < |t| && t[t[i].children[k]].parent == Some(i))
    && (forall i, d :: 0 <= i < |t| && d in t[i].cache ==>
          t[i].cache[d] < |t| && t[t[i].cache[d]].parent == Some(i) && t[t[i].cache[d]].version.dist == d)
  }

  /** A fresh tree holding only the root, constrained to its own version (`Resolver.__init__`). */
  function NewTree(root: PkgVersion): (r: Result<Tree, string>)
    ensures r.Ok? ==> Wf(r.value) && |r.value| == 1 && r.value[0].version == root
    ensures r.Ok? <==> FromSpec(root.release.js).Ok?
  {
    match FromSpec(root.release.js)
    case Err(e) => Err(e)
    case Ok(c) => Ok([Node(root, None, [], c, map[])])
  }

  /** The indices on the path from the root down to `i`. */
  function Ancestors(t: Tree, i: nat): (r: seq<nat>)
    requires Wf(t) && i < |t|
    ensures |r| >= 1 && r[0] == 0 && r[|r| - 1] == i
    ensures forall k :: 0 <= k < |r| ==> r[k] < |t|
    ensures forall j, k :: 0 <= j < |r| && 0 <= k < |r| && k == j + 1 ==> t[r[k]].parent == Some(r[j])
    decreases i
  {
    if t[i].parent.None? then [i] else Ancestors(t, t[i].parent.value) + [i]
  }

  /** The number of parent links from `i` up to the root. */
  function Depth(t: Tree, i: nat): nat
    requires Wf(t) && i < |t|
    decreases i
  {
    if t[i].parent.None? then 0 else Depth(t, t[i].parent.value) + 1
  }

  lemma {:induction false} AncestorsLength(t: Tree, i: nat)
    requires Wf(t) && i < |t|
    ensures |Ancestors(t, i)| == Depth(t, i) + 1
    decreases i
  {
    if t[i].parent.Some? {
      AncestorsLength(t, t[i].parent.value);
    }
  }

  /** `Node.root`: following parents ends at the root, the one node without a parent. */
  function Root(t: Tree, i: nat): (r: nat)
    requires Wf(t) && i < |t|
    ensures r < |t| && t[r].parent.None?
    ensures r == Ancestors(t, i)[0]
    decreases i
  {
    if t[i].parent.None? then i else Root(t, t[i].parent.value)
  }

  /** The root is the same from every node. */
  lemma RootIsZero(t: Tree, i: nat)
    requires Wf(t) && i < |t|
    ensures Root(t, i) == 0
  {
  }

  /** `ancestors_js_names`: package names from the root down to `i`. */
  function AncestorNames(t: Tree, i: nat): (r: seq<string>)
    requires Wf(t) && i < |t|
    ensures |r| == |Ancestors(t, i)|
    ensures forall k :: 0 <= k < |r| ==> r[k] == t[Ancestors(t, i)[k]].version.dist
    decreases i
  {
    if t[i].parent.None? then [t[i].version.dist]
    else AncestorNames(t, t[i].parent.value) + [t[i].version.dist]
  }

  const NodeModules := "/node_modules/"

  /** The path of a node's package on disk, as `_resolve_nodes` names it. */
  function ResolvedPath(t: Tree, i: nat): string
    requires Wf(t) && i < |t|
  {
    Join(AncestorNames(t, i), NodeModules)
  }

  /** The root sits at its own name, and every other node under its parent's `node_modules`. */
  lemma ResolvedPathStep(t: Tree, i: nat)
    requires Wf(t) && i < |t|
    ensures i == 0 ==> ResolvedPath(t, i) == t[0].version.dist
    ensures i > 0 ==> (ResolvedPath(t, i) ==
                       ResolvedPath(t, t[i].parent.value) + NodeModules + t[i].version.dist)
  {
    if i > 0 {
      JoinSnoc(AncestorNames(t, t[i].parent.value), t[i].version.dist, NodeModules);
    }
  }

  /** What `_resolve_nodes` records for a node. */
  datatype Resolution = Resolution(pythonName: string, jsName: string)

  /**
   * The Python name is the package's Python name, `.x` and a signature of
   * the node; `pyName` gives each package's Python name and `signature`
   * stands for the hash of the root, the path and the dependencies.
   */
  function ResolveNode(t: Tree, i: nat, pyName: string -> string, signature: (string, Dict<string, string>) -> string): (r: Resolution)
    requires Wf(t) && i < |t|
    ensures r.jsName == Join(AncestorNames(t, i), NodeModules)
    ensures |r.pythonName| >= |pyName(t[i].version.dist)| + 2
    ensures r.pythonName[..|pyName(t[i].version.dist)| + 2] == pyName(t[i].version.dist) + ".x"
  {
    var path := ResolvedPath(t, i);
    var name := pyName(t[i].version.dist) + ".x";
    Resolution(name + signature(path, t[i].version.release.deps), path)
  }

  /** `node_for`: the nearest cache entry for the package, looking from `i` up to the root. */
  function NodeFor(t: Tree, i: nat, d: string): (r: Option<nat>)
    requires Wf(t) && i < |t|
    ensures r.Some? ==> 0 < r.value < |t| && t[r.value].version.dist == d
    decreases i
  {
    if d in t[i].cache then Some(t[i].cache[d])
    else if t[i].parent.None? then None
    else NodeFor(t, t[i].parent.value, d)
  }

  /** No node of the path has the package in its cache. */
  predicate UncachedOn(t: Tree, path: seq<nat>, d: string) {
    forall k :: 0 <= k < |path| ==> path[k] < |t| && d !in t[path[k]].cache
  }

  lemma UncachedSnoc(t: Tree, path: seq<nat>, i: nat, d: string)
    ensures UncachedOn(t, path + [i], d) <==> UncachedOn(t, path, d) && i < |t| && d !in t[i].cache
  {
    var a := path + [i];
    assert a[|path|] == i;
    if UncachedOn(t, path, d) && i < |t| && d !in t[i].cache {
      forall k | 0 <= k < |a| ensures a[k] < |t| && d !in t[a[k]].cache {
        if k < |path| { assert a[k] == path[k]; }
      }
    }
    if UncachedOn(t, a, d) {
      forall k | 0 <= k < |path| ensures path[k] < |t| && d !in t[path[k]].cache {
        assert a[k] == path[k];
      }
    }
  }

  /** Nothing is found exactly when no node on the path to the root has the package cached. */
  lemma {:induction false} NodeForNone(t: Tree, i: nat, d: string)
    requires Wf(t) && i < |t|
    ensures NodeFor(t, i, d).None? <==> UncachedOn(t, Ancestors(t, i), d)
    decreases i
  {
    var a := Ancestors(t, i);
    if d in t[i].cache {
      assert a[|a| - 1] == i;
    } else if t[i].parent.None? {
      assert a == [i];
    } else {
      var p := t[i].parent.value;
      NodeForNone(t, p, d);
      assert a == Ancestors(t, p) + [i];
      UncachedSnoc(t, Ancestors(t, p), i, d);
    }
  }

  /** What is found is the cache entry of the nearest node on the path to the root that has one. */
  lemma {:induction false} NodeForNearest(t: Tree, i: nat, d: string)
    requires Wf(t) && i < |t| && NodeFor(t, i, d).Some?
    ensures exists k :: 0 <= k < |Ancestors(t, i)| && Cached(t, Ancestors(t, i), k, d, NodeFor(t, i, d).value)
    decreases i
  {
    if d in t[i].cache {
      NearestHere(t, i, d);
    } else {
      var p := t[i].parent.value;
      NodeForNearest(t, p, d);
      var k :| 0 <= k < |Ancestors(t, p)| && Cached(t, Ancestors(t, p), k, d, NodeFor(t, p, d).value);
      NearestUp(t, i, d, k);
    }
  }

  lemma NearestHere(t: Tree, i: nat, d: string)
    requires Wf(t) && i < |t| && d in t[i].cache
    ensures Cached(t, Ancestors(t, i), |Ancestors(t, i)| - 1, d, NodeFor(t, i, d).value)
  {
    var a := Ancestors(t, i);
    var k := |a| - 1;
    assert a[k + 1..] == [];
  }

  lemma NearestUp(t: Tree, i: nat, d: string, k: nat)
    requires Wf(t) && i < |t| && d !in t[i].cache && t[i].parent.Some?
    requires NodeFor(t, t[i].parent.value, d).Some?
    requires Cached(t, Ancestors(t, t[i].parent.value), k, d, NodeFor(t, t[i].parent.value, d).value)
    ensures k < |Ancestors(t, i)| && Cached(t, Ancestors(t, i), k, d, NodeFor(t, i, d).value)
  {
    var p := t[i].parent.value;
    assert Ancestors(t, i) == Ancestors(t, p) + [i];
    assert NodeFor(t, i, d) == NodeFor(t, p, d);
    CachedSnoc(t, Ancestors(t, p), k, d, NodeFor(t, p, d).value, i);
  }

  lemma CachedSnoc(t: Tree, path: seq<nat>, k: nat, d: string, x: nat, i: nat)
    requires Cached(t, path, k, d, x) && i < |t| && d !in t[i].cache
    ensures Cached(t, path + [i], k, d, x)
  {
    var a := path + [i];
    assert a[k] == path[k];
    assert a[k + 1..] == path[k + 1..] + [i];
    UncachedSnoc(t, path[k + 1..], i, d);
  }

  /** Position `k` of the path caches the package as node `x`, and no later position caches it. */
  predicate Cached(t: Tree, path: seq<nat>, k: nat, d: string, x: nat) {
    && k < |path| && path[k] < |t|
    && d in t[path[k]].cache && t[path[k]].cache[d] == x
    && UncachedOn(t, path[k + 1..], d)
  }

  /** `add_child`: a new last node under `i`, listed among its children and cached under its package. */
  function AddChild(t: Tree, i: nat, v: PkgVersion, c: Constraint): (r: (Tree, nat))
    requires Wf(t) && i < |t|
    ensures Wf(r.0)
    ensures r.1 == |t| && |r.0| == |t| + 1
    ensures forall k :: 0 <= k < |t| && k != i ==> r.0[k] == t[k]
  {
    var j := |t|;
    var n := t[i];
    var t' := t[i := n.(children := n.children + [j], cache := n.cache[v.dist := j])] + [Node(v, Some(i), [], c, map[])];
    WfAddChild(t, i, v, c, t');
    (t', j)
  }

  lemma WfAddChild(t: Tree, i: nat, v: PkgVersion, c: Constraint, t': Tree)
    requires Wf(t) && i < |t|
    requires var j, n := |t|, t[i];
      t' == t[i := n.(children := n.children + [j], cache := n.cache[v.dist := j])] + [Node(v, Some(i), [], c, map[])]
    ensures Wf(t')
  {
    var j := |t|;
    assert |t'| == j + 1;
    assert forall k :: 0 <= k < j && k != i ==> t'[k] == t[k];
    forall k | 0 < k < |t'| ensures t'[k].parent.Some? && t'[k].parent.value < k {
      if k < j { assert t'[k].parent == t[k].parent; }
    }
    forall a, b | 0 <= a < |t'| && 0 <= b < |t'[a].children|
      ensures t'[a].children[b] < |t'| && t'[t'[a].children[b]].parent == Some(a)
    {
      if a == i && b == |t[i].children| {
        assert t'[a].children[b] == j;
      } else {
        assert a < j && t'[a].children[b] == t[a].children[b];
        assert t'[t[a].children[b]].parent == t[t[a].children[b]].parent;
      }
    }
    forall a, d | 0 <= a < |t'| && d in t'[a].cache
      ensures t'[a].cache[d] < |t'| && t'[t'[a].cache[d]].parent == Some(a) && t'[t'[a].cache[d]].version.dist == d
    {
      if a == i && d == v.dist {
        assert t'[a].cache[d] == j;
      } else {
        assert a < j && t'[a].cache[d] == t[a].cache[d];
        assert t'[t[a].cache[d]].parent == t[t[a].cache[d]].parent;
        assert t'[t[a].cache[d]].version == t[t[a].cache[d]].version;
      }
    }
  }

  /** Replacing a node's version by one of the same package, and its constraint, keeps the tree well formed. */
  lemma WfRenode(t: Tree, n: nat, node: Node)
    requires Wf(t) && n < |t|
    requires node.parent == t[n].parent && node.children == t[n].children && node.cache == t[n].cache
    requires node.version.dist == t[n].version.dist
    ensures Wf(t[n := node])
  {
    var t' := t[n := node];
    assert forall k :: 0 <= k < |t| ==> t'[k].parent == t[k].parent && t'[k].children == t[k].children;
    assert forall k :: 0 <= k < |t| ==> t'[k].cache == t[k].cache && t'[k].version.dist == t[k].version.dist;
  }

  /** The new node's parent is `i`, `i` gains exactly that child, and its cache now points the package at it. */
  lemma AddChildShape(t: Tree, i: nat, v: PkgVersion, c: Constraint)
    requires Wf(t) && i < |t|
    ensures var (t', j) := AddChild(t, i, v, c);
      && t'[j] == Node(v, Some(i), [], c, map[])
      && t'[i].children == t[i].children + [j]
      && t'[i].cache == t[i].cache[v.dist := j]
      && t'[i].version == t[i].version && t'[i].parent == t[i].parent && t'[i].constraint == t[i].constraint
  {
  }

  /**
   * After `add_child`, looking the package up from the parent or from any
   * node below it finds the new node, unless a node in between has the
   * package cached.
   */
  lemma {:induction false} AddChildFound(t: Tree, i: nat, v: PkgVersion, c: Constraint, k: nat, p: nat)
    requires Wf(t) && i < |t|
    requires k < |AddChild(t, i, v, c).0|
    requires var (t', j) := AddChild(t, i, v, c);
      var a := Ancestors(t', k);
      p < |a| && a[p] == i && forall q :: p < q < |a| ==> v.dist !in t'[a[q]].cache
    ensures NodeFor(AddChild(t, i, v, c).0, k, v.dist) == Some(AddChild(t, i, v, c).1)
    decreases k
  {
    var (t', j) := AddChild(t, i, v, c);
    var a := Ancestors(t', k);
    if k != i {
      assert p < |a| - 1;
      var up := t'[k].parent.value;
      assert v.dist !in t'[k].cache;
      var b := Ancestors(t', up);
      assert a == b + [k];
      forall q | p < q < |b| ensures v.dist !in t'[b[q]].cache {
        assert b[q] == a[q];
      }
      AddChildFound(t, i, v, c, up, p);
    }
  }

  // ---------------------------------------------------------------------------
  // Ingesting dependencies

  /** What `ingest` returns: the tree, whether the node changed, and the node. */
  datatype Ingested = Ingested(tree: Tree, modified: bool, node: nat)

  /**
   * `Node.ingest`: a package nowhere above goes under the root; one above
   * whose constraint still meets the new one and still has an accepted
   * release is narrowed in place; otherwise the package is nested under
   * the requiring node.
   */
  function Ingest(reg: Registry, t: Tree, cur: nat, dep: Dep): (r: Ingested)
    requires Wf(t) && cur < |t|
    ensures Wf(r.tree) && r.node < |r.tree| && |r.tree| >= |t|
    ensures r.tree[0].version == t[0].version
  {
    var d := dep.version.dist;
    match NodeFor(t, cur, d)
    case None =>
      var (t', j) := AddChild(t, Root(t, cur), dep.version, dep.constraint);
      Ingested(t', true, j)
    case Some(n) =>
      var common := Intersect(t[n].constraint, dep.constraint);
      var best := if HasMatches(common) then FindBestVersion(common, Releases(reg, d)) else None;
      if HasMatches(common) && best.Some? then
        var chosen := PkgVersion(d, best.value);
        WfRenode(t, n, t[n].(constraint := common, version := chosen));
        Ingested(t[n := t[n].(constraint := common, version := chosen)], t[n].version != chosen, n)
      else
        var (t', j) := AddChild(t, cur, dep.version, dep.constraint);
        Ingested(t', true, j)
  }

  /** A package not placed anywhere above goes under the root, and the result is new. */
  lemma IngestHoists(reg: Registry, t: Tree, cur: nat, dep: Dep)
    requires Wf(t) && cur < |t| && NodeFor(t, cur, dep.version.dist).None?
    ensures var r := Ingest(reg, t, cur, dep);
      && r.modified && r.node == |t| && |r.tree| == |t| + 1
      && r.tree[r.node].parent == Some(0) && r.tree[r.node].version == dep.version
      && r.tree[r.node].constraint == dep.constraint
      && NodeFor(r.tree, cur, dep.version.dist) == Some(r.node)
  {
    RootIsZero(t, cur);
    var t' := AddChild(t, 0, dep.version, dep.constraint).0;
    var b := Ancestors(t, cur);
    NodeForNone(t, cur, dep.version.dist);
    AncestorsAddChild(t, 0, dep.version, dep.constraint, cur);
    forall q | 0 < q < |b| ensures dep.version.dist !in t'[b[q]].cache {
      assert t[b[q]].parent == Some(b[q - 1]);
      assert t'[b[q]] == t[b[q]];
    }
    AddChildFound(t, 0, dep.version, dep.constraint, cur, 0);
  }

  /** Adding a node leaves the path from an existing node to the root as it was. */
  lemma {:induction false} AncestorsAddChild(t: Tree, i: nat, v: PkgVersion, c: Constraint, k: nat)
    requires Wf(t) && i < |t| && k < |t|
    ensures Ancestors(AddChild(t, i, v, c).0, k) == Ancestors(t, k)
    decreases k
  {
    var t' := AddChild(t, i, v, c).0;
    assert t'[k].parent == t[k].parent;
    if t[k].parent.Some? {
      AncestorsAddChild(t, i, v, c, t[k].parent.value);
    }
  }

  /**
   * A package placed above whose narrowed constraint still has an accepted
   * release is updated in place: the node keeps its place, its constraint
   * accepts exactly what both constraints accept, its version is the best
   * accepted one, and the change is reported exactly when the version
   * moved.
   */
  lemma IngestNarrows(reg: Registry, t: Tree, cur: nat, dep: Dep, v: Version)
    requires Wf(t) && cur < |t| && NodeFor(t, cur, dep.version.dist).Some?
    requires var n := NodeFor(t, cur, dep.version.dist).value;
      var common := Intersect(t[n].constraint, dep.constraint);
      HasMatches(common) && FindBestVersion(common, Releases(reg, dep.version.dist)).Some?
    ensures var n := NodeFor(t, cur, dep.version.dist).value;
      var r := Ingest(reg, t, cur, dep);
      && r.node == n && |r.tree| == |t|
      && (forall k :: 0 <= k < |t| && k != n ==> r.tree[k] == t[k])
      && (Accept(r.tree[n].constraint, v) <==> Accept(t[n].constraint, v) && Accept(dep.constraint, v))
      && r.tree[n].version.dist == dep.version.dist
      && r.tree[n].version.release in Releases(reg, dep.version.dist)
      && Accept(r.tree[n].constraint, r.tree[n].version.release.sem)
      && (r.modified <==> r.tree[n].version != t[n].version)
  {
    var n := NodeFor(t, cur, dep.version.dist).value;
    IntersectMeaning(t[n].constraint, dep.constraint, v);
  }

  /** Otherwise the package is nested under the requiring node as a new node. */
  lemma IngestNests(reg: Registry, t: Tree, cur: nat, dep: Dep)
    requires Wf(t) && cur < |t| && NodeFor(t, cur, dep.version.dist).Some?
    requires var n := NodeFor(t, cur, dep.version.dist).value;
      var common := Intersect(t[n].constraint, dep.constraint);
      !HasMatches(common) || FindBestVersion(common, Releases(reg, dep.version.dist)).None?
    ensures var r := Ingest(reg, t, cur, dep);
      && r.modified && r.node == |t| && |r.tree| == |t| + 1
      && r.tree[r.node].parent == Some(cur) && r.tree[r.node].version == dep.version
      && r.tree[r.node].constraint == dep.constraint
      && NodeFor(r.tree, cur, dep.version.dist) == Some(r.node)
  {
    var t' := AddChild(t, cur, dep.version, dep.constraint).0;
    var a := Ancestors(t', cur);
    AncestorsAddChild(t, cur, dep.version, dep.constraint, cur);
    AddChildFound(t, cur, dep.version, dep.constraint, cur, |a| - 1);
  }

  /** The `for dep in ...` loop: every dependency ingested in turn, collecting the nodes to revisit. */
  function IngestAll(reg: Registry, t: Tree, cur: nat, deps: seq<Dep>): (r: (Tree, seq<nat>))
    requires Wf(t) && cur < |t|
    ensures Wf(r.0) && |r.0| >= |t| && r.0[0].version == t[0].version
    ensures forall k :: 0 <= k < |r.1| ==> r.1[k] < |r.0|
    ensures |r.1| <= |deps|
    decreases |deps|
  {
    if deps == [] then (t, [])
    else
      var step := Ingest(reg, t, cur, deps[0]);
      var (t', more) := IngestAll(reg, step.tree, cur, deps[1..]);
      QueuedBelow(step.modified, step.node, more, |t'|);
      (t', (if step.modified then [step.node] else []) + more)
  }

  lemma QueuedBelow(modified: bool, node: nat, more: seq<nat>, n: nat)
    requires node < n && forall k :: 0 <= k < |more| ==> more[k] < n
    ensures var q := (if modified then [node] else []) + more;
      |q| <= |more| + 1 && forall k :: 0 <= k < |q| ==> q[k] < n
  {
  }

  /** Exactly the nodes reported as modified are queued, in order. */
  lemma {:induction false} IngestAllQueues(reg: Registry, t: Tree, cur: nat, deps: seq<Dep>)
    requires Wf(t) && cur < |t| && deps != []
    ensures var step := Ingest(reg, t, cur, deps[0]);
      IngestAll(reg, t, cur, deps).1 ==
        (if step.modified then [step.node] else []) + IngestAll(reg, step.tree, cur, deps[1..]).1
  {
  }

  /** One more dependency ingested, seen from a position inside the list. */
  lemma IngestAllAt(reg: Registry, t: Tree, cur: nat, deps: seq<Dep>, k: nat)
    requires Wf(t) && cur < |t| && k < |deps|
    ensures var step := Ingest(reg, t, cur, deps[k]);
      var rest := IngestAll(reg, step.tree, cur, deps[k + 1..]);
      IngestAll(reg, t, cur, deps[k..]) == (rest.0, (if step.modified then [step.node] else []) + rest.1)
  {
    assert deps[k..][0] == deps[k] && deps[k..][1..] == deps[k + 1..];
    IngestAllQueues(reg, t, cur, deps[k..]);
  }

  lemma ConcatAssoc<T>(a: seq<T>, b: seq<T>, c: seq<T>)
    ensures (a + b) + c == a + (b + c)
  {
  }

  /** The inner loop of the worklist: each dependency ingested, each modified node appended to the queue. */
  method IngestDeps(reg: Registry, t0: Tree, node: nat, deps: seq<Dep>, queue0: seq<nat>) returns (t: Tree, queue: seq<nat>)
    requires Wf(t0) && node < |t0|
    ensures t == IngestAll(reg, t0, node, deps).0
    ensures queue == queue0 + IngestAll(reg, t0, node, deps).1
  {
    t, queue := t0, queue0;
    var k := 0;
    assert deps[k..] == deps;
    while k < |deps|
      invariant 0 <= k <= |deps|
      invariant Wf(t) && node < |t|
      invariant IngestAll(reg, t, node, deps[k..]).0 == IngestAll(reg, t0, node, deps).0
      invariant queue + IngestAll(reg, t, node, deps[k..]).1 == queue0 + IngestAll(reg, t0, node, deps).1
    {
      IngestAllAt(reg, t, node, deps, k);
      var step := Ingest(reg, t, node, deps[k]);
      var added := if step.modified then [step.node] else [];
      ghost var rest := IngestAll(reg, step.tree, node, deps[k + 1..]).1;
      ConcatAssoc(queue, added, rest);
      queue := queue + added;
      t := step.tree;
      k := k + 1;
    }
    assert deps[k..] == [];
  }

  /** A well-formed tree and a queue of its nodes still to visit. */
  predicate Pending(t: Tree, queue: seq<nat>) {
    Wf(t) && forall k :: 0 <= k < |queue| ==> queue[k] < |t|
  }

  /**
   * `build_dep_tree`: breadth-first over a queue that starts at the root.
   * `depsOf` gives the resolved dependencies of a version (`DepsOf` below
   * is `get_dependencies` against the registry). The source's loop has no
   * bound, so `fuel` caps the number of nodes visited and running out of
   * it is an error.
   */
  function BuildFrom(reg: Registry, depsOf: PkgVersion -> Result<seq<Dep>, string>, t: Tree, queue: seq<nat>, fuel: nat): (r: Result<Tree, string>)
    requires Pending(t, queue)
    ensures r.Ok? ==> Wf(r.value) && |r.value| >= |t| && r.value[0].version == t[0].version
    decreases fuel
  {
    if queue == [] then Ok(t)
    else if fuel == 0 then Err("Fuel exhausted")
    else
      match depsOf(t[queue[0]].version)
      case Err(e) => Err(e)
      case Ok(deps) =>
        var (t', more) := IngestAll(reg, t, queue[0], deps);
        BuildFrom(reg, depsOf, t', queue[1..] + more, fuel - 1)
  }

  /** One visit of the worklist: the head's dependencies ingested and the modified nodes queued at the back. */
  lemma BuildFromStep(reg: Registry, depsOf: PkgVersion -> Result<seq<Dep>, string>, t: Tree, queue: seq<nat>, fuel: nat, deps: seq<Dep>)
    requires Pending(t, queue)
    requires queue != [] && fuel > 0
    requires depsOf(t[queue[0]].version) == Ok(deps)
    ensures var step := IngestAll(reg, t, queue[0], deps);
      BuildFrom(reg, depsOf, t, queue, fuel) == BuildFrom(reg, depsOf, step.0, queue[1..] + step.1, fuel - 1)
  {
  }

  /** A dependency that cannot be resolved ends the build with its error. */
  lemma BuildFromFails(reg: Registry, depsOf: PkgVersion -> Result<seq<Dep>, string>, t: Tree, queue: seq<nat>, fuel: nat)
    requires Pending(t, queue)
    requires queue != [] && fuel > 0
    requires depsOf(t[queue[0]].version).Err?
    ensures BuildFrom(reg, depsOf, t, queue, fuel) == Err(depsOf(t[queue[0]].version).error)
  {
  }

  /** An empty queue ends the build with the tree; running out of fuel first is an error. */
  lemma BuildFromStops(reg: Registry, depsOf: PkgVersion -> Result<seq<Dep>, string>, t: Tree, queue: seq<nat>, fuel: nat)
    requires Pending(t, queue)
    requires queue == [] || fuel == 0
    ensures BuildFrom(reg, depsOf, t, queue, fuel) == if queue == [] then Ok(t) else Err("Fuel exhausted")
  {
  }

  /** `get_dependencies` of a node's version, against the registry. */
  function DepsOf(reg: Registry): PkgVersion -> Result<seq<Dep>, string> {
    (v: PkgVersion) => GetDependencies(reg, v.release.deps)
  }

  /** The whole resolution of one version: a tree whose root is that version, or the first error. */
  function BuildDepTreeSpec(reg: Registry, root: PkgVersion, fuel: nat): (r: Result<Tree, string>)
    ensures r.Ok? ==> Wf(r.value) && r.value[0].version == root && Placed(reg, r.value)
  {
    match NewTree(root)
    case Err(e) => Err(e)
    case Ok(t) =>
      DepsOfSound(reg);
      BuildFromPlaced(reg, DepsOf(reg), t, [0], fuel);
      BuildFrom(reg, DepsOf(reg), t, [0], fuel)
  }

  // ---------------------------------------------------------------------------
  // What the build achieves

  /** A listed release of the package that the constraint accepts. */
  predicate SoundPick(reg: Registry, v: PkgVersion, c: Constraint) {
    v.release in Releases(reg, v.dist) && Accept(c, v.release.sem)
  }

  predicate SoundDeps(reg: Registry, deps: seq<Dep>) {
    forall k :: 0 <= k < |deps| ==> SoundPick(reg, deps[k].version, deps[k].constraint)
  }

  /** Every dependency list the source hands out is made of sound picks. */
  ghost predicate SoundSource(reg: Registry, depsOf: PkgVersion -> Result<seq<Dep>, string>) {
    forall v :: depsOf(v).Ok? ==> SoundDeps(reg, depsOf(v).value)
  }

  /**
   * No impossible constraint is ever introduced: every node below the root
   * holds a listed release of its package that its own constraint accepts,
   * so that constraint has matches.
   */
  predicate Placed(reg: Registry, t: Tree) {
    forall k :: 0 < k < |t| ==> SoundPick(reg, t[k].version, t[k].constraint)
  }

  /** `get_dependencies` only hands out accepted releases of the named packages. */
  lemma DepsOfSound(reg: Registry)
    ensures SoundSource(reg, DepsOf(reg))
  {
    forall v | DepsOf(reg)(v).Ok? ensures SoundDeps(reg, DepsOf(reg)(v).value) {
      var r := GetDependencies(reg, v.release.deps);
      var rs := Resolutions(reg, v.release.deps);
      forall k | 0 <= k < |r.value| ensures SoundPick(reg, r.value[k].version, r.value[k].constraint) {
        assert rs[k] == Ok(r.value[k]);
      }
    }
  }

  lemma AddChildPlaced(reg: Registry, t: Tree, i: nat, v: PkgVersion, c: Constraint)
    requires Wf(t) && i < |t| && Placed(reg, t) && SoundPick(reg, v, c)
    ensures Placed(reg, AddChild(t, i, v, c).0)
  {
    var t' := AddChild(t, i, v, c).0;
    AddChildShape(t, i, v, c);
    forall k | 0 < k < |t'| ensures SoundPick(reg, t'[k].version, t'[k].constraint) {
      if k < |t| {
        assert t'[k].version == t[k].version && t'[k].constraint == t[k].constraint;
      }
    }
  }

  lemma RenodePlaced(reg: Registry, t: Tree, n: nat, node: Node)
    requires n < |t| && Placed(reg, t) && SoundPick(reg, node.version, node.constraint)
    ensures Placed(reg, t[n := node])
  {
    var t' := t[n := node];
    forall k | 0 < k < |t'| ensures SoundPick(reg, t'[k].version, t'[k].constraint) {
      if k != n { assert t'[k] == t[k]; }
    }
  }

  /** Ingesting a sound dependency keeps every node below the root soundly placed. */
  lemma IngestPlaced(reg: Registry, t: Tree, cur: nat, dep: Dep)
    requires Wf(t) && cur < |t| && Placed(reg, t) && SoundPick(reg, dep.version, dep.constraint)
    ensures Placed(reg, Ingest(reg, t, cur, dep).tree)
  {
    var d := dep.version.dist;
    match NodeFor(t, cur, d)
    case None =>
      AddChildPlaced(reg, t, Root(t, cur), dep.version, dep.constraint);
    case Some(n) =>
      var common := Intersect(t[n].constraint, dep.constraint);
      var best := if HasMatches(common) then FindBestVersion(common, Releases(reg, d)) else None;
      if HasMatches(common) && best.Some? {
        RenodePlaced(reg, t, n, t[n].(constraint := common, version := PkgVersion(d, best.value)));
      } else {
        AddChildPlaced(reg, t, cur, dep.version, dep.constraint);
      }
  }

  lemma {:induction false} IngestAllPlaced(reg: Registry, t: Tree, cur: nat, deps: seq<Dep>)
    requires Wf(t) && cur < |t| && Placed(reg, t) && SoundDeps(reg, deps)
    ensures Placed(reg, IngestAll(reg, t, cur, deps).0)
    decreases |deps|
  {
    if deps != [] {
      var step := Ingest(reg, t, cur, deps[0]);
      IngestPlaced(reg, t, cur, deps[0]);
      assert SoundDeps(reg, deps[1..]) by {
        forall k | 0 <= k < |deps[1..]| ensures SoundPick(reg, deps[1..][k].version, deps[1..][k].constraint) {
          assert deps[1..][k] == deps[k + 1];
        }
      }
      IngestAllPlaced(reg, step.tree, cur, deps[1..]);
    }
  }

  /** Whatever the build returns keeps every node below the root soundly placed. */
  lemma {:induction false} BuildFromPlaced(reg: Registry, depsOf: PkgVersion -> Result<seq<Dep>, string>, t: Tree, queue: seq<nat>, fuel: nat)
    requires Pending(t, queue) && Placed(reg, t) && SoundSource(reg, depsOf)
    ensures BuildFrom(reg, depsOf, t, queue, fuel).Ok? ==> Placed(reg, BuildFrom(reg, depsOf, t, queue, fuel).value)
    decreases fuel
  {
    if queue != [] && fuel > 0 && depsOf(t[queue[0]].version).Ok? {
      var deps := depsOf(t[queue[0]].version).value;
      var step := IngestAll(reg, t, queue[0], deps);
      VisitStep(reg, depsOf, t, queue, fuel, deps);
      BuildFromPlaced(reg, depsOf, step.0, queue[1..] + step.1, fuel - 1);
    }
  }

  /** The nodes keep their parents and only gain cache entries. */
  predicate Grows(t: Tree, t': Tree) {
    && |t| <= |t'|
    && forall k :: 0 <= k < |t| ==> t'[k].parent == t[k].parent && t[k].cache.Keys <= t'[k].cache.Keys
  }

  lemma GrowsTransitive(t1: Tree, t2: Tree, t3: Tree)
    requires Grows(t1, t2) && Grows(t2, t3)
    ensures Grows(t1, t3)
  {
    forall k | 0 <= k < |t1| ensures t3[k].parent == t1[k].parent && t1[k].cache.Keys <= t3[k].cache.Keys {
      assert t2[k].parent == t1[k].parent && t3[k].parent == t2[k].parent;
    }
  }

  /** A package found from a node is still found once the tree has grown. */
  lemma {:induction false} NodeForKept(t: Tree, t': Tree, i: nat, d: string)
    requires Wf(t) && Wf(t') && Grows(t, t') && i < |t|
    requires NodeFor(t, i, d).Some?
    ensures NodeFor(t', i, d).Some?
    decreases i
  {
    assert t'[i].parent == t[i].parent;
    if d !in t'[i].cache {
      assert d !in t[i].cache;
      NodeForKept(t, t', t[i].parent.value, d);
    }
  }

  lemma AddChildGrows(t: Tree, i: nat, v: PkgVersion, c: Constraint)
    requires Wf(t) && i < |t|
    ensures Grows(t, AddChild(t, i, v, c).0)
  {
    var t' := AddChild(t, i, v, c).0;
    AddChildShape(t, i, v, c);
    forall k | 0 <= k < |t| ensures t'[k].parent == t[k].parent && t[k].cache.Keys <= t'[k].cache.Keys {
      if k != i { assert t'[k] == t[k]; }
    }
  }

  lemma RenodeGrows(t: Tree, n: nat, node: Node)
    requires n < |t| && node.parent == t[n].parent && node.cache == t[n].cache
    ensures Grows(t, t[n := node])
  {
    var t' := t[n := node];
    forall k | 0 <= k < |t| ensures t'[k].parent == t[k].parent && t[k].cache.Keys <= t'[k].cache.Keys {
      if k != n { assert t'[k] == t[k]; }
    }
  }

  lemma IngestGrows(reg: Registry, t: Tree, cur: nat, dep: Dep)
    requires Wf(t) && cur < |t|
    ensures Grows(t, Ingest(reg, t, cur, dep).tree)
  {
    var d := dep.version.dist;
    match NodeFor(t, cur, d)
    case None =>
      AddChildGrows(t, Root(t, cur), dep.version, dep.constraint);
    case Some(n) =>
      var common := Intersect(t[n].constraint, dep.constraint);
      var best := if HasMatches(common) then FindBestVersion(common, Releases(reg, d)) else None;
      if HasMatches(common) && best.Some? {
        RenodeGrows(t, n, t[n].(constraint := common, version := PkgVersion(d, best.value)));
      } else {
        AddChildGrows(t, cur, dep.version, dep.constraint);
      }
  }

  lemma {:induction false} IngestAllGrows(reg: Registry, t: Tree, cur: nat, deps: seq<Dep>)
    requires Wf(t) && cur < |t|
    ensures Grows(t, IngestAll(reg, t, cur, deps).0)
    decreases |deps|
  {
    if deps != [] {
      var step := Ingest(reg, t, cur, deps[0]);
      IngestGrows(reg, t, cur, deps[0]);
      IngestAllGrows(reg, step.tree, cur, deps[1..]);
      GrowsTransitive(t, step.tree, IngestAll(reg, step.tree, cur, deps[1..]).0);
    }
  }

  /** After `ingest`, `node_for` from the requiring node finds the package. */
  lemma IngestFinds(reg: Registry, t: Tree, cur: nat, dep: Dep)
    requires Wf(t) && cur < |t|
    ensures NodeFor(Ingest(reg, t, cur, dep).tree, cur, dep.version.dist).Some?
  {
    var d := dep.version.dist;
    if NodeFor(t, cur, d).None? {
      IngestHoists(reg, t, cur, dep);
    } else {
      var n := NodeFor(t, cur, d).value;
      var common := Intersect(t[n].constraint, dep.constraint);
      if HasMatches(common) && FindBestVersion(common, Releases(reg, d)).Some? {
        IngestGrows(reg, t, cur, dep);
        NodeForKept(t, Ingest(reg, t, cur, dep).tree, cur, d);
      } else {
        IngestNests(reg, t, cur, dep);
      }
    }
  }

  /**
   * After a node's dependencies are ingested, every one of them is found by
   * `node_for` from that node: each is placed on the node's path to the root.
   */
  lemma {:induction false} IngestAllFinds(reg: Registry, t: Tree, cur: nat, deps: seq<Dep>)
    requires Wf(t) && cur < |t|
    ensures forall q :: 0 <= q < |deps| ==> NodeFor(IngestAll(reg, t, cur, deps).0, cur, deps[q].version.dist).Some?
    decreases |deps|
  {
    if deps != [] {
      var step := Ingest(reg, t, cur, deps[0]);
      var t' := IngestAll(reg, step.tree, cur, deps[1..]).0;
      assert IngestAll(reg, t, cur, deps).0 == t';
      IngestFinds(reg, t, cur, deps[0]);
      IngestAllGrows(reg, step.tree, cur, deps[1..]);
      NodeForKept(step.tree, t', cur, deps[0].version.dist);
      IngestAllFinds(reg, step.tree, cur, deps[1..]);
      forall q | 0 < q < |deps| ensures NodeFor(t', cur, deps[q].version.dist).Some? {
        assert deps[q] == deps[1..][q - 1];
      }
    }
  }

  /**
   * A node whose dependencies are all in place: they resolve, and `node_for`
   * from the node finds a node for each of them.
   */
  predicate Settled(depsOf: PkgVersion -> Result<seq<Dep>, string>, t: Tree, k: nat)
    requires Wf(t) && k < |t|
  {
    && depsOf(t[k].version).Ok?
    && var deps := depsOf(t[k].version).value;
       forall q :: 0 <= q < |deps| ==> NodeFor(t, k, deps[q].version.dist).Some?
  }

  /** Every node of the tree that is not waiting in the queue is settled. */
  predicate Visited(depsOf: PkgVersion -> Result<seq<Dep>, string>, t: Tree, queue: seq<nat>) {
    Pending(t, queue) && forall k :: 0 <= k < |t| && k !in queue ==> Settled(depsOf, t, k)
  }

  /** Every node of the tree is settled. */
  predicate AllSettled(depsOf: PkgVersion -> Result<seq<Dep>, string>, t: Tree) {
    Wf(t) && forall k :: 0 <= k < |t| ==> Settled(depsOf, t, k)
  }

  /** `add_child` moves no existing node's version. */
  lemma AddChildKeepsVersions(t: Tree, i: nat, v: PkgVersion, c: Constraint)
    requires Wf(t) && i < |t|
    ensures var t' := AddChild(t, i, v, c).0;
      forall k :: 0 <= k < |t| ==> t'[k].version == t[k].version
  {
    AddChildShape(t, i, v, c);
  }

  /** `ingest` reports every node it adds or whose version it moves. */
  lemma IngestReports(reg: Registry, t: Tree, cur: nat, dep: Dep)
    requires Wf(t) && cur < |t|
    ensures var r := Ingest(reg, t, cur, dep);
      forall k :: 0 <= k < |r.tree| && !(r.modified && k == r.node) ==> k < |t| && r.tree[k].version == t[k].version
  {
    var d := dep.version.dist;
    match NodeFor(t, cur, d)
    case None =>
      AddChildKeepsVersions(t, Root(t, cur), dep.version, dep.constraint);
    case Some(n) =>
      var common := Intersect(t[n].constraint, dep.constraint);
      var best := if HasMatches(common) then FindBestVersion(common, Releases(reg, d)) else None;
      if !(HasMatches(common) && best.Some?) {
        AddChildKeepsVersions(t, cur, dep.version, dep.constraint);
      }
  }

  /** The dependency loop queues every node it adds or whose version it moves. */
  lemma {:induction false} IngestAllReports(reg: Registry, t: Tree, cur: nat, deps: seq<Dep>)
    requires Wf(t) && cur < |t|
    ensures var (t', more) := IngestAll(reg, t, cur, deps);
      forall k :: 0 <= k < |t'| && k !in more ==> k < |t| && t'[k].version == t[k].version
    decreases |deps|
  {
    if deps != [] {
      var step := Ingest(reg, t, cur, deps[0]);
      var (t', rest) := IngestAll(reg, step.tree, cur, deps[1..]);
      var more := (if step.modified then [step.node] else []) + rest;
      assert IngestAll(reg, t, cur, deps) == (t', more);
      IngestReports(reg, t, cur, deps[0]);
      IngestAllReports(reg, step.tree, cur, deps[1..]);
      forall k | 0 <= k < |t'| && k !in more ensures k < |t| && t'[k].version == t[k].version {
        assert k !in rest;
        assert !(step.modified && k == step.node);
      }
    }
  }

  /** A settled node stays settled while the tree grows and its version stays. */
  lemma SettledKept(depsOf: PkgVersion -> Result<seq<Dep>, string>, t: Tree, t': Tree, k: nat)
    requires Wf(t) && Wf(t') && Grows(t, t') && k < |t|
    requires t'[k].version == t[k].version && Settled(depsOf, t, k)
    ensures Settled(depsOf, t', k)
  {
    var ds := depsOf(t[k].version).value;
    forall q | 0 <= q < |ds| ensures NodeFor(t', k, ds[q].version.dist).Some? {
      NodeForKept(t, t', k, ds[q].version.dist);
    }
  }

  /** The queue after a visit: the rest of the old one, then the new entries. */
  lemma QueueAfterVisit(t: Tree, queue: seq<nat>, more: seq<nat>, k: nat)
    requires queue != [] && k !in queue[1..] + more
    ensures k !in more && (k in queue ==> k == queue[0])
  {
  }

  /** With nothing left in the queue, every node is settled. */
  lemma VisitedAll(depsOf: PkgVersion -> Result<seq<Dep>, string>, t: Tree)
    requires Visited(depsOf, t, [])
    ensures AllSettled(depsOf, t)
  {
  }

  /** One visit settles the head and keeps every other unqueued node settled. */
  lemma VisitSettles(reg: Registry, depsOf: PkgVersion -> Result<seq<Dep>, string>, t: Tree, queue: seq<nat>, deps: seq<Dep>)
    requires Visited(depsOf, t, queue) && queue != []
    requires depsOf(t[queue[0]].version) == Ok(deps)
    ensures var (t', more) := IngestAll(reg, t, queue[0], deps);
      Visited(depsOf, t', queue[1..] + more)
  {
    VisitStep(reg, depsOf, t, queue, 1, deps);
    var cur := queue[0];
    var (t', more) := IngestAll(reg, t, cur, deps);
    IngestAllReports(reg, t, cur, deps);
    IngestAllGrows(reg, t, cur, deps);
    IngestAllFinds(reg, t, cur, deps);
    forall k | 0 <= k < |t'| && k !in queue[1..] + more ensures Settled(depsOf, t', k) {
      QueueAfterVisit(t, queue, more, k);
      if k != cur {
        SettledKept(depsOf, t, t', k);
      }
    }
  }

  /** What one visit leaves: the same build ahead, every dependency found from the node, and sound placement kept. */
  lemma VisitStep(reg: Registry, depsOf: PkgVersion -> Result<seq<Dep>, string>, t: Tree, queue: seq<nat>, left: nat, deps: seq<Dep>)
    requires Pending(t, queue) && queue != [] && left > 0
    requires depsOf(t[queue[0]].version) == Ok(deps)
    ensures var (t', more) := IngestAll(reg, t, queue[0], deps);
      && Pending(t', queue[1..] + more) && queue[0] < |t'|
      && BuildFrom(reg, depsOf, t', queue[1..] + more, left - 1) == BuildFrom(reg, depsOf, t, queue, left)
      && (forall q :: 0 <= q < |deps| ==> NodeFor(t', queue[0], deps[q].version.dist).Some?)
      && (Placed(reg, t) && SoundSource(reg, depsOf) ==> Placed(reg, t'))
  {
    BuildFromStep(reg, depsOf, t, queue, left, deps);
    IngestAllFinds(reg, t, queue[0], deps);
    if Placed(reg, t) && SoundSource(reg, depsOf) {
      IngestAllPlaced(reg, t, queue[0], deps);
    }
  }

  /** One turn of the worklist: pop the head, ingest its dependencies, queue what changed. */
  method Visit(reg: Registry, depsOf: PkgVersion -> Result<seq<Dep>, string>, t: Tree, queue: seq<nat>, left: nat)
    returns (failed: Option<string>, t': Tree, queue': seq<nat>, left': nat)
    requires Pending(t, queue)
    requires queue != [] && left > 0
    ensures failed.Some? ==> BuildFrom(reg, depsOf, t, queue, left) == Err(failed.value)
    ensures left' == left - 1
    ensures failed.None? ==> && Pending(t', queue')
                             && BuildFrom(reg, depsOf, t', queue', left') == BuildFrom(reg, depsOf, t, queue, left)
    ensures failed.None? ==> && depsOf(t[queue[0]].version).Ok? && queue[0] < |t'|
                             && var deps := depsOf(t[queue[0]].version).value;
                                forall q :: 0 <= q < |deps| ==> NodeFor(t', queue[0], deps[q].version.dist).Some?
    ensures failed.None? && Placed(reg, t) && SoundSource(reg, depsOf) ==> Placed(reg, t')
    ensures failed.None? && Visited(depsOf, t, queue) ==> Visited(depsOf, t', queue')
  {
    var node := queue[0];
    var deps := depsOf(t[node].version);
    if deps.Err? {
      BuildFromFails(reg, depsOf, t, queue, left);
      return Some(deps.error), t, queue, left - 1;
    }
    VisitStep(reg, depsOf, t, queue, left, deps.value);
    if Visited(depsOf, t, queue) {
      VisitSettles(reg, depsOf, t, queue, deps.value);
    }
    t', queue' := IngestDeps(reg, t, node, deps.value, queue[1..]);
    failed, left' := None, left - 1;
  }

  /** The worklist as the source runs it, until the queue is empty. */
  method RunWorklist(reg: Registry, depsOf: PkgVersion -> Result<seq<Dep>, string>, t0: Tree, queue0: seq<nat>, fuel: nat) returns (r: Result<Tree, string>)
    requires Pending(t0, queue0)
    ensures r == BuildFrom(reg, depsOf, t0, queue0, fuel)
    ensures r.Ok? && Placed(reg, t0) && SoundSource(reg, depsOf) ==> Placed(reg, r.value)
    ensures r.Ok? && Visited(depsOf, t0, queue0) ==> AllSettled(depsOf, r.value)
  {
    if Placed(reg, t0) && SoundSource(reg, depsOf) {
      BuildFromPlaced(reg, depsOf, t0, queue0, fuel);
    }
    var t: Tree, queue: seq<nat>, left: nat := t0, queue0, fuel;
    ghost var goal := BuildFrom(reg, depsOf, t0, queue0, fuel);
    while queue != [] && left > 0
      invariant Pending(t, queue)
      invariant BuildFrom(reg, depsOf, t, queue, left) == goal
      invariant Visited(depsOf, t0, queue0) ==> Visited(depsOf, t, queue)
      decreases left
    {
      var failed, t', queue', left' := Visit(reg, depsOf, t, queue, left);
      if failed.Some? {
        return Err(failed.value);
      }
      t, queue, left := t', queue', left';
    }
    BuildFromStops(reg, depsOf, t, queue, left);
    if queue != [] {
      return Err("Fuel exhausted");
    }
    if Visited(depsOf, t0, queue0) {
      VisitedAll(depsOf, t);
    }
    return Ok(t);
  }

  /** `build_dep_tree` from a fresh tree holding the root version. */
  method BuildDepTree(reg: Registry, root: PkgVersion, fuel: nat) returns (r: Result<Tree, string>)
    ensures r == BuildDepTreeSpec(reg, root, fuel)
    ensures r.Ok? ==> Wf(r.value) && r.value[0].version == root && Placed(reg, r.value)
    ensures r.Ok? ==> AllSettled(DepsOf(reg), r.value)
  {
    var start := NewTree(root);
    if start.Err? {
      return Err(start.error);
    }
    assert Visited(DepsOf(reg), start.value, [0]);
    r := RunWorklist(reg, DepsOf(reg), start.value, [0], fuel);
  }
}

=== FILE: semver.dfy ===
/**
 * Semantic versions and their precedence, as Semantic Versioning 2.0.0
 * section 11 defines it (the order the `semver` package implements and every
 * Bound and Range of the model relies on).
 */
module SemVer {

  /** One dot-separated prerelease identifier. Digit-only identifiers are numeric. */
  datatype Ident = Num(n: nat) | Alpha(s: string)

  /** `pre == []` is a release; build metadata takes no part in precedence and is not kept. */
  datatype Version = Version(major: nat, minor: nat, patch: nat, pre: seq<Ident>)

  /** Lexical order of ASCII strings (section 11.4.2). */
  predicate StrLess(a: string, b: string)
    decreases |a|
  {
    if a == [] then b != []
    else if b == [] then false
    else a[0] < b[0] || (a[0] == b[0] && StrLess(a[1..], b[1..]))
  }

  /** Section 11.4.1-11.4.3: numbers compare numerically and sort below words. */
  predicate IdentLess(a: Ident, b: Ident) {
    match (a, b)
    case (Num(x), Num(y)) => x < y
    case (Num(_), Alpha(_)) => true
    case (Alpha(_), Num(_)) => false
    case (Alpha(x), Alpha(y)) => StrLess(x, y)
  }

  /** Section 11.4.4: field by field, and a proper prefix sorts first. */
  predicate IdentsLess(a: seq<Ident>, b: seq<Ident>)
    decreases |a|
  {
    if a == [] then b != []
    else if b == [] then false
    else IdentLess(a[0], b[0]) || (a[0] == b[0] && IdentsLess(a[1..], b[1..]))
  }

  /** Section 11.3: a prerelease sorts below the release it precedes. */
  predicate PreLess(a: seq<Ident>, b: seq<Ident>) {
    if a == [] then false
    else if b == [] then true
    else IdentsLess(a, b)
  }

  /** Precedence: major, minor, patch numerically, then the prerelease. */
  predicate Less(a: Version, b: Version) {
    || a.major < b.major
    || (a.major == b.major && a.minor < b.minor)
    || (a.major == b.major && a.minor == b.minor && a.patch < b.patch)
    || (a.major == b.major && a.minor == b.minor && a.patch == b.patch && PreLess(a.pre, b.pre))
  }

  predicate LessEq(a: Version, b: Version) { Less(a, b) || a == b }

  /** The smallest version of a minor line: `M.m.0-0`, the exclusive top of npm's x-ranges. */
  function ZeroPre(major: nat, minor: nat): Version {
    Version(major, minor, 0, [Num(0)])
  }

  function Release(major: nat, minor: nat, patch: nat): Version {
    Version(major, minor, patch, [])
  }

  // ---------------------------------------------------------------------------
  // Precedence is a strict total order.

  lemma {:induction false} StrLessIrreflexive(a: string)
    ensures !StrLess(a, a)
    decreases |a|
  {
    if a != [] { StrLessIrreflexive(a[1..]); }
  }

  lemma {:induction false} StrLessTransitive(a: string, b: string, c: string)
    requires StrLess(a, b) && StrLess(b, c)
    ensures StrLess(a, c)
    decreases |a|
  {
    if a != [] && a[0] == b[0] && b[0] == c[0] {
      StrLessTransitive(a[1..], b[1..], c[1..]);
    }
  }

  lemma {:induction false} StrLessTotal(a: string, b: string)
    ensures StrLess(a, b) || a == b || StrLess(b, a)
    decreases |a|
  {
    if a != [] && b != [] && a[0] == b[0] {
      StrLessTotal(a[1..], b[1..]);
      if a[1..] == b[1..] {
        assert a == [a[0]] + a[1..] && b == [b[0]] + b[1..];
      }
    }
  }

  lemma IdentLessIrreflexive(a: Ident)
    ensures !IdentLess(a, a)
  {
    if a.Alpha? { StrLessIrreflexive(a.s); }
  }

  lemma IdentLessTransitive(a: Ident, b: Ident, c: Ident)
    requires IdentLess(a, b) && IdentLess(b, c)
    ensures IdentLess(a, c)
  {
    if a.Alpha? && b.Alpha? && c.Alpha? { StrLessTransitive(a.s, b.s, c.s); }
  }

  lemma IdentLessTotal(a: Ident, b: Ident)
    ensures IdentLess(a, b) || a == b || IdentLess(b, a)
  {
    if a.Alpha? && b.Alpha? { StrLessTotal(a.s, b.s); }
  }

  lemma {:induction false} IdentsLessIrreflexive(a: seq<Ident>)
    ensures !IdentsLess(a, a)
    decreases |a|
  {
    if a != [] {
      IdentLessIrreflexive(a[0]);
      IdentsLessIrreflexive(a[1..]);
    }
  }

  lemma {:induction false} IdentsLessTransitive(a: seq<Ident>, b: seq<Ident>, c: seq<Ident>)
    requires IdentsLess(a, b) && IdentsLess(b, c)
    ensures IdentsLess(a, c)
    decreases |a|
  {
    if a != [] {
      if IdentLess(a[0], b[0]) && IdentLess(b[0], c[0]) {
        IdentLessTransitive(a[0], b[0], c[0]);
      } else if a[0] == b[0] && b[0] == c[0] {
        IdentsLessTransitive(a[1..], b[1..], c[1..]);
      }
    }
  }

  lemma {:induction false} IdentsLessTotal(a: seq<Ident>, b: seq<Ident>)
    ensures IdentsLess(a, b) || a == b || IdentsLess(b, a)
    decreases |a|
  {
    if a != [] && b != [] {
      IdentLessTotal(a[0], b[0]);
      if a[0] == b[0] {
        IdentsLessTotal(a[1..], b[1..]);
        if a[1..] == b[1..] {
          assert a == [a[0]] + a[1..] && b == [b[0]] + b[1..];
        }
      }
    }
  }

  lemma PreLessIrreflexive(a: seq<Ident>)
    ensures !PreLess(a, a)
  {
    IdentsLessIrreflexive(a);
  }

  lemma PreLessTransitive(a: seq<Ident>, b: seq<Ident>, c: seq<Ident>)
    requires PreLess(a, b) && PreLess(b, c)
    ensures PreLess(a, c)
  {
    if c != [] { IdentsLessTransitive(a, b, c); }
  }

  lemma PreLessTotal(a: seq<Ident>, b: seq<Ident>)
    ensures PreLess(a, b) || a == b || PreLess(b, a)
  {
    IdentsLessTotal(a, b);
  }

  /** No version precedes itself. */
  lemma LessIrreflexive(a: Version)
    ensures !Less(a, a)
  {
    PreLessIrreflexive(a.pre);
  }

  lemma LessTransitive(a: Version, b: Version, c: Version)
    requires Less(a, b) && Less(b, c)
    ensures Less(a, c)
  {
    if a.major == b.major == c.major && a.minor == b.minor == c.minor && a.patch == b.patch == c.patch {
      PreLessTransitive(a.pre, b.pre, c.pre);
    }
  }

  /** Any two versions are comparable: precedence is total. */
  lemma LessTotal(a: Version, b: Version)
    ensures Less(a, b) || a == b || Less(b, a)
  {
    PreLessTotal(a.pre, b.pre);
  }

  lemma LessAsymmetric(a: Version, b: Version)
    requires Less(a, b)
    ensures !Less(b, a)
  {
    if Less(b, a) {
      LessTransitive(a, b, a);
      LessIrreflexive(a);
    }
  }

  /** Not below is at or above. */
  lemma NotLessIsLessEq(a: Version, b: Version)
    ensures !Less(a, b) <==> LessEq(b, a)
  {
    LessTotal(a, b);
    if Less(b, a) { LessAsymmetric(b, a); }
    if a == b { LessIrreflexive(a); }
  }

  /**
   * `M.m.0-0` is the least version of the line `M.m`: a version sorts below
   * it exactly when its (major, minor) pair does.
   */
  lemma {:induction false} BelowZeroPre(v: Version, major: nat, minor: nat)
    ensures Less(v, ZeroPre(major, minor)) <==>
              (v.major < major || (v.major == major && v.minor < minor))
  {
    if v.major == major && v.minor == minor && v.patch == 0 && v.pre != [] {
      var z: seq<Ident> := [Num(0)];
      assert z[1..] == [];
      assert !IdentLess(v.pre[0], z[0]);
      assert !IdentsLess(v.pre[1..], z[1..]);
      assert !IdentsLess(v.pre, z);
    }
  }

  /** A release sorts above every prerelease of the same major.minor.patch. */
  lemma ReleaseAbovePrereleases(v: Version)
    requires v.pre != []
    ensures Less(v, Release(v.major, v.minor, v.patch))
  {
  }
}

=== FILE: slug.dfy ===
/**
 * Run-collapsing slugs. A name is lower-cased, every maximal run of
 * characters outside `[a-z0-9]` becomes one separator, and the separator
 * is stripped from both ends. Python distribution names use `-` as the
 * separator (`_norm_py_name`) and entry-point keys use `_`
 * (`dedup_python_key`), so the construction is defined once here.
 */
module Slugs {
  import opened Strings

  /** Only letters, digits and `sep`, and never two separators in a row. */
  predicate Collapsed(s: string, sep: char) {
    && (forall k :: 0 <= k < |s| ==> IsLowerAlnum(s[k]) || s[k] == sep)
    && (forall i, j :: 0 <= i < |s| && 0 <= j < |s| && j == i + 1 ==> s[i] == sep ==> s[j] != sep)
  }

  /** A collapsed string that neither starts nor ends with its separator. */
  predicate IsSlug(s: string, sep: char) {
    Collapsed(s, sep) && (s != [] ==> s[0] != sep && s[|s| - 1] != sep)
  }

  /** Prepending a letter, a digit, or a separator before a non-separator keeps a string collapsed. */
  lemma ConsCollapsed(x: char, rest: string, sep: char)
    requires IsLowerAlnum(x) || x == sep
    requires Collapsed(rest, sep)
    requires x == sep && rest != [] ==> rest[0] != sep
    ensures Collapsed([x] + rest, sep)
  {
    var r := [x] + rest;
    assert forall k :: 0 < k < |r| ==> r[k] == rest[k - 1];
  }

  /** The letters and digits of a string, in order. */
  function Alnums(s: string): (r: string)
    ensures forall k :: 0 <= k < |r| ==> IsLowerAlnum(r[k])
    ensures |r| <= |s|
  {
    if s == [] then []
    else if IsLowerAlnum(s[0]) then [s[0]] + Alnums(s[1..])
    else Alnums(s[1..])
  }

  lemma {:induction false} AlnumsConcat(a: string, b: string)
    ensures Alnums(a + b) == Alnums(a) + Alnums(b)
  {
    if a == [] {
      assert a + b == b;
    } else {
      assert (a + b)[0] == a[0];
      assert (a + b)[1..] == a[1..] + b;
      AlnumsConcat(a[1..], b);
    }
  }

  /** The leading run of characters that are not lower-case letters or digits, dropped. */
  function SkipRun(s: string): (r: string)
    ensures |r| <= |s| && r == s[|s| - |r|..]
    ensures r != [] ==> IsLowerAlnum(r[0])
    ensures forall k :: 0 <= k < |s| - |r| ==> !IsLowerAlnum(s[k])
  {
    if s == [] || IsLowerAlnum(s[0]) then s
    else
      var r := SkipRun(s[1..]);
      assert s[1..][|s| - 1 - |r|..] == s[|s| - |r|..];
      assert forall k :: 1 <= k < |s| - |r| ==> s[k] == s[1..][k - 1];
      r
  }

  lemma SkipRunAlnums(s: string)
    ensures Alnums(SkipRun(s)) == Alnums(s)
  {
  }

  /** Every maximal run of characters outside `[a-z0-9]` replaced by one `sep`. */
  function Collapse(s: string, sep: char): (r: string)
    requires !IsLowerAlnum(sep)
    ensures Collapsed(r, sep)
    ensures |r| <= |s|
    ensures s != [] && IsLowerAlnum(s[0]) ==> r != [] && r[0] == s[0]
    decreases |s|
  {
    if s == [] then []
    else if IsLowerAlnum(s[0]) then
      var rest := Collapse(s[1..], sep);
      ConsCollapsed(s[0], rest, sep);
      [s[0]] + rest
    else
      var rest := Collapse(SkipRun(s[1..]), sep);
      ConsCollapsed(sep, rest, sep);
      [sep] + rest
  }

  lemma {:induction false} CollapseAlnums(s: string, sep: char)
    requires !IsLowerAlnum(sep)
    ensures Alnums(Collapse(s, sep)) == Alnums(s)
    decreases |s|
  {
    if s == [] {
    } else if IsLowerAlnum(s[0]) {
      CollapseAlnums(s[1..], sep);
      AlnumsConcat([s[0]], Collapse(s[1..], sep));
    } else {
      CollapseAlnums(SkipRun(s[1..]), sep);
      SkipRunAlnums(s[1..]);
      AlnumsConcat([sep], Collapse(SkipRun(s[1..]), sep));
    }
  }

  /** A string that is already collapsed is left alone. */
  lemma {:induction false} CollapseFixpoint(s: string, sep: char)
    requires !IsLowerAlnum(sep)
    requires Collapsed(s, sep)
    ensures Collapse(s, sep) == s
    decreases |s|
  {
    if s != [] {
      SliceKeepsRuns(s, 1, |s|, sep);
      assert s[1..|s|] == s[1..];
      CollapseFixpoint(s[1..], sep);
      if !IsLowerAlnum(s[0]) {
        assert s[1..] != [] ==> s[1..][0] == s[1] && s[1] != sep;
        assert SkipRun(s[1..]) == s[1..];
      }
      assert s == [s[0]] + s[1..];
    }
  }

  function TrimEnd(s: string, c: char): (r: string)
    ensures |r| <= |s| && r == s[..|r|]
    ensures r != [] ==> r[|r| - 1] != c
    ensures forall k :: |r| <= k < |s| ==> s[k] == c
  {
    if s != [] && s[|s| - 1] == c then TrimEnd(s[..|s| - 1], c) else s
  }

  /** How many copies of `c` the string starts with. */
  function LeadCount(s: string, c: char): (n: nat)
    ensures n <= |s|
    ensures forall k :: 0 <= k < n ==> s[k] == c
    ensures n < |s| ==> s[n] != c
  {
    if s != [] && s[0] == c then
      var n := 1 + LeadCount(s[1..], c);
      assert forall k :: 1 <= k < n ==> s[k] == s[1..][k - 1];
      n
    else 0
  }

  /** How many copies of `c` the string ends with. */
  function TrailCount(s: string, c: char): (n: nat)
    ensures n <= |s|
    ensures forall k :: |s| - n <= k < |s| ==> s[k] == c
    ensures n < |s| ==> s[|s| - n - 1] != c
  {
    if s != [] && s[|s| - 1] == c then 1 + TrailCount(s[..|s| - 1], c) else 0
  }

  /** Where the text `strip` keeps begins and ends: only `c` lies outside, and the ends are not `c`. */
  function StripBounds(s: string, c: char): (ij: (nat, nat))
    ensures ij.0 <= ij.1 <= |s|
    ensures forall k :: 0 <= k < ij.0 ==> s[k] == c
    ensures forall k :: ij.1 <= k < |s| ==> s[k] == c
    ensures ij.0 < ij.1 ==> s[ij.0] != c && s[ij.1 - 1] != c
  {
    var i := LeadCount(s, c);
    var n := TrailCount(s[i..], c);
    assert forall k :: i + (|s| - i - n) <= k < |s| ==> s[k] == s[i..][k - i];
    (i, |s| - n)
  }

  /** `c` removed from both ends, as Python's `str.strip(c)`. */
  function Strip(s: string, c: char): (r: string)
    ensures r != [] ==> r[0] != c && r[|r| - 1] != c
  {
    var (i, j) := StripBounds(s, c);
    s[i..j]
  }

  lemma StripAlnums(s: string, c: char)
    requires !IsLowerAlnum(c)
    ensures Alnums(Strip(s, c)) == Alnums(s)
  {
    var (i, j) := StripBounds(s, c);
    var front, kept, back := s[..i], s[i..j], s[j..];
    SplitThree(s, i, j);
    assert forall k :: 0 <= k < |front| ==> front[k] == s[k];
    assert forall k :: 0 <= k < |back| ==> back[k] == s[j + k];
    AllSepAlnums(front, c);
    AllSepAlnums(back, c);
    AlnumsConcat(front + kept, back);
    AlnumsConcat(front, kept);
  }

  lemma SplitThree(s: string, i: nat, j: nat)
    requires i <= j <= |s|
    ensures s == s[..i] + s[i..j] + s[j..]
  {
    assert s[..j] == s[..i] + s[i..j];
    assert s == s[..j] + s[j..];
  }

  lemma {:induction false} AllSepAlnums(s: string, c: char)
    requires !IsLowerAlnum(c)
    requires forall k :: 0 <= k < |s| ==> s[k] == c
    ensures Alnums(s) == []
  {
    if s != [] {
      AllSepAlnums(s[1..], c);
    }
  }

  lemma StripFixpoint(s: string, c: char)
    requires s != [] ==> s[0] != c && s[|s| - 1] != c
    ensures Strip(s, c) == s
  {
  }

  lemma SliceKeepsRuns(s: string, i: nat, j: nat, sep: char)
    requires i <= j <= |s|
    requires Collapsed(s, sep)
    ensures Collapsed(s[i..j], sep)
  {
    forall a, b | 0 <= a < j - i && 0 <= b < j - i && b == a + 1
      ensures s[i..j][a] == sep ==> s[i..j][b] != sep
    {
      assert s[i..j][a] == s[i + a] && s[i..j][b] == s[i + b];
    }
  }

  /**
   * The slug of a name: lower-cased, runs outside `[a-z0-9]` collapsed to
   * `sep`, `sep` stripped from both ends.
   */
  function Slug(s: string, sep: char): (r: string)
    requires !IsLowerAlnum(sep)
    ensures IsSlug(r, sep)
  {
    var collapsed := Collapse(Lower(s), sep);
    StripIsSlug(collapsed, sep);
    Strip(collapsed, sep)
  }

  /** Stripping the separator from a collapsed string leaves a slug. */
  lemma StripIsSlug(s: string, sep: char)
    requires Collapsed(s, sep)
    ensures IsSlug(Strip(s, sep), sep)
  {
    var (i, j) := StripBounds(s, sep);
    SliceKeepsRuns(s, i, j, sep);
  }

  /** A slug keeps every letter and digit of the lower-cased name, in order, and nothing else. */
  lemma SlugAlnums(s: string, sep: char)
    requires !IsLowerAlnum(sep)
    ensures Alnums(Slug(s, sep)) == Alnums(Lower(s))
  {
    CollapseAlnums(Lower(s), sep);
    StripAlnums(Collapse(Lower(s), sep), sep);
  }

  /** A string that is already a slug is its own slug, so making a slug is idempotent. */
  lemma SlugFixpoint(s: string, sep: char)
    requires !IsLowerAlnum(sep) && !('A' <= sep <= 'Z')
    requires IsSlug(s, sep)
    ensures Slug(s, sep) == s
  {
    assert Lower(s) == s;
    CollapseFixpoint(s, sep);
    StripFixpoint(s, sep);
  }

  lemma SlugIdempotent(s: string, sep: char)
    requires !IsLowerAlnum(sep) && !('A' <= sep <= 'Z')
    ensures Slug(Slug(s, sep), sep) == Slug(s, sep)
  {
    SlugFixpoint(Slug(s, sep), sep);
  }
}

=== FILE: spec.dfy ===
/**
 * `VersionSpecTransformer` and `parse_spec` of version_man.py: every simple
 * becomes one Range, every alternative of a range set becomes the
 * intersection of its ranges, and the non-empty intersections are collected
 * in order. A spec therefore admits a version exactly when some alternative
 * admits it through every one of its simples.
 */
module Specs {
  import opened Wrappers
  import opened Strings
  import opened SemVer
  import opened Bounds
  import opened Partials
  import opened SpecParser
  import opened RangeAlgebra

  /** `simple`: the Range of one comparator, tilde, caret or bare partial. */
  function SimpleRange(x: Simple): Range {
    match x
    case Prim(op, p) => Primitive(p, op)
    case TildeOf(p) => Tilde(p)
    case CaretOf(p) => Caret(p)
    case Plain(p) => AsRange(p)
  }

  /** `range`: a hyphen spans from the first partial's floor to the second partial's ceiling. */
  function NodeRanges(x: RangeNode): seq<Range> {
    match x
    case Hyphen(a, b) => [Range(AsRange(a).min, AsRange(b).max)]
    case SimpleSet(xs) => seq(|xs|, k requires 0 <= k < |xs| => SimpleRange(xs[k]))
  }

  /** `range_set`: the intersection of each alternative, empty ones dropped. */
  function Transform(alts: seq<RangeNode>): seq<Range> {
    if alts == [] then [] else IntersectRangesFixed(NodeRanges(alts[0])) + Transform(alts[1..])
  }

  /** An alternative admits a version when it has ranges and every one of them contains it. */
  predicate Admits(x: RangeNode, v: Version) {
    var rs := NodeRanges(x);
    rs != [] && forall k :: 0 <= k < |rs| ==> Contains(rs[k], v)
  }

  /** The transformed spec admits a version iff some alternative does, with at most one range each. */
  lemma {:induction false} TransformMeaning(alts: seq<RangeNode>, v: Version)
    ensures |Transform(alts)| <= |alts|
    ensures ContainsAny(Transform(alts), v) <==> exists i :: 0 <= i < |alts| && Admits(alts[i], v)
    decreases |alts|
  {
    if alts != [] {
      var head := IntersectRangesFixed(NodeRanges(alts[0]));
      IntersectRangesFixedSound(NodeRanges(alts[0]), v);
      TransformMeaning(alts[1..], v);
      ContainsAnyConcat(head, Transform(alts[1..]), v);
      if exists i :: 0 <= i < |alts| && Admits(alts[i], v) {
        var i :| 0 <= i < |alts| && Admits(alts[i], v);
        if i > 0 { assert Admits(alts[1..][i - 1], v); }
      }
      if exists i :: 0 <= i < |alts[1..]| && Admits(alts[1..][i], v) {
        var i :| 0 <= i < |alts[1..]| && Admits(alts[1..][i], v);
        assert Admits(alts[i + 1], v);
      }
    }
  }

  /** A set of simples admits a version exactly when every simple's range contains it. */
  lemma SimpleSetMeaning(xs: seq<Simple>, v: Version)
    ensures Admits(SimpleSet(xs), v) <==> xs != [] && forall k :: 0 <= k < |xs| ==> Contains(SimpleRange(xs[k]), v)
  {
    var rs := NodeRanges(SimpleSet(xs));
    if xs != [] && forall k :: 0 <= k < |xs| ==> Contains(SimpleRange(xs[k]), v) {
      forall k | 0 <= k < |rs| ensures Contains(rs[k], v) { assert rs[k] == SimpleRange(xs[k]); }
    }
    if Admits(SimpleSet(xs), v) {
      forall k | 0 <= k < |xs| ensures Contains(SimpleRange(xs[k]), v) { assert rs[k] == SimpleRange(xs[k]); }
    }
  }

  /** `1.2.3 - 2.3.4` admits exactly the versions from 1.2.3 to 2.3.4, both included. */
  lemma HyphenMeaning(a: Partial, b: Partial, v: Version)
    requires IsFull(a) && IsFull(b)
    ensures Admits(Hyphen(a, b), v) <==> LessEq(Full(a), v) && LessEq(v, Full(b))
  {
    assert AsRange(a).min == Incl(Full(a)) && AsRange(b).max == Incl(Full(b));
    var r := Range(Incl(Full(a)), Incl(Full(b)));
    assert NodeRanges(Hyphen(a, b)) == [r];
    var rs := NodeRanges(Hyphen(a, b));
    if Admits(Hyphen(a, b), v) {
      assert Contains(rs[0], v);
    }
    if Contains(r, v) {
      forall k | 0 <= k < |rs| ensures Contains(rs[k], v) { assert rs[k] == r; }
    }
  }

  /** `parse_spec`: the ranges a spec stands for, or an error when the text is not in the grammar. */
  function ParseSpec(spec: string): (r: Result<seq<Range>, string>)
    ensures r.Err? <==> ParseRangeSet(spec).None?
  {
    match ParseRangeSet(spec)
    case None => Err("Invalid version spec: " + spec)
    case Some(alts) => Ok(Transform(alts))
  }

  /**
   * Any accepted spec reads as a well-formed tree whose canonical print
   * means the same ranges, and it admits a version exactly when one of the
   * tree's alternatives does.
   */
  lemma ParseSpecMeaning(spec: string, v: Version)
    requires ParseSpec(spec).Ok?
    ensures var alts := ParseRangeSet(spec).value;
      && WfRangeSet(alts)
      && ParseSpec(RangeSetText(alts)) == ParseSpec(spec)
      && (ContainsAny(ParseSpec(spec).value, v) <==> exists i :: 0 <= i < |alts| && Admits(alts[i], v))
  {
    var alts := ParseRangeSet(spec).value;
    ParseRangeSetWf(spec);
    ParsePrintParse(spec);
    TransformMeaning(alts, v);
  }

  /**
   * The spec a well-formed tree prints to is accepted, and admits a version
   * exactly when one of the tree's alternatives does.
   */
  lemma ParseSpecOfText(alts: seq<RangeNode>, v: Version)
    requires WfRangeSet(alts)
    ensures ParseSpec(RangeSetText(alts)).Ok?
    ensures ContainsAny(ParseSpec(RangeSetText(alts)).value, v) <==>
              exists i :: 0 <= i < |alts| && Admits(alts[i], v)
  {
    RangeSetRoundTrip(alts);
    TransformMeaning(alts, v);
  }

  /** A spec that opens with a character no simple can start with is rejected (`latest`, URLs, paths). */
  lemma ParseSpecRejects(spec: string)
    requires spec != [] && NoSimpleStart(spec[0])
    ensures ParseSpec(spec).Err?
  {
    NoSimpleAt(spec);
  }

  // ---------------------------------------------------------------------------
  // The transformer as written. The grammar reads a prerelease or build piece
  // that is `0` or a digit string without a leading zero as `nr`, whose
  // transformer method turns it into an int; `parts` then joins the pieces
  // with `".".join`, which fails on an int. The failure leaves `parse_spec` as
  // a Lark VisitError, not as the ValueError it reports for a text outside
  // the grammar. ParseSpec above is the evidently intended reading, with such
  // a piece kept as text.

  /** `nr` of the grammar: `0`, or digits without a leading zero. */
  predicate IsNr(piece: string) {
    piece == "0" || (piece != [] && piece[0] != '0' && AllDigits(piece))
  }

  /** Some prerelease or build piece of the partial is read as `nr`. */
  predicate HasNrPiece(p: Partial) {
    || (exists k :: 0 <= k < |p.pre| && IsNr(p.pre[k]))
    || (exists k :: 0 <= k < |p.build| && IsNr(p.build[k]))
  }

  predicate NodeHasNrPiece(x: RangeNode) {
    match x
    case Hyphen(a, b) => HasNrPiece(a) || HasNrPiece(b)
    case SimpleSet(xs) => exists k :: 0 <= k < |xs| && HasNrPiece(xs[k].p)
  }

  predicate TreeHasNrPiece(alts: seq<RangeNode>) {
    exists i :: 0 <= i < |alts| && NodeHasNrPiece(alts[i])
  }

  /**
   * What `parse_spec` ends in: the ranges, the ValueError for a text outside
   * the grammar, or the transformer's failure, which no caller catches.
   */
  datatype SpecOutcome = Ranges(ranges: seq<Range>) | Invalid(msg: string) | TransformFails

  /**
   * `parse_spec` as written: it agrees with ParseSpec except that a spec with
   * a `nr` prerelease or build piece makes the transformer fail.
   */
  function ParseSpecAsWritten(spec: string): (r: SpecOutcome)
    ensures r.Invalid? <==> ParseSpec(spec).Err?
    ensures r.TransformFails? <==> ParseSpec(spec).Ok? && TreeHasNrPiece(ParseRangeSet(spec).value)
    ensures r.Ranges? ==> ParseSpec(spec) == Ok(r.ranges)
  {
    match ParseRangeSet(spec)
    case None => Invalid("Invalid version spec: " + spec)
    case Some(alts) => if TreeHasNrPiece(alts) then TransformFails else Ranges(Transform(alts))
  }

  /**
   * The spec a well-formed tree prints to fails as written exactly when the
   * tree holds a `nr` piece, and gives the tree's ranges otherwise.
   */
  lemma AsWrittenOfText(alts: seq<RangeNode>)
    requires WfRangeSet(alts)
    ensures ParseSpecAsWritten(RangeSetText(alts)).TransformFails? <==> TreeHasNrPiece(alts)
    ensures !TreeHasNrPiece(alts) ==> ParseSpecAsWritten(RangeSetText(alts)) == Ranges(Transform(alts))
  {
    RangeSetRoundTrip(alts);
  }
}

=== FILE: spec_examples.dfy ===
/** Specs from the repository's own test suite, read and transformed. */
module SpecExamples {
  import opened Wrappers
  import opened Strings
  import opened SemVer
  import opened Bounds
  import opened Partials
  import opened SpecParser
  import opened RangeAlgebra
  import opened Specs

  function P3(a: nat, b: nat, c: nat): Partial { Partial(N(a), Some(N(b)), Some(N(c)), [], []) }

  lemma DigitText(d: nat)
    requires d < 10
    ensures NatToString(d) == [DigitChar(d)] && PartText(N(d)) == [DigitChar(d)]
  {
  }

  lemma P3Text(a: nat, b: nat, c: nat)
    requires a < 10 && b < 10 && c < 10
    ensures PartialText(P3(a, b, c)) == [DigitChar(a), '.', DigitChar(b), '.', DigitChar(c)]
  {
    DigitText(a);
    DigitText(b);
    DigitText(c);
    var p := P3(a, b, c);
    assert QualifierText(p.pre, p.build) == [];
    assert PatchText(p) == ['.', DigitChar(c)];
    assert MinorText(p) == ['.', DigitChar(b), '.', DigitChar(c)];
  }

  /** A single intersected range is itself when its bounds do not cross. */
  lemma IntersectOne(r: Range)
    requires BoundLe(r.min, r.max)
    ensures IntersectRangesFixed([r]) == [r]
  {
    assert IsOverlapping(r, r);
    assert MaxBound(r.min, r.min) == r.min;
    assert UpperMin(r.max, r.max) == r.max;
    assert IntersectPairFixed(r, r) == [r];
    assert [r][1..] == [];
    assert IntersectStepFixed([r], r) == [r];
    assert IntersectFromFixed([r], [r], 1) == [r];
  }

  function P1(a: nat): Partial { Partial(N(a), None, None, [], []) }

  function P2(a: nat, b: nat): Partial { Partial(N(a), Some(N(b)), None, [], []) }

  function X2(a: nat): Partial { Partial(N(a), Some(Wild), None, [], []) }

  lemma P1Text(a: nat)
    requires a < 10
    ensures PartialText(P1(a)) == [DigitChar(a)]
  {
    DigitText(a);
  }

  lemma P2Text(a: nat, b: nat)
    requires a < 10 && b < 10
    ensures PartialText(P2(a, b)) == [DigitChar(a), '.', DigitChar(b)]
  {
    DigitText(a);
    DigitText(b);
    assert MinorText(P2(a, b)) == ['.', DigitChar(b)];
  }

  lemma X2Text(a: nat)
    requires a < 10
    ensures PartialText(X2(a)) == [DigitChar(a), '.', 'x']
  {
    DigitText(a);
    assert MinorText(X2(a)) == ['.', 'x'];
  }

  lemma StepOne(a: Range, r: Range)
    ensures IntersectStepFixed([a], r) == IntersectPairFixed(a, r)
  {
    assert [a][1..] == [];
  }

  /** A tree's ranges, once its text is known to be the spec. */
  lemma SpecOfTree(spec: string, alts: seq<RangeNode>, ranges: seq<Range>)
    requires WfRangeSet(alts) && RangeSetText(alts) == spec && Transform(alts) == ranges
    ensures ParseSpec(spec) == Ok(ranges)
  {
    RangeSetRoundTrip(alts);
  }

  function TildeTree(): seq<RangeNode> { [SimpleSet([TildeOf(P3(1, 2, 3))])] }

  lemma TildeText()
    ensures RangeSetText(TildeTree()) == "~1.2.3"
  {
    P3Text(1, 2, 3);
  }

  lemma TildeRanges()
    ensures Transform(TildeTree()) == [Range(Incl(Release(1, 2, 3)), Excl(ZeroPre(1, 3)))]
  {
    var r := Range(Incl(Release(1, 2, 3)), Excl(ZeroPre(1, 3)));
    assert NodeRanges(TildeTree()[0]) == [r];
    IntersectOne(r);
  }

  lemma TildeSpec()
    ensures ParseSpec("~1.2.3") == Ok([Range(Incl(Release(1, 2, 3)), Excl(ZeroPre(1, 3)))])
  {
    TildeText();
    TildeRanges();
    SpecOfTree("~1.2.3", TildeTree(), [Range(Incl(Release(1, 2, 3)), Excl(ZeroPre(1, 3)))]);
  }

  function MixedSimples(): seq<Simple> {
    [Prim(Gt, P1(1)), Prim(Le, P1(3)), Prim(Le, P2(3, 4)), Prim(Gt, P2(1, 2))]
  }

  function MixedTree(): seq<RangeNode> { [SimpleSet(MixedSimples()), SimpleSet([Plain(X2(5))])] }

  lemma RangeSetTwo(a: RangeNode, b: RangeNode)
    ensures RangeSetText([a, b]) == RangeNodeText(a) + " || " + RangeNodeText(b)
  {
    assert [a, b][1..] == [b] && [b][1..] == [];
    var ta, tb := RangeNodeText(a), RangeNodeText(b);
    assert MoreRangesText([b]) == " || " + tb + "";
    assert " || " + tb + "" == " || " + tb;
    Assoc3(ta, " || ", tb);
  }

  lemma MoreSimplesCons(x: Simple, xs: seq<Simple>)
    ensures MoreSimplesText([x] + xs) == " " + SimpleText(x) + MoreSimplesText(xs)
  {
    assert ([x] + xs)[1..] == xs;
  }

  lemma MixedSimpleTexts()
    ensures SimpleText(Prim(Gt, P1(1))) == ">1" && SimpleText(Prim(Le, P1(3))) == "<=3"
    ensures SimpleText(Prim(Le, P2(3, 4))) == "<=3.4" && SimpleText(Prim(Gt, P2(1, 2))) == ">1.2"
  {
    P1Text(1);
    P1Text(3);
    P2Text(3, 4);
    P2Text(1, 2);
  }

  lemma MixedSimplesText()
    ensures MoreSimplesText(MixedSimples()[1..]) == " <=3 <=3.4 >1.2"
    ensures SimpleText(MixedSimples()[0]) == ">1"
  {
    MixedSimpleTexts();
    var a, b, c := Prim(Le, P1(3)), Prim(Le, P2(3, 4)), Prim(Gt, P2(1, 2));
    assert MixedSimples()[1..] == [a] + ([b] + ([c] + []));
    MoreSimplesCons(c, []);
    MoreSimplesCons(b, [c]);
    MoreSimplesCons(a, [b, c]);
    assert [b] + ([c] + []) == [b, c];
  }

  lemma MixedNodeTexts()
    ensures RangeNodeText(MixedTree()[0]) == ">1 <=3 <=3.4 >1.2"
    ensures RangeNodeText(MixedTree()[1]) == "5.x"
  {
    MixedSimplesText();
    X2Text(5);
  }

  lemma MixedText()
    ensures RangeSetText(MixedTree()) == ">1 <=3 <=3.4 >1.2 || 5.x"
  {
    MixedNodeTexts();
    RangeSetTwo(MixedTree()[0], MixedTree()[1]);
    assert MixedTree() == [MixedTree()[0], MixedTree()[1]];
  }

  lemma MixedWf()
    ensures WfRangeSet(MixedTree())
  {
  }

  lemma MixedFirstRange()
    ensures IntersectRangesFixed(NodeRanges(MixedTree()[0])) == [Range(Incl(Release(2, 0, 0)), Excl(ZeroPre(3, 5)))]
  {
    var rs := NodeRanges(MixedTree()[0]);
    assert rs == [Range(Incl(Release(2, 0, 0)), Top), Range(Bottom, Excl(ZeroPre(4, 0))),
                  Range(Bottom, Excl(ZeroPre(3, 5))), Range(Incl(Release(1, 3, 0)), Top)];
    var o1 := Range(Incl(Release(2, 0, 0)), Excl(ZeroPre(4, 0)));
    var o2 := Range(Incl(Release(2, 0, 0)), Excl(ZeroPre(3, 5)));
    StepOne(rs[0], rs[0]);
    IntersectOne(rs[0]);
    StepOne(rs[0], rs[1]);
    assert IntersectPairFixed(rs[0], rs[1]) == [o1];
    StepOne(o1, rs[2]);
    assert IntersectPairFixed(o1, rs[2]) == [o2];
    StepOne(o2, rs[3]);
    assert IntersectPairFixed(o2, rs[3]) == [o2];
    assert IntersectFromFixed(rs, [o2], 4) == [o2];
    assert IntersectFromFixed(rs, [o2], 3) == [o2];
    assert IntersectFromFixed(rs, [o1], 2) == [o2];
    assert IntersectFromFixed(rs, [rs[0]], 1) == [o2];
    assert IntersectFromFixed(rs, [rs[0]], 0) == [o2];
  }

  lemma MixedRanges()
    ensures Transform(MixedTree()) == [Range(Incl(Release(2, 0, 0)), Excl(ZeroPre(3, 5))),
                                       Range(Incl(Release(5, 0, 0)), Excl(ZeroPre(6, 0)))]
  {
    var alts := MixedTree();
    MixedFirstRange();
    var r5 := Range(Incl(Release(5, 0, 0)), Excl(ZeroPre(6, 0)));
    assert NodeRanges(alts[1]) == [r5];
    IntersectOne(r5);
    assert alts[1..][1..] == [];
  }

  /** The mixed spec of the test suite: four comparators intersected, or any 5.x. */
  lemma MixedSpec()
    ensures ParseSpec(">1 <=3 <=3.4 >1.2 || 5.x") ==
              Ok([Range(Incl(Release(2, 0, 0)), Excl(ZeroPre(3, 5))),
                  Range(Incl(Release(5, 0, 0)), Excl(ZeroPre(6, 0)))])
  {
    MixedText();
    MixedRanges();
    MixedWf();
    SpecOfTree(">1 <=3 <=3.4 >1.2 || 5.x", MixedTree(), Transform(MixedTree()));
  }

  function HyphenTree(): seq<RangeNode> { [Hyphen(X2(1), X2(2))] }

  lemma HyphenText()
    ensures RangeSetText(HyphenTree()) == "1.x - 2.x"
  {
    X2Text(1);
    X2Text(2);
  }

  lemma HyphenRanges()
    ensures Transform(HyphenTree()) == [Range(Incl(Release(1, 0, 0)), Excl(ZeroPre(3, 0)))]
  {
    var r := Range(Incl(Release(1, 0, 0)), Excl(ZeroPre(3, 0)));
    assert NodeRanges(HyphenTree()[0]) == [r];
    IntersectOne(r);
  }

  /** `1.x - 2.x` runs from 1.0.0 up to, not including, the first prerelease of 3.0.0. */
  lemma HyphenSpec()
    ensures ParseSpec("1.x - 2.x") == Ok([Range(Incl(Release(1, 0, 0)), Excl(ZeroPre(3, 0)))])
  {
    HyphenText();
    HyphenRanges();
    SpecOfTree("1.x - 2.x", HyphenTree(), [Range(Incl(Release(1, 0, 0)), Excl(ZeroPre(3, 0)))]);
  }

  function XTree(): seq<RangeNode> { [SimpleSet([Plain(X2(1))])] }

  lemma XSpec()
    ensures ParseSpec("1.x") == Ok([Range(Incl(Release(1, 0, 0)), Excl(ZeroPre(2, 0)))])
  {
    X2Text(1);
    var r := Range(Incl(Release(1, 0, 0)), Excl(ZeroPre(2, 0)));
    assert NodeRanges(XTree()[0]) == [r];
    IntersectOne(r);
    SpecOfTree("1.x", XTree(), [r]);
  }

  function AboveTree(): seq<RangeNode> { [SimpleSet([Prim(Gt, P1(4))])] }

  /** `>4` starts at the next major release. */
  lemma AboveSpec()
    ensures ParseSpec(">4") == Ok([Range(Incl(Release(5, 0, 0)), Top)])
  {
    P1Text(4);
    var r := Range(Incl(Release(5, 0, 0)), Top);
    assert NodeRanges(AboveTree()[0]) == [r];
    IntersectOne(r);
    SpecOfTree(">4", AboveTree(), [r]);
  }

  function ExactTree(): seq<RangeNode> { [SimpleSet([Plain(P3(1, 0, 0))])] }

  lemma ExactSpec()
    ensures ParseSpec("1.0.0") == Ok([Range(Incl(Release(1, 0, 0)), Incl(Release(1, 0, 0)))])
  {
    P3Text(1, 0, 0);
    var r := Range(Incl(Release(1, 0, 0)), Incl(Release(1, 0, 0)));
    assert NodeRanges(ExactTree()[0]) == [r];
    IntersectOne(r);
    SpecOfTree("1.0.0", ExactTree(), [r]);
  }

  /** `1.0.0` contains only 1.0.0. */
  lemma ExactContains()
    ensures var r := Range(Incl(Release(1, 0, 0)), Incl(Release(1, 0, 0)));
      ParseSpec("1.0.0") == Ok([r]) && Contains(r, Release(1, 0, 0)) && !Contains(r, Release(1, 0, 1))
  {
    ExactSpec();
  }

  /** `1.x` contains the 1.x releases but not the prereleases of 1.0.0, nor 2.0.0. */
  lemma XContains()
    ensures var r := Range(Incl(Release(1, 0, 0)), Excl(ZeroPre(2, 0)));
      && ParseSpec("1.x") == Ok([r])
      && !Contains(r, Version(1, 0, 0, [Alpha("beta"), Num(1)]))
      && Contains(r, Release(1, 0, 0)) && Contains(r, Release(1, 2, 0)) && !Contains(r, Release(2, 0, 0))
  {
    XSpec();
    XRangeContents();
  }

  lemma XRangeContents()
    ensures var r := Range(Incl(Release(1, 0, 0)), Excl(ZeroPre(2, 0)));
      && !Contains(r, Version(1, 0, 0, [Alpha("beta"), Num(1)]))
      && Contains(r, Release(1, 0, 0)) && Contains(r, Release(1, 2, 0)) && !Contains(r, Release(2, 0, 0))
  {
    assert Less(Version(1, 0, 0, [Alpha("beta"), Num(1)]), Release(1, 0, 0));
  }

  lemma TildeRangeHolds()
    ensures var r := Range(Incl(Release(1, 2, 3)), Excl(ZeroPre(1, 3)));
      && !Contains(r, Release(1, 2, 0)) && Contains(r, Release(1, 2, 3))
      && Contains(r, Release(1, 2, 42)) && !Contains(r, Release(1, 3, 0))
  {
  }

  /** `~1.2.3` contains 1.2.3 up to the 1.3 line. */
  lemma TildeContains()
    ensures var r := Range(Incl(Release(1, 2, 3)), Excl(ZeroPre(1, 3)));
      && ParseSpec("~1.2.3") == Ok([r])
      && !Contains(r, Release(1, 2, 0)) && Contains(r, Release(1, 2, 3))
      && Contains(r, Release(1, 2, 42)) && !Contains(r, Release(1, 3, 0))
  {
    TildeSpec();
    TildeRangeHolds();
  }

  /** Texts that are not version specs at all are rejected. */
  lemma NotSpecs()
    ensures ParseSpec("latest").Err?
    ensures ParseSpec("http://asdf.com/asdf.tar.gz").Err?
    ensures ParseSpec("file:../dyl").Err?
  {
    ParseSpecRejects("latest");
    ParseSpecRejects("http://asdf.com/asdf.tar.gz");
    ParseSpecRejects("file:../dyl");
  }

  // ---------------------------------------------------------------------------
  // A prerelease piece read as `nr` stops `parse_spec` as written.

  function PreTree(piece: string): seq<RangeNode> {
    [SimpleSet([Plain(Partial(N(1), Some(N(2)), Some(N(3)), [piece], []))])]
  }

  lemma PreTreeText(piece: string)
    ensures RangeSetText(PreTree(piece)) == "1.2.3-" + piece
  {
    DigitText(1);
    DigitText(2);
    DigitText(3);
    var p := Partial(N(1), Some(N(2)), Some(N(3)), [piece], []);
    assert QualifierText(p.pre, p.build) == "-" + piece;
    assert PartialText(p) == "1.2.3-" + piece;
  }

  /** `1.2.3-<piece>` is the one version it spells out, with the piece as its prerelease. */
  lemma PreTreeRanges(piece: string)
    ensures var v := Version(1, 2, 3, [ToIdent(piece)]);
      Transform(PreTree(piece)) == [Range(Incl(v), Incl(v))]
  {
    var p := Partial(N(1), Some(N(2)), Some(N(3)), [piece], []);
    var v := Version(1, 2, 3, [ToIdent(piece)]);
    assert ToIdents([piece]) == [ToIdent(piece)];
    assert Full(p) == v && RangeX(p).None?;
    assert SimpleRange(Plain(p)) == Range(Incl(v), Incl(v));
    assert NodeRanges(PreTree(piece)[0]) == [Range(Incl(v), Incl(v))];
    IntersectOne(Range(Incl(v), Incl(v)));
  }

  /** `1.2.3-<piece>` as written: the transformer fails exactly when the piece is `nr`. */
  lemma PreTreeAsWritten(piece: string)
    requires ValidPiece(piece)
    ensures var v := Version(1, 2, 3, [ToIdent(piece)]);
      && ParseSpec("1.2.3-" + piece) == Ok([Range(Incl(v), Incl(v))])
      && ParseSpecAsWritten("1.2.3-" + piece)
         == if IsNr(piece) then TransformFails else Ranges([Range(Incl(v), Incl(v))])
  {
    var alts := PreTree(piece);
    PreTreeText(piece);
    PreTreeRanges(piece);
    SpecOfTree("1.2.3-" + piece, alts, Transform(alts));
    PreTreeNr(piece);
    AsWrittenOfText(alts);
  }

  lemma PreTreeNr(piece: string)
    ensures TreeHasNrPiece(PreTree(piece)) <==> IsNr(piece)
  {
    var p := Partial(N(1), Some(N(2)), Some(N(3)), [piece], []);
    assert p.pre[0] == piece;
    assert HasNrPiece(p) <==> IsNr(piece);
    assert PreTree(piece)[0].simples[0].p == p;
  }

  lemma FourIsNr()
    ensures ValidPiece("4") && IsNr("4") && ToIdent("4") == Num(4)
  {
  }

  lemma ZeroOneIsNotNr()
    ensures ValidPiece("01") && !IsNr("01") && ToIdent("01") == Num(1)
  {
    assert "01"[..1] == "0" && "0"[..0] == "";
  }

  /** `1.2.3-4` is accepted by the grammar; the corrected reading is exactly the version 1.2.3-4, the as-written one fails. */
  lemma NumericPrereleaseFails()
    ensures var v := Version(1, 2, 3, [Num(4)]);
      && ParseSpec("1.2.3-4") == Ok([Range(Incl(v), Incl(v))])
      && ParseSpecAsWritten("1.2.3-4") == TransformFails
  {
    FourIsNr();
    PreTreeAsWritten("4");
    assert "1.2.3-" + "4" == "1.2.3-4";
  }

  /** A piece with a leading zero is not `nr`: `1.2.3-01` goes through as written, as 1.2.3-1. */
  lemma LeadingZeroPrereleaseReads()
    ensures var v := Version(1, 2, 3, [Num(1)]);
      ParseSpecAsWritten("1.2.3-01") == Ranges([Range(Incl(v), Incl(v))])
  {
    ZeroOneIsNotNr();
    PreTreeAsWritten("01");
    assert "1.2.3-" + "01" == "1.2.3-01";
  }
}

=== FILE: spec_parser.dfy ===
/**
 * A recursive-descent reading of the npm range grammar of version_man.py
 * (the `GRAMMAR` string, itself adapted from node-semver's range grammar):
 *
 *   range_set  := range ( spaces "||" spaces range )*
 *   range      := partial " - " partial | simple ( " " simple )*
 *   simple     := comparator spaces partial | "~" partial | "^" partial | partial
 *   comparator := ">=" | "<=" | ">" | "<" | "="
 *   partial    := xr [ "." xr [ "." xr [ ( "-" parts )? ( "+" parts )? ] ] ]
 *   xr         := "x" | "X" | "*" | nr          nr := "0" | [1-9][0-9]*
 *   parts      := part ( "." part )*            part := [-0-9A-Za-z]+
 *
 * Every parser takes the remaining input and returns the value read and
 * the input left after it, or None when the text does not match.
 * Terminals match greedily, as the grammar's regular expressions do; the
 * round-trip lemmas at the end show that every well-formed syntax tree
 * printed and read back is the same tree.
 */
module SpecParser {
  import opened Wrappers
  import opened Strings
  import opened SemVer
  import opened Partials

  datatype Parsed<+T> = Parsed(value: T, rest: string)

  /** `simple`: a comparator, tilde, caret or bare partial. */
  datatype Simple =
    | Prim(op: Comparator, p: Partial)
    | TildeOf(p: Partial)
    | CaretOf(p: Partial)
    | Plain(p: Partial)

  /** `range`: a hyphen range or a space-separated set of simples. */
  datatype RangeNode = Hyphen(from: Partial, to: Partial) | SimpleSet(simples: seq<Simple>)

  predicate IsPartChar(c: char) { c == '-' || IsAsciiAlnum(c) }

  // ---------------------------------------------------------------------------
  // Runs of characters.

  function DigitRun(s: string): (n: nat)
    ensures n <= |s|
    ensures forall k :: 0 <= k < n ==> IsDigit(s[k])
    ensures n < |s| ==> !IsDigit(s[n])
  {
    if s != [] && IsDigit(s[0]) then 1 + DigitRun(s[1..]) else 0
  }

  function PartRun(s: string): (n: nat)
    ensures n <= |s|
    ensures forall k :: 0 <= k < n ==> IsPartChar(s[k])
    ensures n < |s| ==> !IsPartChar(s[n])
  {
    if s != [] && IsPartChar(s[0]) then 1 + PartRun(s[1..]) else 0
  }

  function SpaceRun(s: string): (n: nat)
    ensures n <= |s|
    ensures forall k :: 0 <= k < n ==> s[k] == ' '
    ensures n < |s| ==> s[n] != ' '
  {
    if s != [] && s[0] == ' ' then 1 + SpaceRun(s[1..]) else 0
  }

  // ---------------------------------------------------------------------------
  // Partials.

  function ParseNr(s: string): (r: Option<Parsed<nat>>)
    ensures r.Some? ==> |r.value.rest| < |s|
  {
    if s == [] then None
    else if s[0] == '0' then Some(Parsed(0, s[1..]))
    else if '1' <= s[0] <= '9' then
      var n := DigitRun(s);
      Some(Parsed(ParseNat(s[..n]), s[n..]))
    else None
  }

  function ParseXr(s: string): (r: Option<Parsed<Part>>)
    ensures r.Some? ==> |r.value.rest| < |s|
  {
    if s != [] && (s[0] == 'x' || s[0] == 'X' || s[0] == '*') then Some(Parsed(Wild, s[1..]))
    else
      match ParseNr(s)
      case None => None
      case Some(Parsed(n, rest)) => Some(Parsed(N(n), rest))
  }

  /** `parts`: one or more dot-separated pieces. */
  function ParseParts(s: string): (r: Option<Parsed<seq<string>>>)
    ensures r.Some? ==> |r.value.rest| < |s| && r.value.value != []
    decreases |s|
  {
    var n := PartRun(s);
    if n == 0 then None
    else if n < |s| && s[n] == '.' then
      match ParseParts(s[n + 1..])
      case None => None
      case Some(Parsed(more, rest)) => Some(Parsed([s[..n]] + more, rest))
    else Some(Parsed([s[..n]], s[n..]))
  }

  datatype Qualifier = Qualifier(pre: seq<string>, build: seq<string>)

  /** The optional `-pre` of a qualifier. */
  function ParsePre(s: string): (r: Option<Parsed<seq<string>>>)
    ensures r.Some? ==> |r.value.rest| <= |s|
  {
    if s != [] && s[0] == '-' then ParseParts(s[1..]) else Some(Parsed([], s))
  }

  /** The optional `+build` of a qualifier. */
  function ParseBuild(s: string): (r: Option<Parsed<seq<string>>>)
    ensures r.Some? ==> |r.value.rest| <= |s|
  {
    if s != [] && s[0] == '+' then ParseParts(s[1..]) else Some(Parsed([], s))
  }

  /** `qualifier`: an optional `-pre` followed by an optional `+build`. */
  function ParseQualifier(s: string): (r: Option<Parsed<Qualifier>>)
    ensures r.Some? ==> |r.value.rest| <= |s|
  {
    match ParsePre(s)
    case None => None
    case Some(Parsed(pre, r1)) =>
      match ParseBuild(r1)
      case None => None
      case Some(Parsed(build, r2)) => Some(Parsed(Qualifier(pre, build), r2))
  }

  /** What may follow `major.minor`: a `.patch` with its qualifier, or nothing. */
  function ParseAfterMinor(major: Part, minor: Part, s: string): (r: Option<Parsed<Partial>>)
    ensures r.Some? ==> |r.value.rest| <= |s|
  {
    if s != [] && s[0] == '.' then
      match ParseXr(s[1..])
      case None => None
      case Some(Parsed(patch, r1)) =>
        match ParseQualifier(r1)
        case None => None
        case Some(Parsed(q, r2)) => Some(Parsed(Partial(major, Some(minor), Some(patch), q.pre, q.build), r2))
    else Some(Parsed(Partial(major, Some(minor), None, [], []), s))
  }

  /** What may follow the major part: a `.minor` and what follows it, or nothing. */
  function ParseAfterMajor(major: Part, s: string): (r: Option<Parsed<Partial>>)
    ensures r.Some? ==> |r.value.rest| <= |s|
  {
    if s != [] && s[0] == '.' then
      match ParseXr(s[1..])
      case None => None
      case Some(Parsed(minor, r1)) => ParseAfterMinor(major, minor, r1)
    else Some(Parsed(Partial(major, None, None, [], []), s))
  }

  /** `partial`: up to three parts; a qualifier only after the third. */
  function ParsePartial(s: string): (r: Option<Parsed<Partial>>)
    ensures r.Some? ==> |r.value.rest| < |s|
  {
    match ParseXr(s)
    case None => None
    case Some(Parsed(major, r1)) => ParseAfterMajor(major, r1)
  }

  // ---------------------------------------------------------------------------
  // Simples, ranges and range sets.

  function ParseComparator(s: string): (r: Option<Parsed<Comparator>>)
    ensures r.Some? ==> |r.value.rest| < |s|
  {
    if |s| >= 2 && s[..2] == ">=" then Some(Parsed(Ge, s[2..]))
    else if |s| >= 2 && s[..2] == "<=" then Some(Parsed(Le, s[2..]))
    else if s != [] && s[0] == '>' then Some(Parsed(Gt, s[1..]))
    else if s != [] && s[0] == '<' then Some(Parsed(Lt, s[1..]))
    else if s != [] && s[0] == '=' then Some(Parsed(Eq, s[1..]))
    else None
  }

  function ParseSimple(s: string): (r: Option<Parsed<Simple>>)
    ensures r.Some? ==> |r.value.rest| < |s|
  {
    if s != [] && (s[0] == '~' || s[0] == '^') then
      match ParsePartial(s[1..])
      case None => None
      case Some(Parsed(p, rest)) => Some(Parsed(if s[0] == '~' then TildeOf(p) else CaretOf(p), rest))
    else
      match ParseComparator(s)
      case Some(Parsed(op, r1)) =>
        (match ParsePartial(r1[SpaceRun(r1)..])
         case None => None
         case Some(Parsed(p, rest)) => Some(Parsed(Prim(op, p), rest)))
      case None =>
        match ParsePartial(s)
        case None => None
        case Some(Parsed(p, rest)) => Some(Parsed(Plain(p), rest))
  }

  /** The `( " " simple )*` tail of a simple set; it stops before a space that starts no simple. */
  function ParseMoreSimples(s: string): (r: Parsed<seq<Simple>>)
    ensures |r.rest| <= |s|
    decreases |s|
  {
    if s != [] && s[0] == ' ' then
      match ParseSimple(s[1..])
      case None => Parsed([], s)
      case Some(Parsed(x, rest)) =>
        var more := ParseMoreSimples(rest);
        Parsed([x] + more.value, more.rest)
    else Parsed([], s)
  }

  function ParseSimpleSet(s: string): (r: Option<Parsed<seq<Simple>>>)
    ensures r.Some? ==> |r.value.rest| < |s| && r.value.value != []
  {
    match ParseSimple(s)
    case None => None
    case Some(Parsed(x, r1)) =>
      var more := ParseMoreSimples(r1);
      Some(Parsed([x] + more.value, more.rest))
  }

  /** A partial followed by " - " commits to a hyphen range; anything else is a simple set. */
  function ParseRange(s: string): (r: Option<Parsed<RangeNode>>)
    ensures r.Some? ==> |r.value.rest| < |s|
  {
    var head := ParsePartial(s);
    if head.Some? && |head.value.rest| >= 3 && head.value.rest[..3] == " - " then
      match ParsePartial(head.value.rest[3..])
      case None => None
      case Some(Parsed(to, rest)) => Some(Parsed(Hyphen(head.value.value, to), rest))
    else
      match ParseSimpleSet(s)
      case None => None
      case Some(Parsed(xs, rest)) => Some(Parsed(SimpleSet(xs), rest))
  }

  /** The `||` separator with any spaces around it; returns the input after it. */
  function ParseOr(s: string): (r: Option<string>)
    ensures r.Some? ==> |r.value| < |s|
  {
    var t := s[SpaceRun(s)..];
    if |t| >= 2 && t[..2] == "||" then Some(t[2..][SpaceRun(t[2..])..]) else None
  }

  function ParseMoreRanges(s: string): (r: Option<Parsed<seq<RangeNode>>>)
    ensures r.Some? ==> |r.value.rest| <= |s|
    decreases |s|
  {
    match ParseOr(s)
    case None => Some(Parsed([], s))
    case Some(r1) =>
      match ParseRange(r1)
      case None => None
      case Some(Parsed(x, r2)) =>
        match ParseMoreRanges(r2)
        case None => None
        case Some(Parsed(xs, r3)) => Some(Parsed([x] + xs, r3))
  }

  /** `range_set` over the whole input; None unless every character is read. */
  function ParseRangeSet(s: string): (r: Option<seq<RangeNode>>)
    ensures r.Some? ==> r.value != []
  {
    match ParseRange(s)
    case None => None
    case Some(Parsed(x, r1)) =>
      match ParseMoreRanges(r1)
      case None => None
      case Some(Parsed(xs, r2)) => if r2 == [] then Some([x] + xs) else None
  }

  // ---------------------------------------------------------------------------
  // Printing a syntax tree back to text.

  function PartText(p: Part): string {
    match p
    case Wild => "x"
    case N(n) => NatToString(n)
  }

  function PreText(pre: seq<string>): string {
    if pre == [] then "" else "-" + Join(pre, ".")
  }

  function BuildText(build: seq<string>): string {
    if build == [] then "" else "+" + Join(build, ".")
  }

  function QualifierText(pre: seq<string>, build: seq<string>): string {
    PreText(pre) + BuildText(build)
  }

  function PatchText(p: Partial): string {
    if p.patch.None? then "" else "." + PartText(p.patch.value) + QualifierText(p.pre, p.build)
  }

  function MinorText(p: Partial): string {
    if p.minor.None? then "" else "." + PartText(p.minor.value) + PatchText(p)
  }

  function PartialText(p: Partial): string {
    PartText(p.major) + MinorText(p)
  }

  function ComparatorText(op: Comparator): string {
    match op
    case Ge => ">="
    case Gt => ">"
    case Le => "<="
    case Lt => "<"
    case Eq => "="
  }

  function SimpleText(x: Simple): string {
    match x
    case Prim(op, p) => ComparatorText(op) + PartialText(p)
    case TildeOf(p) => "~" + PartialText(p)
    case CaretOf(p) => "^" + PartialText(p)
    case Plain(p) => PartialText(p)
  }

  function MoreSimplesText(xs: seq<Simple>): string {
    if xs == [] then "" else " " + SimpleText(xs[0]) + MoreSimplesText(xs[1..])
  }

  function RangeNodeText(x: RangeNode): string {
    match x
    case Hyphen(a, b) => PartialText(a) + " - " + PartialText(b)
    case SimpleSet(xs) => if xs == [] then "" else SimpleText(xs[0]) + MoreSimplesText(xs[1..])
  }

  function MoreRangesText(xs: seq<RangeNode>): string {
    if xs == [] then "" else " || " + RangeNodeText(xs[0]) + MoreRangesText(xs[1..])
  }

  function RangeSetText(alts: seq<RangeNode>): string {
    if alts == [] then "" else RangeNodeText(alts[0]) + MoreRangesText(alts[1..])
  }

  // ---------------------------------------------------------------------------
  // Well-formed syntax trees: the ones the grammar can spell.

  predicate ValidPiece(t: string) { t != [] && forall k :: 0 <= k < |t| ==> IsPartChar(t[k]) }

  /** Minor before patch, and a qualifier only after a patch. */
  predicate WfPartial(p: Partial) {
    && (p.minor.None? ==> p.patch.None?)
    && (p.patch.None? ==> p.pre == [] && p.build == [])
    && (forall k :: 0 <= k < |p.pre| ==> ValidPiece(p.pre[k]))
    && (forall k :: 0 <= k < |p.build| ==> ValidPiece(p.build[k]))
  }

  predicate WfRangeNode(x: RangeNode) {
    match x
    case Hyphen(a, b) => WfPartial(a) && WfPartial(b)
    case SimpleSet(xs) => xs != [] && forall k :: 0 <= k < |xs| ==> WfPartial(xs[k].p)
  }

  predicate WfRangeSet(alts: seq<RangeNode>) {
    alts != [] && forall k :: 0 <= k < |alts| ==> WfRangeNode(alts[k])
  }

  // ---------------------------------------------------------------------------
  // Round trip.

  lemma {:induction false} DigitRunConcat(a: string, rest: string)
    requires AllDigits(a) && (rest == [] || !IsDigit(rest[0]))
    ensures DigitRun(a + rest) == |a|
    decreases |a|
  {
    if a != [] {
      assert (a + rest)[1..] == a[1..] + rest;
      DigitRunConcat(a[1..], rest);
    }
  }

  lemma {:induction false} PartRunConcat(a: string, rest: string)
    requires forall k :: 0 <= k < |a| ==> IsPartChar(a[k])
    requires rest == [] || !IsPartChar(rest[0])
    ensures PartRun(a + rest) == |a|
    decreases |a|
  {
    if a != [] {
      assert (a + rest)[1..] == a[1..] + rest;
      PartRunConcat(a[1..], rest);
    }
  }

  /** A number of two digits or more never starts with 0; a positive one never does. */
  lemma NatTextFirst(n: nat)
    ensures IsDigit(NatToString(n)[0])
    ensures n > 0 ==> NatToString(n)[0] != '0'
  {
    if n >= 10 { assert |NatToString(n)| > 1; }
  }

  lemma NrRoundTrip(n: nat, rest: string)
    requires rest == [] || !IsDigit(rest[0])
    ensures ParseNr(NatToString(n) + rest) == Some(Parsed(n, rest))
  {
    var t := NatToString(n);
    var s := t + rest;
    NatTextFirst(n);
    if n == 0 {
      assert t == "0";
      assert s[1..] == rest;
    } else {
      DigitRunConcat(t, rest);
      assert s[..|t|] == t && s[|t|..] == rest;
      ParseNatToString(n);
    }
  }

  lemma XrRoundTrip(p: Part, rest: string)
    requires rest == [] || !IsDigit(rest[0])
    ensures ParseXr(PartText(p) + rest) == Some(Parsed(p, rest))
  {
    match p
    case Wild => assert (PartText(p) + rest)[1..] == rest;
    case N(n) =>
      NatTextFirst(n);
      NrRoundTrip(n, rest);
  }

  lemma PartsLast(a: string, rest: string)
    requires ValidPiece(a)
    requires rest == [] || (!IsPartChar(rest[0]) && rest[0] != '.')
    ensures ParseParts(a + rest) == Some(Parsed([a], rest))
  {
    var s := a + rest;
    PartRunConcat(a, rest);
    assert s[..|a|] == a && s[|a|..] == rest;
  }

  lemma PartsMore(a: string, tail: string)
    requires ValidPiece(a)
    ensures var s := a + "." + tail;
      ParseParts(s) == match ParseParts(tail)
        case None => None
        case Some(Parsed(more, rest)) => Some(Parsed([a] + more, rest))
  {
    var s := a + "." + tail;
    assert s == a + ("." + tail);
    PartRunConcat(a, "." + tail);
    assert s[..|a|] == a && s[|a| + 1..] == tail && s[|a|] == '.';
  }

  lemma {:induction false} PartsRoundTrip(ts: seq<string>, rest: string)
    requires ts != [] && forall k :: 0 <= k < |ts| ==> ValidPiece(ts[k])
    requires rest == [] || (!IsPartChar(rest[0]) && rest[0] != '.')
    ensures ParseParts(Join(ts, ".") + rest) == Some(Parsed(ts, rest))
    decreases |ts|
  {
    if |ts| == 1 {
      assert Join(ts, ".") == ts[0] && [ts[0]] == ts;
      PartsLast(ts[0], rest);
    } else {
      var tail := Join(ts[1..], ".") + rest;
      assert Join(ts, ".") + rest == ts[0] + "." + tail by {
        JoinCons(ts, ".");
        Assoc3(ts[0] + ".", Join(ts[1..], "."), rest);
      }
      assert ParseParts(tail) == Some(Parsed(ts[1..], rest)) by {
        PartsRoundTrip(ts[1..], rest);
      }
      PartsCons(ts[0], tail, ts[1..], rest);
      ConsSplit(ts);
    }
  }

  lemma PartsCons(a: string, tail: string, more: seq<string>, rest: string)
    requires ValidPiece(a) && ParseParts(tail) == Some(Parsed(more, rest))
    ensures ParseParts(a + "." + tail) == Some(Parsed([a] + more, rest))
  {
    PartsMore(a, tail);
  }

  lemma JoinCons(ts: seq<string>, sep: string)
    requires |ts| > 1
    ensures Join(ts, sep) == ts[0] + sep + Join(ts[1..], sep)
  {
  }

  lemma BuildRoundTrip(build: seq<string>, rest: string)
    requires forall k :: 0 <= k < |build| ==> ValidPiece(build[k])
    requires rest == [] || rest[0] == ' '
    ensures ParseBuild(BuildText(build) + rest) == Some(Parsed(build, rest))
  {
    if build != [] {
      assert ParseParts(Join(build, ".") + rest) == Some(Parsed(build, rest)) by {
        PartsRoundTrip(build, rest);
      }
      SignedText('+', Join(build, "."), rest);
    } else {
      assert BuildText(build) + rest == rest;
    }
  }

  /** A sign character in front of a text stays in front when more text follows. */
  lemma SignedText(c: char, t: string, rest: string)
    ensures var s := [c] + t + rest; s[0] == c && s[1..] == t + rest
  {
    var s := [c] + t + rest;
    assert s == [c] + (t + rest);
  }

  lemma PreTextSplit(pre: seq<string>, rest: string)
    requires pre != []
    ensures var s := PreText(pre) + rest; s[0] == '-' && s[1..] == Join(pre, ".") + rest
  {
    Assoc3("-", Join(pre, "."), rest);
  }

  lemma PreRoundTrip(pre: seq<string>, rest: string)
    requires forall k :: 0 <= k < |pre| ==> ValidPiece(pre[k])
    requires rest == [] || rest[0] == '+' || rest[0] == ' '
    ensures ParsePre(PreText(pre) + rest) == Some(Parsed(pre, rest))
  {
    if pre != [] {
      PreTextSplit(pre, rest);
      PartsRoundTrip(pre, rest);
    } else {
      assert PreText(pre) + rest == rest;
    }
  }

  lemma QualifierRoundTrip(pre: seq<string>, build: seq<string>, rest: string)
    requires forall k :: 0 <= k < |pre| ==> ValidPiece(pre[k])
    requires forall k :: 0 <= k < |build| ==> ValidPiece(build[k])
    requires rest == [] || rest[0] == ' '
    ensures ParseQualifier(QualifierText(pre, build) + rest) == Some(Parsed(Qualifier(pre, build), rest))
  {
    var b := BuildText(build);
    var afterPre := b + rest;
    Assoc3(PreText(pre), b, rest);
    assert afterPre == [] || afterPre[0] == '+' || afterPre[0] == ' ' by {
      if b == [] {
        assert afterPre == rest;
      } else {
        ConcatFirst(b, rest);
      }
    }
    PreRoundTrip(pre, afterPre);
    BuildRoundTrip(build, rest);
  }

  lemma QualifierTextFirst(pre: seq<string>, build: seq<string>)
    ensures var t := QualifierText(pre, build); t == [] || t[0] == '-' || t[0] == '+'
  {
  }

  lemma AfterMinorStep(major: Part, minor: Part, patch: Part, t: string, q: Qualifier, rest: string)
    requires ParseXr(t) == Some(Parsed(patch, QualifierText(q.pre, q.build) + rest))
    requires ParseQualifier(QualifierText(q.pre, q.build) + rest) == Some(Parsed(q, rest))
    ensures ParseAfterMinor(major, minor, "." + t) == Some(Parsed(Partial(major, Some(minor), Some(patch), q.pre, q.build), rest))
  {
    assert ("." + t)[1..] == t;
  }

  lemma PatchTextSplit(p: Partial, rest: string)
    ensures p.patch.Some? ==>
      PatchText(p) + rest == "." + (PartText(p.patch.value) + (QualifierText(p.pre, p.build) + rest))
    ensures p.patch.None? ==> PatchText(p) + rest == rest
  {
    if p.patch.Some? {
      var a, q := PartText(p.patch.value), QualifierText(p.pre, p.build);
      assert PatchText(p) == "." + a + q;
      Assoc4(".", a, q, rest);
    }
  }

  lemma Assoc4(a: string, b: string, c: string, d: string)
    ensures a + b + c + d == a + (b + (c + d))
  {
  }

  lemma AfterMinorRoundTrip(p: Partial, rest: string)
    requires WfPartial(p) && p.minor.Some?
    requires rest == [] || rest[0] == ' '
    ensures ParseAfterMinor(p.major, p.minor.value, PatchText(p) + rest) == Some(Parsed(p, rest))
  {
    PatchTextSplit(p, rest);
    if p.patch.Some? {
      var afterPatch := QualifierText(p.pre, p.build) + rest;
      QualifierTextFirst(p.pre, p.build);
      XrRoundTrip(p.patch.value, afterPatch);
      QualifierRoundTrip(p.pre, p.build, rest);
      AfterMinorStep(p.major, p.minor.value, p.patch.value, PartText(p.patch.value) + afterPatch, Qualifier(p.pre, p.build), rest);
    }
  }

  lemma AfterMajorStep(major: Part, minor: Part, t: string, afterMinor: string, result: Option<Parsed<Partial>>)
    requires ParseXr(t) == Some(Parsed(minor, afterMinor))
    requires ParseAfterMinor(major, minor, afterMinor) == result
    ensures ParseAfterMajor(major, "." + t) == result
  {
    assert ("." + t)[1..] == t;
  }

  lemma MinorTextSplit(p: Partial, rest: string)
    ensures p.minor.Some? ==> MinorText(p) + rest == "." + (PartText(p.minor.value) + (PatchText(p) + rest))
    ensures p.minor.None? ==> MinorText(p) + rest == rest
  {
    if p.minor.Some? {
      var a, q := PartText(p.minor.value), PatchText(p);
      assert MinorText(p) == "." + a + q;
      Assoc4(".", a, q, rest);
    }
  }

  lemma PatchTextFirst(p: Partial)
    ensures PatchText(p) == [] || PatchText(p)[0] == '.'
  {
  }

  lemma AfterMajorRoundTrip(p: Partial, rest: string)
    requires WfPartial(p)
    requires rest == [] || rest[0] == ' '
    ensures ParseAfterMajor(p.major, MinorText(p) + rest) == Some(Parsed(p, rest))
  {
    MinorTextSplit(p, rest);
    if p.minor.Some? {
      var afterMinor := PatchText(p) + rest;
      PatchTextFirst(p);
      XrRoundTrip(p.minor.value, afterMinor);
      AfterMinorRoundTrip(p, rest);
      AfterMajorStep(p.major, p.minor.value, PartText(p.minor.value) + afterMinor, afterMinor, Some(Parsed(p, rest)));
    }
  }

  lemma PartialRoundTrip(p: Partial, rest: string)
    requires WfPartial(p)
    requires rest == [] || rest[0] == ' '
    ensures ParsePartial(PartialText(p) + rest) == Some(Parsed(p, rest))
  {
    var afterMajor := MinorText(p) + rest;
    assert PartialText(p) + rest == PartText(p.major) + afterMajor;
    XrRoundTrip(p.major, afterMajor);
    AfterMajorRoundTrip(p, rest);
  }

  /** Every partial is printed starting with `x` or a digit. */
  lemma PartialTextFirst(p: Partial)
    ensures PartialText(p) != [] && (PartialText(p)[0] == 'x' || IsDigit(PartialText(p)[0]))
  {
    match p.major
    case Wild =>
    case N(n) => NatTextFirst(n);
  }

  /** A character no simple starts with. */
  predicate NoSimpleStart(c: char) {
    !(c == '~' || c == '^' || c == '>' || c == '<' || c == '=' || c == 'x' || c == 'X' || c == '*' || IsDigit(c))
  }

  lemma NoPartialAt(s: string)
    requires s != [] && !(s[0] == 'x' || s[0] == 'X' || s[0] == '*' || IsDigit(s[0]))
    ensures ParsePartial(s) == None
  {
  }

  lemma NoSimpleAt(s: string)
    requires s != [] && NoSimpleStart(s[0])
    ensures ParsePartial(s) == None && ParseSimple(s) == None
  {
  }

  lemma SimpleTextFirst(x: Simple)
    ensures SimpleText(x) != [] && !NoSimpleStart(SimpleText(x)[0])
    ensures x.Plain? || !(SimpleText(x)[0] == 'x' || IsDigit(SimpleText(x)[0]))
  {
    var t := PartialText(x.p);
    PartialTextFirst(x.p);
    match x
    case Prim(op, _) => ConcatFirst(ComparatorText(op), t);
    case TildeOf(_) => ConcatFirst("~", t);
    case CaretOf(_) => ConcatFirst("^", t);
    case Plain(_) =>
  }

  lemma ConcatFirst<X>(a: seq<X>, b: seq<X>)
    requires a != []
    ensures a + b != [] && (a + b)[0] == a[0]
  {
  }

  lemma ComparatorRoundTrip(op: Comparator, t: string)
    requires t != [] && (t[0] == 'x' || IsDigit(t[0]))
    ensures ParseComparator(ComparatorText(op) + t) == Some(Parsed(op, t))
  {
    var s := ComparatorText(op) + t;
    assert s[|ComparatorText(op)|..] == t;
    if |ComparatorText(op)| == 1 {
      assert s[..2] == [s[0], t[0]];
    } else {
      assert s[..2] == ComparatorText(op);
    }
  }

  lemma NoComparatorAt(s: string)
    requires s != [] && s[0] != '>' && s[0] != '<' && s[0] != '='
    ensures ParseComparator(s) == None
  {
    if |s| >= 2 { assert s[..2][0] == s[0]; }
  }

  lemma SimplePrimStep(s: string, op: Comparator, t: string, p: Partial, rest: string)
    requires s != [] && s[0] != '~' && s[0] != '^'
    requires ParseComparator(s) == Some(Parsed(op, t))
    requires t != [] && t[0] != ' '
    requires ParsePartial(t) == Some(Parsed(p, rest))
    ensures ParseSimple(s) == Some(Parsed(Prim(op, p), rest))
  {
    assert SpaceRun(t) == 0;
    assert t[0..] == t;
  }

  lemma SimplePlainStep(s: string, p: Partial, rest: string)
    requires s != [] && s[0] != '~' && s[0] != '^'
    requires ParseComparator(s) == None
    requires ParsePartial(s) == Some(Parsed(p, rest))
    ensures ParseSimple(s) == Some(Parsed(Plain(p), rest))
  {
  }

  lemma SimplePrefixStep(c: char, t: string, p: Partial, rest: string)
    requires c == '~' || c == '^'
    requires ParsePartial(t) == Some(Parsed(p, rest))
    ensures ParseSimple([c] + t) == Some(Parsed(if c == '~' then TildeOf(p) else CaretOf(p), rest))
  {
    assert ([c] + t)[1..] == t;
  }

  lemma SimpleTextSplit(x: Simple, rest: string)
    ensures x.Prim? ==> SimpleText(x) + rest == ComparatorText(x.op) + (PartialText(x.p) + rest)
    ensures x.TildeOf? ==> SimpleText(x) + rest == ['~'] + (PartialText(x.p) + rest)
    ensures x.CaretOf? ==> SimpleText(x) + rest == ['^'] + (PartialText(x.p) + rest)
    ensures x.Plain? ==> SimpleText(x) + rest == PartialText(x.p) + rest
  {
    match x
    case Prim(op, p) => Assoc3(ComparatorText(op), PartialText(p), rest);
    case TildeOf(p) => Assoc3("~", PartialText(p), rest);
    case CaretOf(p) => Assoc3("^", PartialText(p), rest);
    case Plain(p) =>
  }

  lemma ConsSplit<X>(xs: seq<X>)
    requires xs != []
    ensures [xs[0]] + xs[1..] == xs
  {
  }

  lemma Assoc3(a: string, b: string, c: string)
    ensures a + b + c == a + (b + c)
  {
  }

  lemma PrimRoundTrip(op: Comparator, p: Partial, rest: string)
    requires WfPartial(p)
    requires rest == [] || rest[0] == ' '
    ensures ParseSimple(SimpleText(Prim(op, p)) + rest) == Some(Parsed(Prim(op, p), rest))
  {
    var t := PartialText(p) + rest;
    PartialRoundTrip(p, rest);
    PartialTextFirst(p);
    SimpleTextSplit(Prim(op, p), rest);
    ComparatorRoundTrip(op, t);
    SimplePrimStep(ComparatorText(op) + t, op, t, p, rest);
  }

  lemma PlainRoundTrip(p: Partial, rest: string)
    requires WfPartial(p)
    requires rest == [] || rest[0] == ' '
    ensures ParseSimple(SimpleText(Plain(p)) + rest) == Some(Parsed(Plain(p), rest))
  {
    var t := PartialText(p) + rest;
    PartialRoundTrip(p, rest);
    PartialTextFirst(p);
    SimpleTextSplit(Plain(p), rest);
    NoComparatorAt(t);
    SimplePlainStep(t, p, rest);
  }

  lemma SimpleRoundTrip(x: Simple, rest: string)
    requires WfPartial(x.p)
    requires rest == [] || rest[0] == ' '
    ensures ParseSimple(SimpleText(x) + rest) == Some(Parsed(x, rest))
  {
    var t := PartialText(x.p) + rest;
    match x
    case Prim(op, p) => PrimRoundTrip(op, p, rest);
    case TildeOf(p) =>
      PartialRoundTrip(p, rest);
      SimpleTextSplit(x, rest);
      SimplePrefixStep('~', t, p, rest);
    case CaretOf(p) =>
      PartialRoundTrip(p, rest);
      SimpleTextSplit(x, rest);
      SimplePrefixStep('^', t, p, rest);
    case Plain(p) => PlainRoundTrip(p, rest);
  }

  /** Where a simple set may end: the input ends, or an `||` follows. */
  predicate SetEnd(rest: string) {
    rest == [] || (|rest| >= 2 && rest[0] == ' ' && rest[1] == '|')
  }

  lemma MoreSimplesStep(t: string, x: Simple, r1: string)
    requires ParseSimple(t) == Some(Parsed(x, r1))
    ensures ParseMoreSimples(" " + t) == Parsed([x] + ParseMoreSimples(r1).value, ParseMoreSimples(r1).rest)
  {
    assert (" " + t)[1..] == t;
  }

  lemma MoreSimplesCons(t: string, x: Simple, tail: string, more: seq<Simple>, rest: string)
    requires ParseSimple(t) == Some(Parsed(x, tail)) && ParseMoreSimples(tail) == Parsed(more, rest)
    ensures ParseMoreSimples(" " + t) == Parsed([x] + more, rest)
  {
    MoreSimplesStep(t, x, tail);
  }

  lemma MoreSimplesStop(rest: string)
    requires SetEnd(rest)
    ensures ParseMoreSimples(rest) == Parsed([], rest)
  {
    if rest != [] { NoSimpleAt(rest[1..]); }
  }

  lemma MoreSimplesTextSplit(xs: seq<Simple>, rest: string)
    requires xs != []
    ensures MoreSimplesText(xs) + rest == " " + (SimpleText(xs[0]) + (MoreSimplesText(xs[1..]) + rest))
  {
  }

  lemma MoreSimplesTextFirst(xs: seq<Simple>)
    ensures MoreSimplesText(xs) == [] || MoreSimplesText(xs)[0] == ' '
  {
  }

  /** The text of the trailing simples followed by `rest`, built from the right. */
  function MoreSimplesThen(xs: seq<Simple>, rest: string): string {
    if xs == [] then rest else " " + (SimpleText(xs[0]) + MoreSimplesThen(xs[1..], rest))
  }

  lemma {:induction false} MoreSimplesThenIs(xs: seq<Simple>, rest: string)
    ensures MoreSimplesThen(xs, rest) == MoreSimplesText(xs) + rest
  {
    if xs != [] {
      MoreSimplesThenIs(xs[1..], rest);
      MoreSimplesTextSplit(xs, rest);
    }
  }

  lemma MoreSimplesThenFirst(xs: seq<Simple>, rest: string)
    requires SetEnd(rest)
    ensures var t := MoreSimplesThen(xs, rest); t == [] || t[0] == ' '
  {
  }

  lemma {:induction false} MoreSimplesThenRoundTrip(xs: seq<Simple>, rest: string)
    requires forall k :: 0 <= k < |xs| ==> WfPartial(xs[k].p)
    requires SetEnd(rest)
    ensures ParseMoreSimples(MoreSimplesThen(xs, rest)) == Parsed(xs, rest)
    decreases |xs|
  {
    if xs == [] {
      MoreSimplesStop(rest);
    } else {
      MoreSimplesThenRoundTrip(xs[1..], rest);
      MoreSimplesThenStep(xs, rest);
    }
  }

  lemma MoreSimplesThenStep(xs: seq<Simple>, rest: string)
    requires xs != [] && WfPartial(xs[0].p) && SetEnd(rest)
    requires ParseMoreSimples(MoreSimplesThen(xs[1..], rest)) == Parsed(xs[1..], rest)
    ensures ParseMoreSimples(MoreSimplesThen(xs, rest)) == Parsed(xs, rest)
  {
    MoreSimplesThenFirst(xs[1..], rest);
    SimpleThenMore(xs[0], MoreSimplesThen(xs[1..], rest), xs[1..], rest);
    ConsSplit(xs);
  }

  lemma MoreSimplesRoundTrip(xs: seq<Simple>, rest: string)
    requires forall k :: 0 <= k < |xs| ==> WfPartial(xs[k].p)
    requires SetEnd(rest)
    ensures ParseMoreSimples(MoreSimplesText(xs) + rest) == Parsed(xs, rest)
  {
    MoreSimplesThenIs(xs, rest);
    MoreSimplesThenRoundTrip(xs, rest);
  }

  /** A printed simple, a space before it, and the simples parsed after it. */
  lemma SimpleThenMore(x: Simple, tail: string, more: seq<Simple>, rest: string)
    requires WfPartial(x.p) && (tail == [] || tail[0] == ' ')
    requires ParseMoreSimples(tail) == Parsed(more, rest)
    ensures ParseMoreSimples(" " + (SimpleText(x) + tail)) == Parsed([x] + more, rest)
  {
    SimpleRoundTrip(x, tail);
    MoreSimplesCons(SimpleText(x) + tail, x, tail, more, rest);
  }

  /** No hyphen range starts here: the input does not open with a partial followed by " - ". */
  predicate NoHyphenAhead(s: string) {
    var head := ParsePartial(s);
    head.None? || |head.value.rest| < 3 || head.value.rest[..3] != " - "
  }

  lemma HyphenStep(s: string, a: Partial, tail: string, b: Partial, rest: string)
    requires ParsePartial(s) == Some(Parsed(a, " - " + tail))
    requires ParsePartial(tail) == Some(Parsed(b, rest))
    ensures ParseRange(s) == Some(Parsed(Hyphen(a, b), rest))
  {
    assert (" - " + tail)[..3] == " - " && (" - " + tail)[3..] == tail;
  }

  lemma SimpleSetStep(s: string, x: Simple, r1: string)
    requires NoHyphenAhead(s)
    requires ParseSimple(s) == Some(Parsed(x, r1))
    ensures ParseRange(s) == Some(Parsed(SimpleSet([x] + ParseMoreSimples(r1).value), ParseMoreSimples(r1).rest))
  {
  }

  lemma RangeNodeTextFirst(x: RangeNode)
    requires WfRangeNode(x)
    ensures RangeNodeText(x) != [] && !NoSimpleStart(RangeNodeText(x)[0])
  {
    match x
    case Hyphen(a, b) => PartialTextFirst(a);
    case SimpleSet(xs) => SimpleTextFirst(xs[0]);
  }

  /** After the first simple of a set, no " - " can follow. */
  lemma SetTailNotHyphen(xs: seq<Simple>, rest: string)
    requires SetEnd(rest)
    ensures var t := MoreSimplesText(xs) + rest; |t| < 3 || t[..3] != " - "
  {
    var t := MoreSimplesText(xs) + rest;
    if xs != [] {
      var u := SimpleText(xs[0]) + (MoreSimplesText(xs[1..]) + rest);
      MoreSimplesTextSplit(xs, rest);
      SimpleTextFirst(xs[0]);
      assert t == " " + u && u[0] == SimpleText(xs[0])[0];
      if |t| >= 3 { assert t[..3][1] == u[0]; }
    } else {
      assert t == rest;
      if |t| >= 3 { assert t[..3][1] == '|'; }
    }
  }

  lemma HeadNotHyphen(x: Simple, tail: string)
    requires WfPartial(x.p)
    requires tail == [] || tail[0] == ' '
    requires |tail| < 3 || tail[..3] != " - "
    ensures NoHyphenAhead(SimpleText(x) + tail)
  {
    var s := SimpleText(x) + tail;
    if x.Plain? {
      PlainPartialRest(x.p, tail);
    } else {
      OperatorNoPartial(x, tail);
    }
    NoHyphenAheadOf(s, tail);
  }

  lemma PlainPartialRest(p: Partial, tail: string)
    requires WfPartial(p)
    requires tail == [] || tail[0] == ' '
    ensures ParsePartial(SimpleText(Plain(p)) + tail) == Some(Parsed(p, tail))
  {
    PartialRoundTrip(p, tail);
  }

  lemma OperatorNoPartial(x: Simple, tail: string)
    requires !x.Plain?
    ensures ParsePartial(SimpleText(x) + tail).None?
  {
    SimpleTextFirst(x);
    ConcatFirst(SimpleText(x), tail);
    NoPartialAt(SimpleText(x) + tail);
  }

  lemma NoHyphenAheadOf(s: string, tail: string)
    requires ParsePartial(s).None? || ParsePartial(s).value.rest == tail
    requires |tail| < 3 || tail[..3] != " - "
    ensures NoHyphenAhead(s)
  {
  }

  lemma HyphenRoundTrip(a: Partial, b: Partial, rest: string)
    requires WfPartial(a) && WfPartial(b)
    requires SetEnd(rest)
    ensures ParseRange(RangeNodeText(Hyphen(a, b)) + rest) == Some(Parsed(Hyphen(a, b), rest))
  {
    var tail := PartialText(b) + rest;
    Assoc4(PartialText(a), " - ", PartialText(b), rest);
    PartialRoundTrip(a, " - " + tail);
    PartialRoundTrip(b, rest);
    HyphenStep(PartialText(a) + (" - " + tail), a, tail, b, rest);
  }

  lemma SimpleSetRoundTrip(xs: seq<Simple>, rest: string)
    requires WfRangeNode(SimpleSet(xs))
    requires SetEnd(rest)
    ensures ParseRange(RangeNodeText(SimpleSet(xs)) + rest) == Some(Parsed(SimpleSet(xs), rest))
  {
    var tail := MoreSimplesText(xs[1..]) + rest;
    var s := SimpleText(xs[0]) + tail;
    assert RangeNodeText(SimpleSet(xs)) + rest == s by {
      Assoc3(SimpleText(xs[0]), MoreSimplesText(xs[1..]), rest);
    }
    assert NoHyphenAhead(s) && ParseSimple(s) == Some(Parsed(xs[0], tail)) by {
      MoreSimplesTextFirst(xs[1..]);
      SetTailNotHyphen(xs[1..], rest);
      HeadNotHyphen(xs[0], tail);
      SimpleRoundTrip(xs[0], tail);
    }
    assert ParseMoreSimples(tail) == Parsed(xs[1..], rest) by {
      MoreSimplesRoundTrip(xs[1..], rest);
    }
    SimpleSetStep(s, xs[0], tail);
    ConsSplit(xs);
  }

  lemma RangeNodeRoundTrip(x: RangeNode, rest: string)
    requires WfRangeNode(x)
    requires SetEnd(rest)
    ensures ParseRange(RangeNodeText(x) + rest) == Some(Parsed(x, rest))
  {
    match x
    case Hyphen(a, b) => HyphenRoundTrip(a, b, rest);
    case SimpleSet(xs) => SimpleSetRoundTrip(xs, rest);
  }

  lemma OrStep(body: string)
    requires body != [] && body[0] != ' '
    ensures ParseOr(" || " + body) == Some(body)
  {
    var s := " || " + body;
    assert SpaceRun(s) == 1 by { assert s[1] == '|'; }
    var t := s[1..];
    assert t[..2] == "||";
    assert t[2..] == " " + body;
    assert SpaceRun(t[2..]) == 1;
    assert t[2..][1..] == body;
  }

  lemma MoreRangesStep(body: string, x: RangeNode, r2: string, xs: seq<RangeNode>)
    requires body != [] && body[0] != ' '
    requires ParseRange(body) == Some(Parsed(x, r2))
    requires ParseMoreRanges(r2) == Some(Parsed(xs, []))
    ensures ParseMoreRanges(" || " + body) == Some(Parsed([x] + xs, []))
  {
    OrStep(body);
  }

  lemma MoreRangesTextFirst(xs: seq<RangeNode>)
    ensures SetEnd(MoreRangesText(xs))
  {
  }

  lemma {:induction false} MoreRangesRoundTrip(xs: seq<RangeNode>)
    requires forall k :: 0 <= k < |xs| ==> WfRangeNode(xs[k])
    ensures ParseMoreRanges(MoreRangesText(xs)) == Some(Parsed(xs, []))
    decreases |xs|
  {
    if xs == [] {
      assert ParseOr([]) == None;
    } else {
      var tail := MoreRangesText(xs[1..]);
      var body := RangeNodeText(xs[0]) + tail;
      assert MoreRangesText(xs) == " || " + body;
      RangeNodeTextFirst(xs[0]);
      MoreRangesTextFirst(xs[1..]);
      RangeNodeRoundTrip(xs[0], tail);
      MoreRangesRoundTrip(xs[1..]);
      MoreRangesStep(body, xs[0], tail, xs[1..]);
      ConsSplit(xs);
    }
  }

  /** Printing a well-formed range set and reading it back gives the same tree. */
  lemma RangeSetRoundTrip(alts: seq<RangeNode>)
    requires WfRangeSet(alts)
    ensures ParseRangeSet(RangeSetText(alts)) == Some(alts)
  {
    var tail := MoreRangesText(alts[1..]);
    MoreRangesTextFirst(alts[1..]);
    RangeNodeRoundTrip(alts[0], tail);
    MoreRangesRoundTrip(alts[1..]);
    ConsSplit(alts);
  }

  // ---------------------------------------------------------------------------
  // Every tree the parser reads is well formed, so reading, printing and
  // reading again gives the same tree.

  predicate AllValid(ts: seq<string>) { forall k :: 0 <= k < |ts| ==> ValidPiece(ts[k]) }

  predicate AllWfSimples(xs: seq<Simple>) { forall k :: 0 <= k < |xs| ==> WfPartial(xs[k].p) }

  predicate AllWfNodes(xs: seq<RangeNode>) { forall k :: 0 <= k < |xs| ==> WfRangeNode(xs[k]) }

  lemma {:induction false} ParsePartsValid(s: string)
    requires ParseParts(s).Some?
    ensures AllValid(ParseParts(s).value.value)
    decreases |s|
  {
    var n := PartRun(s);
    var piece := s[..n];
    assert ValidPiece(piece) by {
      forall k | 0 <= k < |piece| ensures IsPartChar(piece[k]) { assert piece[k] == s[k]; }
    }
    if n < |s| && s[n] == '.' {
      ParsePartsValid(s[n + 1..]);
      var more := ParseParts(s[n + 1..]).value.value;
      assert ParseParts(s).value.value == [piece] + more;
    } else {
      assert ParseParts(s).value.value == [piece];
    }
  }

  lemma ParseQualifierWf(s: string)
    requires ParseQualifier(s).Some?
    ensures var q := ParseQualifier(s).value.value;
      AllValid(q.pre) && AllValid(q.build)
  {
    if s != [] && s[0] == '-' {
      ParsePartsValid(s[1..]);
    }
    var r1 := ParsePre(s).value.rest;
    if r1 != [] && r1[0] == '+' {
      ParsePartsValid(r1[1..]);
    }
  }

  /** A partial read from any text has its minor before its patch and a qualifier only after a patch. */
  lemma ParsePartialWf(s: string)
    requires ParsePartial(s).Some?
    ensures WfPartial(ParsePartial(s).value.value)
  {
    var r1 := ParseXr(s).value.rest;
    if r1 != [] && r1[0] == '.' {
      var r2 := ParseXr(r1[1..]).value.rest;
      if r2 != [] && r2[0] == '.' {
        var r3 := ParseXr(r2[1..]).value.rest;
        ParseQualifierWf(r3);
      }
    }
  }

  lemma ParseSimpleWf(s: string)
    requires ParseSimple(s).Some?
    ensures WfPartial(ParseSimple(s).value.value.p)
  {
    if s != [] && (s[0] == '~' || s[0] == '^') {
      ParsePartialWf(s[1..]);
    } else if ParseComparator(s).Some? {
      var r1 := ParseComparator(s).value.rest;
      ParsePartialWf(r1[SpaceRun(r1)..]);
    } else {
      ParsePartialWf(s);
    }
  }

  lemma {:induction false} ParseMoreSimplesWf(s: string)
    ensures AllWfSimples(ParseMoreSimples(s).value)
    decreases |s|
  {
    if s != [] && s[0] == ' ' && ParseSimple(s[1..]).Some? {
      var x := ParseSimple(s[1..]).value;
      ParseSimpleWf(s[1..]);
      ParseMoreSimplesWf(x.rest);
      var xs := [x.value] + ParseMoreSimples(x.rest).value;
      assert ParseMoreSimples(s).value == xs;
      forall k | 0 <= k < |xs| ensures WfPartial(xs[k].p) {
        if k > 0 { assert xs[k] == ParseMoreSimples(x.rest).value[k - 1]; }
      }
    }
  }

  lemma ParseRangeWf(s: string)
    requires ParseRange(s).Some?
    ensures WfRangeNode(ParseRange(s).value.value)
  {
    var head := ParsePartial(s);
    if head.Some? && |head.value.rest| >= 3 && head.value.rest[..3] == " - " {
      ParsePartialWf(s);
      ParsePartialWf(head.value.rest[3..]);
    } else {
      var x := ParseSimple(s).value;
      ParseSimpleWf(s);
      ParseMoreSimplesWf(x.rest);
      var xs := [x.value] + ParseMoreSimples(x.rest).value;
      assert ParseRange(s).value.value == SimpleSet(xs);
      forall k | 0 <= k < |xs| ensures WfPartial(xs[k].p) {
        if k > 0 { assert xs[k] == ParseMoreSimples(x.rest).value[k - 1]; }
      }
    }
  }

  lemma {:induction false} ParseMoreRangesWf(s: string)
    requires ParseMoreRanges(s).Some?
    ensures AllWfNodes(ParseMoreRanges(s).value.value)
    decreases |s|
  {
    if ParseOr(s).Some? {
      var r1 := ParseOr(s).value;
      var x := ParseRange(r1).value;
      ParseRangeWf(r1);
      ParseMoreRangesWf(x.rest);
      var more := ParseMoreRanges(x.rest).value.value;
      var xs := [x.value] + more;
      assert ParseMoreRanges(s).value.value == xs;
      forall k | 0 <= k < |xs| ensures WfRangeNode(xs[k]) {
        if k > 0 { assert xs[k] == more[k - 1]; }
      }
    }
  }

  /** Every range set the parser accepts is well formed. */
  lemma ParseRangeSetWf(s: string)
    requires ParseRangeSet(s).Some?
    ensures WfRangeSet(ParseRangeSet(s).value)
  {
    var x := ParseRange(s).value;
    ParseRangeWf(s);
    ParseMoreRangesWf(x.rest);
    var more := ParseMoreRanges(x.rest).value.value;
    var xs := [x.value] + more;
    assert ParseRangeSet(s).value == xs;
    forall k | 0 <= k < |xs| ensures WfRangeNode(xs[k]) {
      if k > 0 { assert xs[k] == more[k - 1]; }
    }
  }

  /**
   * Reading a text, printing the tree and reading the print gives the same
   * tree: the printed form is a canonical spelling of every accepted text.
   */
  lemma ParsePrintParse(s: string)
    requires ParseRangeSet(s).Some?
    ensures ParseRangeSet(RangeSetText(ParseRangeSet(s).value)) == ParseRangeSet(s)
  {
    ParseRangeSetWf(s);
    RangeSetRoundTrip(ParseRangeSet(s).value);
  }
}

=== FILE: strings.dfy ===
/** Character and string helpers: ASCII case folding, decimal numbers, joining. */
module Strings {

  predicate IsDigit(c: char) { '0' <= c <= '9' }

  predicate IsLowerAlnum(c: char) { ('a' <= c <= 'z') || IsDigit(c) }

  predicate IsAsciiAlnum(c: char) { ('a' <= c <= 'z') || ('A' <= c <= 'Z') || IsDigit(c) }

  predicate AllDigits(s: string) { forall k :: 0 <= k < |s| ==> IsDigit(s[k]) }

  /** str.lower() restricted to ASCII: only 'A'..'Z' change. */
  function LowerChar(c: char): (r: char)
    ensures 'A' <= c <= 'Z' ==> 'a' <= r <= 'z'
    ensures !('A' <= c <= 'Z') ==> r == c
  {
    if 'A' <= c <= 'Z' then (c as int + 32) as char else c
  }

  function Lower(s: string): (r: string)
    ensures |r| == |s|
    ensures forall k :: 0 <= k < |s| ==> r[k] == LowerChar(s[k])
  {
    if s == [] then [] else [LowerChar(s[0])] + Lower(s[1..])
  }

  function DigitChar(d: nat): char
    requires d < 10
  {
    ('0' as int + d) as char
  }

  /** Decimal rendering of a natural number, without leading zeros. */
  function NatToString(n: nat): (r: string)
    ensures |r| > 0 && AllDigits(r)
    ensures |r| > 1 ==> r[0] != '0'
    decreases n
  {
    if n < 10 then [DigitChar(n)] else NatToString(n / 10) + [DigitChar(n % 10)]
  }

  /** int(s) for a string of decimal digits. */
  function ParseNat(s: string): nat
    requires AllDigits(s)
    decreases |s|
  {
    if s == [] then 0 else ParseNat(s[..|s| - 1]) * 10 + (s[|s| - 1] as int - '0' as int)
  }

  lemma {:induction false} ParseNatToString(n: nat)
    ensures ParseNat(NatToString(n)) == n
    decreases n
  {
    if n >= 10 {
      var s := NatToString(n);
      assert s[..|s| - 1] == NatToString(n / 10);
      ParseNatToString(n / 10);
    }
  }

  /** Decimal rendering is injective: two different numbers never print alike. */
  lemma NatToStringInjective(a: nat, b: nat)
    requires NatToString(a) == NatToString(b)
    ensures a == b
  {
    ParseNatToString(a);
    ParseNatToString(b);
  }

  /** sep.join(parts) */
  function Join(parts: seq<string>, sep: string): (r: string)
    ensures parts == [] ==> r == []
    ensures |parts| == 1 ==> r == parts[0]
  {
    if parts == [] then []
    else if |parts| == 1 then parts[0]
    else parts[0] + sep + Join(parts[1..], sep)
  }

  lemma JoinSnoc(parts: seq<string>, last: string, sep: string)
    requires parts != []
    ensures Join(parts + [last], sep) == Join(parts, sep) + sep + last
  {
    if |parts| == 1 {
      assert parts + [last] == [parts[0], last];
    } else {
      assert (parts + [last])[1..] == parts[1..] + [last];
      JoinSnoc(parts[1..], last, sep);
    }
  }

  /** s.replace(a, b) for single characters. */
  function ReplaceChar(s: string, a: char, b: char): (r: string)
    ensures |r| == |s|
    ensures forall k :: 0 <= k < |s| ==> r[k] == (if s[k] == a then b else s[k])
  {
    if s == [] then [] else [if s[0] == a then b else s[0]] + ReplaceChar(s[1..], a, b)
  }

  /** s.split(c) for a single character: the pieces between occurrences of `c`. */
  function Split(s: string, c: char): (r: seq<string>)
    ensures |r| >= 1
    decreases |s|
  {
    if s == [] then [[]]
    else if s[0] == c then [[]] + Split(s[1..], c)
    else var rest := Split(s[1..], c); [[s[0]] + rest[0]] + rest[1..]
  }

  lemma {:induction false} SplitAfterPiece(a: string, c: char, t: string)
    requires c !in a
    ensures Split(a + [c] + t, c) == [a] + Split(t, c)
    decreases |a|
  {
    if a == [] {
      assert (a + [c] + t)[1..] == t;
    } else {
      assert (a + [c] + t)[1..] == a[1..] + [c] + t;
      SplitAfterPiece(a[1..], c, t);
      assert [a[0]] + a[1..] == a;
    }
  }

  lemma {:induction false} SplitPiece(a: string, c: char)
    requires c !in a
    ensures Split(a, c) == [a]
    decreases |a|
  {
    if a != [] {
      SplitPiece(a[1..], c);
      assert [a[0]] + a[1..] == a;
    }
  }

  /** Splitting a join at its separator gives back the pieces, when no piece holds the separator. */
  lemma {:induction false} SplitJoin(parts: seq<string>, c: char)
    requires parts != []
    requires forall k :: 0 <= k < |parts| ==> c !in parts[k]
    ensures Split(Join(parts, [c]), c) == parts
    decreases |parts|
  {
    if |parts| == 1 {
      SplitPiece(parts[0], c);
    } else {
      SplitJoin(parts[1..], c);
      SplitAfterPiece(parts[0], c, Join(parts[1..], [c]));
      assert [parts[0]] + parts[1..] == parts;
    }
  }

  /** No piece of a split holds the separator. */
  lemma {:induction false} SplitNoSep(s: string, c: char)
    ensures forall k :: 0 <= k < |Split(s, c)| ==> c !in Split(s, c)[k]
    decreases |s|
  {
    if s != [] {
      SplitNoSep(s[1..], c);
    }
  }

  /** Splitting at a separator splits the two sides independently. */
  lemma {:induction false} SplitConcat(a: string, c: char, t: string)
    ensures Split(a + [c] + t, c) == Split(a, c) + Split(t, c)
    decreases |a|
  {
    if a == [] {
      assert (a + [c] + t)[1..] == t;
    } else {
      assert (a + [c] + t)[0] == a[0];
      assert (a + [c] + t)[1..] == a[1..] + [c] + t;
      SplitConcat(a[1..], c, t);
    }
  }
}

=== FILE: translator.dfy ===
/**
 * The string logic of the wheel translator: metadata sanitising, the
 * de-duplication of entry-point keys, the requirement map written into
 * METADATA, the entry points guessed from `bin`, and the RECORD lines.
 * Downloading, extracting, hashing and zipping stay outside the model.
 */
module Translator {
  import opened Wrappers
  import opened Strings
  import opened Slugs
  import opened Dicts
  import PyConvert
  import Base64Url

  // ---------------------------------------------------------------------------
  // sanitize

  /** The characters `sanitize` keeps: `\x20` to `\x7e`. */
  predicate Printable(c: char) { ' ' <= c <= '~' }

  predicate AllPrintable(s: string) { forall k :: 0 <= k < |s| ==> Printable(s[k]) }

  function SkipUnprintable(s: string): (r: string)
    ensures |r| <= |s| && r == s[|s| - |r|..]
    ensures r != [] ==> Printable(r[0])
    ensures forall k :: 0 <= k < |s| - |r| ==> !Printable(s[k])
  {
    if s == [] || Printable(s[0]) then s
    else
      var r := SkipUnprintable(s[1..]);
      assert s[1..][|s| - 1 - |r|..] == s[|s| - |r|..];
      assert forall k :: 1 <= k < |s| - |r| ==> s[k] == s[1..][k - 1];
      r
  }

  /** `sanitize`: every maximal run of unprintable characters becomes one space. */
  function Sanitize(s: string): (r: string)
    ensures AllPrintable(r)
    ensures |r| <= |s|
    decreases |s|
  {
    if s == [] then []
    else if Printable(s[0]) then [s[0]] + Sanitize(s[1..])
    else " " + Sanitize(SkipUnprintable(s[1..]))
  }

  /** Printable text passes through unchanged, so sanitising twice is sanitising once. */
  lemma {:induction false} SanitizeFixpoint(s: string)
    requires AllPrintable(s)
    ensures Sanitize(s) == s
  {
    if s != [] {
      SanitizeFixpoint(s[1..]);
    }
  }

  lemma SanitizeIdempotent(s: string)
    ensures Sanitize(Sanitize(s)) == Sanitize(s)
  {
    SanitizeFixpoint(Sanitize(s));
  }

  /**
   * A run of unprintable characters between printable text becomes a
   * single space, and the text on either side is kept.
   */
  lemma SanitizeRun(before: string, run: string, after: string)
    requires AllPrintable(before)
    requires run != [] && forall k :: 0 <= k < |run| ==> !Printable(run[k])
    requires after == [] || Printable(after[0])
    ensures Sanitize(before + run + after) == before + " " + Sanitize(after)
  {
    SanitizePrefix(before, run + after);
    SanitizeRunHead(run, after);
    Assoc(before, run, after);
    Assoc(before, " ", Sanitize(after));
  }

  lemma Assoc(a: string, b: string, c: string)
    ensures a + b + c == a + (b + c)
  {
  }

  lemma SanitizeRunHead(run: string, after: string)
    requires run != [] && forall k :: 0 <= k < |run| ==> !Printable(run[k])
    requires after == [] || Printable(after[0])
    ensures Sanitize(run + after) == " " + Sanitize(after)
  {
    assert (run + after)[0] == run[0];
    assert (run + after)[1..] == run[1..] + after;
    SkipAll(run[1..], after);
  }

  lemma {:induction false} SkipAll(run: string, after: string)
    requires forall k :: 0 <= k < |run| ==> !Printable(run[k])
    requires after == [] || Printable(after[0])
    ensures SkipUnprintable(run + after) == after
  {
    if run == [] {
      assert run + after == after;
    } else {
      assert (run + after)[1..] == run[1..] + after;
      SkipAll(run[1..], after);
    }
  }

  lemma {:induction false} SanitizePrefix(before: string, rest: string)
    requires AllPrintable(before)
    ensures Sanitize(before + rest) == before + Sanitize(rest)
  {
    if before == [] {
      assert before + rest == rest;
    } else {
      assert (before + rest)[1..] == before[1..] + rest;
      SanitizePrefix(before[1..], rest);
    }
  }

  // ---------------------------------------------------------------------------
  // dedup_python_key and dedup_map

  /** `dedup_python_key`: the `_` slug of the key, with `_<i>` appended for `i > 0`. */
  function DedupPythonKey(k: string, i: nat): (r: string)
  {
    if i == 0 then Slug(k, '_') else Slug(k, '_') + "_" + NatToString(i)
  }

  /** Keys are made of lower-case letters, digits and `_`; the plain key is a `_` slug. */
  lemma DedupPythonKeyShape(k: string, i: nat)
    ensures var r := DedupPythonKey(k, i);
      && (forall c :: 0 <= c < |r| ==> IsLowerAlnum(r[c]) || r[c] == '_')
      && (i == 0 ==> IsSlug(r, '_'))
      && (i > 0 ==> IsSlug(r[..|r| - |NatToString(i)| - 1], '_') && AllDigits(r[|r| - |NatToString(i)|..]))
  {
    if i > 0 {
      SuffixedKeyShape(Slug(k, '_'), NatToString(i));
    }
  }

  lemma SuffixedKeyShape(base: string, digits: string)
    requires IsSlug(base, '_') && AllDigits(digits)
    ensures var r := base + "_" + digits;
      && (forall c :: 0 <= c < |r| ==> IsLowerAlnum(r[c]) || r[c] == '_')
      && r[..|r| - |digits| - 1] == base && r[|r| - |digits|..] == digits
  {
    var r := base + "_" + digits;
    forall c | 0 <= c < |r| ensures IsLowerAlnum(r[c]) || r[c] == '_' {
      if c < |base| {
        assert r[c] == base[c];
      } else if |base| < c {
        assert r[c] == digits[c - |base| - 1];
      }
    }
    assert r[..|r| - |digits| - 1] == base;
    assert r[|r| - |digits|..] == digits;
  }

  /** Different positive indices give different keys, whatever the key. */
  lemma KeyInjective(k: string, i: nat, j: nat)
    requires i >= 1 && j >= 1 && DedupPythonKey(k, i) == DedupPythonKey(k, j)
    ensures i == j
  {
    var base := Slug(k, '_') + "_";
    var a, b := NatToString(i), NatToString(j);
    assert DedupPythonKey(k, i) == base + a;
    assert DedupPythonKey(k, j) == base + b;
    DropCommonPrefix(base, a, b);
    NatToStringInjective(i, j);
  }

  lemma DropCommonPrefix(p: string, a: string, b: string)
    requires p + a == p + b
    ensures a == b
  {
    assert (p + a)[|p|..] == a;
    assert (p + b)[|p|..] == b;
  }

  /** When the first `n` numbered keys are all taken, at least `n` keys are taken. */
  lemma {:induction false} TakenBound(seen: set<string>, k: string, n: nat)
    requires forall j :: 1 <= j <= n ==> DedupPythonKey(k, j) in seen
    ensures n <= |seen|
    decreases n
  {
    if n > 0 {
      var rest := seen - {DedupPythonKey(k, n)};
      forall j | 1 <= j <= n - 1
        ensures DedupPythonKey(k, j) in rest
      {
        if DedupPythonKey(k, j) == DedupPythonKey(k, n) {
          KeyInjective(k, j, n);
        }
      }
      TakenBound(rest, k, n - 1);
    }
  }

  /** The smallest index from `i` on whose numbered key is still free. */
  function FreeIndex(seen: set<string>, k: string, i: nat): (r: nat)
    requires i >= 1
    requires forall j :: 1 <= j < i ==> DedupPythonKey(k, j) in seen
    ensures r >= i && DedupPythonKey(k, r) !in seen
    ensures forall j :: 1 <= j < r ==> DedupPythonKey(k, j) in seen
    decreases |seen| + 1 - i
  {
    if DedupPythonKey(k, i) !in seen then i
    else
      TakenBound(seen, k, i);
      FreeIndex(seen, k, i + 1)
  }

  /**
   * The key `dedup_map` picks: the plain transform when it is free, else
   * the numbered transform with the smallest free index.
   */
  function PickKey(seen: set<string>, k: string): (r: string)
    ensures r !in seen
  {
    if DedupPythonKey(k, 0) !in seen then DedupPythonKey(k, 0)
    else DedupPythonKey(k, FreeIndex(seen, k, 1))
  }

  /**
   * The key `dedup_map` picks is the plain transform when that is free,
   * else the numbered transform with the smallest index whose key is free.
   */
  lemma PickKeyRule(seen: set<string>, k: string)
    ensures DedupPythonKey(k, 0) !in seen ==> PickKey(seen, k) == DedupPythonKey(k, 0)
    ensures DedupPythonKey(k, 0) in seen ==>
      exists i :: i >= 1 && PickKey(seen, k) == DedupPythonKey(k, i) && DedupPythonKey(k, i) !in seen
        && forall j :: 1 <= j < i ==> DedupPythonKey(k, j) in seen
  {
    if DedupPythonKey(k, 0) in seen {
      var i := FreeIndex(seen, k, 1);
      assert PickKey(seen, k) == DedupPythonKey(k, i);
    }
  }

  datatype DedupEntry<T> = DedupEntry(original: string, transformed: string, value: T)

  function Transformed<T>(es: seq<DedupEntry<T>>): set<string>
  {
    if es == [] then {} else {es[0].transformed} + Transformed(es[1..])
  }

  lemma {:induction false} TransformedSnoc<T>(es: seq<DedupEntry<T>>, e: DedupEntry<T>)
    ensures Transformed(es + [e]) == Transformed(es) + {e.transformed}
  {
    if es != [] {
      assert (es + [e])[1..] == es[1..] + [e];
      TransformedSnoc(es[1..], e);
    } else {
      assert es + [e] == [e];
    }
  }

  predicate DistinctTransformed<T>(es: seq<DedupEntry<T>>) {
    forall i, j :: 0 <= i < j < |es| ==> es[i].transformed != es[j].transformed
  }

  /** A key picker never returns a key already taken. */
  ghost predicate PicksFresh(pick: (set<string>, string) -> string) {
    forall seen, k :: pick(seen, k) !in seen
  }

  /** Each key of `data` in turn picks its key against the keys picked before it. */
  function DedupWith<T>(pick: (set<string>, string) -> string, seen: set<string>, data: seq<(string, T)>): (r: seq<DedupEntry<T>>)
    ensures |r| == |data|
    decreases |data|
  {
    if data == [] then []
    else
      var t := pick(seen, data[0].0);
      [DedupEntry(data[0].0, t, data[0].1)] + DedupWith(pick, seen + {t}, data[1..])
  }

  /** Reference definition of `dedup_map` with `dedup_python_key` as its transform. */
  function DedupFrom<T>(seen: set<string>, data: seq<(string, T)>): (r: seq<DedupEntry<T>>)
    ensures |r| == |data|
  {
    DedupWith(PickKey, seen, data)
  }

  lemma PickKeyFresh()
    ensures PicksFresh(PickKey)
  {
    forall seen, k ensures PickKey(seen, k) !in seen {
      var r := PickKey(seen, k);
    }
  }

  /** A single key picks against the keys taken before it. */
  lemma DedupWithSingle<T>(pick: (set<string>, string) -> string, seen: set<string>, k: string, v: T)
    ensures DedupWith(pick, seen, [(k, v)]) == [DedupEntry(k, pick(seen, k), v)]
  {
    assert [(k, v)][1..] == [];
  }

  /** With nothing taken, the key picked is the plain transform. */
  lemma PickKeyEmpty(k: string)
    ensures PickKey({}, k) == DedupPythonKey(k, 0)
  {
  }

  /** Every entry keeps its original key and its value, in input order. */
  lemma {:induction false} DedupWithKeeps<T>(pick: (set<string>, string) -> string, seen: set<string>, data: seq<(string, T)>)
    ensures var r := DedupWith(pick, seen, data);
      forall i :: 0 <= i < |data| ==> r[i].original == data[i].0 && r[i].value == data[i].1
    decreases |data|
  {
    if data != [] {
      var t := pick(seen, data[0].0);
      DedupWithKeeps(pick, seen + {t}, data[1..]);
    }
  }

  /** With a fresh picker no picked key was taken before, and no two entries pick the same key. */
  lemma {:induction false} DedupWithFresh<T>(pick: (set<string>, string) -> string, seen: set<string>, data: seq<(string, T)>)
    requires PicksFresh(pick)
    ensures var r := DedupWith(pick, seen, data);
      && (forall i :: 0 <= i < |r| ==> r[i].transformed !in seen)
      && DistinctTransformed(r)
    decreases |data|
  {
    if data != [] {
      var t := pick(seen, data[0].0);
      var tail := DedupWith(pick, seen + {t}, data[1..]);
      DedupWithFresh(pick, seen + {t}, data[1..]);
      var r := DedupWith(pick, seen, data);
      assert r == [DedupEntry(data[0].0, t, data[0].1)] + tail;
      assert forall i :: 1 <= i < |r| ==> r[i] == tail[i - 1];
    }
  }

  /** Each entry picks its key against the keys of the entries before it. */
  lemma {:induction false} DedupWithPicks<T>(pick: (set<string>, string) -> string, seen: set<string>, data: seq<(string, T)>, i: nat)
    requires i < |data|
    ensures var r := DedupWith(pick, seen, data);
      r[i].transformed == pick(seen + Transformed(r[..i]), data[i].0)
    decreases i
  {
    var r := DedupWith(pick, seen, data);
    if i > 0 {
      var t := pick(seen, data[0].0);
      var tail := DedupWith(pick, seen + {t}, data[1..]);
      assert r == [DedupEntry(data[0].0, t, data[0].1)] + tail;
      DedupWithPicks(pick, seen + {t}, data[1..], i - 1);
      assert r[i] == tail[i - 1] && data[1..][i - 1] == data[i];
      assert r[..i][0] == r[0] && r[..i][1..] == tail[..i - 1];
      assert Transformed(r[..i]) == {t} + Transformed(tail[..i - 1]);
      assert seen + Transformed(r[..i]) == (seen + {t}) + Transformed(tail[..i - 1]);
    } else {
      assert r[..0] == [] && Transformed(r[..0]) == {};
      assert seen + Transformed(r[..0]) == seen;
    }
  }

  /** One step of the reference definition, as the loop of `dedup_map` takes it. */
  lemma DedupFromStep<T>(seen: set<string>, data: seq<(string, T)>, n: nat)
    requires n < |data|
    ensures var t := PickKey(seen, data[n].0);
      DedupFrom(seen, data[n..]) == [DedupEntry(data[n].0, t, data[n].1)] + DedupFrom(seen + {t}, data[n + 1..])
  {
    assert data[n..] != [];
    assert data[n..][0] == data[n];
    assert data[n..][1..] == data[n + 1..];
  }

  /**
   * `dedup_map` with `dedup_python_key` as its transform, following the
   * source's two loops: the plain key when free, otherwise numbered keys
   * tried from 1 up until one is free.
   */
  method DedupMap<T>(data: seq<(string, T)>) returns (result: seq<DedupEntry<T>>)
    ensures |result| == |data|
    ensures forall i :: 0 <= i < |data| ==> result[i].original == data[i].0 && result[i].value == data[i].1
    ensures DistinctTransformed(result)
    ensures result == DedupFrom({}, data)
  {
    var seen: set<string> := {};
    result := [];
    var n := 0;
    while n < |data|
      invariant n <= |data|
      invariant seen == Transformed(result)
      invariant result + DedupFrom(seen, data[n..]) == DedupFrom({}, data)
    {
      var key := data[n].0;
      var newKey := PickFree(seen, key);
      var entry := DedupEntry(key, newKey, data[n].1);
      DedupMapStep(result, seen, data, n);
      TransformedSnoc(result, entry);
      result := result + [entry];
      seen := seen + {newKey};
      n := n + 1;
    }
    assert data[n..] == [];
    DedupFromFacts(data);
  }

  /** The loop of `dedup_map` moves one entry from the pending part to the result. */
  lemma DedupMapStep<T>(result: seq<DedupEntry<T>>, seen: set<string>, data: seq<(string, T)>, n: nat)
    requires n < |data|
    ensures var t := PickKey(seen, data[n].0);
      result + DedupFrom(seen, data[n..]) == (result + [DedupEntry(data[n].0, t, data[n].1)]) + DedupFrom(seen + {t}, data[n + 1..])
  {
    var t := PickKey(seen, data[n].0);
    DedupFromStep(seen, data, n);
    ConcatAssoc(result, [DedupEntry(data[n].0, t, data[n].1)], DedupFrom(seen + {t}, data[n + 1..]));
  }

  lemma ConcatAssoc<X>(a: seq<X>, b: seq<X>, c: seq<X>)
    ensures a + (b + c) == (a + b) + c
  {
  }

  /** The reference result keeps every key and value and picks distinct keys. */
  lemma DedupFromFacts<T>(data: seq<(string, T)>)
    ensures var r := DedupFrom({}, data);
      && (forall i :: 0 <= i < |data| ==> r[i].original == data[i].0 && r[i].value == data[i].1)
      && DistinctTransformed(r)
  {
    DedupWithKeeps(PickKey, {}, data);
    PickKeyFresh();
    DedupWithFresh(PickKey, {}, data);
  }

  /** The key search of `dedup_map` for one input key. */
  method PickFree(seen: set<string>, key: string) returns (newKey: string)
    ensures newKey == PickKey(seen, key)
  {
    newKey := DedupPythonKey(key, 0);
    if newKey in seen {
      var i := 1;
      while newKey in seen
        invariant i >= 1
        invariant forall j :: 1 <= j < i - 1 ==> DedupPythonKey(key, j) in seen
        invariant i == 1 ==> newKey == DedupPythonKey(key, 0)
        invariant i >= 2 ==> newKey == DedupPythonKey(key, i - 1)
        decreases |seen| + 1 - i
      {
        TakenBound(seen, key, i - 1);
        newKey := DedupPythonKey(key, i);
        i := i + 1;
      }
      FreeIndexIs(seen, key, 1, i - 1);
    }
  }

  /** The index `FreeIndex` finds is the one every smaller index is taken below. */
  lemma {:induction false} FreeIndexIs(seen: set<string>, k: string, i: nat, r: nat)
    requires 1 <= i <= r
    requires forall j :: 1 <= j < r ==> DedupPythonKey(k, j) in seen
    requires DedupPythonKey(k, r) !in seen
    ensures FreeIndex(seen, k, i) == r
    decreases r - i
  {
    if i < r {
      FreeIndexIs(seen, k, i + 1, r);
    }
  }
}

=== FILE: wrappers.dfy ===
/** Failure-carrying return types shared by every module of the model. */
module Wrappers {

  datatype Option<+T> = None | Some(value: T)

  /** The Python code raises exceptions; the model returns them as values. */
  datatype Result<+T, +E> = Ok(value: T) | Err(error: E)
}
